=== FILE: README.md ===
# CHIP-8 machine, assembler and disassembler in Dafny

This project models the core of CHIP8IDE, an editor, assembler and emulator
for CHIP-8 and its SCHIP extension. It covers the pieces that turn text into
bytes and bytes into behaviour:

- **The virtual machine** (`chip8.dfy`, module `Chip8`).
  - A `Machine` record holds:
    - 4096 bytes of memory;
    - V0..VF, I, the program counter and the two timers;
    - the call stack and the breakpoint list.
  - `Step` fetches the big-endian word at PC, decodes it with the four
    dispatch tables and runs the handler. It returns the new machine, the
    display and sound effects, and the message that stops the run.
  - `Step`, `Execute`, `Perform` and `Draw` take a `corrected` flag. As
    written, Dxyn refuses a sprite that reaches address 4095; corrected, it
    refuses only one that runs past the end of memory.
  - `Reset` rebuilds the machine with the fonts and a program loaded at 0x200.
  - `Tick` counts the timers down.
  - `BpAdd` and `BpRem` maintain the breakpoint list.
- **The screen** (`display.dfy`, module `Display`).
  - The screen is the set of white pixels plus the SCHIP mode flag.
  - `draw_sprite` is modelled twice: as the list of pixels its loops visit,
    and as the XOR of that list onto the screen.
- **binasm** (`binasm.dfy`, module `BinAsm`): the hex-text-to-bytes helper the
  machine's own checks use, with the upper-casing of `str.upper` as far as it
  yields hex digits.
- **phase_one of the statement recognizer** (`recognizer.dfy`, module
  `Recognizer`). It works on the tokenizer's matches and covers:
  - garbage detection and string splicing;
  - label extraction;
  - the token loop that builds the signature, the register numbers and the
    expression groups;
  - classification against the signature dictionary and the ordered pattern
    list;
  - expression compilation;
  - the byte count a statement reserves.
- **assembler2** (`asm.dfy`, module `Assembler`). It models:
  - `check_value`, the operand helpers and the opcode table;
  - pass 1, with labels, EQU, ORG, DS and the 4095 limit;
  - the retry of deferred equates;
  - pass 2, which writes the memory image.
- **Expressions** (`expr.dfy`, module `Expr`): the expressions the assembler
  evaluates, with Python's floor division and shifts and the LOOKUP of
  symbols.
- **The disassembler** (`disasm.dfy`, module `Disassembler`). It models:
  - the decoding tables;
  - the walk over the bytes, which emits an instruction where a pair
    decodes and `DB` otherwise;
  - the placement of labels and EQU lines;
  - the text of the listing.
- **The hand-over from phase_one to assembler2** (`agree.dfy`, module
  `Agreement`): every form the recognizer produces is one pass 2 handles.
  Corrected, the count phase_one reserves is how far pass 2 moves the PC, so
  every label is bound to the address its statement is written at. As
  written, EQU and DA reserve two bytes whatever they write (see Findings).
- **Helpers**: `bits.dfy` (module `Bits`) holds Python's bitwise operators on
  integers and hexadecimal text; `pylist.dfy` (module `PyList`) holds Python
  list slicing and slice assignment.

### What the model takes as parameters

- **Machine inputs.** The key that is down and the random byte arrive in an
  `Input` value.
- **Expression compilation.** The compilation of an expression text is a
  function parameter.
- **Statements.** The assembler and the disassembler work on lists of
  statements and bytes instead of the editor's text blocks.
- **Effects.** The display, scrolling and sound are returned as effects; the
  screen model says what a sprite draw does to the pixels.

## Model

| member | source | states |
|---|---|---|
| Chip8.SplitJoin | chip8.py:1045-1062 | the four hex digits the dispatch reads back make the word again, and every digit tuple is the split of its word |
| Chip8.JoinSplit | chip8.py:1045-1062 | joining the digits of a 16-bit word gives the word |
| Chip8.DecodeEncode | chip8.py:1045-1062 | every well-formed instruction is decoded back from its canonical encoding |
| Chip8.EncodeDecode | chip8.py:1045-1062 | whatever the dispatch tables accept is well formed, and is its own canonical encoding unless the instruction ignores some bits |
| Chip8.SystemIgnoresMiddle | chip8.py:961-974 | an 0xxx word is decoded from its low byte alone |
| Chip8.SkipRegIgnoresLow | chip8.py:1045-1062 | 5xyn and 9xyn are decoded whatever n is |
| Chip8.AluBytes | chip8.py:520-640 | every 8xyn result and every flag it sets is a byte, the flag 0 or 1 |
| Chip8.AluAdd | chip8.py:559-567 | 8xy4's result plus 256 times its carry is the true sum |
| Chip8.AluSub | chip8.py:575-626 | 8xy5 and 8xy7 are the same subtraction with the operands exchanged: the difference modulo 256, VF = 1 exactly when nothing is borrowed |
| Chip8.AluShr | chip8.py:597-606 | 8xy6 splits Vy into the new Vx and the bit shifted out, whatever the old Vx |
| Chip8.AluShl | chip8.py:631-640 | 8xyE splits twice Vy into the bit shifted out and the new Vx, whatever the old Vx |
| Chip8.AluLogic | chip8.py:529-554 | 8xy1, 8xy2 and 8xy3 act bit by bit as OR, AND and XOR |
| Chip8.SetV | chip8.py:496-500 | writing a register changes that register and no other |
| Chip8.Fetch | chip8.py:1080 | the instruction is the big-endian word at PC, and a 16-bit value |
| Chip8.PerformValid | chip8.py:1045-1062 | every handler keeps the machine invariant and leaves the PC register and the breakpoints to `step` |
| Chip8.StepValid | chip8.py:1076-1099 | a step keeps the machine invariant: 4096 bytes of memory, sixteen byte registers, byte timers, a non-negative I and a stack of at most the maximum depth |
| Chip8.SkipConditions | chip8.py:469-491 | a step over a 3xkk, 4xkk, 5xy0 or (chip8.py:645-648) 9xy0 word in memory changes nothing but the PC and draws nothing; the PC moves past the next instruction exactly when the instruction's comparison holds and to the next instruction exactly when it fails, and the step stops there exactly at a breakpoint |
| Chip8.SkipNeRegNegates | chip8.py:645-648 | 9xy0 skips exactly when 5xy0 does not |
| Chip8.KeySkips | chip8.py:728-746 | Ex9E and ExA1 skip according to whether the key named by Vx's low nybble is down |
| Chip8.WaitKey | chip8.py:771-779 | Fx0A with no key down stays on its own address; otherwise the key goes to Vx |
| Chip8.CallPushes | chip8.py:456-463 | 2nnn pushes the return address and jumps while the stack has room, and fails exactly when it is full |
| Chip8.ReturnPops | chip8.py:392-398 | 00EE resumes at the most recent return address, and fails exactly on an empty stack |
| Chip8.CallThenReturn | chip8.py:1145-1156 | a call followed by a return resumes after the call with the stack as it was |
| Chip8.JumpTargets | chip8.py:446-451 | 1nnn fails exactly for targets below 0x200 and for 0xFFF |
| Chip8.JumpIndexedTargets | chip8.py:667-673 | Bnnn jumps to V0 + nnn exactly when that lies in 0x200..0xFFD |
| Chip8.AddByteWraps | chip8.py:508-515 | 7xkk adds modulo 256 and changes no other register |
| Chip8.AluWrites | chip8.py:520-640 | 8xyn writes its result to Vx and, where it sets one, its flag to VF; no other register changes |
| Chip8.RandomMasked | chip8.py:680-686 | a bit of Cxkk's result is set exactly when it is set in both the random byte and kk |
| Chip8.DecimalDigits | chip8.py:861-872 | Fx33 stores the hundreds, tens and units of Vx at I, I+1, I+2, and fails exactly when they would not fit below 4096 |
| Chip8.StoreCopies | chip8.py:897-912 | Fx55 copies V0..Vx to memory at I, leaves the rest of memory alone and advances I past them; it fails exactly when they would not fit |
| Chip8.LoadCopies | chip8.py:920-933 | Fx65 loads V0..Vx from memory at I, leaves the other registers alone and advances I; it fails exactly when they would not fit |
| Chip8.StoreThenLoad | chip8.py:897-933 | Fx55 then Fx65 from the same I gives back the registers |
| Chip8.FontGlyphs | chip8.py:826-853 | Fx29 and Fx30 point I at the glyph of Vx's low nybble inside the small and the large font |
| Chip8.SoundTimer | chip8.py:795-802 | a step over an Fx18 word sets the sound timer to Vx and changes nothing else but the PC; after it and any number of ticks the tone is on exactly while the sound timer has not run down |
| Chip8.DrawFlips | chip8.py:699-720 | Dxyn flips the sprite's pixels and sets VF exactly when one was white; as written it fails exactly when I plus the sprite length exceeds 4095, corrected exactly when the sprite would run past the end of memory |
| Chip8.LastByteSprite | chip8.py:714 | with I = 4095, D001 fails with a bad address as written and draws when corrected |
| Chip8.StepMeaning | chip8.py:1076-1099 | a step fetches the word at PC, runs its handler, and leaves the machine the handler made with the PC it returned; it stops with the handler's message, an undefined-instruction message with the machine untouched, or a breakpoint message exactly when the new PC is a breakpoint |
| Chip8.TextReadsBack | chip8.py:316-328 | a message is its template followed by the instruction and the address in four upper-case hex digits each, so both can be read back |
| Chip8.TextAsWrittenElsewhere | chip8.py:316-328 | every template except the breakpoint's formats the instruction and the address in that order |
| Chip8.TicksCountDown | chip8.py:293-300 | after n ticks each timer has dropped by n, stopping at zero, and the tone was turned off once if the sound timer ran out |
| Chip8.TickValid | chip8.py:293-300 | a tick changes only the timers and keeps the machine invariant |
| Chip8.InitialMemoryLayout | chip8.py:219-221 | reset memory holds the small font at 0x000, the large font at 0x050 and zeros above |
| Chip8.LoadProgram | chip8.py:229-231 | the program replaces exactly its own length of memory from 0x200; memory keeps its size |
| Chip8.ResetState | chip8.py:190-240 | reset succeeds exactly for programs that fit above 0x200; it leaves PC at 0x200, empty stack and breakpoints, cleared registers, timers and screen, the fonts, the program at 0x200 and zeros elsewhere |
| Chip8.ResetProgram | chip8.py:190-240 | a reset with a program of bytes gives a valid machine with the program at 0x200 |
| Chip8.BpClear | chip8.py:248-250 | no address is a breakpoint after `bp_clear` |
| Chip8.BpClearThenAdd | chip8.py:248-262 | after a clear, an added address is the only breakpoint, and removing one finds nothing |
| Chip8.BpAdd | chip8.py:252-255 | the breakpoints afterwards are the old ones plus the address, without repetitions |
| Chip8.RemoveFirstMeaning | chip8.py:257-262 | on a list without repetitions, removal takes out exactly the address given |
| Chip8.BpRemMeaning | chip8.py:257-262 | `bp_rem` reports whether the address was there and removes exactly it |
| Chip8.BpAddThenRem | chip8.py:252-262 | adding twice is adding once, and removing a freshly added address gives the list back |
| Chip8.ZeroedProgramFaults | chip8.py:1138-1140 | a zeroed program stops at once with an undefined-instruction message for 0x200 |
| Chip8.LoadThenExit | chip8.py:1120-1129 | the program 6321 00FD loads 0x21 into V3 and then stops at 0x202 |
| Display.Clear | display.py:191-193 | every pixel is black afterwards and the mode is kept |
| Display.SetMode | display.py:205-218 | the mode is the one selected and the screen is cleared |
| Display.MasksWrap | display.py:477-478 | the coordinate masks reduce modulo the screen width and height |
| Display.Words | display.py:482-486 | a 32-byte SCHIP sprite becomes sixteen 16-bit rows, high byte first |
| Display.SpritePixelsMeaning | display.py:468-496 | the pixels `draw_sprite` visits are exactly the inked pixels of the sprite, wrapped around the screen, each once |
| Display.PaintXor | display.py:256-269 | painting a list without repeats flips exactly the listed pixels and reports a hit exactly when one of them was white |
| Display.DrawSpriteXor | display.py:468-500 | after a draw a pixel is white exactly when it was white or inked but not both, and the hit flag says whether an inked pixel was white |
| BinAsm.HexCharsAreHex | binasm.py:34-36 | only hex digits survive the filter |
| BinAsm.BinAsm | binasm.py:33-46 | the result is present exactly when the filtered text has a non-zero even number of digits, and then has one byte per two digits |
| BinAsm.BinAsmLoop | binasm.py:40-46 | the two-digits-at-a-time loop computes the same bytes |
| BinAsm.BinAsmHexText | binasm.py:33-46 | any non-empty byte list written out in hex is read back as itself |
| BinAsm.LoadExitProgram | binasm.py:33-46 | '6321 00FD' is read as the four bytes 63 21 00 FD |
| BinAsm.LigatureByte | binasm.py:36 | the ligature U+FB00, which `str.upper` turns into FF, is read as the byte FF |
| Expr.Lookup | assembler2.py:70-74 | a name has no value exactly when it is missing from the symbol table |
| Expr.Eval | assembler2.py:110-116 | an undefined-name failure names a name of the expression that has no value |
| Expr.EvalExtends | assembler2.py:452-461 | a value an expression has keeps the same once more names are defined |
| Expr.EvalDefined | assembler2.py:110-116 | an expression whose names all have values never fails for an undefined name |
| Expr.CheckValueMeaning | assembler2.py:110-116 | a value is accepted exactly when it is a number in range; an undefined name stays an undefined name |
| Expr.FloorDivMod | assembler2.py:110-116 | Python's quotient and remainder recompose the dividend, with the remainder taking the divisor's sign |
| PyList.SliceAssignInside | assembler2.py:571 | a slice assignment inside the list overwrites exactly that part and keeps the length |
| PyList.SliceAssignGrows | assembler2.py:571 | a slice assignment that runs past the end grows the list, which then ends with the new part |
| PyList.SliceAssignAt | assembler2.py:571 | after `a[i:i+len(b)] = b` the list holds b from i on and every other element as before, and is as long as the longer of the two |
| Assembler.FormNamedName | assembler2.py:230-275 | every entry of the opcode table is found under its own key |
| Assembler.SpecialFormsNotInTable | assembler2.py:585-592 | DS, EQU, ORG and the empty form are not keys of the opcode table |
| Assembler.OperandMeaning | assembler2.py:110-116 | an operand is accepted exactly when it evaluates to a number in range, and each kind of failure gives its own problem |
| Assembler.AssemblesDecodes | assembler2.py:230-275 | bytes that assemble an instruction are fetched and decoded by the machine as that instruction |
| Assembler.EncodeNoOperand | assembler2.py:230-275 | a form without an expression always gives the two bytes of its pattern |
| Assembler.NoOperandMeaning | assembler2.py:230-275 | and those bytes encode the instruction the table entry names |
| Assembler.EncodeWithOperand | assembler2.py:157-178 | a form with an expression gives the `check_value` failure, or the helper's two bytes for the value it accepted |
| Assembler.WithOperandMeaning | assembler2.py:230-275 | and those bytes encode the instruction the table entry names, with that value |
| Assembler.OperandInRange | assembler2.py:110-116 | an accepted operand lies in the range asked for |
| Assembler.EncodeInstruction | assembler2.py:157-178 | an instruction form either fails with an operand problem or assembles to two bytes the machine decodes as its instruction |
| Assembler.DirectiveDbValues | assembler2.py:195-204 | DB succeeds exactly when every expression is a byte, and then emits their values in order |
| Assembler.DirectiveDwSucceeds | assembler2.py:206-218 | DW succeeds exactly when every expression fits 16 bits |
| Assembler.DirectiveDwValues | assembler2.py:206-218 | a successful DW emits each value as two bytes, high byte first |
| Assembler.PassOneGrows | assembler2.py:413-521 | pass 1 never takes back a binding, a flag or a deferred equate |
| Assembler.LabelTakesPc | assembler2.py:444-445 | a label takes the PC pass 1 has reached at its statement and keeps it to the end of the pass |
| Assembler.DuplicateKeepsFirst | assembler2.py:434-438 | a name defined a second time is flagged there, and the first binding stays |
| Assembler.EquDefines | assembler2.py:452-461 | an EQU whose value is known binds its name; one with an undefined name is deferred; any other failure is flagged |
| Assembler.OrgSetsPc | assembler2.py:486-499 | ORG moves the PC to its value when that is an address, and is flagged otherwise with the PC unchanged |
| Assembler.DsReserves | assembler2.py:471-485 | DS advances the PC by its value when that is non-negative and stays inside memory, and is flagged otherwise with the PC unchanged |
| Assembler.PassOnePcInMemory | assembler2.py:511-517 | pass 1 ends with the PC inside memory, unless it stopped at the statement that took the PC past 4095 |
| Assembler.RetryKeepsBindings | assembler2.py:528-539 | the corrected retry never takes back a binding: a deferred equate whose name was bound since is flagged |
| Assembler.RetrySettles | assembler2.py:528-539 | every deferred equate ends the retry bound or flagged |
| Assembler.CleanPassOneCounts | assembler2.py:466-470 | after a pass 1 without errors every statement has its byte count |
| Assembler.PassTwoTotal | assembler2.py:561-603 | with every byte count present, pass 2 runs to the end |
| Assembler.CrashesOnlyInPassOne | assembler2.py:500-505 | assembly crashes exactly when pass 1 does |
| Assembler.AssembleNeverCrashes | assembler2.py:395-615 | corrected, assembly always ends with an image or with the error counts |
| Assembler.StepWrites | assembler2.py:566-592 | one statement of pass 2 writes its encoding at the PC, keeps every other address, and moves the PC by its count, to it for ORG, or not at all |
| Assembler.StepFlags | assembler2.py:566-598 | one statement of pass 2 is flagged exactly when its form is not handled or its operands do not encode |
| Assembler.PassTwoFlags | assembler2.py:561-606 | pass 2 flags nothing exactly when every statement is accepted |
| Assembler.HighestIsMax | assembler2.py:601 | the top is at least every PC reached after a statement, and is one of them unless no statement ran |
| Assembler.ByteAfterLastWriter | assembler2.py:571 | an address holds the byte of the last statement whose bytes cover it |
| Assembler.ByteAfterUncovered | assembler2.py:561 | an address no statement writes still holds 0 |
| Assembler.PassTwoLays | assembler2.py:561-602 | pass 2 ends at the last PC of the layout, with the highest PC reached as top, and every address holding the byte of the last statement that covers it |
| Assembler.PassOneBoundsLayout | assembler2.py:466-517 | after a pass 1 without errors, every PC pass 2 reaches lies inside memory |
| Assembler.CleanRun | assembler2.py:546-615 | an image means pass 1 and the retry had no error, gave every statement its count, and pass 2 ran to the end |
| Assembler.Clean | assembler2.py:561-615 | a clean image runs from 0x200 to the highest PC any statement reaches, which is inside memory, and each address holds the byte of the last statement whose bytes, laid out from its PC, cover it, or 0 |
| Assembler.WrittenInSlice | assembler2.py:566-572 | in any image that holds what the statements write, a statement's placement carries exactly its opcode-table encoding, and that encoding stands from the statement's PC at every address no later statement writes |
| Assembler.StatementInImage | assembler2.py:561-575 | when `assemble` returns an image, each statement's opcode-table encoding stands in it from that statement's PC, at every address no later statement writes over |
| Assembler.Bails | assembler2.py:546-615 | assembly gives an image exactly when pass 1 and the retry find no error and pass 2 accepts every statement |
| Assembler.SyntaxErrorBails | assembler2.py:419-548 | one line with a syntax error is enough for `assemble` not to return an image |
| Assembler.LoadByte | assembler2.py:395-615 | `LD V0,255` assembles to 60 FF |
| Assembler.LoadTooLarge | assembler2.py:395-615 | `LD V0,256` is an out-of-range error |
| Assembler.CallForward | assembler2.py:395-615 | a call to a subroutine defined further down assembles to 22 02 00 EE |
| Assembler.ChainedEquates | assembler2.py:528-539 | equates that depend on later ones are resolved by the reversed retry |
| Assembler.PassOneLaysOut | assembler2.py:444-470 | when every statement moves pass 1's PC as pass 2 moves its own, pass 1 ends where pass 2 will and binds each label to the PC pass 2 reaches at it |
| Assembler.LabelsBindLayout | assembler2.py:444-592 | in a clean assembly of such statements, every label is bound to the address pass 2 writes its statement at |
| Assembler.EquShiftsLabels | assembler2.py:464-590 | an EQU counted as taking some bytes ahead of a label moves the label by that many bytes while pass 2 writes the label's statement at 0x200 |
| Recognizer.FirstGarbage | assembler1.py:505-508 | the position found is that of the first unrecognisable match, or the length when there is none |
| Recognizer.ScanGarbage | assembler1.py:491-534 | a statement is unparsable exactly when some match is garbage, and the position reported is that of the first garbage |
| Recognizer.ScanKeeps | assembler1.py:491-528 | without garbage or two strings in a row, the tokens kept are exactly the matches that are not whitespace or comments |
| Recognizer.SpliceJoins | assembler1.py:516-520 | splicing two adjacent strings gives one string of the two parts with one quote between them |
| Recognizer.ScanTwoStrings | assembler1.py:516-520 | a directive, a blank and two adjacent strings scan to the directive and one spliced string |
| Recognizer.SpliceExample | assembler1.py:516-520 | `da 'MA''AM'` scans to two tokens, the second the string MA'AM |
| Recognizer.StripLabelMeaning | assembler1.py:539-559 | a name followed by a colon, or a name followed by EQU, is taken as the label; otherwise nothing is dropped |
| Recognizer.RegisterCodes | assembler1.py:612-637 | a V register reads as its number, the special registers as codes above 15 |
| Recognizer.CollectFrom | assembler1.py:584-661 | the token loop builds the signature, registers and groups exactly when every token has a summary and there are at most two registers; otherwise it stops at the first bad token |
| Recognizer.CloseGroups | assembler1.py:584-661 | the groups the loop closes hold the operand tokens, none empty |
| Recognizer.ScansMeaning | assembler1.py:294-316 | the matcher accepts exactly what the signature's regular expression accepts |
| Recognizer.FirstMatchMeaning | assembler1.py:294-316 | a form is found exactly when some alternative matches, and it is the form of the first one that does |
| Recognizer.ClearClassify | assembler1.py:247-280 | `CLS` is found in the dictionary |
| Recognizer.LoadByteClassify | assembler1.py:294-311 | `LD Vx,value` is LDRB whatever the value |
| Recognizer.ByteListClassify | assembler1.py:294-311 | `DB` with a list of values is DB |
| Recognizer.DictionaryKeysHaveNoOperand | assembler1.py:247-311 | the dictionary never hides a pattern: no key of it matches an alternative |
| Recognizer.PythonTokenReadsBack | assembler1.py:713-748 | every operand token is read back from its Python spelling, so the translation loses nothing; decimals and the operators Python shares pass through unchanged |
| Recognizer.PythonTextExample | assembler1.py:706-748 | `2!#F` is translated to `2 ** 0x0F`, and a name to a call of LOOKUP |
| Recognizer.CompileAllMeaning | assembler1.py:750-761 | the expressions are those of the groups in order when all compile; otherwise the error points at the first group that does not |
| Recognizer.RecognizeValid | assembler1.py:666-812 | a valid statement has a known form, registers from its tokens, one expression per group and the byte count of its form |
| Recognizer.ValidMeaning | assembler1.py:481-812 | a valid line is a label alone or a statement as RecognizeValid describes |
| Recognizer.ConfusedMeaning | assembler1.py:681-682 | good tokens of an unknown signature are invalid at column 0; corrected, that is the only way to be confused |
| Recognizer.BadTokenMeaning | assembler1.py:597-600 | corrected, a token without a summary or a third register makes the statement invalid at that token's column, whatever the column |
| Recognizer.LabelOnlyLine | assembler1.py:564-566 | a line of whitespace, comments or a label alone is valid, has no form and takes no bytes |
| Agreement.PassTwoUnexpected | assembler2.py:585-598 | pass 2 flags a statement as unexpected exactly when its form is not one it handles |
| Agreement.ClassifiedHandled | assembler1.py:666-682 | corrected, whatever the recognizer classifies is a form pass 2 handles |
| Agreement.RecognizedHandled | assembler2.py:585-598 | a statement phase_one accepts is never flagged by pass 2 as unexpected |
| Agreement.SizeMatchesEncoding | assembler1.py:780-808 | corrected, the size phase_one gives a statement is the number of bytes its encoding writes, whatever the symbols |
| Agreement.CountNonNegative | assembler1.py:780-808 | the byte count phase_one hands over is never negative |
| Agreement.CountMatchesBytes | assembler1.py:780-808 | corrected, the count a statement carries into assembler2 is how far pass 2 moves the PC for it: the length of what it writes, nothing for EQU, and no count exactly for ORG and DS |
| Agreement.PhaseOneMovesAlike | assembler1.py:776-808 | corrected, every line phase_one accepts, a bare label included, moves pass 1's PC as pass 2 moves its own |
| Agreement.LabelsMeetStatements | assembler2.py:444-592 | corrected end to end, a clean assembly of phase_one's statements binds every label to the address its statement is written at |
| Agreement.EquCount | assembler1.py:780-781 | as written EQU is counted as two bytes, which pass 2 does not move; corrected it is counted as none |
| Agreement.EquShiftsLabel | assembler1.py:780 | as written, `N EQU 5`, `L: CLS`, `JP L` binds L to 0x202 and assembles to 00 E0 12 02, a jump to itself |
| Agreement.EquTakesNoRoom | assembler2.py:589-590 | corrected, the same program binds L to 0x200 and assembles to 00 E0 12 00 |
| Disassembler.FieldMasks | disassemble.py:163-195 | masking a byte with 0x0F keeps its low hex digit, shifting by 4 its high one |
| Disassembler.AddLabelValue | disassemble.py:57-66 | the address a label names is the low twelve bits of the word |
| Disassembler.DecodeMeaning | disassemble.py:163-195 | a pair decodes exactly when the machine would run its word and the word is not one of the stray forms the tables leave out |
| Disassembler.DecodeAgrees | disassemble.py:163-195 | the form and fields the disassembler prints name the instruction the machine runs, whose encoding is the word itself |
| Disassembler.JumpTargets | disassemble.py:57-66 | jumps, calls and LD I are exactly the pairs of first digit 1, 2, A and B, and their target is the low twelve bits |
| Disassembler.OperandFits | disassemble.py:163-195 | every decoded operand fits the range its form accepts |
| Disassembler.EncodesBack | disassemble.py:163-195 | assembling the statement of a decoded pair gives the pair back, whatever the symbols |
| Disassembler.MachineWordsDecode | disassemble.py:163-195 | every well-formed instruction is read back by the disassembler from its canonical encoding |
| Disassembler.WalkShape | disassemble.py:231-265 | statement addresses start at 0x200, rise by one or two, and together the statements take every byte once |
| Disassembler.WalkCovers | disassemble.py:231-265 | the statements of the walk cut the bytes into consecutive pieces |
| Disassembler.WalkHolds | disassemble.py:231-265 | every statement of the walk holds the bytes at its offset |
| Disassembler.DataBack | disassemble.py:256 | a DB line assembles to its byte |
| Disassembler.Reassembles | disassemble.py:231-265 | assembling the statements of the walk gives back the input, whatever the symbols |
| Disassembler.TargetsBelow | disassemble.py:231-258 | every target of a decoded jump is a 12-bit address |
| Disassembler.EquTargetsMeaning | disassemble.py:279-303 | the EQU lines name, in ascending order, exactly the targets no statement starts at |
| Disassembler.PlaceLabels | disassemble.py:279-303 | the label loop labels exactly the targets some statement starts at and returns the others in order |
| Disassembler.DisassembleSteps | disassemble.py:200-317 | the step-by-step disassembly computes the listing |
| Disassembler.SplitJoined | disassemble.py:313-315 | joining lines without breaks and splitting at the breaks gives the lines back |
| Disassembler.LineTextShape | disassemble.py:282-303 | no line of the listing holds a break, and each starts with its label or a tab |
| Disassembler.DisassembleLines | disassemble.py:313-317 | the text splits at its breaks into exactly the lines of the listing |
| Disassembler.EmptyListing | disassemble.py:200-317 | the empty input lists nothing |
| Disassembler.ListingStart | disassemble.py:313-317 | a listing starts with a label or a tab |
| Disassembler.DisassembleTooLong | disassemble.py:209-210 | the too-long message is given exactly for inputs longer than the 3584 bytes above 0x200, so a listing never reads as the message |

## Left out

- The tokenizer's regular expression. The recognizer starts from the list of matches, each with its kind, text and column.
- Expression compilation. Python's `compile` and `eval` are represented by the `compile` parameter and the `Expr.Eval` evaluator. True division and floating point are not modelled: `/` is floor division.
- Binary literals. As in the source, `$1..1` becomes the Python bytes literal `b'1..1'` (`Recognizer.PythonToken`); what compilation makes of that text is left to the `compile` parameter, and no base-2 reading is modelled.
- Names keep their case. The source does not upper-case name tokens, and the model follows the code.
- Register codes 16 to 18. Codes for I, DT and ST that fall in a V-register position of the assembler's helpers are not traced into the disassembler's `Printed` fields.
- Labels in disassembled text. The model reassembles numeric operands; the `LBLxxxx` names resolve to the same values, and the statements carry those values.
- Disassembler.TextNoBreak: the partner of the statement text is line splitting and the absence of breaks; re-tokenizing the text is not modelled.
- Register names the assembler is not given (`None`). `Agreement.ToStatement` turns them into 0. In the source, `opcode | None` and `0x80 + None` would raise TypeError (assembler2.py:157-178, 230-275), but every signature names the registers its opcode-table entry reads, so the 0 is never read.
- The type of `next_pc`. phase_one sets it to a pair, whether to add and the amount (assembler1.py:371, 780-808); assembler2 adds it to the PC as a number (assembler2.py:470, 579), which would raise TypeError on a pair. The model hands over the amount, `Agreement.ToStatement` taking `.amount`, and no count for ORG and DS, which is what assembler2's comment at line 464 expects.
- The DA operand's type. phase_one compiles the string to a Python `str` literal (assembler1.py:725-727), whose `list` holds one-character strings, not numbers. `Assembler.DirectiveDa` writes the string's ASCII codes, which is what `directive_da` documents (assembler2.py:185-192) and what a memory image of bytes can hold.
- DS size from text. The source's `int()` of a string value is not modelled; a DS value must evaluate to a number.
- `init_assembly` and `statement_class`. These are not part of this model; they are taken not to change the byte count.
- The Qt editor, text blocks, QTest waits, settings, `initialize` and `closeEvent`. The assembler takes a list of statements instead.
- Sound, scrolling and the notification callbacks. They appear only as effects in the step's result.
- The module-level `clear()` of display.py, which is a stub that does nothing. 00E0 leaves the modelled screen unchanged and only reports the `ClearScreen` effect.
- `random.randint`. It arrives as the `Input.random` byte.
- The keyboard. `key_test` arrives as `Input.key`, -1 for no key.
- Disassembler.DisassembleSteps: the text is computed as one function; the file reading and writing of the script's main block is left out.
- Assembler.PassOneGrows: stated for the symbol table, flags and deferred list only; the PC may move both ways (ORG).
- Bits.Upper: upper-cases ASCII letters only. The recognizer applies it to opcode, directive and register tokens, which the tokenizer matches in ASCII mode (assembler1.py:195). binasm's filter uses `BinAsm.UpperDigits`, which also covers the characters that upper-case to several letters.
- Assembler.Clean: stated for statements whose byte counts are not negative, which is what phase_one hands over (`Agreement.CountNonNegative`).
- Chip8.StepValid: the invariant bounds memory, registers, I and the stack. It does not bound the breakpoint list, which the editor sets.

## Findings

| source | as written | input that shows it | evidently intended | confidence | as-written member | corrected member |
|---|---|---|---|---|---|---|
| chip8.py:231 | the load slice ends at 0x1FF plus the program length, one short of the program | any program of one byte or more: loading [0xFF] leaves memory 4097 bytes long | the slice ends at 0x200 plus the length, so memory keeps 4096 bytes | not executed | Chip8.LoadProgramAsWrittenGrows | Chip8.LoadProgram |
| chip8.py:714 | the Dxyn address check rejects a sprite whose last byte is the last byte of memory | I = 4095 with a 1-byte sprite (address + count = 4096) | fail only when address + count exceeds 4096, as Fx33 and Fx55 do | not executed | Chip8.LastByteSprite | Chip8.DrawFlips |
| chip8.py:317 | the breakpoint template formats its first argument twice | breakpoints at 0x202 and at 0x204 give the same message | the second placeholder shows the address | not executed | Chip8.BreakpointTextAsWritten | Chip8.TextReadsBack |
| assembler2.py:528-539 | the retry of deferred equates binds a name without the duplicate check | `X EQU Y`, `X: CLS`, `Y EQU 5`, `JP X` assembles with `JP X` jumping to 5 | a name defined twice is flagged, as in pass 1 | not executed | Assembler.DeferredEquRebindsLabel | Assembler.DeferredEquDefinedTwice |
| assembler2.py:500-505 | the branch for a statement without a byte count sets a flag on an undefined name, raising NameError | a CLS statement that reaches pass 1 without a byte count | the statement is flagged with the message the branch builds | not executed | Assembler.UncountedStatement | Assembler.AssembleNeverCrashes |
| assembler1.py:307 | the RND pattern uses a character class where a repetition was meant, so the value may be one token only | `RND V1, 7` is RND but `RND V1, X+1` (value of three tokens) is not recognised | the value may be any expression, as for every other form | not executed | Recognizer.RndClassify | Recognizer.RndClassify |
| assembler1.py:254 | `JP V0, addr` matches no alternative, and `JP V0` alone becomes JPX, which the opcode table lacks | `JP V0, 0x300` is rejected; `JP V0` is flagged by pass 2 as unexpected | `JP V0, addr` is the JPXADR form | not executed | Agreement.JumpIndexedUnhandled | Recognizer.JumpIndexedClassify |
| assembler1.py:780-808 | DA reserves two bytes whatever its string | `DA 'ABC'` reserves 2 bytes but writes 3 | DA reserves one byte per character | not executed | Agreement.StringSizeAsWritten | Agreement.SizeMatchesEncoding |
| assembler1.py:780 | EQU has no branch of its own and keeps the default count of two bytes, so pass 1 moves the PC past it while pass 2 does not | `N EQU 5`, `L: CLS`, `JP L` binds L to 0x202 and assembles to 00 E0 12 02, a jump to itself | EQU takes no bytes, as pass 2 treats it | not executed | Agreement.EquShiftsLabel | Agreement.LabelsMeetStatements |
| assembler1.py:658 | the error test treats a bad token at column 0 as no error | a line starting with `:` is reported as a confused signature instead of an invalid token | test whether an error position was set at all | not executed | Recognizer.ColumnZeroToken | Recognizer.BadTokenMeaning |

=== FILE: agree.dfy ===
/** Where phase_one hands over to assembler2.

    The record the assembler reads is built from a valid statement of the
    recognizer.  phase_one leaves `next_pc` a pair (relative, amount) while
    assembler2 adds it to the PC as a number; the record carries the
    amount, except for ORG and DS, whose operands pass 1 evaluates itself.
    A register the line does not name is 0 in the record.  Two things
    have to agree across the hand-over: every form the recognizer produces
    must be one pass 2 knows, and the count phase_one gives a statement
    must be how far pass 2 moves the PC for it, which as written fails for
    EQU. */
module Agreement {
  import opened Bits
  import opened Expr
  import Recognizer
  import Assembler

  /** The record assembler2 works from, for a recognised statement: the
      amount of the pair phase_one leaves as `next_pc`. */
  function ToStatement(r: Recognizer.Recognized): Assembler.Statement
  {
    Assembler.Statement(
      false, r.form, r.definedName,
      if r.form in {"ORG", "DS"} then None else Some(r.nextPc.amount),
      if r.reg1.Some? then r.reg1.value else 0,
      if r.reg2.Some? then r.reg2.value else 0,
      r.exprs)
  }

  // ---------------------------------------------------------------------
  // Every form the recognizer gives is one pass 2 knows

  /** The problems encoding a statement can report: never an unexpected
      form, a duplicate name or an overflow. */
  predicate EncodingProblem(p: Assembler.Problem)
  {
    p.NotDefined? || p.NoExpression? || p.OutsideRange? || p.EvalFailure?
  }

  lemma {:induction false} DbProblem(exprs: seq<Expr>, scope: Scope)
    ensures Assembler.DirectiveDb(exprs, scope).Bad? ==>
      EncodingProblem(Assembler.DirectiveDb(exprs, scope).problem)
    decreases |exprs|
  {
    if |exprs| > 0 {
      DbProblem(exprs[1..], scope);
    }
  }

  lemma {:induction false} DwProblem(exprs: seq<Expr>, scope: Scope)
    ensures Assembler.DirectiveDw(exprs, scope).Bad? ==>
      EncodingProblem(Assembler.DirectiveDw(exprs, scope).problem)
    decreases |exprs|
  {
    if |exprs| > 0 {
      DwProblem(exprs[1..], scope);
    }
  }

  /** A failed encoding is always one of the operand problems. */
  lemma PatternProblem(p: Assembler.Pattern, s: Assembler.Statement, scope: Scope)
    ensures Assembler.EncodePattern(p, s, scope).Bad? ==>
      EncodingProblem(Assembler.EncodePattern(p, s, scope).problem)
  {
    match p
    case ByteData => DbProblem(s.exprs, scope);
    case WordData => DwProblem(s.exprs, scope);
    case _ =>
  }

  lemma EncodeProblem(f: Assembler.Form, s: Assembler.Statement, scope: Scope)
    ensures Assembler.Encode(f, s, scope).Bad? ==>
      EncodingProblem(Assembler.Encode(f, s, scope).problem)
  {
    PatternProblem(Assembler.PatternOf(f), s, scope);
  }

  /** Pass 2 flags a statement as unexpected exactly when its form is not
      one it handles, and then changes nothing else. */
  lemma PassTwoUnexpected(s: Assembler.Statement, n: Option<int>, symbols: map<string, int>,
                          i: nat, st: Assembler.PassTwo)
    ensures !Assembler.Handled(s.form) ==> (Assembler.PassTwoStep(s, n, symbols, i, st)
      == Some(st.(flagged := st.flagged + [Assembler.Flagged(i, Assembler.Unexpected(s.form))])))
    ensures Assembler.Handled(s.form) && Assembler.PassTwoStep(s, n, symbols, i, st).Some? ==> (
      var after := Assembler.PassTwoStep(s, n, symbols, i, st).value.flagged;
      && st.flagged <= after && |after| <= |st.flagged| + 1
      && forall k | |st.flagged| <= k < |after| :: EncodingProblem(after[k].problem))
  {
    if Assembler.FormNamed(s.form).Some? {
      EncodeProblem(Assembler.FormNamed(s.form).value, s, Symbols(symbols));
    }
  }

  /** Every alternative of `signatures` names a form pass 2 handles. */
  lemma PatternFormsHandled(i: nat, corrected: bool)
    requires i < Recognizer.Count(corrected)
    ensures Assembler.Handled(Recognizer.Alternatives(corrected)(i).form)
    ensures Recognizer.Alternatives(corrected)(i).form != ""
  {
  }

  /** Every value of the corrected signature dictionary is a form pass 2
      handles. */
  lemma TableFormsHandled(sig: string)
    requires sig in Recognizer.Table(true)
    ensures Assembler.Handled(Recognizer.Table(true)[sig]) && Recognizer.Table(true)[sig] != ""
  {
    var f := Recognizer.Table(true)[sig];
    assert f in Recognizer.Dictionary.Values && f != "JPX";
    DictionaryFormHandled(f);
  }

  lemma DictionaryFormHandled(f: string)
    requires f in Recognizer.Dictionary.Values && f != "JPX"
    ensures Assembler.Handled(f) && f != ""
  {
  }

  /** Corrected, whatever the recognizer classifies is a form pass 2
      handles. */
  lemma ClassifiedHandled(sig: string)
    requires Recognizer.Classify(sig, true).Some?
    ensures Assembler.Handled(Recognizer.Classify(sig, true).value) && Recognizer.Classify(sig, true).value != ""
  {
    if sig in Recognizer.Table(true) {
      TableFormsHandled(sig);
    } else {
      Recognizer.FirstMatchMeaning(sig, true);
      var i :| Recognizer.FirstAt(sig, true, i)
        && Recognizer.FirstMatch(sig, true).value == Recognizer.Alternatives(true)(i).form;
      PatternFormsHandled(i, true);
    }
  }

  /** So a statement phase_one accepts is never flagged by pass 2 as
      unexpected: its form is handled. */
  lemma RecognizedHandled(l: Recognizer.Labelled, compile: string -> Option<Expr>)
    requires Recognizer.Recognize(l, compile, true).Valid?
    ensures Assembler.Handled(Recognizer.Recognize(l, compile, true).stmt.form)
    ensures Assembler.Handled(ToStatement(Recognizer.Recognize(l, compile, true).stmt).form)
    ensures Recognizer.Recognize(l, compile, true).stmt.form != ""
  {
    Recognizer.RecognizeValid(l, compile, true);
    ClassifiedHandled(Recognizer.Signature(l.rest));
  }

  /** As written, the signature of `JP V0` alone is classified as JPX, a
      form the opcode table does not hold: pass 2 flags the statement. */
  lemma JumpIndexedUnhandled(s: Assembler.Statement, n: Option<int>, symbols: map<string, int>,
                             i: nat, st: Assembler.PassTwo)
    requires s.form == Recognizer.Dictionary["JPR"]
    ensures Recognizer.Classify("JPR", false) == Some(s.form)
    ensures !Assembler.Handled(s.form)
    ensures Assembler.PassTwoStep(s, n, symbols, i, st)
      == Some(st.(flagged := st.flagged + [Assembler.Flagged(i, Assembler.Unexpected("JPX"))]))
  {
    PassTwoUnexpected(s, n, symbols, i, st);
  }

  // ---------------------------------------------------------------------
  // The count phase_one reserves is what pass 2 writes

  /** Only a string literal evaluates to a string. */
  lemma StringIsText(e: Expr, scope: Scope)
    requires Eval(e, scope).Ok? && Eval(e, scope).value.Str?
    ensures e == Text(Eval(e, scope).value.s)
  {
  }

  /** The data directives are found under their own keys only. */
  lemma DirectiveKey(name: string, f: Assembler.Form)
    requires Assembler.FormNamed(name) == Some(f) && Assembler.IsDirective(f)
    ensures name == Assembler.FormName(f)
  {
    assert name[0] == 'D';
  }

  /** The data directives, and only they, have the data shapes. */
  lemma DataPattern(f: Assembler.Form)
    ensures Assembler.PatternOf(f).StringData? <==> f.Da?
    ensures Assembler.PatternOf(f).ByteData? <==> f.Db?
    ensures Assembler.PatternOf(f).WordData? <==> f.Dw?
  {
  }

  /** The shapes of instructions write two bytes when they write any. */
  lemma InstructionTwoBytes(p: Assembler.Pattern, s: Assembler.Statement, scope: Scope)
    requires !p.StringData? && !p.ByteData? && !p.WordData?
    requires Assembler.EncodePattern(p, s, scope).Bytes?
    ensures |Assembler.EncodePattern(p, s, scope).bytes| == 2
  {
  }

  /** The names Size treats apart, as keys of the opcode table. */
  lemma SizedKeys()
    ensures Assembler.FormNamed("ORG").None? && Assembler.FormNamed("DS").None?
    ensures Assembler.FormNamed("DB") == Some(Assembler.Db)
    ensures Assembler.FormNamed("DW") == Some(Assembler.Dw)
    ensures Assembler.FormNamed("DA") == Some(Assembler.Da)
  {
  }

  /** The bytes of a data directive, against its size. */
  lemma DirectiveSize(f: Assembler.Form, s: Assembler.Statement, scope: Scope)
    requires Assembler.IsDirective(f) && s.form == Assembler.FormName(f)
    requires Assembler.EncodePattern(Assembler.PatternOf(f), s, scope).Bytes?
    ensures Recognizer.Size(s.form, s.exprs, true)
      == Some(Recognizer.NextPc(true, |Assembler.EncodePattern(Assembler.PatternOf(f), s, scope).bytes|))
  {
    DataPattern(f);
    if f.Db? {
      Assembler.DirectiveDbValues(s.exprs, scope);
    } else if f.Dw? {
      Assembler.DirectiveDwValues(s.exprs, scope);
    } else {
      StringIsText(s.exprs[0], scope);
    }
  }

  /** Corrected, the size phase_one gives a statement of the opcode table
      is the number of bytes its encoding writes, whatever the scope: two
      for an instruction, one per DB operand, two per DW operand, one per
      character of a DA string. */
  lemma SizeMatchesEncoding(s: Assembler.Statement, f: Assembler.Form, scope: Scope)
    requires Assembler.FormNamed(s.form) == Some(f)
    requires Assembler.Encode(f, s, scope).Bytes?
    ensures Recognizer.Size(s.form, s.exprs, true)
      == Some(Recognizer.NextPc(true, |Assembler.Encode(f, s, scope).bytes|))
  {
    var p := Assembler.PatternOf(f);
    assert Assembler.Encode(f, s, scope) == Assembler.EncodePattern(p, s, scope);
    if Assembler.IsDirective(f) {
      DirectiveKey(s.form, f);
      DirectiveSize(f, s, scope);
    } else {
      SizedKeys();
      DataPattern(f);
      InstructionTwoBytes(p, s, scope);
    }
  }

  /** As written, DA reserves two bytes whatever its string: a string of
      any other length is written over the next statement or leaves a
      gap. */
  lemma StringSizeAsWritten(s: Assembler.Statement, scope: Scope)
    requires s.form == "DA" && |s.exprs| > 0 && s.exprs[0].Text?
    requires Assembler.IsAscii(s.exprs[0].s)
    ensures Recognizer.Size(s.form, s.exprs, false) == Some(Recognizer.NextPc(true, 2))
    ensures Assembler.Encode(Assembler.Da, s, scope) == Assembler.Bytes(Assembler.Codes(s.exprs[0].s))
    ensures |Assembler.Codes(s.exprs[0].s)| == |s.exprs[0].s|
  {
  }

  /** The count a corrected statement carries into assembler2 is how far
      pass 2 moves the PC for it: the length of what it writes for an entry
      of the table, nothing for an EQU, and for ORG and DS no count, which
      pass 1 fills in. */
  lemma CountMatchesBytes(l: Recognizer.Labelled, compile: string -> Option<Expr>, scope: Scope)
    requires Recognizer.Recognize(l, compile, true).Valid?
    ensures var s := ToStatement(Recognizer.Recognize(l, compile, true).stmt);
      && (Assembler.FormNamed(s.form).Some? && Assembler.Encode(Assembler.FormNamed(s.form).value, s, scope).Bytes?
          ==> s.nextPc == Some(|Assembler.Encode(Assembler.FormNamed(s.form).value, s, scope).bytes|))
      && (s.form == "EQU" ==> s.nextPc == Some(0))
      && (s.form in {"ORG", "DS"} <==> s.nextPc.None?)
      && Assembler.MovesAlike(s)
  {
    RecognizedBytes(l, compile, scope);
    RecognizedMoves(l, compile);
  }

  lemma RecognizedBytes(l: Recognizer.Labelled, compile: string -> Option<Expr>, scope: Scope)
    requires Recognizer.Recognize(l, compile, true).Valid?
    ensures var s := ToStatement(Recognizer.Recognize(l, compile, true).stmt);
      Assembler.FormNamed(s.form).Some? && Assembler.Encode(Assembler.FormNamed(s.form).value, s, scope).Bytes?
      ==> s.nextPc == Some(|Assembler.Encode(Assembler.FormNamed(s.form).value, s, scope).bytes|)
  {
    var r := Recognizer.Recognize(l, compile, true).stmt;
    var s := ToStatement(r);
    Recognizer.RecognizeValid(l, compile, true);
    Assembler.SpecialFormsNotInTable();
    if Assembler.FormNamed(s.form).Some? && Assembler.Encode(Assembler.FormNamed(s.form).value, s, scope).Bytes? {
      SizeMatchesEncoding(s, Assembler.FormNamed(s.form).value, scope);
    }
  }

  lemma RecognizedMoves(l: Recognizer.Labelled, compile: string -> Option<Expr>)
    requires Recognizer.Recognize(l, compile, true).Valid?
    ensures var s := ToStatement(Recognizer.Recognize(l, compile, true).stmt);
      && (s.form == "EQU" ==> s.nextPc == Some(0))
      && (s.form in {"ORG", "DS"} <==> s.nextPc.None?)
      && Assembler.MovesAlike(s)
  {
    var r := Recognizer.Recognize(l, compile, true).stmt;
    Recognizer.RecognizeValid(l, compile, true);
    RecognizedHandled(l, compile);
    SizedMoves(r);
  }

  /** A statement sized as corrected phase_one sizes it, of a handled
      form other than the bare label's, moves both passes alike. */
  lemma SizedMoves(r: Recognizer.Recognized)
    requires Assembler.Handled(r.form) && r.form != ""
    requires Recognizer.Size(r.form, r.exprs, true) == Some(r.nextPc)
    ensures var s := ToStatement(r);
      && (s.form == "EQU" ==> s.nextPc == Some(0))
      && (s.form in {"ORG", "DS"} <==> s.nextPc.None?)
      && Assembler.MovesAlike(s)
  {
  }

  /** Corrected, every line phase_one accepts, a bare label included,
      reaches assembler2 with a count that moves pass 1's PC as pass 2
      moves its own; so, by Assembler.LabelsBindLayout, a clean assembly
      binds each label to the address its statement is written at. */
  lemma PhaseOneMovesAlike(matches: seq<Recognizer.Token>, compile: string -> Option<Expr>)
    requires Recognizer.PhaseOne(matches, compile, true).Valid?
    ensures Assembler.MovesAlike(ToStatement(Recognizer.PhaseOne(matches, compile, true).stmt))
  {
    Recognizer.PhaseOneParts(matches, compile, true);
    Assembler.SpecialFormsNotInTable();
    var l := Recognizer.StripLabel(Recognizer.Scan(matches).tokens);
    if |l.rest| > 0 {
      CountMatchesBytes(l, compile, Symbols(map[]));
    }
  }

  /** Corrected end to end: when every statement is what phase_one makes
      of a line and the assembly is clean, each label is bound to the
      address at which pass 2 writes its statement. */
  lemma LabelsMeetStatements(lines: seq<seq<Recognizer.Token>>, compile: string -> Option<Expr>,
                             stmts: seq<Assembler.Statement>)
    requires |lines| == |stmts|
    requires forall k | 0 <= k < |lines| :: Recognizer.PhaseOne(lines[k], compile, true).Valid?
    requires forall k | 0 <= k < |lines| :: stmts[k] == ToStatement(Recognizer.PhaseOne(lines[k], compile, true).stmt)
    requires Assembler.Assemble(stmts).Image?
    ensures var p := Assembler.PassOneAndRetry(stmts, true).value;
      |p.nextPcs| == |stmts|
      && Assembler.LabelsLaidOut(stmts, Assembler.Plan(stmts, p.nextPcs, p.symbols), p.symbols, 0)
  {
    forall k | 0 <= k < |stmts|
      ensures Assembler.MovesAlike(stmts[k])
    {
      PhaseOneMovesAlike(lines[k], compile);
    }
    Assembler.LabelsBindLayout(stmts);
  }

  /** The count phase_one gives an EQU: as written the two bytes of an
      instruction, since the form has no branch of its own; corrected
      none, which is how far pass 2 moves the PC for it. */
  lemma EquCount(exprs: seq<Expr>, corrected: bool)
    ensures Recognizer.Size("EQU", exprs, corrected) == Some(Recognizer.NextPc(true, if corrected then 0 else 2))
    ensures !corrected ==> !Assembler.MovesAlike(ToStatement(Recognizer.Recognized("EQU", "N", Recognizer.NextPc(true, 2), None, None, exprs)))
  {
  }

  /** As written, an EQU ahead of a label shifts the label two bytes past
      its statement: in `N EQU 5`, `L: CLS`, `JP L`, pass 1 binds L to
      0x202 but pass 2 writes CLS at 0x200, so the jump lands on itself. */
  lemma EquShiftsLabel()
    ensures var s := ToStatement(Recognizer.Recognized("EQU", "N", Recognizer.Size("EQU", [Num(5)], false).value,
                                                       None, None, [Num(5)]));
      s == Assembler.EquProgram(2)[0]
    ensures Assembler.PassOneAndRetry(Assembler.EquProgram(2), false).value.symbols["L"] == 0x202
    ensures Assembler.AssembleAsWritten(Assembler.EquProgram(2)) == Assembler.Image([0x00, 0xE0, 0x12, 0x02])
  {
    EquCount([Num(5)], false);
    Assembler.EquPassOne(2, false);
    Assembler.EquShiftsLabels(2, false);
  }

  /** Corrected, the EQU takes no room: L is 0x200, where CLS is written,
      and the jump lands on it. */
  lemma EquTakesNoRoom()
    ensures var s := ToStatement(Recognizer.Recognized("EQU", "N", Recognizer.Size("EQU", [Num(5)], true).value,
                                                       None, None, [Num(5)]));
      s == Assembler.EquProgram(0)[0]
    ensures Assembler.PassOneAndRetry(Assembler.EquProgram(0), true).value.symbols["L"] == 0x200
    ensures Assembler.Assemble(Assembler.EquProgram(0)) == Assembler.Image([0x00, 0xE0, 0x12, 0x00])
  {
    EquCount([Num(5)], true);
    Assembler.EquPassOne(0, true);
    Assembler.EquShiftsLabels(0, true);
  }

  /** A count phase_one hands over is never negative: two bytes, one or
      two per operand, a DS value of at least zero, or a string's length. */
  lemma CountNonNegative(l: Recognizer.Labelled, compile: string -> Option<Expr>, corrected: bool)
    requires Recognizer.Recognize(l, compile, corrected).Valid?
    ensures Assembler.NonNegativeCount(ToStatement(Recognizer.Recognize(l, compile, corrected).stmt))
  {
    Recognizer.RecognizeValid(l, compile, corrected);
  }
}

=== FILE: asm.dfy ===
/** assembler2.py: the final assembly of recognised statements into a
    memory image.

    Pass 1 walks the statements, binds labels to the program counter,
    evaluates EQU, DS and ORG, and counts errors; EQUs that name a symbol
    not yet defined are put aside and retried once the pass is over.  Pass
    2 walks the statements again and encodes every instruction and data
    directive into a 4096-byte image.  The result is the image from 0x200
    up to the highest address reached, or the error counts. */
module Assembler {
  import opened Bits
  import opened Expr
  import opened PyList
  import Chip8

  /** The fields of a recognised statement that assembly reads. */
  datatype Statement = Statement(
    textError: bool,        // an uncorrected syntax error
    form: string,           // the key of the opcode table, or "DS", "EQU", "ORG", ""
    definedName: string,    // the label or EQU name, "" for none
    nextPc: Option<int>,    // the bytes the statement takes; None for DS and ORG
    reg1: int,
    reg2: int,
    exprs: seq<Expr>)

  /** The keys of the opcode table. */
  datatype Form =
    | AddI | AddR | AndR | Cls | Exit | High | LdC | LdH | LdK | LdM
    | LdRR | LdRT | LdSR | LdTR | Low | OrR | Ret | Scl | Scr | SeR
    | ShR | ShL | Skp | Sknp | SneR | Std | Stm | Sub | SubN | XorR
    | SeB | SneB | LdRB | AddB | Rnd | JpAdr | Call | LdI | JpXAdr
    | Draw | Scd | Da | Db | Dw

  function FormName(f: Form): string
  {
    match f
    case AddI => "ADDI" case AddR => "ADDR" case AndR => "AND" case Cls => "CLS"
    case Exit => "EXIT" case High => "HIGH" case LdC => "LDC" case LdH => "LDH"
    case LdK => "LDK" case LdM => "LDM" case LdRR => "LDRR" case LdRT => "LDRT"
    case LdSR => "LDSR" case LdTR => "LDTR" case Low => "LOW" case OrR => "OR"
    case Ret => "RET" case Scl => "SCL" case Scr => "SCR" case SeR => "SER"
    case ShR => "SHR" case ShL => "SHL" case Skp => "SKP" case Sknp => "SKNP"
    case SneR => "SNER" case Std => "STD" case Stm => "STM" case Sub => "SUB"
    case SubN => "SUBN" case XorR => "XOR" case SeB => "SEB" case SneB => "SNEB"
    case LdRB => "LDRB" case AddB => "ADDB" case Rnd => "RND" case JpAdr => "JPADR"
    case Call => "CALL" case LdI => "LDI" case JpXAdr => "JPXADR" case Draw => "DRAW"
    case Scd => "SCD" case Da => "DA" case Db => "DB" case Dw => "DW"
  }

  /** `S.form in opcode_dict`, and which entry (looked up by first letter,
      then by the whole name). */
  function FormNamed(name: string): Option<Form>
  {
    if |name| == 0 then None
    else match name[0]
      case 'A' => (match name
        case "ADDI" => Some(AddI) case "ADDR" => Some(AddR) case "AND" => Some(AndR)
        case "ADDB" => Some(AddB) case _ => None)
      case 'C' => (match name case "CLS" => Some(Cls) case "CALL" => Some(Call) case _ => None)
      case 'D' => (match name
        case "DRAW" => Some(Draw) case "DA" => Some(Da) case "DB" => Some(Db)
        case "DW" => Some(Dw) case _ => None)
      case 'E' => (match name case "EXIT" => Some(Exit) case _ => None)
      case 'H' => (match name case "HIGH" => Some(High) case _ => None)
      case 'J' => (match name case "JPADR" => Some(JpAdr) case "JPXADR" => Some(JpXAdr) case _ => None)
      case 'L' => (match name
        case "LDC" => Some(LdC) case "LDH" => Some(LdH) case "LDK" => Some(LdK)
        case "LDM" => Some(LdM) case "LDRR" => Some(LdRR) case "LDRT" => Some(LdRT)
        case "LDSR" => Some(LdSR) case "LDTR" => Some(LdTR) case "LOW" => Some(Low)
        case "LDRB" => Some(LdRB) case "LDI" => Some(LdI) case _ => None)
      case 'O' => (match name case "OR" => Some(OrR) case _ => None)
      case 'R' => (match name case "RET" => Some(Ret) case "RND" => Some(Rnd) case _ => None)
      case 'S' => (match name
        case "SCL" => Some(Scl) case "SCR" => Some(Scr) case "SER" => Some(SeR)
        case "SHR" => Some(ShR) case "SHL" => Some(ShL) case "SKP" => Some(Skp)
        case "SKNP" => Some(Sknp) case "SNER" => Some(SneR) case "STD" => Some(Std)
        case "STM" => Some(Stm) case "SUB" => Some(Sub) case "SUBN" => Some(SubN)
        case "SEB" => Some(SeB) case "SNEB" => Some(SneB) case "SCD" => Some(Scd)
        case _ => None)
      case 'X' => (match name case "XOR" => Some(XorR) case _ => None)
      case _ => None
  }

  /** Every entry is found under its own key. */
  lemma FormNamedName(f: Form)
    ensures FormNamed(FormName(f)) == Some(f)
  {
    match f
    case AddI | AddR | AndR | AddB | Cls | Call | Draw | Da | Db | Dw => FormNamedFirst(f);
    case Exit | High | JpAdr | JpXAdr | OrR | Ret | Rnd | XorR => FormNamedFirst(f);
    case LdC | LdH | LdK | LdM | LdRR | LdRT | LdSR | LdTR | Low | LdRB | LdI => FormNamedL(f);
    case _ => FormNamedS(f);
  }

  lemma FormNamedFirst(f: Form)
    requires FormName(f)[0] !in {'L', 'S'}
    ensures FormNamed(FormName(f)) == Some(f)
  {
  }

  lemma FormNamedL(f: Form)
    requires FormName(f)[0] == 'L'
    ensures FormNamed(FormName(f)) == Some(f)
  {
  }

  lemma FormNamedS(f: Form)
    requires FormName(f)[0] == 'S'
    ensures FormNamed(FormName(f)) == Some(f)
  {
  }

  /** The names pass 2 handles outside the table are not keys of it. */
  lemma SpecialFormsNotInTable()
    ensures FormNamed("DS").None? && FormNamed("EQU").None?
    ensures FormNamed("ORG").None? && FormNamed("").None?
  {
  }

  // ---------------------------------------------------------------------
  // Evaluating operands

  /** What goes wrong with a statement, by the message it gets. */
  datatype Problem =
    | NotDefined(name: string)    // 'Symbol X is undefined', the IndexError of LOOKUP
    | NoExpression                // the IndexError of `S.expressions[0]`
    | OutsideRange(value: int)    // 'Inappropriate expression value N'
    | EvalFailure                 // any other exception of eval, int() or the encoding
    | DefinedTwice(name: string)  // 'X defined multiple times'
    | TooLarge                    // 'Assembly too large, off the end of memory'
    | Unexpected(form: string)    // 'assembler error S.form... unexpected'

  /** The problems that are an IndexError, the ones an EQU defers. */
  predicate IsIndexError(p: Problem) { p.NotDefined? || p.NoExpression? }

  datatype Fetched = Got(v: int) | Raised(problem: Problem)

  /** `check_value` of one expression, with its exception as a problem. */
  function Operand(e: Expr, scope: Scope, low: int, high: int): Fetched
  {
    match CheckValue(e, scope, low, high)
    case Value(v) => Got(v)
    case Unknown(name) => Raised(NotDefined(name))
    case OutOfRange(v) => Raised(OutsideRange(v))
    case Broken => Raised(EvalFailure)
  }

  /** An operand is accepted exactly when it evaluates to a number in
      range; an undefined name, a number out of range and any other
      failure each give their own problem. */
  lemma OperandMeaning(e: Expr, scope: Scope, low: int, high: int)
    ensures var r := Operand(e, scope, low, high);
      && (r.Got? <==> Eval(e, scope).Ok? && Eval(e, scope).value.Int? && low <= Eval(e, scope).value.i <= high)
      && (r.Got? ==> Eval(e, scope) == Ok(Int(r.v)))
      && (r.Raised? ==> match r.problem
            case NotDefined(name) => Eval(e, scope) == Undefined(name) && Lookup(scope, name).None?
            case OutsideRange(v) => Eval(e, scope) == Ok(Int(v)) && !(low <= v <= high)
            case EvalFailure => Eval(e, scope).Fails? || (Eval(e, scope).Ok? && Eval(e, scope).value.Str?)
            case _ => false)
  {
  }

  /** `check_value(S.expressions[0], low, high)`: a statement without an
      expression raises IndexError before anything is evaluated. */
  function FirstOperand(s: Statement, scope: Scope, low: int, high: int): Fetched
  {
    if |s.exprs| == 0 then Raised(NoExpression) else Operand(s.exprs[0], scope, low, high)
  }

  // ---------------------------------------------------------------------
  // Encoding one statement

  /** The bytes of a statement, or the exception that stopped it. */
  datatype Encoded = Bytes(bytes: seq<int>) | Bad(problem: Problem)

  /** `op_reg_byte` once its byte has passed `check_value`:
      `opcode | S.reg_1`, then the byte. */
  function OpRegByte(opcode: int, reg1: int, b: int): seq<int>
  {
    [BitOr(opcode, reg1), b]
  }

  /** `op_addr` once its address has passed `check_value`: the top four
      bits of the 12-bit address or-ed into the opcode byte (`address >> 8`
      is a division for the non-negative address), then the low byte. */
  function OpAddr(opcode: int, address: int): seq<int>
  {
    [BitOr(opcode, address / 256), BitAnd(address, 0xFF)]
  }

  /** `op_nybble` once its nybble has passed `check_value`: the opcode's
      high byte, then its low byte with the nybble or-ed in. */
  function OpNybble(opcode: int, n: int): seq<int>
  {
    [ShiftRightBy(opcode, 8), BitAnd(BitOr(opcode, n), 0xFF)]
  }

  /** `op_reg_reg_nybble` once its nybble has passed `check_value`:
      `opcode | S.reg_1`, then `S.reg_2 << 4` with the nybble or-ed in. */
  function OpRegRegNybble(opcode: int, reg1: int, reg2: int, n: int): seq<int>
  {
    [BitOr(opcode, reg1), BitOr(reg2 * 16, n)]
  }

  /** The codes of an ASCII string. */
  predicate IsAscii(text: string) { forall k | 0 <= k < |text| :: text[k] as int < 128 }

  function Codes(text: string): seq<int>
  {
    seq(|text|, k requires 0 <= k < |text| => text[k] as int)
  }

  /** `directive_da`: the operand is a string, which is encoded as ASCII,
      and the list of the encoded bytes is their codes; a character
      outside ASCII fails the encoding, and a number is not iterable. */
  function DirectiveDa(s: Statement, scope: Scope): Encoded
  {
    if |s.exprs| == 0 then Bad(NoExpression)
    else match Eval(s.exprs[0], scope)
      case Undefined(name) => Bad(NotDefined(name))
      case Fails => Bad(EvalFailure)
      case Ok(v) => if v.Str? && IsAscii(v.s) then Bytes(Codes(v.s)) else Bad(EvalFailure)
  }

  /** `directive_db`: one byte per expression, evaluated in order; the
      first failure ends the directive. */
  function DirectiveDb(exprs: seq<Expr>, scope: Scope): Encoded
  {
    if |exprs| == 0 then Bytes([])
    else match Operand(exprs[0], scope, 0, 255)
      case Raised(p) => Bad(p)
      case Got(b) =>
        var rest := DirectiveDb(exprs[1..], scope);
        if rest.Bad? then rest else Bytes([b] + rest.bytes)
  }

  /** `directive_dw`: two bytes per expression, high byte first. */
  function DirectiveDw(exprs: seq<Expr>, scope: Scope): Encoded
  {
    if |exprs| == 0 then Bytes([])
    else match Operand(exprs[0], scope, 0, 65535)
      case Raised(p) => Bad(p)
      case Got(w) =>
        var rest := DirectiveDw(exprs[1..], scope);
        if rest.Bad? then rest else Bytes([w / 256, BitAnd(w, 0xFF)] + rest.bytes)
  }

  /** The shapes of the opcode table's entries, with the constants each
      entry fills in. */
  datatype Pattern =
    | Fixed(lo: int)               // [0x00, lo]
    | FirstReg(hi: int, lo: int)   // [hi + S.reg_1, lo]
    | SecondReg(hi: int, lo: int)  // [hi + S.reg_2, lo]
    | RegPair(hi: int, lo: int)    // [hi + S.reg_1, (S.reg_2 << 4) | lo]
    | RegByte(opcode: int)         // op_reg_byte
    | Address(opcode: int)         // op_addr
    | Nybble(opcode: int)          // op_nybble
    | RegRegNybble(opcode: int)    // op_reg_reg_nybble
    | StringData                   // directive_da
    | ByteData                     // directive_db
    | WordData                     // directive_dw

  /** `opcode_dict`: the shape and constants of each entry. */
  function PatternOf(f: Form): Pattern
  {
    match f
    case AddI => SecondReg(0xF0, 0x1E)
    case AddR => RegPair(0x80, 0x04)
    case AndR => RegPair(0x80, 0x02)
    case Cls => Fixed(0xE0)
    case Exit => Fixed(0xFD)
    case High => Fixed(0xFF)
    case LdC => SecondReg(0xF0, 0x29)
    case LdH => SecondReg(0xF0, 0x30)
    case LdK => FirstReg(0xF0, 0x0A)
    case LdM => FirstReg(0xF0, 0x65)
    case LdRR => RegPair(0x80, 0x00)
    case LdRT => FirstReg(0xF0, 0x07)
    case LdSR => SecondReg(0xF0, 0x18)
    case LdTR => SecondReg(0xF0, 0x15)
    case Low => Fixed(0xFE)
    case OrR => RegPair(0x80, 0x01)
    case Ret => Fixed(0xEE)
    case Scl => Fixed(0xFC)
    case Scr => Fixed(0xFB)
    case SeR => RegPair(0x50, 0x00)
    case ShR => RegPair(0x80, 0x06)
    case ShL => RegPair(0x80, 0x0E)
    case Skp => FirstReg(0xE0, 0x9E)
    case Sknp => FirstReg(0xE0, 0xA1)
    case SneR => RegPair(0x90, 0x00)
    case Std => FirstReg(0xF0, 0x33)
    case Stm => FirstReg(0xF0, 0x55)
    case Sub => RegPair(0x80, 0x05)
    case SubN => RegPair(0x80, 0x07)
    case XorR => RegPair(0x80, 0x03)
    case SeB => RegByte(0x30)
    case SneB => RegByte(0x40)
    case LdRB => RegByte(0x60)
    case AddB => RegByte(0x70)
    case Rnd => RegByte(0xC0)
    case JpAdr => Address(0x10)
    case Call => Address(0x20)
    case LdI => Address(0xA0)
    case JpXAdr => Address(0xB0)
    case Draw => RegRegNybble(0xD0)
    case Scd => Nybble(0x00C0)
    case Da => StringData
    case Db => ByteData
    case Dw => WordData
  }

  /** The range `check_value` holds an instruction's expression to, or
      None for the forms that take no expression and the directives. */
  function OperandHigh(p: Pattern): Option<int>
  {
    match p
    case RegByte(_) => Some(255)
    case Address(_) => Some(4095)
    case Nybble(_) => Some(15)
    case RegRegNybble(_) => Some(15)
    case _ => None
  }

  /** The helper of a pattern that takes an expression, applied to the
      value `check_value` accepted. */
  function PackOperand(p: Pattern, reg1: int, reg2: int, v: int): seq<int>
  {
    match p
    case RegByte(opcode) => OpRegByte(opcode, reg1, v)
    case Address(opcode) => OpAddr(opcode, v)
    case Nybble(opcode) => OpNybble(opcode, v)
    case RegRegNybble(opcode) => OpRegRegNybble(opcode, reg1, reg2, v)
    case _ => []
  }

  /** One entry of the table applied to a statement; a helper's first step
      is `check_value` of the first expression, whose exception unwinds. */
  function EncodePattern(p: Pattern, s: Statement, scope: Scope): Encoded
  {
    match p
    case Fixed(lo) => Bytes([0x00, lo])
    case FirstReg(hi, lo) => Bytes([hi + s.reg1, lo])
    case SecondReg(hi, lo) => Bytes([hi + s.reg2, lo])
    case RegPair(hi, lo) => Bytes([hi + s.reg1, BitOr(s.reg2 * 16, lo)])
    case StringData => DirectiveDa(s, scope)
    case ByteData => DirectiveDb(s.exprs, scope)
    case WordData => DirectiveDw(s.exprs, scope)
    case _ =>
      match FirstOperand(s, scope, 0, OperandHigh(p).value)
      case Raised(problem) => Bad(problem)
      case Got(v) => Bytes(PackOperand(p, s.reg1, s.reg2, v))
  }

  /** The lambda `opcode_dict[S.form]` applied to a statement. */
  function Encode(f: Form, s: Statement, scope: Scope): Encoded
  {
    EncodePattern(PatternOf(f), s, scope)
  }

  // ---------------------------------------------------------------------
  // What an encoded instruction means to the machine

  predicate IsDirective(f: Form) { f.Da? || f.Db? || f.Dw? }

  /** The machine instruction each form stands for, by the comments of
      the opcode table, given its registers and its operand value; the
      data directives stand for none. */
  function Instruction(f: Form, x: int, y: int, v: int): Option<Chip8.Op>
  {
    match f
    case AddI => Some(Chip8.AddIOp(y))
    case AddR => Some(Chip8.AluOp(Chip8.Add, x, y))
    case AndR => Some(Chip8.AluOp(Chip8.And, x, y))
    case Cls => Some(Chip8.ClearOp)
    case Exit => Some(Chip8.ExitOp)
    case High => Some(Chip8.HighResOp)
    case LdC => Some(Chip8.FontSmallOp(y))
    case LdH => Some(Chip8.FontLargeOp(y))
    case LdK => Some(Chip8.WaitKeyOp(x))
    case LdM => Some(Chip8.LoadOp(x))
    case LdRR => Some(Chip8.AluOp(Chip8.Assign, x, y))
    case LdRT => Some(Chip8.ReadDelayOp(x))
    case LdSR => Some(Chip8.SetSoundOp(y))
    case LdTR => Some(Chip8.SetDelayOp(y))
    case Low => Some(Chip8.LowResOp)
    case OrR => Some(Chip8.AluOp(Chip8.Or, x, y))
    case Ret => Some(Chip8.ReturnOp)
    case Scl => Some(Chip8.ScrollLeftOp)
    case Scr => Some(Chip8.ScrollRightOp)
    case SeR => Some(Chip8.SkipEqRegOp(x, y))
    case ShR => Some(Chip8.AluOp(Chip8.Shr, x, y))
    case ShL => Some(Chip8.AluOp(Chip8.Shl, x, y))
    case Skp => Some(Chip8.SkipKeyOp(x))
    case Sknp => Some(Chip8.SkipNoKeyOp(x))
    case SneR => Some(Chip8.SkipNeRegOp(x, y))
    case Std => Some(Chip8.BcdOp(x))
    case Stm => Some(Chip8.StoreOp(x))
    case Sub => Some(Chip8.AluOp(Chip8.Sub, x, y))
    case SubN => Some(Chip8.AluOp(Chip8.SubN, x, y))
    case XorR => Some(Chip8.AluOp(Chip8.Xor, x, y))
    case SeB => Some(Chip8.SkipEqByteOp(x, v))
    case SneB => Some(Chip8.SkipNeByteOp(x, v))
    case LdRB => Some(Chip8.LoadByteOp(x, v))
    case AddB => Some(Chip8.AddByteOp(x, v))
    case Rnd => Some(Chip8.RandomOp(x, v))
    case JpAdr => Some(Chip8.JumpOp(v))
    case Call => Some(Chip8.CallOp(v))
    case LdI => Some(Chip8.LoadIOp(v))
    case JpXAdr => Some(Chip8.JumpV0Op(v))
    case Draw => Some(Chip8.DrawOp(x, y, v))
    case Scd => Some(Chip8.ScrollDownOp(v))
    case Da | Db | Dw => None
  }

  /** Two bytes holding, high byte first, the instruction word of a
      well-formed instruction. */
  predicate Assembles(bytes: seq<int>, op: Chip8.Op)
  {
    && |bytes| == 2 && IsByte(bytes[0]) && IsByte(bytes[1])
    && Chip8.WellFormed(op)
    && 256 * bytes[0] + bytes[1] == Chip8.Encode(op)
  }

  /** Such bytes are fetched and decoded by the machine as that
      instruction. */
  lemma AssemblesDecodes(bytes: seq<int>, op: Chip8.Op)
    requires Assembles(bytes, op)
    ensures Chip8.IsInstruction(256 * bytes[0] + bytes[1])
    ensures Chip8.Decode(256 * bytes[0] + bytes[1]) == Some(op)
  {
    Chip8.DecodeEncode(op);
  }

  /** `(hi << 4) | lo` of two nybbles is `16 * hi + lo`. */
  lemma PackNybbles(hi: int, lo: int)
    requires IsNybble(hi) && IsNybble(lo)
    ensures BitOr(hi * 16, lo) == 16 * hi + lo
  {
    assert Pow2(4) == 16;
    BitOrDisjoint(hi, lo, 4);
  }

  /** The word a pattern without an expression writes, high byte first. */
  function FixedWord(p: Pattern, x: int, y: int): int
  {
    match p
    case Fixed(lo) => lo
    case FirstReg(hi, lo) => 256 * (hi + x) + lo
    case SecondReg(hi, lo) => 256 * (hi + y) + lo
    case RegPair(hi, lo) => 256 * (hi + x) + 16 * y + lo
    case _ => 0
  }

  predicate TakesNoOperand(p: Pattern)
  {
    p.Fixed? || p.FirstReg? || p.SecondReg? || p.RegPair?
  }

  /** The forms without an expression always give two bytes: the word
      of their pattern. */
  lemma EncodeNoOperand(f: Form, s: Statement, scope: Scope)
    requires TakesNoOperand(PatternOf(f)) && IsNybble(s.reg1) && IsNybble(s.reg2)
    ensures var e := Encode(f, s, scope);
      && e.Bytes? && |e.bytes| == 2 && IsByte(e.bytes[0]) && IsByte(e.bytes[1])
      && 256 * e.bytes[0] + e.bytes[1] == FixedWord(PatternOf(f), s.reg1, s.reg2)
  {
    PatternFits(f);
    EncodeFixed(PatternOf(f), s, scope);
  }

  lemma PatternFits(f: Form)
    requires TakesNoOperand(PatternOf(f))
    ensures Fits(PatternOf(f))
  {
  }

  /** The first bytes of the table's register forms, before the
      register is added. */
  const OpcodeBytes: set<int> := {0x50, 0x80, 0x90, 0xE0, 0xF0}

  /** The constant parts of a pattern without an expression leave room
      for the registers. */
  predicate Fits(p: Pattern)
  {
    match p
    case Fixed(lo) => IsByte(lo)
    case FirstReg(hi, lo) => IsByte(lo) && hi in OpcodeBytes
    case SecondReg(hi, lo) => IsByte(lo) && hi in OpcodeBytes
    case RegPair(hi, lo) => IsNybble(lo) && hi in OpcodeBytes
    case _ => false
  }

  lemma EncodeFixed(p: Pattern, s: Statement, scope: Scope)
    requires Fits(p) && IsNybble(s.reg1) && IsNybble(s.reg2)
    ensures var e := EncodePattern(p, s, scope);
      && e.Bytes? && |e.bytes| == 2 && IsByte(e.bytes[0]) && IsByte(e.bytes[1])
      && 256 * e.bytes[0] + e.bytes[1] == FixedWord(p, s.reg1, s.reg2)
  {
    if p.RegPair? {
      PackNybbles(s.reg2, p.lo);
    }
  }

  /** ... and that word is the encoding of the instruction the table's
      comment names. */
  lemma NoOperandMeaning(f: Form, x: int, y: int)
    requires TakesNoOperand(PatternOf(f)) && IsNybble(x) && IsNybble(y)
    ensures Instruction(f, x, y, 0).Some? && Chip8.WellFormed(Instruction(f, x, y, 0).value)
    ensures Chip8.Encode(Instruction(f, x, y, 0).value) == FixedWord(PatternOf(f), x, y)
  {
    match f
    case Cls | Exit | High | Low => NoOperandGroup1(f, x, y);
    case Ret | Scl | Scr => NoOperandGroup2(f, x, y);
    case LdK | LdM | LdRT | Std => NoOperandGroup3(f, x, y);
    case Stm | Skp | Sknp => NoOperandGroup4(f, x, y);
    case AddI | LdC | LdH => NoOperandGroup5(f, x, y);
    case LdSR | LdTR => NoOperandGroup6(f, x, y);
    case AddR | AndR | LdRR => NoOperandGroup7(f, x, y);
    case OrR | ShR | ShL => NoOperandGroup8(f, x, y);
    case Sub | SubN | XorR => NoOperandGroup9(f, x, y);
    case SeR | SneR => NoOperandGroup10(f, x, y);
  }

  lemma NoOperandGroup1(f: Form, x: int, y: int)
    requires f in {Cls, Exit, High, Low} && IsNybble(x) && IsNybble(y)
    ensures Instruction(f, x, y, 0).Some? && Chip8.WellFormed(Instruction(f, x, y, 0).value)
    ensures Chip8.Encode(Instruction(f, x, y, 0).value) == FixedWord(PatternOf(f), x, y)
  {
  }

  lemma NoOperandGroup2(f: Form, x: int, y: int)
    requires f in {Ret, Scl, Scr} && IsNybble(x) && IsNybble(y)
    ensures Instruction(f, x, y, 0).Some? && Chip8.WellFormed(Instruction(f, x, y, 0).value)
    ensures Chip8.Encode(Instruction(f, x, y, 0).value) == FixedWord(PatternOf(f), x, y)
  {
  }

  lemma NoOperandGroup3(f: Form, x: int, y: int)
    requires f in {LdK, LdM, LdRT, Std} && IsNybble(x) && IsNybble(y)
    ensures Instruction(f, x, y, 0).Some? && Chip8.WellFormed(Instruction(f, x, y, 0).value)
    ensures Chip8.Encode(Instruction(f, x, y, 0).value) == FixedWord(PatternOf(f), x, y)
  {
  }

  lemma NoOperandGroup4(f: Form, x: int, y: int)
    requires f in {Stm, Skp, Sknp} && IsNybble(x) && IsNybble(y)
    ensures Instruction(f, x, y, 0).Some? && Chip8.WellFormed(Instruction(f, x, y, 0).value)
    ensures Chip8.Encode(Instruction(f, x, y, 0).value) == FixedWord(PatternOf(f), x, y)
  {
  }

  lemma NoOperandGroup5(f: Form, x: int, y: int)
    requires f in {AddI, LdC, LdH} && IsNybble(x) && IsNybble(y)
    ensures Instruction(f, x, y, 0).Some? && Chip8.WellFormed(Instruction(f, x, y, 0).value)
    ensures Chip8.Encode(Instruction(f, x, y, 0).value) == FixedWord(PatternOf(f), x, y)
  {
  }

  lemma NoOperandGroup6(f: Form, x: int, y: int)
    requires f in {LdSR, LdTR} && IsNybble(x) && IsNybble(y)
    ensures Instruction(f, x, y, 0).Some? && Chip8.WellFormed(Instruction(f, x, y, 0).value)
    ensures Chip8.Encode(Instruction(f, x, y, 0).value) == FixedWord(PatternOf(f), x, y)
  {
  }

  lemma NoOperandGroup7(f: Form, x: int, y: int)
    requires f in {AddR, AndR, LdRR} && IsNybble(x) && IsNybble(y)
    ensures Instruction(f, x, y, 0).Some? && Chip8.WellFormed(Instruction(f, x, y, 0).value)
    ensures Chip8.Encode(Instruction(f, x, y, 0).value) == FixedWord(PatternOf(f), x, y)
  {
  }

  lemma NoOperandGroup8(f: Form, x: int, y: int)
    requires f in {OrR, ShR, ShL} && IsNybble(x) && IsNybble(y)
    ensures Instruction(f, x, y, 0).Some? && Chip8.WellFormed(Instruction(f, x, y, 0).value)
    ensures Chip8.Encode(Instruction(f, x, y, 0).value) == FixedWord(PatternOf(f), x, y)
  {
  }

  lemma NoOperandGroup9(f: Form, x: int, y: int)
    requires f in {Sub, SubN, XorR} && IsNybble(x) && IsNybble(y)
    ensures Instruction(f, x, y, 0).Some? && Chip8.WellFormed(Instruction(f, x, y, 0).value)
    ensures Chip8.Encode(Instruction(f, x, y, 0).value) == FixedWord(PatternOf(f), x, y)
  {
  }

  lemma NoOperandGroup10(f: Form, x: int, y: int)
    requires f in {SeR, SneR} && IsNybble(x) && IsNybble(y)
    ensures Instruction(f, x, y, 0).Some? && Chip8.WellFormed(Instruction(f, x, y, 0).value)
    ensures Chip8.Encode(Instruction(f, x, y, 0).value) == FixedWord(PatternOf(f), x, y)
  {
  }

  /** The forms with an expression: the word their helper writes from
      the operand value v. */
  function OperandWord(p: Pattern, x: int, y: int, v: int): int
  {
    match p
    case RegByte(opcode) => 256 * (opcode + x) + v
    case Address(opcode) => 256 * opcode + v
    case Nybble(opcode) => opcode + v
    case RegRegNybble(opcode) => 256 * (opcode + x) + 16 * y + v
    case _ => 0
  }

  /** The forms with an expression give the exception of `check_value`,
      or the helper's bytes for the value it accepted. */
  lemma EncodeWithOperand(f: Form, s: Statement, scope: Scope)
    requires OperandHigh(PatternOf(f)).Some?
    ensures var p, e := PatternOf(f), Encode(f, s, scope);
      match FirstOperand(s, scope, 0, OperandHigh(p).value)
      case Raised(problem) => e == Bad(problem)
      case Got(v) =>
        && 0 <= v <= OperandHigh(p).value
        && e == Bytes(PackOperand(p, s.reg1, s.reg2, v))
  {
    OperandInRange(s, scope, 0, OperandHigh(PatternOf(f)).value);
  }

  /** Each helper writes two bytes holding the word of its pattern. */
  lemma PackOperandWord(p: Pattern, x: int, y: int, v: int)
    requires OperandHigh(p).Some? && IsNybble(p.opcode / 16) && p.opcode % 16 == 0
    requires IsNybble(x) && IsNybble(y) && 0 <= v <= OperandHigh(p).value
    ensures var b := PackOperand(p, x, y, v);
      && |b| == 2 && IsByte(b[0]) && IsByte(b[1])
      && 256 * b[0] + b[1] == OperandWord(p, x, y, v)
  {
    var a := p.opcode / 16;
    assert p.opcode == 16 * a;
    assert Pow2(4) == 16;
    match p
    case RegByte(_) =>
      BitOrDisjoint(a, x, 4);
    case Address(_) =>
      BitOrDisjoint(a, v / 256, 4);
      LowByte(v);
    case Nybble(_) =>
      NybbleBytes(a, v);
    case RegRegNybble(_) =>
      BitOrDisjoint(a, x, 4);
      PackNybbles(y, v);
  }

  lemma NybbleBytes(a: int, n: int)
    requires IsNybble(a) && IsNybble(n)
    ensures OpNybble(16 * a, n) == [0, 16 * a + n]
  {
    var w := 16 * a + n;
    assert Pow2(4) == 16;
    BitOrDisjoint(a, n, 4);
    LowByte(w);
    DivModUnique(w, 256, 0, w);
    ByteShiftedAway(16 * a);
  }

  /** A byte shifted right by eight is gone. */
  lemma ByteShiftedAway(b: int)
    requires IsByte(b)
    ensures ShiftRightBy(b, 8) == 0
  {
    assert Pow2(8) == 256;
    DivModUnique(b, 256, 0, b);
  }

  /** An accepted operand lies in the range. */
  lemma OperandInRange(s: Statement, scope: Scope, low: int, high: int)
    ensures FirstOperand(s, scope, low, high).Got? ==> low <= FirstOperand(s, scope, low, high).v <= high
  {
  }

  /** ... and that word is the encoding of the instruction the table's
      comment names. */
  lemma WithOperandMeaning(f: Form, x: int, y: int, v: int)
    requires OperandHigh(PatternOf(f)).Some? && IsNybble(x) && IsNybble(y)
    requires 0 <= v <= OperandHigh(PatternOf(f)).value
    ensures Instruction(f, x, y, v).Some? && Chip8.WellFormed(Instruction(f, x, y, v).value)
    ensures Chip8.Encode(Instruction(f, x, y, v).value) == OperandWord(PatternOf(f), x, y, v)
  {
    match f
    case SeB | SneB | LdRB => OperandGroup1(f, x, y, v);
    case AddB | Rnd => OperandGroup2(f, x, y, v);
    case JpAdr | Call => OperandGroup3(f, x, y, v);
    case LdI | JpXAdr => OperandGroup4(f, x, y, v);
    case Draw | Scd => OperandGroup5(f, x, y, v);
  }

  lemma OperandGroup1(f: Form, x: int, y: int, v: int)
    requires f in {SeB, SneB, LdRB} && IsNybble(x) && IsNybble(y)
    requires 0 <= v <= OperandHigh(PatternOf(f)).value
    ensures Instruction(f, x, y, v).Some? && Chip8.WellFormed(Instruction(f, x, y, v).value)
    ensures Chip8.Encode(Instruction(f, x, y, v).value) == OperandWord(PatternOf(f), x, y, v)
  {
  }

  lemma OperandGroup2(f: Form, x: int, y: int, v: int)
    requires f in {AddB, Rnd} && IsNybble(x) && IsNybble(y)
    requires 0 <= v <= OperandHigh(PatternOf(f)).value
    ensures Instruction(f, x, y, v).Some? && Chip8.WellFormed(Instruction(f, x, y, v).value)
    ensures Chip8.Encode(Instruction(f, x, y, v).value) == OperandWord(PatternOf(f), x, y, v)
  {
  }

  lemma OperandGroup3(f: Form, x: int, y: int, v: int)
    requires f in {JpAdr, Call} && IsNybble(x) && IsNybble(y)
    requires 0 <= v <= OperandHigh(PatternOf(f)).value
    ensures Instruction(f, x, y, v).Some? && Chip8.WellFormed(Instruction(f, x, y, v).value)
    ensures Chip8.Encode(Instruction(f, x, y, v).value) == OperandWord(PatternOf(f), x, y, v)
  {
    var t := v / 16;
    assert v == 16 * t + v % 16;
    assert t == 16 * (t / 16) + t % 16;
  }

  lemma OperandGroup4(f: Form, x: int, y: int, v: int)
    requires f in {LdI, JpXAdr} && IsNybble(x) && IsNybble(y)
    requires 0 <= v <= OperandHigh(PatternOf(f)).value
    ensures Instruction(f, x, y, v).Some? && Chip8.WellFormed(Instruction(f, x, y, v).value)
    ensures Chip8.Encode(Instruction(f, x, y, v).value) == OperandWord(PatternOf(f), x, y, v)
  {
    var t := v / 16;
    assert v == 16 * t + v % 16;
    assert t == 16 * (t / 16) + t % 16;
  }

  lemma OperandGroup5(f: Form, x: int, y: int, v: int)
    requires f in {Draw, Scd} && IsNybble(x) && IsNybble(y)
    requires 0 <= v <= OperandHigh(PatternOf(f)).value
    ensures Instruction(f, x, y, v).Some? && Chip8.WellFormed(Instruction(f, x, y, v).value)
    ensures Chip8.Encode(Instruction(f, x, y, v).value) == OperandWord(PatternOf(f), x, y, v)
  {
  }

  /** The opcodes of the helpers leave their low nybble free. */
  lemma OpcodeAligned(f: Form)
    requires OperandHigh(PatternOf(f)).Some?
    ensures IsNybble(PatternOf(f).opcode / 16) && PatternOf(f).opcode % 16 == 0
  {
  }

  /** Every instruction form assembles to the instruction its comment
      names: the forms without an expression always, the others exactly
      when `check_value` accepts their expression, with the same
      exception otherwise. */
  lemma EncodeInstruction(f: Form, s: Statement, scope: Scope)
    requires !IsDirective(f) && IsNybble(s.reg1) && IsNybble(s.reg2)
    ensures var p, e := PatternOf(f), Encode(f, s, scope);
      match OperandHigh(p)
      case None =>
        && e.Bytes? && Instruction(f, s.reg1, s.reg2, 0).Some?
        && Assembles(e.bytes, Instruction(f, s.reg1, s.reg2, 0).value)
      case Some(high) =>
        match FirstOperand(s, scope, 0, high)
        case Raised(problem) => e == Bad(problem)
        case Got(v) =>
          && e.Bytes? && Instruction(f, s.reg1, s.reg2, v).Some?
          && Assembles(e.bytes, Instruction(f, s.reg1, s.reg2, v).value)
  {
    var p := PatternOf(f);
    if OperandHigh(p).None? {
      assert TakesNoOperand(p);
      EncodeNoOperand(f, s, scope);
      NoOperandMeaning(f, s.reg1, s.reg2);
    } else {
      EncodeWithOperand(f, s, scope);
      var r := FirstOperand(s, scope, 0, OperandHigh(p).value);
      if r.Got? {
        OpcodeAligned(f);
        PackOperandWord(p, s.reg1, s.reg2, r.v);
        WithOperandMeaning(f, s.reg1, s.reg2, r.v);
      }
    }
  }

  // ---------------------------------------------------------------------
  // The data directives

  /** DB succeeds exactly when every expression is a byte, and then
      emits their values in order. */
  lemma {:induction false} DirectiveDbValues(exprs: seq<Expr>, scope: Scope)
    ensures DirectiveDb(exprs, scope).Bytes? <==>
      forall k | 0 <= k < |exprs| :: Operand(exprs[k], scope, 0, 255).Got?
    ensures DirectiveDb(exprs, scope).Bytes? ==>
      var b := DirectiveDb(exprs, scope).bytes;
      && |b| == |exprs| && AllBytes(b)
      && (forall k | 0 <= k < |exprs| :: b[k] == Operand(exprs[k], scope, 0, 255).v)
    decreases |exprs|
  {
    if |exprs| > 0 {
      DirectiveDbValues(exprs[1..], scope);
      assert forall k | 1 <= k < |exprs| :: exprs[1..][k - 1] == exprs[k];
    }
  }

  /** DW succeeds exactly when every expression fits 16 bits. */
  lemma {:induction false} DirectiveDwSucceeds(exprs: seq<Expr>, scope: Scope)
    ensures DirectiveDw(exprs, scope).Bytes? <==>
      forall k | 0 <= k < |exprs| :: Operand(exprs[k], scope, 0, 65535).Got?
    decreases |exprs|
  {
    if |exprs| > 0 {
      DirectiveDwSucceeds(exprs[1..], scope);
      assert forall k | 1 <= k < |exprs| :: exprs[1..][k - 1] == exprs[k];
    }
  }

  /** When DW succeeds it emits each value as two bytes, high byte
      first. */
  lemma {:induction false} DirectiveDwValues(exprs: seq<Expr>, scope: Scope)
    ensures DirectiveDw(exprs, scope).Bytes? <==>
      forall k | 0 <= k < |exprs| :: Operand(exprs[k], scope, 0, 65535).Got?
    ensures DirectiveDw(exprs, scope).Bytes? ==>
      var b := DirectiveDw(exprs, scope).bytes;
      && |b| == 2 * |exprs| && AllBytes(b)
      && (forall k | 0 <= k < |exprs| :: 256 * b[2 * k] + b[2 * k + 1] == Operand(exprs[k], scope, 0, 65535).v)
    decreases |exprs|
  {
    DirectiveDwSucceeds(exprs, scope);
    if |exprs| > 0 && DirectiveDw(exprs, scope).Bytes? {
      DirectiveDwValues(exprs[1..], scope);
      DwCons(exprs, scope);
    }
  }

  /** One more DW operand in front of operands already encoded. */
  lemma DwCons(exprs: seq<Expr>, scope: Scope)
    requires |exprs| > 0 && forall k | 0 <= k < |exprs| :: Operand(exprs[k], scope, 0, 65535).Got?
    requires var rest := DirectiveDw(exprs[1..], scope);
      && rest.Bytes? && |rest.bytes| == 2 * (|exprs| - 1) && AllBytes(rest.bytes)
      && forall k | 0 <= k < |exprs| - 1 ::
           && Operand(exprs[1..][k], scope, 0, 65535).Got?
           && 256 * rest.bytes[2 * k] + rest.bytes[2 * k + 1] == Operand(exprs[1..][k], scope, 0, 65535).v
    ensures DirectiveDw(exprs, scope).Bytes?
    ensures var b := DirectiveDw(exprs, scope).bytes;
      && |b| == 2 * |exprs| && AllBytes(b)
      && (forall k | 0 <= k < |exprs| :: 256 * b[2 * k] + b[2 * k + 1] == Operand(exprs[k], scope, 0, 65535).v)
  {
    var r := Operand(exprs[0], scope, 0, 65535);
    var rest := DirectiveDw(exprs[1..], scope);
    assert r.Got?;
    assert DirectiveDw(exprs, scope) == Bytes([r.v / 256, BitAnd(r.v, 0xFF)] + rest.bytes);
    var values := seq(|exprs| - 1, k requires 0 <= k < |exprs| - 1 => Operand(exprs[k + 1], scope, 0, 65535).v);
    assert forall k | 0 <= k < |exprs| - 1 :: exprs[1..][k] == exprs[k + 1];
    WordsCons(r.v, rest.bytes, values);
  }

  /** A word written high byte first in front of the words of a list. */
  lemma WordsCons(w: int, rest: seq<int>, values: seq<int>)
    requires 0 <= w <= 65535 && AllBytes(rest) && |rest| == 2 * |values|
    requires forall k | 0 <= k < |values| :: 256 * rest[2 * k] + rest[2 * k + 1] == values[k]
    ensures var b := [w / 256, BitAnd(w, 0xFF)] + rest;
      && |b| == 2 * (|values| + 1) && AllBytes(b) && 256 * b[0] + b[1] == w
      && forall k | 1 <= k <= |values| :: 256 * b[2 * k] + b[2 * k + 1] == values[k - 1]
  {
    LowByte(w);
    var b := [w / 256, BitAnd(w, 0xFF)] + rest;
    forall k | 1 <= k <= |values|
      ensures 256 * b[2 * k] + b[2 * k + 1] == values[k - 1]
    {
      assert b[2 * k] == rest[2 * (k - 1)] && b[2 * k + 1] == rest[2 * (k - 1) + 1];
    }
  }

  // ---------------------------------------------------------------------
  // Pass 1

  /** A statement marked with an error, by its position in the program. */
  datatype Flagged = Flagged(line: nat, problem: Problem)

  /** What pass 1 carries from statement to statement.  `expr_errors` is
      the number of flagged statements. */
  datatype PassOne = PassOne(
    symbols: map<string, int>,
    pc: int,
    textErrors: nat,
    deferred: seq<nat>,           // list_of_deferred_equates, by position
    nextPcs: seq<Option<int>>,    // S.next_pc, as DS and ORG fill it in
    flagged: seq<Flagged>)

  function Start(stmts: seq<Statement>): (st: PassOne)
    ensures |st.nextPcs| == |stmts|
  {
    PassOne(map[], 0x200, 0, [], seq(|stmts|, k requires 0 <= k < |stmts| => stmts[k].nextPc), [])
  }

  function Flag(st: PassOne, i: nat, p: Problem): PassOne
  {
    st.(flagged := st.flagged + [Flagged(i, p)])
  }

  function ErrorCount(st: PassOne): nat { st.textErrors + |st.flagged| }

  /** Defining the statement's name, if it has one: a name already in
      the table is an error, a label takes the PC, an EQU takes its value
      or, when that raises IndexError, waits for the retry. */
  function DefineName(s: Statement, i: nat, st: PassOne): (r: PassOne)
    ensures r.pc == st.pc && r.nextPcs == st.nextPcs && r.textErrors == st.textErrors
  {
    if s.definedName == "" then st
    else if s.definedName in st.symbols then Flag(st, i, DefinedTwice(s.definedName))
    else if s.form != "EQU" then st.(symbols := st.symbols[s.definedName := st.pc])
    else match FirstOperand(s, Symbols(st.symbols), 0, 65535)
      case Got(v) => st.(symbols := st.symbols[s.definedName := v])
      case Raised(p) => if IsIndexError(p) then st.(deferred := st.deferred + [i]) else Flag(st, i, p)
  }

  /** Advancing the PC.  DS and ORG evaluate their expression now, so a
      name defined further down is an error for them.  As written, the
      branch for any other form without a byte count crashes: its first
      line names `s`, which is not defined (None).  Corrected, it flags
      the statement as its message intends. */
  function Advance(s: Statement, i: nat, st: PassOne, corrected: bool): (r: Option<PassOne>)
    requires i < |st.nextPcs|
    ensures r.Some? ==> |r.value.nextPcs| == |st.nextPcs| && r.value.textErrors == st.textErrors
  {
    match s.nextPc
    case Some(n) => Some(st.(pc := st.pc + n))
    case None =>
      if s.form == "DS" then
        Some(match FirstOperand(s, Symbols(st.symbols), 0, 4096 - st.pc)
          case Got(v) => st.(pc := st.pc + v, nextPcs := st.nextPcs[i := Some(v)])
          case Raised(p) => Flag(st, i, p))
      else if s.form == "ORG" then
        Some(match FirstOperand(s, Symbols(st.symbols), 0x200, 0xFFF)
          case Got(v) => st.(pc := v, nextPcs := st.nextPcs[i := Some(v)])
          case Raised(p) => Flag(st, i, p))
      else if corrected then Some(Flag(st, i, Unexpected(s.form)))
      else None
  }

  /** One statement of pass 1: a statement with a syntax error is only
      counted. */
  function StepOne(s: Statement, i: nat, st: PassOne, corrected: bool): (r: Option<PassOne>)
    requires i < |st.nextPcs|
    ensures r.Some? ==> |r.value.nextPcs| == |st.nextPcs|
  {
    if s.textError then Some(st.(textErrors := st.textErrors + 1))
    else Advance(s, i, DefineName(s, i, st), corrected)
  }

  predicate DeferredIn(st: PassOne, n: nat)
  {
    forall k | 0 <= k < |st.deferred| :: st.deferred[k] < n
  }

  /** Pass 1 from statement i on; the pass stops at the statement that
      takes the PC past 4095. */
  function PassOneFrom(stmts: seq<Statement>, i: nat, st: PassOne, corrected: bool): (r: Option<PassOne>)
    requires i <= |stmts| == |st.nextPcs| && DeferredIn(st, |stmts|)
    ensures r.Some? ==> |r.value.nextPcs| == |stmts| && DeferredIn(r.value, |stmts|)
    decreases |stmts| - i
  {
    if i == |stmts| then Some(st)
    else match StepOne(stmts[i], i, st, corrected)
      case None => None
      case Some(next) =>
        if next.pc > 4095 then Some(Flag(next, i, TooLarge))
        else PassOneFrom(stmts, i + 1, next, corrected)
  }

  // ---------------------------------------------------------------------
  // The retry of deferred equates

  /** One deferred EQU, retried.  As written the value simply replaces
      any binding the name got in the meantime; the corrected retry
      repeats pass 1's duplicate check. */
  function RetryOne(s: Statement, i: nat, st: PassOne, corrected: bool): (r: PassOne)
    ensures r.pc == st.pc && r.nextPcs == st.nextPcs && r.textErrors == st.textErrors
  {
    if corrected && s.definedName in st.symbols then Flag(st, i, DefinedTwice(s.definedName))
    else match FirstOperand(s, Symbols(st.symbols), 0, 65535)
      case Got(v) => st.(symbols := st.symbols[s.definedName := v])
      case Raised(p) => Flag(st, i, p)
  }

  /** The deferred equates in reverse order, so that one that depends on
      a later one finds it defined. */
  function Retry(stmts: seq<Statement>, pending: seq<nat>, st: PassOne, corrected: bool): (r: PassOne)
    requires forall k | 0 <= k < |pending| :: pending[k] < |stmts|
    ensures r.pc == st.pc && r.nextPcs == st.nextPcs && r.textErrors == st.textErrors
    decreases |pending|
  {
    if |pending| == 0 then st
    else
      var i := pending[|pending| - 1];
      Retry(stmts, pending[..|pending| - 1], RetryOne(stmts[i], i, st, corrected), corrected)
  }

  /** Pass 1 and, when it found no error, the retry. */
  function PassOneAndRetry(stmts: seq<Statement>, corrected: bool): Option<PassOne>
  {
    match PassOneFrom(stmts, 0, Start(stmts), corrected)
    case None => None
    case Some(p1) => Some(if ErrorCount(p1) == 0 then Retry(stmts, p1.deferred, p1, corrected) else p1)
  }

  // ---------------------------------------------------------------------
  // Pass 2

  datatype PassTwo = PassTwo(image: seq<int>, pc: int, top: int, flagged: seq<Flagged>)

  /** One statement of pass 2.  An entry of the table writes its bytes
      at the PC with a slice assignment, or flags the statement and writes
      nothing; either way the PC moves on by the statement's count.  None
      is the TypeError of a missing count. */
  function PassTwoStep(s: Statement, n: Option<int>, symbols: map<string, int>, i: nat, st: PassTwo): Option<PassTwo>
  {
    match FormNamed(s.form)
    case Some(f) =>
      var written := match Encode(f, s, Symbols(symbols))
        case Bytes(b) => st.(image := SliceAssign(st.image, st.pc, st.pc + |b|, b))
        case Bad(p) => st.(flagged := st.flagged + [Flagged(i, p)]);
      if n.Some? then Some(written.(pc := written.pc + n.value)) else None
    case None =>
      if s.form == "ORG" then (if n.Some? then Some(st.(pc := n.value)) else None)
      else if s.form == "DS" then (if n.Some? then Some(st.(pc := st.pc + n.value)) else None)
      else if s.form == "EQU" || s.form == "" then Some(st)
      else Some(st.(flagged := st.flagged + [Flagged(i, Unexpected(s.form))]))
  }

  /** Pass 2 from statement i on, keeping the highest PC reached. */
  function PassTwoFrom(stmts: seq<Statement>, nextPcs: seq<Option<int>>, symbols: map<string, int>,
                       i: nat, st: PassTwo): Option<PassTwo>
    requires i <= |stmts| == |nextPcs|
    decreases |stmts| - i
  {
    if i == |stmts| then Some(st)
    else match PassTwoStep(stmts[i], nextPcs[i], symbols, i, st)
      case None => None
      case Some(next) => PassTwoFrom(stmts, nextPcs, symbols, i + 1, next.(top := Max(next.top, next.pc)))
  }

  // ---------------------------------------------------------------------
  // Assembly

  /** The list `assemble` returns: the bytes from 0x200 up to the highest
      address reached, or `[-1, text_errors, expr_errors]`; or the
      exception that ends it. */
  datatype Assembly =
    | Image(bytes: seq<int>)
    | Errors(textErrors: nat, exprErrors: nat, flagged: seq<Flagged>)
    | Crashed

  function AssembleWith(stmts: seq<Statement>, corrected: bool): Assembly
  {
    match PassOneAndRetry(stmts, corrected)
    case None => Crashed
    case Some(p) =>
      if ErrorCount(p) > 0 then Errors(p.textErrors, |p.flagged|, p.flagged)
      else match PassTwoFrom(stmts, p.nextPcs, p.symbols, 0, PassTwo(seq(4096, _ => 0), 0x200, 0, []))
        case None => Crashed
        case Some(p2) =>
          if |p2.flagged| > 0 then Errors(0, |p2.flagged|, p2.flagged)
          else Image(Slice(p2.image, 0x200, p2.top))
  }

  /** `assemble`, with its two evident slips corrected. */
  function Assemble(stmts: seq<Statement>): Assembly { AssembleWith(stmts, true) }

  /** `assemble` as written. */
  function AssembleAsWritten(stmts: seq<Statement>): Assembly { AssembleWith(stmts, false) }

  // ---------------------------------------------------------------------
  // What pass 1 promises

  /** Every binding of `before` is still in `after`, with the same value. */
  predicate KeepsBindings(before: map<string, int>, after: map<string, int>)
  {
    forall name | name in before :: name in after && after[name] == before[name]
  }

  /** What a later state of pass 1 keeps of an earlier one reached at
      statement i: bindings, flags, deferred equates, error counts and
      the byte counts of the statements before i. */
  predicate Grows(st: PassOne, r: PassOne, i: nat)
  {
    && KeepsBindings(st.symbols, r.symbols)
    && st.flagged <= r.flagged
    && st.deferred <= r.deferred
    && st.textErrors <= r.textErrors
    && |r.nextPcs| == |st.nextPcs|
    && (forall k | 0 <= k < i && k < |st.nextPcs| :: r.nextPcs[k] == st.nextPcs[k])
  }

  lemma DefineGrows(s: Statement, i: nat, st: PassOne)
    ensures Grows(st, DefineName(s, i, st), i)
  {
  }

  lemma AdvanceGrows(s: Statement, i: nat, st: PassOne, corrected: bool)
    requires i < |st.nextPcs|
    ensures Advance(s, i, st, corrected).Some? ==> Grows(st, Advance(s, i, st, corrected).value, i)
  {
  }

  lemma StepGrows(s: Statement, i: nat, st: PassOne, corrected: bool)
    requires i < |st.nextPcs|
    ensures var r := StepOne(s, i, st, corrected);
      r.Some? ==> Grows(st, r.value, i)
                  && forall k | i < k < |st.nextPcs| :: r.value.nextPcs[k] == st.nextPcs[k]
  {
    if !s.textError {
      DefineGrows(s, i, st);
      AdvanceGrows(s, i, DefineName(s, i, st), corrected);
    }
  }

  /** Pass 1 never takes back a binding, a flag or a deferred equate. */
  lemma {:induction false} PassOneGrows(stmts: seq<Statement>, i: nat, st: PassOne, corrected: bool)
    requires i <= |stmts| == |st.nextPcs| && DeferredIn(st, |stmts|)
    ensures PassOneFrom(stmts, i, st, corrected).Some? ==> Grows(st, PassOneFrom(stmts, i, st, corrected).value, i)
    decreases |stmts| - i
  {
    if i < |stmts| {
      StepGrows(stmts[i], i, st, corrected);
      var next := StepOne(stmts[i], i, st, corrected);
      if next.Some? && next.value.pc <= 4095 {
        PassOneGrows(stmts, i + 1, next.value, corrected);
      }
    }
  }

  /** A label takes the PC pass 1 has reached at its statement, and keeps
      it to the end of the pass. */
  lemma LabelTakesPc(stmts: seq<Statement>, i: nat, st: PassOne, corrected: bool)
    requires i < |stmts| == |st.nextPcs| && DeferredIn(st, |stmts|)
    requires !stmts[i].textError && stmts[i].definedName != "" && stmts[i].form != "EQU"
    requires stmts[i].definedName !in st.symbols
    ensures var r := PassOneFrom(stmts, i, st, corrected);
      r.Some? ==> stmts[i].definedName in r.value.symbols && r.value.symbols[stmts[i].definedName] == st.pc
  {
    var next := StepOne(stmts[i], i, st, corrected);
    if next.Some? && next.value.pc <= 4095 {
      PassOneGrows(stmts, i + 1, next.value, corrected);
    }
  }

  /** A name defined a second time is flagged at the second definition,
      and the first binding stays. */
  lemma DuplicateKeepsFirst(stmts: seq<Statement>, i: nat, st: PassOne, corrected: bool)
    requires i < |stmts| == |st.nextPcs| && DeferredIn(st, |stmts|)
    requires !stmts[i].textError && stmts[i].definedName != "" && stmts[i].definedName in st.symbols
    ensures var r := PassOneFrom(stmts, i, st, corrected); var name := stmts[i].definedName;
      r.Some? ==> name in r.value.symbols && r.value.symbols[name] == st.symbols[name]
                  && Flagged(i, DefinedTwice(name)) in r.value.flagged
  {
    var name := stmts[i].definedName;
    PassOneGrows(stmts, i, st, corrected);
    var d := DefineName(stmts[i], i, st);
    assert d.flagged == st.flagged + [Flagged(i, DefinedTwice(name))];
    AdvanceGrows(stmts[i], i, d, corrected);
    var next := StepOne(stmts[i], i, st, corrected);
    if next.Some? {
      assert next.value.flagged[|st.flagged|] == Flagged(i, DefinedTwice(name));
      if next.value.pc <= 4095 {
        PassOneGrows(stmts, i + 1, next.value, corrected);
      }
    }
  }

  /** The number the first expression evaluates to, if it evaluates to a
      number at all. */
  function FirstValue(s: Statement, scope: Scope): (r: Option<int>)
    ensures r.Some? ==> |s.exprs| > 0 && Eval(s.exprs[0], scope) == Ok(Int(r.value))
  {
    if |s.exprs| == 0 then None
    else match Eval(s.exprs[0], scope)
      case Ok(Int(n)) => Some(n)
      case _ => None
  }

  /** An EQU whose name is new takes its value when it has one in
      0..65535, waits for the retry when a name in it is not yet defined
      or it has no expression, and is flagged otherwise. */
  lemma EquDefines(s: Statement, i: nat, st: PassOne)
    requires !s.textError && s.definedName != "" && s.definedName !in st.symbols && s.form == "EQU"
    ensures var d := DefineName(s, i, st); var v := FirstValue(s, Symbols(st.symbols));
      if v.Some? && 0 <= v.value <= 65535 then
        d.symbols == st.symbols[s.definedName := v.value] && d.flagged == st.flagged
      else if |s.exprs| == 0 || Eval(s.exprs[0], Symbols(st.symbols)).Undefined? then
        d.symbols == st.symbols && d.deferred == st.deferred + [i] && d.flagged == st.flagged
      else
        d.symbols == st.symbols && d.deferred == st.deferred && |d.flagged| == |st.flagged| + 1
  {
    if |s.exprs| > 0 {
      OperandMeaning(s.exprs[0], Symbols(st.symbols), 0, 65535);
    }
  }

  /** ORG moves the PC to its value when that is an address in
      0x200..0xFFF and records it as the statement's byte count; any other
      value, or none, is flagged and leaves the PC where it was. */
  lemma OrgSetsPc(s: Statement, i: nat, st: PassOne, corrected: bool)
    requires i < |st.nextPcs| && !s.textError && s.nextPc.None? && s.form == "ORG"
    ensures var d := DefineName(s, i, st); var r := StepOne(s, i, st, corrected);
      var v := FirstValue(s, Symbols(d.symbols));
      && r.Some?
      && if v.Some? && 0x200 <= v.value <= 0xFFF then
           r.value.pc == v.value && r.value.nextPcs[i] == Some(v.value) && r.value.flagged == d.flagged
         else
           r.value.pc == st.pc && |r.value.flagged| == |d.flagged| + 1
  {
    var d := DefineName(s, i, st);
    if |s.exprs| > 0 {
      OperandMeaning(s.exprs[0], Symbols(d.symbols), 0x200, 0xFFF);
    }
  }

  /** DS moves the PC on by its value when that stays within memory
      (0..4096 - PC) and records it as the statement's byte count; any
      other value, or none, is flagged and leaves the PC where it was. */
  lemma DsReserves(s: Statement, i: nat, st: PassOne, corrected: bool)
    requires i < |st.nextPcs| && !s.textError && s.nextPc.None? && s.form == "DS"
    ensures var d := DefineName(s, i, st); var r := StepOne(s, i, st, corrected);
      var v := FirstValue(s, Symbols(d.symbols));
      && r.Some?
      && if v.Some? && 0 <= v.value <= 4096 - st.pc then
           r.value.pc == st.pc + v.value <= 4096 && r.value.nextPcs[i] == Some(v.value)
           && r.value.flagged == d.flagged
         else
           r.value.pc == st.pc && |r.value.flagged| == |d.flagged| + 1
  {
    var d := DefineName(s, i, st);
    if |s.exprs| > 0 {
      OperandMeaning(s.exprs[0], Symbols(d.symbols), 0, 4096 - st.pc);
    }
  }

  /** Pass 1 ends with the PC inside memory, unless its last act was to
      flag the statement that took the PC past 4095. */
  lemma {:induction false} PassOnePcInMemory(stmts: seq<Statement>, i: nat, st: PassOne, corrected: bool)
    requires i <= |stmts| == |st.nextPcs| && DeferredIn(st, |stmts|) && st.pc <= 4095
    ensures var r := PassOneFrom(stmts, i, st, corrected);
      r.Some? && r.value.pc > 4095 ==>
        |r.value.flagged| > 0 && r.value.flagged[|r.value.flagged| - 1].problem == TooLarge
    decreases |stmts| - i
  {
    if i < |stmts| {
      var next := StepOne(stmts[i], i, st, corrected);
      if next.Some? {
        if next.value.pc <= 4095 {
          PassOneUnfold(stmts, i, st, corrected, next.value);
          PassOnePcInMemory(stmts, i + 1, next.value, corrected);
        } else {
          PassOneOverflows(stmts, i, st, corrected, next.value);
        }
      }
    }
  }

  /** The statement that takes the PC past 4095 ends pass 1 flagged. */
  lemma PassOneOverflows(stmts: seq<Statement>, i: nat, st: PassOne, corrected: bool, next: PassOne)
    requires i < |stmts| == |st.nextPcs| && DeferredIn(st, |stmts|)
    requires StepOne(stmts[i], i, st, corrected) == Some(next) && next.pc > 4095
    ensures PassOneFrom(stmts, i, st, corrected) == Some(Flag(next, i, TooLarge))
  {
  }

  // ---------------------------------------------------------------------
  // What the retry promises

  /** The corrected retry never takes back a binding either: a deferred
      equate whose name was bound in the meantime is flagged instead. */
  lemma {:induction false} RetryKeepsBindings(stmts: seq<Statement>, pending: seq<nat>, st: PassOne)
    requires forall k | 0 <= k < |pending| :: pending[k] < |stmts|
    ensures var r := Retry(stmts, pending, st, true);
      KeepsBindings(st.symbols, r.symbols) && st.flagged <= r.flagged
    decreases |pending|
  {
    if |pending| > 0 {
      var i := pending[|pending| - 1];
      RetryKeepsBindings(stmts, pending[..|pending| - 1], RetryOne(stmts[i], i, st, true));
    }
  }

  /** Every deferred equate ends the retry bound or flagged. */
  lemma {:induction false} RetrySettles(stmts: seq<Statement>, pending: seq<nat>, st: PassOne, corrected: bool)
    requires forall k | 0 <= k < |pending| :: pending[k] < |stmts|
    ensures var r := Retry(stmts, pending, st, corrected);
      forall k | 0 <= k < |pending| ::
        stmts[pending[k]].definedName in r.symbols || IsFlagged(r, pending[k])
    decreases |pending|
  {
    if |pending| > 0 {
      var i := pending[|pending| - 1];
      var one := RetryOne(stmts[i], i, st, corrected);
      var rest := pending[..|pending| - 1];
      RetrySettles(stmts, rest, one, corrected);
      RetryGrows(stmts, rest, one, corrected);
      var r := Retry(stmts, rest, one, corrected);
      if !(stmts[i].definedName in one.symbols) {
        assert one.flagged[|st.flagged|].line == i;
        assert r.flagged[|st.flagged|].line == i;
      }
      forall k | 0 <= k < |pending|
        ensures stmts[pending[k]].definedName in r.symbols || IsFlagged(r, pending[k])
      {
        if k < |rest| {
          assert pending[k] == rest[k];
        }
      }
    }
  }

  predicate IsFlagged(st: PassOne, line: nat)
  {
    exists j | 0 <= j < |st.flagged| :: st.flagged[j].line == line
  }

  /** The retry, corrected or not, only adds: a name bound before stays
      bound (as written, perhaps to another value), and flags are never
      taken back. */
  lemma {:induction false} RetryGrows(stmts: seq<Statement>, pending: seq<nat>, st: PassOne, corrected: bool)
    requires forall k | 0 <= k < |pending| :: pending[k] < |stmts|
    ensures var r := Retry(stmts, pending, st, corrected);
      st.symbols.Keys <= r.symbols.Keys && st.flagged <= r.flagged
    decreases |pending|
  {
    if |pending| > 0 {
      var i := pending[|pending| - 1];
      RetryGrows(stmts, pending[..|pending| - 1], RetryOne(stmts[i], i, st, corrected), corrected);
    }
  }

  // ---------------------------------------------------------------------
  // When assembly crashes

  /** A statement that pass 1 gets through without an error has its byte
      count: the one the recognizer gave it, or the value of its DS or
      ORG. */
  lemma StepCounts(s: Statement, i: nat, st: PassOne, corrected: bool)
    requires i < |st.nextPcs| && st.nextPcs[i] == s.nextPc
    ensures var r := StepOne(s, i, st, corrected);
      r.Some? && ErrorCount(r.value) == ErrorCount(st) ==> r.value.nextPcs[i].Some?
  {
    if !s.textError {
      DefineGrows(s, i, st);
    }
  }

  lemma GrowsCounts(st: PassOne, r: PassOne, i: nat)
    requires Grows(st, r, i)
    ensures ErrorCount(st) <= ErrorCount(r)
  {
    assert |st.flagged| <= |r.flagged|;
  }

  /** The first step of a pass 1 that ends without errors: it has no
      error either, gives statement i its count and leaves the rest alone. */
  lemma CleanStep(stmts: seq<Statement>, i: nat, st: PassOne, corrected: bool)
    requires i < |stmts| == |st.nextPcs| && DeferredIn(st, |stmts|)
    requires st.nextPcs[i] == stmts[i].nextPc
    requires PassOneFrom(stmts, i, st, corrected).Some? && ErrorCount(PassOneFrom(stmts, i, st, corrected).value) == 0
    ensures var next := StepOne(stmts[i], i, st, corrected);
      && next.Some? && next.value.pc <= 4095
      && ErrorCount(st) == ErrorCount(next.value) == 0
      && PassOneFrom(stmts, i, st, corrected) == PassOneFrom(stmts, i + 1, next.value, corrected)
      && next.value.nextPcs[i].Some?
      && DeferredIn(next.value, |stmts|)
      && |next.value.nextPcs| == |stmts|
      && forall k | i < k < |stmts| :: next.value.nextPcs[k] == st.nextPcs[k]
  {
    var r := PassOneFrom(stmts, i, st, corrected);
    var next := StepOne(stmts[i], i, st, corrected);
    StepGrows(stmts[i], i, st, corrected);
    GrowsCounts(st, next.value, i);
    PassOneGrows(stmts, i + 1, next.value, corrected);
    GrowsCounts(next.value, r.value, i + 1);
    StepCounts(stmts[i], i, st, corrected);
  }

  /** After a pass 1 without errors every statement has its byte count. */
  lemma {:induction false} CleanPassOneCounts(stmts: seq<Statement>, i: nat, st: PassOne, corrected: bool)
    requires i <= |stmts| == |st.nextPcs| && DeferredIn(st, |stmts|)
    requires forall k | i <= k < |stmts| :: st.nextPcs[k] == stmts[k].nextPc
    ensures var r := PassOneFrom(stmts, i, st, corrected);
      r.Some? && ErrorCount(r.value) == 0 ==> forall k | i <= k < |stmts| :: r.value.nextPcs[k].Some?
    decreases |stmts| - i
  {
    var r := PassOneFrom(stmts, i, st, corrected);
    if i < |stmts| && r.Some? && ErrorCount(r.value) == 0 {
      CleanStep(stmts, i, st, corrected);
      var next := StepOne(stmts[i], i, st, corrected).value;
      CleanPassOneCounts(stmts, i + 1, next, corrected);
      PassOneGrows(stmts, i + 1, next, corrected);
      assert r.value.nextPcs[i] == next.nextPcs[i];
    }
  }

  /** With every byte count present, pass 2 runs to the end. */
  lemma {:induction false} PassTwoTotal(stmts: seq<Statement>, nextPcs: seq<Option<int>>, symbols: map<string, int>,
                                        i: nat, st: PassTwo)
    requires i <= |stmts| == |nextPcs|
    requires forall k | i <= k < |stmts| :: nextPcs[k].Some?
    ensures PassTwoFrom(stmts, nextPcs, symbols, i, st).Some?
    decreases |stmts| - i
  {
    if i < |stmts| {
      var next := PassTwoStep(stmts[i], nextPcs[i], symbols, i, st);
      assert next.Some?;
      PassTwoTotal(stmts, nextPcs, symbols, i + 1, next.value.(top := Max(next.value.top, next.value.pc)));
    }
  }

  /** Assembly crashes exactly when pass 1 does: pass 2 only runs after a
      pass 1 without errors, and then finds every count it needs. */
  lemma CrashesOnlyInPassOne(stmts: seq<Statement>, corrected: bool)
    ensures AssembleWith(stmts, corrected).Crashed? <==> PassOneFrom(stmts, 0, Start(stmts), corrected).None?
  {
    var start := Start(stmts);
    var p1 := PassOneFrom(stmts, 0, start, corrected);
    if p1.Some? && ErrorCount(p1.value) == 0 {
      CleanPassOneCounts(stmts, 0, start, corrected);
      var p := Retry(stmts, p1.value.deferred, p1.value, corrected);
      PassTwoTotal(stmts, p.nextPcs, p.symbols, 0, PassTwo(seq(4096, _ => 0), 0x200, 0, []));
    }
  }

  /** The corrected pass 1 never crashes. */
  lemma {:induction false} CorrectedPassOneTotal(stmts: seq<Statement>, i: nat, st: PassOne)
    requires i <= |stmts| == |st.nextPcs| && DeferredIn(st, |stmts|)
    ensures PassOneFrom(stmts, i, st, true).Some?
    decreases |stmts| - i
  {
    if i < |stmts| {
      var next := StepOne(stmts[i], i, st, true);
      assert next.Some?;
      if next.value.pc <= 4095 {
        CorrectedPassOneTotal(stmts, i + 1, next.value);
      }
    }
  }

  /** Corrected, assembly always ends with an image or an error count. */
  lemma AssembleNeverCrashes(stmts: seq<Statement>)
    ensures !Assemble(stmts).Crashed?
  {
    CorrectedPassOneTotal(stmts, 0, Start(stmts));
    CrashesOnlyInPassOne(stmts, true);
  }

  // ---------------------------------------------------------------------
  // What pass 2 writes

  /** A form pass 2 knows: a key of the opcode table, or one of the forms
      it deals with itself. */
  predicate Handled(form: string)
  {
    FormNamed(form).Some? || form in {"DS", "EQU", "ORG", ""}
  }

  /** A statement pass 2 takes without flagging it: its form is handled
      and, for an entry of the table, it encodes. */
  predicate Accepted(s: Statement, symbols: map<string, int>)
  {
    && Handled(s.form)
    && (FormNamed(s.form).Some? ==> Encode(FormNamed(s.form).value, s, Symbols(symbols)).Bytes?)
  }

  /** The bytes a statement writes in pass 2: its encoding, or nothing. */
  function Written(s: Statement, symbols: map<string, int>): seq<int>
  {
    match FormNamed(s.form)
    case Some(f) => (match Encode(f, s, Symbols(symbols))
      case Bytes(b) => b
      case Bad(_) => [])
    case None => []
  }

  /** What pass 2 does with one statement: the PC moves on by the count
      (an entry of the table, DS), is set to it (ORG) or stays (the rest),
      and the bytes are written at the PC. */
  datatype Placement = Placement(moves: bool, sets: bool, count: int, bytes: seq<int>)

  function Place(s: Statement, count: Option<int>, symbols: map<string, int>): Placement
  {
    Placement(FormNamed(s.form).Some? || s.form == "DS", s.form == "ORG",
              if count.Some? then count.value else 0, Written(s, symbols))
  }

  /** Where the PC goes after a placement. */
  function After(p: Placement, pc: int): int
  {
    if p.moves then pc + p.count else if p.sets then p.count else pc
  }

  /** The sequence f(i), f(i + 1), …, f(n - 1). */
  function Tabulate<T>(f: nat -> T, n: nat, i: nat): (xs: seq<T>)
    requires i <= n
    ensures |xs| == n - i
    decreases n - i
  {
    if i == n then [] else [f(i)] + Tabulate(f, n, i + 1)
  }

  lemma {:induction false} TabulateAt<T>(f: nat -> T, n: nat, i: nat, k: nat)
    requires i <= k < n
    ensures Tabulate(f, n, i)[k - i] == f(k)
    decreases k - i
  {
    if k > i {
      TabulateAt(f, n, i + 1, k);
    }
  }

  /** Statement k's placement, from its byte count. */
  function PlaceAt(stmts: seq<Statement>, counts: seq<Option<int>>, symbols: map<string, int>): nat -> Placement
    requires |stmts| == |counts|
  {
    (k: nat) => if k < |stmts| then Place(stmts[k], counts[k], symbols) else Placement(false, false, 0, [])
  }

  /** The placements of a whole program, from its byte counts. */
  function Plan(stmts: seq<Statement>, counts: seq<Option<int>>, symbols: map<string, int>): (plan: seq<Placement>)
    requires |stmts| == |counts|
    ensures |plan| == |stmts|
  {
    Tabulate(PlaceAt(stmts, counts, symbols), |stmts|, 0)
  }

  /** Each placement is that of its statement. */
  lemma PlanAt(stmts: seq<Statement>, counts: seq<Option<int>>, symbols: map<string, int>, k: nat)
    requires k < |stmts| == |counts|
    ensures Plan(stmts, counts, symbols)[k] == Place(stmts[k], counts[k], symbols)
  {
    TabulateAt(PlaceAt(stmts, counts, symbols), |stmts|, 0, k);
  }

  /** The PC pass 2 reaches before placement k. */
  function Layout(plan: seq<Placement>, k: nat): int
    requires k <= |plan|
  {
    if k == 0 then 0x200 else After(plan[k - 1], Layout(plan, k - 1))
  }

  /** The highest PC reached after one of the first k placements, or 0. */
  function Highest(plan: seq<Placement>, k: nat): int
    requires k <= |plan|
  {
    if k == 0 then 0 else Max(Highest(plan, k - 1), Layout(plan, k))
  }

  /** The bytes of placement k cover address a. */
  predicate Covers(plan: seq<Placement>, k: nat, a: int)
    requires k < |plan|
  {
    Layout(plan, k) <= a < Layout(plan, k) + |plan[k].bytes|
  }

  /** Placement k is the last of the plan to write address a. */
  predicate LastWriter(plan: seq<Placement>, k: nat, a: int)
    requires k < |plan|
  {
    Covers(plan, k, a) && forall l | k < l < |plan| :: !Covers(plan, l, a)
  }

  /** Address a after the first k placements, one address at a time: the
      byte of the last of them that covers it, or 0. */
  function ByteAfter(plan: seq<Placement>, k: nat, a: int): int
    requires k <= |plan|
  {
    if k == 0 then 0
    else if Covers(plan, k - 1, a) then plan[k - 1].bytes[a - Layout(plan, k - 1)]
    else ByteAfter(plan, k - 1, a)
  }

  /** The top is the highest PC reached: none reached after a placement is
      above it, and it is one of them unless it is still 0. */
  lemma {:induction false} HighestIsMax(plan: seq<Placement>, k: nat)
    requires k <= |plan|
    ensures forall j | 0 < j <= k :: Layout(plan, j) <= Highest(plan, k)
    ensures Highest(plan, k) == 0 || exists j | 0 < j <= k :: Highest(plan, k) == Layout(plan, j)
    decreases k
  {
    if k > 0 {
      HighestIsMax(plan, k - 1);
      if Highest(plan, k) != Highest(plan, k - 1) {
        assert Highest(plan, k) == Layout(plan, k);
      }
    }
  }

  /** An address no placement covers still holds 0. */
  lemma {:induction false} ByteAfterUncovered(plan: seq<Placement>, k: nat, a: int)
    requires k <= |plan|
    requires forall j | 0 <= j < k :: !Covers(plan, j, a)
    ensures ByteAfter(plan, k, a) == 0
    decreases k
  {
    if k > 0 {
      ByteAfterUncovered(plan, k - 1, a);
    }
  }

  /** An address holds the byte of the last placement whose bytes cover
      it. */
  lemma {:induction false} ByteAfterLastWriter(plan: seq<Placement>, k: nat, j: nat, a: int)
    requires j < k <= |plan|
    requires Covers(plan, j, a)
    requires forall l | j < l < k :: !Covers(plan, l, a)
    ensures ByteAfter(plan, k, a) == plan[j].bytes[a - Layout(plan, j)]
    decreases k
  {
    if k - 1 > j {
      ByteAfterLastWriter(plan, k - 1, j, a);
    }
  }

  /** One statement of pass 2, address by address: the PC moves as its
      placement says, and the image holds the statement's bytes from the
      PC on and keeps every other address, growing only past its end. */
  lemma StepWrites(s: Statement, n: int, symbols: map<string, int>, i: nat, st: PassTwo)
    requires 0 <= st.pc <= |st.image|
    ensures var r := PassTwoStep(s, Some(n), symbols, i, st); var w := Written(s, symbols);
      && r.Some?
      && r.value.pc == After(Place(s, Some(n), symbols), st.pc)
      && r.value.top == st.top
      && |r.value.image| == Max(|st.image|, st.pc + |w|)
      && forall a | 0 <= a < |st.image| ::
           r.value.image[a] == if st.pc <= a < st.pc + |w| then w[a - st.pc] else st.image[a]
  {
    if FormNamed(s.form).Some? {
      match Encode(FormNamed(s.form).value, s, Symbols(symbols))
      case Bytes(b) => SliceAssignAt(st.image, st.pc, b);
      case Bad(_) =>
    }
  }

  /** One statement of pass 2 adds a flag exactly when it is not accepted. */
  lemma StepFlags(s: Statement, n: int, symbols: map<string, int>, i: nat, st: PassTwo)
    ensures var r := PassTwoStep(s, Some(n), symbols, i, st);
      && r.Some?
      && st.flagged <= r.value.flagged
      && (r.value.flagged == st.flagged <==> Accepted(s, symbols))
  {
  }

  /** Pass 2 with every count present flags nothing exactly when it
      accepts every statement. */
  lemma {:induction false} PassTwoFlags(stmts: seq<Statement>, counts: seq<Option<int>>,
                                        symbols: map<string, int>, i: nat, st: PassTwo)
    requires i <= |stmts| == |counts|
    requires forall k | i <= k < |stmts| :: counts[k].Some?
    ensures var r := PassTwoFrom(stmts, counts, symbols, i, st);
      && r.Some?
      && st.flagged <= r.value.flagged
      && (r.value.flagged == st.flagged <==> forall k | i <= k < |stmts| :: Accepted(stmts[k], symbols))
    decreases |stmts| - i
  {
    if i < |stmts| {
      StepFlags(stmts[i], counts[i].value, symbols, i, st);
      var next := PassTwoStep(stmts[i], counts[i], symbols, i, st).value;
      PassTwoFlags(stmts, counts, symbols, i + 1, next.(top := Max(next.top, next.pc)));
    }
  }

  /** A state that moves and writes as placement i says agrees with the
      plan after i + 1 when the state before agreed with it after i. */
  lemma PlacementLays(plan: seq<Placement>, i: nat, st: PassTwo, r: PassTwo)
    requires i < |plan| && 0 <= Layout(plan, i) <= 4096 && |st.image| >= 4096
    requires st.pc == Layout(plan, i) && st.top == Highest(plan, i)
    requires forall a | 0 <= a < 4096 :: st.image[a] == ByteAfter(plan, i, a)
    requires r.pc == After(plan[i], st.pc) && r.top == st.top
    requires |r.image| == Max(|st.image|, st.pc + |plan[i].bytes|)
    requires forall a | 0 <= a < |st.image| ::
      r.image[a] == if st.pc <= a < st.pc + |plan[i].bytes| then plan[i].bytes[a - st.pc] else st.image[a]
    ensures r.pc == Layout(plan, i + 1) && Max(r.top, r.pc) == Highest(plan, i + 1)
    ensures |r.image| >= 4096
    ensures forall a | 0 <= a < 4096 :: r.image[a] == ByteAfter(plan, i + 1, a)
  {
  }

  /** Pass 2 against its plan: with every count present and every PC it
      writes at inside memory, it ends at the plan's last PC, its top is
      the highest PC reached, and each address of memory holds the byte of
      the last statement that covers it. */
  lemma {:induction false} PassTwoLays(stmts: seq<Statement>, counts: seq<Option<int>>,
                                       symbols: map<string, int>, i: nat, st: PassTwo)
    requires i <= |stmts| == |counts|
    requires forall k | i <= k < |stmts| ::
      counts[k].Some? && 0 <= Layout(Plan(stmts, counts, symbols), k) <= 4096
    requires |st.image| >= 4096
    requires st.pc == Layout(Plan(stmts, counts, symbols), i)
    requires st.top == Highest(Plan(stmts, counts, symbols), i)
    requires forall a | 0 <= a < 4096 :: st.image[a] == ByteAfter(Plan(stmts, counts, symbols), i, a)
    ensures var r := PassTwoFrom(stmts, counts, symbols, i, st); var plan := Plan(stmts, counts, symbols);
      && r.Some?
      && r.value.pc == Layout(plan, |stmts|)
      && r.value.top == Highest(plan, |stmts|)
      && |r.value.image| >= 4096
      && forall a | 0 <= a < 4096 :: r.value.image[a] == ByteAfter(plan, |stmts|, a)
    decreases |stmts| - i
  {
    if i < |stmts| {
      var plan := Plan(stmts, counts, symbols);
      StepWrites(stmts[i], counts[i].value, symbols, i, st);
      var next := PassTwoStep(stmts[i], counts[i], symbols, i, st).value;
      PlanAt(stmts, counts, symbols, i);
      PlacementLays(plan, i, st, next);
      PassTwoLays(stmts, counts, symbols, i + 1, next.(top := Max(next.top, next.pc)));
    }
  }

  /** Two plans that move the PC alike before k reach the same PC there. */
  lemma {:induction false} LayoutPrefix(p1: seq<Placement>, p2: seq<Placement>, k: nat)
    requires k <= |p1| && k <= |p2|
    requires forall j | 0 <= j < k ::
      p1[j].moves == p2[j].moves && p1[j].sets == p2[j].sets && p1[j].count == p2[j].count
    ensures Layout(p1, k) == Layout(p2, k)
    decreases k
  {
    if k > 0 {
      LayoutPrefix(p1, p2, k - 1);
    }
  }

  /** Plans of one program whose counts agree before k reach the same PC
      there. */
  lemma PlanPrefix(stmts: seq<Statement>, c1: seq<Option<int>>, c2: seq<Option<int>>,
                   symbols: map<string, int>, k: nat)
    requires k <= |stmts| == |c1| == |c2|
    requires forall j | 0 <= j < k :: c1[j] == c2[j]
    ensures Layout(Plan(stmts, c1, symbols), k) == Layout(Plan(stmts, c2, symbols), k)
  {
    forall j | 0 <= j < k
      ensures Plan(stmts, c1, symbols)[j] == Plan(stmts, c2, symbols)[j]
    {
      PlanAt(stmts, c1, symbols, j);
      PlanAt(stmts, c2, symbols, j);
    }
    LayoutPrefix(Plan(stmts, c1, symbols), Plan(stmts, c2, symbols), k);
  }

  /** The PC of a plan after statement i, from the PC before it. */
  lemma PlanStep(stmts: seq<Statement>, counts: seq<Option<int>>, symbols: map<string, int>, i: nat)
    requires i < |stmts| == |counts|
    ensures Layout(Plan(stmts, counts, symbols), i + 1)
         == After(Place(stmts[i], counts[i], symbols), Layout(Plan(stmts, counts, symbols), i))
  {
    PlanAt(stmts, counts, symbols, i);
  }

  /** The byte counts phase_one gives are never negative. */
  predicate NonNegativeCount(s: Statement)
  {
    s.nextPc.Some? ==> s.nextPc.value >= 0
  }

  /** A step of pass 1 without an error keeps pass 2's PC at or below pass
      1's: both move on by the same count, except that ORG, EQU and a bare
      label may move pass 1's further.  `below` is pass 2's PC before the
      statement. */
  lemma StepKeepsBelow(s: Statement, i: nat, st: PassOne, corrected: bool, next: PassOne,
                       below: int, symbols: map<string, int>)
    requires i < |st.nextPcs| && st.nextPcs[i] == s.nextPc && NonNegativeCount(s)
    requires StepOne(s, i, st, corrected) == Some(next) && ErrorCount(next) == ErrorCount(st)
    requires 0 <= below <= st.pc
    ensures next.nextPcs[i].Some? && next.nextPcs == st.nextPcs[i := next.nextPcs[i]]
    ensures 0 <= After(Place(s, next.nextPcs[i], symbols), below) <= next.pc
  {
    StepCounts(s, i, st, corrected);
    DefineGrows(s, i, st);
    var d := DefineName(s, i, st);
    AdvanceGrows(s, i, d, corrected);
    assert |d.flagged| == |st.flagged|;
  }

  /** Every PC a plan reaches from statement i on, before or after a
      statement, is inside memory. */
  predicate InMemoryFrom(plan: seq<Placement>, i: nat)
  {
    forall k | i <= k <= |plan| :: 0 <= Layout(plan, k) <= 4095
  }

  /** After a pass 1 without errors every PC pass 2 reaches, before or
      after a statement, is inside memory. */
  lemma {:induction false} PassOneBoundsLayout(stmts: seq<Statement>, i: nat, st: PassOne, corrected: bool,
                                               symbols: map<string, int>)
    requires i <= |stmts| == |st.nextPcs| && DeferredIn(st, |stmts|)
    requires forall k | i <= k < |stmts| :: st.nextPcs[k] == stmts[k].nextPc
    requires forall k | 0 <= k < |stmts| :: NonNegativeCount(stmts[k])
    requires 0 <= Layout(Plan(stmts, st.nextPcs, symbols), i) <= st.pc <= 4095
    ensures var r := PassOneFrom(stmts, i, st, corrected);
      r.Some? && ErrorCount(r.value) == 0 ==> InMemoryFrom(Plan(stmts, r.value.nextPcs, symbols), i)
    decreases |stmts| - i
  {
    var r := PassOneFrom(stmts, i, st, corrected);
    if r.Some? && ErrorCount(r.value) == 0 && i < |stmts| {
      CleanStep(stmts, i, st, corrected);
      var next := StepOne(stmts[i], i, st, corrected).value;
      PlanBelowStep(stmts, i, st, corrected, next, symbols);
      StepGrows(stmts[i], i, st, corrected);
      PassOneBoundsLayout(stmts, i + 1, next, corrected, symbols);
      BoundsAfter(stmts, i, st, next, corrected, symbols);
    }
  }

  /** One step of pass 1 keeps pass 2's PC after the statement within
      what pass 1 has reached. */
  lemma PlanBelowStep(stmts: seq<Statement>, i: nat, st: PassOne, corrected: bool, next: PassOne,
                      symbols: map<string, int>)
    requires i < |stmts| == |st.nextPcs| && st.nextPcs[i] == stmts[i].nextPc && NonNegativeCount(stmts[i])
    requires StepOne(stmts[i], i, st, corrected) == Some(next) && ErrorCount(next) == ErrorCount(st)
    requires 0 <= Layout(Plan(stmts, st.nextPcs, symbols), i) <= st.pc
    ensures 0 <= Layout(Plan(stmts, next.nextPcs, symbols), i + 1) <= next.pc
  {
    var below := Layout(Plan(stmts, st.nextPcs, symbols), i);
    StepKeepsBelow(stmts[i], i, st, corrected, next, below, symbols);
    PlanPrefix(stmts, st.nextPcs, next.nextPcs, symbols, i);
    PlanStep(stmts, next.nextPcs, symbols, i);
  }

  /** The inductive step of PassOneBoundsLayout: what holds of the rest
      of the pass from i + 1 holds from i. */
  lemma BoundsAfter(stmts: seq<Statement>, i: nat, st: PassOne, next: PassOne, corrected: bool,
                    symbols: map<string, int>)
    requires i < |stmts| == |st.nextPcs| == |next.nextPcs| && DeferredIn(next, |stmts|)
    requires Grows(st, next, i) && 0 <= Layout(Plan(stmts, st.nextPcs, symbols), i) <= 4095
    requires var r := PassOneFrom(stmts, i + 1, next, corrected);
      r.Some? && ErrorCount(r.value) == 0 ==> InMemoryFrom(Plan(stmts, r.value.nextPcs, symbols), i + 1)
    ensures var r := PassOneFrom(stmts, i + 1, next, corrected);
      r.Some? && ErrorCount(r.value) == 0 ==> InMemoryFrom(Plan(stmts, r.value.nextPcs, symbols), i)
  {
    var r := PassOneFrom(stmts, i + 1, next, corrected);
    if r.Some? && ErrorCount(r.value) == 0 {
      PassOneGrows(stmts, i + 1, next, corrected);
      InMemoryStep(stmts, st, next, r.value, i, symbols);
    }
  }

  /** The PC before statement i joins the bounded PCs from i + 1 on. */
  lemma InMemoryStep(stmts: seq<Statement>, st: PassOne, next: PassOne, rest: PassOne, i: nat,
                     symbols: map<string, int>)
    requires i < |stmts| == |st.nextPcs| == |rest.nextPcs|
    requires Grows(st, next, i) && Grows(next, rest, i + 1)
    requires 0 <= Layout(Plan(stmts, st.nextPcs, symbols), i) <= 4095
    requires InMemoryFrom(Plan(stmts, rest.nextPcs, symbols), i + 1)
    ensures InMemoryFrom(Plan(stmts, rest.nextPcs, symbols), i)
  {
    PlanPrefix(stmts, st.nextPcs, rest.nextPcs, symbols, i);
  }

  /** A statement whose count moves pass 1's PC as pass 2 moves its own:
      a form pass 2 handles, an ORG left for pass 1 to count, and an EQU
      or a bare label counted as no bytes, since pass 2 leaves the PC
      where it is for them. */
  predicate MovesAlike(s: Statement)
  {
    && Handled(s.form)
    && (s.form == "ORG" ==> s.nextPc.None?)
    && (s.form == "EQU" || s.form == "" ==> s.nextPc == Some(0))
  }

  /** Statement k moves both passes alike. */
  predicate MovesAlikeAt(stmts: seq<Statement>, k: nat)
    requires k < |stmts|
  {
    MovesAlike(stmts[k])
  }

  /** A name that takes the PC: any defined name but an EQU's. */
  predicate IsLabel(s: Statement) { s.definedName != "" && s.form != "EQU" }

  /** A step of pass 1 without an error, for a statement whose count moves
      both passes alike: pass 1's PC after it is where pass 2 goes from
      the same PC, and a label is bound to the PC before it. */
  lemma StepKeepsLayout(s: Statement, i: nat, st: PassOne, corrected: bool, next: PassOne,
                        symbols: map<string, int>)
    requires i < |st.nextPcs| && st.nextPcs[i] == s.nextPc && MovesAlike(s)
    requires StepOne(s, i, st, corrected) == Some(next) && ErrorCount(next) == ErrorCount(st)
    ensures next.nextPcs[i].Some? && next.nextPcs == st.nextPcs[i := next.nextPcs[i]]
    ensures After(Place(s, next.nextPcs[i], symbols), st.pc) == next.pc
    ensures IsLabel(s) ==> s.definedName in next.symbols && next.symbols[s.definedName] == st.pc
  {
    StepCounts(s, i, st, corrected);
    DefineGrows(s, i, st);
    var d := DefineName(s, i, st);
    AdvanceGrows(s, i, d, corrected);
    assert |d.flagged| == |st.flagged|;
  }

  /** StepKeepsLayout, for statement i of a plan. */
  lemma PlanKeepsStep(stmts: seq<Statement>, i: nat, st: PassOne, corrected: bool, next: PassOne,
                      symbols: map<string, int>)
    requires i < |stmts| == |st.nextPcs| && st.nextPcs[i] == stmts[i].nextPc && MovesAlikeAt(stmts, i)
    requires StepOne(stmts[i], i, st, corrected) == Some(next) && ErrorCount(next) == ErrorCount(st)
    requires Layout(Plan(stmts, st.nextPcs, symbols), i) == st.pc
    ensures next.nextPcs[i].Some? && next.nextPcs == st.nextPcs[i := next.nextPcs[i]]
    ensures Layout(Plan(stmts, next.nextPcs, symbols), i + 1) == next.pc
    ensures IsLabel(stmts[i]) ==> stmts[i].definedName in next.symbols && next.symbols[stmts[i].definedName] == st.pc
  {
    StepKeepsLayout(stmts[i], i, st, corrected, next, symbols);
    PlanPrefix(stmts, st.nextPcs, next.nextPcs, symbols, i);
    PlanStep(stmts, next.nextPcs, symbols, i);
  }

  /** Each label from statement i on is bound to the PC at which the plan
      lays out its statement. */
  predicate LabelsLaidOut(stmts: seq<Statement>, plan: seq<Placement>, symbols: map<string, int>, i: nat)
    requires |plan| == |stmts|
  {
    forall k | i <= k < |stmts| && IsLabel(stmts[k]) ::
      stmts[k].definedName in symbols && symbols[stmts[k].definedName] == Layout(plan, k)
  }

  /** When every count moves both passes alike, a pass 1 without errors
      keeps step with pass 2: it ends at the PC where pass 2 ends, and
      binds each label to the PC at which pass 2 writes the label's
      statement. */
  lemma {:induction false} PassOneLaysOut(stmts: seq<Statement>, i: nat, st: PassOne, corrected: bool,
                                          symbols: map<string, int>)
    requires i <= |stmts| == |st.nextPcs| && DeferredIn(st, |stmts|)
    requires forall k | i <= k < |stmts| :: st.nextPcs[k] == stmts[k].nextPc
    requires forall k | 0 <= k < |stmts| :: MovesAlikeAt(stmts, k)
    requires Layout(Plan(stmts, st.nextPcs, symbols), i) == st.pc
    ensures var r := PassOneFrom(stmts, i, st, corrected);
      r.Some? && ErrorCount(r.value) == 0 ==>
        var plan := Plan(stmts, r.value.nextPcs, symbols);
        r.value.pc == Layout(plan, |stmts|) && LabelsLaidOut(stmts, plan, r.value.symbols, i)
    decreases |stmts| - i
  {
    var r := PassOneFrom(stmts, i, st, corrected);
    if r.Some? && ErrorCount(r.value) == 0 && i < |stmts| {
      CleanStep(stmts, i, st, corrected);
      var next := StepOne(stmts[i], i, st, corrected).value;
      PlanKeepsStep(stmts, i, st, corrected, next, symbols);
      StepGrows(stmts[i], i, st, corrected);
      PassOneLaysOut(stmts, i + 1, next, corrected, symbols);
      LaysOutAfter(stmts, i, st, next, corrected, symbols);
    }
  }

  /** The inductive step of PassOneLaysOut: what holds of the rest of
      the pass from i + 1 holds from i. */
  lemma LaysOutAfter(stmts: seq<Statement>, i: nat, st: PassOne, next: PassOne, corrected: bool,
                     symbols: map<string, int>)
    requires i < |stmts| == |st.nextPcs| == |next.nextPcs| && DeferredIn(next, |stmts|)
    requires Grows(st, next, i) && Layout(Plan(stmts, st.nextPcs, symbols), i) == st.pc
    requires IsLabel(stmts[i]) ==> stmts[i].definedName in next.symbols && next.symbols[stmts[i].definedName] == st.pc
    requires var r := PassOneFrom(stmts, i + 1, next, corrected);
      r.Some? && ErrorCount(r.value) == 0 ==>
        var plan := Plan(stmts, r.value.nextPcs, symbols);
        r.value.pc == Layout(plan, |stmts|) && LabelsLaidOut(stmts, plan, r.value.symbols, i + 1)
    ensures var r := PassOneFrom(stmts, i + 1, next, corrected);
      r.Some? && ErrorCount(r.value) == 0 ==>
        var plan := Plan(stmts, r.value.nextPcs, symbols);
        r.value.pc == Layout(plan, |stmts|) && LabelsLaidOut(stmts, plan, r.value.symbols, i)
  {
    var r := PassOneFrom(stmts, i + 1, next, corrected);
    if r.Some? && ErrorCount(r.value) == 0 {
      PassOneGrows(stmts, i + 1, next, corrected);
      LabelsLaidOutStep(stmts, st, next, r.value, i, symbols);
    }
  }

  /** Statement i's label, bound to the PC of its statement and kept to
      the end, joins the labels laid out from i + 1 on. */
  lemma LabelsLaidOutStep(stmts: seq<Statement>, st: PassOne, next: PassOne, rest: PassOne, i: nat,
                          symbols: map<string, int>)
    requires i < |stmts| == |st.nextPcs| == |rest.nextPcs|
    requires Grows(st, next, i) && Grows(next, rest, i + 1)
    requires Layout(Plan(stmts, st.nextPcs, symbols), i) == st.pc
    requires IsLabel(stmts[i]) ==> stmts[i].definedName in next.symbols && next.symbols[stmts[i].definedName] == st.pc
    requires LabelsLaidOut(stmts, Plan(stmts, rest.nextPcs, symbols), rest.symbols, i + 1)
    ensures LabelsLaidOut(stmts, Plan(stmts, rest.nextPcs, symbols), rest.symbols, i)
  {
    PlanPrefix(stmts, st.nextPcs, rest.nextPcs, symbols, i);
  }

  /** Corrected, a clean assembly of statements whose counts move both
      passes alike binds every label to the address at which pass 2
      writes the label's statement. */
  lemma LabelsBindLayout(stmts: seq<Statement>)
    requires forall k | 0 <= k < |stmts| :: MovesAlike(stmts[k])
    requires Assemble(stmts).Image?
    ensures var p := PassOneAndRetry(stmts, true).value;
      |p.nextPcs| == |stmts| && LabelsLaidOut(stmts, Plan(stmts, p.nextPcs, p.symbols), p.symbols, 0)
  {
    var start := Start(stmts);
    var p1 := PassOneFrom(stmts, 0, start, true).value;
    var p := PassOneAndRetry(stmts, true).value;
    assert ErrorCount(p1) == 0;
    PassOneLaysOut(stmts, 0, start, true, p.symbols);
    RetryKeepsBindings(stmts, p1.deferred, p1);
    assert p.nextPcs == p1.nextPcs;
  }

  /** The empty image pass 2 starts from. */
  function Blank(): PassTwo { PassTwo(seq(4096, _ => 0), 0x200, 0, []) }

  /** A clean assembly as the two passes leave it: pass 1 without errors
      gave every statement its count and kept every PC pass 2 reaches
      inside memory, and the image is the slice of pass 2's memory from
      0x200 to its top. */
  lemma CleanRun(stmts: seq<Statement>, corrected: bool)
    requires forall k | 0 <= k < |stmts| :: NonNegativeCount(stmts[k])
    requires AssembleWith(stmts, corrected).Image?
    ensures var p := PassOneAndRetry(stmts, corrected);
      && p.Some? && ErrorCount(p.value) == 0 && |p.value.nextPcs| == |stmts|
      && (forall k | 0 <= k < |stmts| :: p.value.nextPcs[k].Some?)
      && (forall k | 0 <= k <= |stmts| :: 0 <= Layout(Plan(stmts, p.value.nextPcs, p.value.symbols), k) <= 4095)
      && var p2 := PassTwoFrom(stmts, p.value.nextPcs, p.value.symbols, 0, Blank());
         p2.Some? && AssembleWith(stmts, corrected) == Image(Slice(p2.value.image, 0x200, p2.value.top))
  {
    var start := Start(stmts);
    var p1 := PassOneFrom(stmts, 0, start, corrected).value;
    var p := PassOneAndRetry(stmts, corrected).value;
    assert ErrorCount(p1) == 0;
    CleanPassOneCounts(stmts, 0, start, corrected);
    PassOneBoundsLayout(stmts, 0, start, corrected, p.symbols);
    assert p.nextPcs == p1.nextPcs;
  }

  /** The slice `assemble` returns, from a memory that holds what a plan
      writes: it runs from 0x200 up to the plan's highest PC and holds the
      plan's byte at each of its addresses. */
  lemma SliceOfPlan(plan: seq<Placement>, image: seq<int>, top: int, bytes: seq<int>)
    requires forall k | 0 <= k <= |plan| :: 0 <= Layout(plan, k) <= 4095
    requires |image| >= 4096 && top == Highest(plan, |plan|)
    requires forall a | 0 <= a < 4096 :: image[a] == ByteAfter(plan, |plan|, a)
    requires bytes == Slice(image, 0x200, top)
    ensures 0 <= top <= 4095
    ensures forall j | 0 < j <= |plan| :: Layout(plan, j) <= top
    ensures |bytes| == Max(0, top - 0x200)
    ensures forall j | 0 <= j < |bytes| :: bytes[j] == ByteAfter(plan, |plan|, 0x200 + j)
  {
    HighestIsMax(plan, |plan|);
    SliceInside(image, 0x200, top);
  }

  /** A clean assembly, address by address: the image runs from 0x200 up
      to the highest PC pass 2 reaches, which is inside memory, and each
      of its addresses holds the byte of the last statement whose bytes,
      laid out from that statement's PC, cover it, or 0 when none does. */
  lemma Clean(stmts: seq<Statement>, corrected: bool)
    requires forall k | 0 <= k < |stmts| :: NonNegativeCount(stmts[k])
    requires AssembleWith(stmts, corrected).Image?
    ensures var p := PassOneAndRetry(stmts, corrected).value;
      var plan := Plan(stmts, p.nextPcs, p.symbols);
      var bytes := AssembleWith(stmts, corrected).bytes;
      && 0 <= Highest(plan, |stmts|) <= 4095
      && (forall j | 0 < j <= |stmts| :: Layout(plan, j) <= Highest(plan, |stmts|))
      && |bytes| == Max(0, Highest(plan, |stmts|) - 0x200)
      && forall j | 0 <= j < |bytes| :: bytes[j] == ByteAfter(plan, |stmts|, 0x200 + j)
  {
    CleanRun(stmts, corrected);
    var p := PassOneAndRetry(stmts, corrected).value;
    var plan := Plan(stmts, p.nextPcs, p.symbols);
    PassTwoLays(stmts, p.nextPcs, p.symbols, 0, Blank());
    var p2 := PassTwoFrom(stmts, p.nextPcs, p.symbols, 0, Blank()).value;
    SliceOfPlan(plan, p2.image, p2.top, AssembleWith(stmts, corrected).bytes);
  }

  /** Of an image that holds what a plan writes: a placement's bytes
      stand at its PC wherever no later placement writes over them. */
  lemma PlacementInSlice(plan: seq<Placement>, bytes: seq<int>, k: nat, a: int)
    requires k < |plan|
    requires forall j | 0 <= j < |bytes| :: bytes[j] == ByteAfter(plan, |plan|, 0x200 + j)
    ensures LastWriter(plan, k, a) && 0x200 <= a < 0x200 + |bytes|
            ==> bytes[a - 0x200] == plan[k].bytes[a - Layout(plan, k)]
  {
    if LastWriter(plan, k, a) && 0x200 <= a < 0x200 + |bytes| {
      ByteAfterLastWriter(plan, |plan|, k, a);
      assert bytes[a - 0x200] == ByteAfter(plan, |plan|, 0x200 + (a - 0x200));
    }
  }

  /** The bytes a plan places for a statement are the ones pass 2 writes
      for it. */
  lemma PlanBytes(stmts: seq<Statement>, counts: seq<Option<int>>, symbols: map<string, int>, k: nat)
    requires k < |stmts| == |counts|
    ensures Plan(stmts, counts, symbols)[k].bytes == Written(stmts[k], symbols)
  {
    PlanAt(stmts, counts, symbols, k);
  }

  /** Statement k's placement writes its encoding, and that encoding
      stands in bytes (an image from 0x200 on) at address a whenever k is
      the last statement to write a. */
  predicate StandsAt(stmts: seq<Statement>, counts: seq<Option<int>>, symbols: map<string, int>,
                     bytes: seq<int>, k: nat, a: int)
    requires k < |stmts| == |counts|
  {
    var plan := Plan(stmts, counts, symbols);
    && plan[k].bytes == Written(stmts[k], symbols)
    && (LastWriter(plan, k, a) && 0x200 <= a < 0x200 + |bytes|
        ==> bytes[a - 0x200] == Written(stmts[k], symbols)[a - Layout(plan, k)])
  }

  /** Of any bytes that hold what a program's plan writes: a statement's
      encoding stands at its PC wherever no later statement writes over
      it. */
  lemma WrittenInSlice(stmts: seq<Statement>, counts: seq<Option<int>>, symbols: map<string, int>,
                       bytes: seq<int>, k: nat, a: int)
    requires k < |stmts| == |counts|
    requires forall j | 0 <= j < |bytes| :: bytes[j] == ByteAfter(Plan(stmts, counts, symbols), |stmts|, 0x200 + j)
    ensures StandsAt(stmts, counts, symbols, bytes, k, a)
  {
    PlanBytes(stmts, counts, symbols, k);
    PlacementInSlice(Plan(stmts, counts, symbols), bytes, k, a);
  }

  /** A statement's encoding sits in a clean image at the statement's PC,
      wherever no later statement writes over it. */
  lemma StatementInImage(stmts: seq<Statement>, corrected: bool, bytes: seq<int>, k: nat, a: int)
    requires forall j | 0 <= j < |stmts| :: NonNegativeCount(stmts[j])
    requires AssembleWith(stmts, corrected) == Image(bytes) && k < |stmts|
    ensures var p := PassOneAndRetry(stmts, corrected).value;
      |p.nextPcs| == |stmts| && StandsAt(stmts, p.nextPcs, p.symbols, bytes, k, a)
  {
    Clean(stmts, corrected);
    var p := PassOneAndRetry(stmts, corrected).value;
    WrittenInSlice(stmts, p.nextPcs, p.symbols, bytes, k, a);
  }

  /** Assembly gives an image exactly when pass 1 and the retry run
      without an error and pass 2 accepts every statement: a form it
      knows, and for an entry of the table operands that encode. */
  lemma Bails(stmts: seq<Statement>, corrected: bool)
    ensures AssembleWith(stmts, corrected).Image? <==>
      var p := PassOneAndRetry(stmts, corrected);
      && p.Some? && ErrorCount(p.value) == 0
      && forall k | 0 <= k < |stmts| :: Accepted(stmts[k], p.value.symbols)
  {
    var start := Start(stmts);
    var p1 := PassOneFrom(stmts, 0, start, corrected);
    var p := PassOneAndRetry(stmts, corrected);
    if p.Some? && ErrorCount(p.value) == 0 {
      assert p1.Some? && ErrorCount(p1.value) == 0;
      CleanPassOneCounts(stmts, 0, start, corrected);
      assert p.value.nextPcs == p1.value.nextPcs;
      PassTwoFlags(stmts, p.value.nextPcs, p.value.symbols, 0, Blank());
    }
  }

  /** A statement with a syntax error is counted by pass 1 if the pass
      gets to it, and a pass that stops before it has flagged the PC. */
  lemma {:induction false} SyntaxErrorCounted(stmts: seq<Statement>, i: nat, st: PassOne, corrected: bool, k: nat)
    requires i <= k < |stmts| == |st.nextPcs| && DeferredIn(st, |stmts|)
    requires stmts[k].textError
    ensures var r := PassOneFrom(stmts, i, st, corrected); r.Some? ==> ErrorCount(r.value) > 0
    decreases |stmts| - i
  {
    var next := StepOne(stmts[i], i, st, corrected);
    if next.Some? && next.value.pc <= 4095 {
      PassOneUnfold(stmts, i, st, corrected, next.value);
      var r := PassOneFrom(stmts, i + 1, next.value, corrected);
      if i == k && r.Some? {
        PassOneGrows(stmts, i + 1, next.value, corrected);
        GrowsCounts(next.value, r.value, i + 1);
      } else if i < k {
        SyntaxErrorCounted(stmts, i + 1, next.value, corrected, k);
      }
    }
  }

  /** One line with a syntax error is enough for `assemble` not to return
      an image. */
  lemma SyntaxErrorBails(stmts: seq<Statement>, corrected: bool, k: nat)
    requires k < |stmts| && stmts[k].textError
    ensures !AssembleWith(stmts, corrected).Image?
  {
    SyntaxErrorCounted(stmts, 0, Start(stmts), corrected, k);
  }

  // ---------------------------------------------------------------------
  // Examples

  /** One statement of pass 1 that keeps the PC in memory. */
  lemma PassOneUnfold(stmts: seq<Statement>, i: nat, st: PassOne, corrected: bool, next: PassOne)
    requires i < |stmts| == |st.nextPcs| && DeferredIn(st, |stmts|)
    requires StepOne(stmts[i], i, st, corrected) == Some(next) && next.pc <= 4095
    ensures |next.nextPcs| == |stmts| && DeferredIn(next, |stmts|)
    ensures PassOneFrom(stmts, i, st, corrected) == PassOneFrom(stmts, i + 1, next, corrected)
  {
  }

  /** One statement of pass 2. */
  lemma PassTwoUnfold(stmts: seq<Statement>, nextPcs: seq<Option<int>>, symbols: map<string, int>,
                      i: nat, st: PassTwo, next: PassTwo)
    requires i < |stmts| == |nextPcs|
    requires PassTwoStep(stmts[i], nextPcs[i], symbols, i, st) == Some(next)
    ensures PassTwoFrom(stmts, nextPcs, symbols, i, st)
      == PassTwoFrom(stmts, nextPcs, symbols, i + 1, next.(top := Max(next.top, next.pc)))
  {
  }

  /** A statement without a syntax error and without a second register. */
  function Line(form: string, name: string, count: Option<int>, x: int, exprs: seq<Expr>): Statement
  {
    Statement(false, form, name, count, x, 0, exprs)
  }

  /** A given clean run of both passes, as `assemble` returns it. */
  lemma ImageOfRun(stmts: seq<Statement>, corrected: bool, p: PassOne, p2: PassTwo)
    requires PassOneAndRetry(stmts, corrected) == Some(p) && ErrorCount(p) == 0
    requires |p.nextPcs| == |stmts|
    requires PassTwoFrom(stmts, p.nextPcs, p.symbols, 0, Blank()) == Some(p2) && |p2.flagged| == 0
    ensures AssembleWith(stmts, corrected) == Image(Slice(p2.image, 0x200, p2.top))
  {
  }

  /** A given run of pass 1 with an error, as `assemble` returns it. */
  lemma ErrorsOfRun(stmts: seq<Statement>, corrected: bool, p: PassOne)
    requires PassOneAndRetry(stmts, corrected) == Some(p) && ErrorCount(p) > 0
    ensures AssembleWith(stmts, corrected) == Errors(p.textErrors, |p.flagged|, p.flagged)
  {
  }

  function LoadByteProgram(b: int): seq<Statement> { [Line("LDRB", "", Some(2), 0, [Num(b)])] }

  lemma LoadBytePassOne(b: int)
    ensures PassOneAndRetry(LoadByteProgram(b), true) == Some(PassOne(map[], 0x202, 0, [], [Some(2)], []))
  {
    var stmts := LoadByteProgram(b);
    var start := Start(stmts);
    assert start.nextPcs == [Some(2)];
    var next := start.(pc := 0x202);
    assert StepOne(stmts[0], 0, start, true) == Some(next);
    assert PassOneFrom(stmts, 1, next, true) == Some(next);
    assert PassOneFrom(stmts, 0, start, true) == Some(next);
    assert Retry(stmts, [], next, true) == next;
  }

  lemma LoadBytePassTwo()
    ensures PassTwoFrom(LoadByteProgram(255), [Some(2)], map[], 0, Blank())
      == Some(PassTwo(SliceAssign(Blank().image, 0x200, 0x202, [0x60, 0xFF]), 0x202, 0x202, []))
  {
    var stmts := LoadByteProgram(255);
    assert FormNamed("LDRB") == Some(LdRB);
    assert Encode(LdRB, stmts[0], Symbols(map[])) == Bytes([0x60, 0xFF]);
  }

  /** `LD V0,255` assembles to 60 FF. */
  lemma LoadByte()
    ensures Assemble(LoadByteProgram(255)) == Image([0x60, 0xFF])
  {
    LoadBytePassOne(255);
    LoadBytePassTwo();
    var written := SliceAssign(Blank().image, 0x200, 0x202, [0x60, 0xFF]);
    ImageOfRun(LoadByteProgram(255), true, PassOne(map[], 0x202, 0, [], [Some(2)], []),
          PassTwo(written, 0x202, 0x202, []));
    SliceAssignInside(Blank().image, 0x200, [0x60, 0xFF]);
    SliceInside(written, 0x200, 0x202);
  }

  lemma LoadTooLargePassTwo()
    ensures PassTwoFrom(LoadByteProgram(256), [Some(2)], map[], 0, Blank())
      == Some(PassTwo(Blank().image, 0x202, 0x202, [Flagged(0, OutsideRange(256))]))
  {
    var stmts := LoadByteProgram(256);
    assert FormNamed("LDRB") == Some(LdRB);
    assert FirstOperand(stmts[0], Symbols(map[]), 0, 255) == Raised(OutsideRange(256));
    assert Encode(LdRB, stmts[0], Symbols(map[])) == Bad(OutsideRange(256));
    var next := PassTwo(Blank().image, 0x202, 0, [Flagged(0, OutsideRange(256))]);
    assert stmts[0].form == "LDRB" && FormNamed(stmts[0].form) == Some(LdRB);
    assert Blank().flagged + [Flagged(0, OutsideRange(256))] == [Flagged(0, OutsideRange(256))];
    assert PassTwoStep(stmts[0], Some(2), map[], 0, Blank()) == Some(next);
    PassTwoUnfold(stmts, [Some(2)], map[], 0, Blank(), next);
  }

  /** `LD V0,256` is an error: the byte does not fit. */
  lemma LoadTooLarge()
    ensures Assemble(LoadByteProgram(256)) == Errors(0, 1, [Flagged(0, OutsideRange(256))])
  {
    LoadBytePassOne(256);
    LoadTooLargePassTwo();
  }

  /** `X EQU Y`, `X: CLS`, `Y EQU 5`, `JP X`: X is deferred, then the
      label binds it, then the retry binds it again.  `equ` is the count
      phase_one gives an EQU: two as written, none corrected. */
  function RebindProgram(equ: nat): seq<Statement>
  {
    [ Line("EQU", "X", Some(equ), 0, [Name("Y")]),
      Line("CLS", "X", Some(2), 0, []),
      Line("EQU", "Y", Some(equ), 0, [Num(5)]),
      Line("JPADR", "", Some(2), 0, [Name("X")]) ]
  }

  function RebindCounts(equ: nat): seq<Option<int>> { [Some(equ), Some(2), Some(equ), Some(2)] }

  /** The states of pass 1 over RebindProgram, before statement k. */
  function RebindState(k: nat, equ: nat): PassOne
  {
    if k == 0 then PassOne(map[], 0x200, 0, [], RebindCounts(equ), [])
    else if k == 1 then PassOne(map[], 0x200 + equ, 0, [0], RebindCounts(equ), [])
    else if k == 2 then PassOne(map["X" := 0x200 + equ], 0x202 + equ, 0, [0], RebindCounts(equ), [])
    else if k == 3 then PassOne(map["X" := 0x200 + equ, "Y" := 5], 0x202 + 2 * equ, 0, [0], RebindCounts(equ), [])
    else PassOne(map["X" := 0x200 + equ, "Y" := 5], 0x204 + 2 * equ, 0, [0], RebindCounts(equ), [])
  }

  /** `X EQU Y` is deferred: Y is not yet defined. */
  lemma RebindStep0(equ: nat, corrected: bool)
    ensures StepOne(RebindProgram(equ)[0], 0, RebindState(0, equ), corrected) == Some(RebindState(1, equ))
  {
    var s := RebindProgram(equ)[0];
    assert FirstOperand(s, Symbols(map[]), 0, 65535) == Raised(NotDefined("Y"));
    assert DefineName(s, 0, RebindState(0, equ)) == RebindState(0, equ).(deferred := [0]);
  }

  /** `X: CLS` binds X, which the deferred EQU has not. */
  lemma RebindStep1(equ: nat, corrected: bool)
    ensures StepOne(RebindProgram(equ)[1], 1, RebindState(1, equ), corrected) == Some(RebindState(2, equ))
  {
  }

  lemma RebindStep2(equ: nat, corrected: bool)
    ensures StepOne(RebindProgram(equ)[2], 2, RebindState(2, equ), corrected) == Some(RebindState(3, equ))
  {
    assert FirstOperand(RebindProgram(equ)[2], Symbols(map["X" := 0x200 + equ]), 0, 65535) == Got(5);
  }

  lemma RebindStep3(equ: nat, corrected: bool)
    ensures StepOne(RebindProgram(equ)[3], 3, RebindState(3, equ), corrected) == Some(RebindState(4, equ))
  {
  }

  /** Pass 1 of RebindProgram: no error, X is the label's address. */
  lemma RebindPassOne(equ: nat, corrected: bool)
    requires equ <= 2
    ensures PassOneFrom(RebindProgram(equ), 0, Start(RebindProgram(equ)), corrected) == Some(RebindState(4, equ))
  {
    var stmts := RebindProgram(equ);
    assert Start(stmts) == RebindState(0, equ);
    RebindStep0(equ, corrected);
    PassOneUnfold(stmts, 0, RebindState(0, equ), corrected, RebindState(1, equ));
    RebindStep1(equ, corrected);
    PassOneUnfold(stmts, 1, RebindState(1, equ), corrected, RebindState(2, equ));
    RebindStep2(equ, corrected);
    PassOneUnfold(stmts, 2, RebindState(2, equ), corrected, RebindState(3, equ));
    RebindStep3(equ, corrected);
    PassOneUnfold(stmts, 3, RebindState(3, equ), corrected, RebindState(4, equ));
  }

  /** The retry of RebindProgram's one deferred equate: as written X
      becomes 5, corrected it is flagged. */
  lemma RebindRetryStep(equ: nat, corrected: bool)
    ensures Retry(RebindProgram(equ), [0], RebindState(4, equ), corrected)
      == if corrected then Flag(RebindState(4, equ), 0, DefinedTwice("X"))
         else RebindState(4, equ).(symbols := map["X" := 5, "Y" := 5])
  {
    var p1 := RebindState(4, equ);
    var s := RebindProgram(equ)[0];
    var r := RetryOne(s, 0, p1, corrected);
    assert Retry(RebindProgram(equ), [0], p1, corrected) == Retry(RebindProgram(equ), [], r, corrected);
    if !corrected {
      assert FirstOperand(s, Symbols(p1.symbols), 0, 65535) == Got(5);
      assert p1.symbols["X" := 5] == map["X" := 5, "Y" := 5];
    }
  }

  lemma RebindRetry()
    ensures PassOneAndRetry(RebindProgram(2), false) == Some(RebindState(4, 2).(symbols := map["X" := 5, "Y" := 5]))
  {
    RebindPassOne(2, false);
    RebindRetryStep(2, false);
  }

  lemma RebindRetryCorrected()
    ensures PassOneAndRetry(RebindProgram(0), true) == Some(Flag(RebindState(4, 0), 0, DefinedTwice("X")))
  {
    RebindPassOne(0, true);
    RebindRetryStep(0, true);
  }

  lemma RebindWrites(symbols: map<string, int>)
    requires symbols == map["X" := 5, "Y" := 5]
    ensures Encode(Cls, RebindProgram(2)[1], Symbols(symbols)) == Bytes([0x00, 0xE0])
    ensures Encode(JpAdr, RebindProgram(2)[3], Symbols(symbols)) == Bytes([0x10, 0x05])
  {
    assert FirstOperand(RebindProgram(2)[3], Symbols(symbols), 0, 4095) == Got(5);
  }

  /** Pass 2 of RebindProgram as written: CLS at 0x200, `JP 5` after it;
      the EQU lines take no room. */
  lemma RebindPassTwo()
    ensures PassTwoFrom(RebindProgram(2), RebindCounts(2), map["X" := 5, "Y" := 5], 0, Blank())
      == Some(PassTwo(SliceAssign(SliceAssign(Blank().image, 0x200, 0x202, [0x00, 0xE0]), 0x202, 0x204, [0x10, 0x05]),
                      0x204, 0x204, []))
  {
    var stmts := RebindProgram(2);
    var symbols := map["X" := 5, "Y" := 5];
    var counts := RebindCounts(2);
    var b := Blank();
    var w1 := SliceAssign(b.image, 0x200, 0x202, [0x00, 0xE0]);
    var w2 := SliceAssign(w1, 0x202, 0x204, [0x10, 0x05]);
    assert stmts[0].form == "EQU" && stmts[1].form == "CLS" && stmts[2].form == "EQU" && stmts[3].form == "JPADR";
    assert FormNamed("EQU") == None && FormNamed("CLS") == Some(Cls) && FormNamed("JPADR") == Some(JpAdr);
    RebindWrites(symbols);
    PassTwoUnfold(stmts, counts, symbols, 0, b, b);
    var t1 := b.(top := 0x200);
    var t2 := PassTwo(w1, 0x202, 0x200, []);
    PassTwoUnfold(stmts, counts, symbols, 1, t1, t2);
    var t3 := t2.(top := 0x202);
    PassTwoUnfold(stmts, counts, symbols, 2, t3, t3);
    var t4 := PassTwo(w2, 0x204, 0x202, []);
    PassTwoUnfold(stmts, counts, symbols, 3, t3, t4);
  }

  /** The image RebindProgram assembles to as written. */
  lemma RebindImage()
    ensures var w := SliceAssign(SliceAssign(Blank().image, 0x200, 0x202, [0x00, 0xE0]), 0x202, 0x204, [0x10, 0x05]);
      Slice(w, 0x200, 0x204) == [0x00, 0xE0, 0x10, 0x05]
  {
    var b := Blank().image;
    var w1 := SliceAssign(b, 0x200, 0x202, [0x00, 0xE0]);
    var w2 := SliceAssign(w1, 0x202, 0x204, [0x10, 0x05]);
    SliceAssignInside(b, 0x200, [0x00, 0xE0]);
    SliceAssignInside(w1, 0x202, [0x10, 0x05]);
    SliceInside(w2, 0x200, 0x204);
    assert w2[0x200..0x204] == [0x00, 0xE0, 0x10, 0x05];
  }

  /** As written, with the two bytes phase_one counts for an EQU, `JP X`
      jumps to 5, the EQU's value, although X was defined a second time as
      the label of `CLS` at 0x200. */
  lemma DeferredEquRebindsLabel()
    ensures AssembleAsWritten(RebindProgram(2)) == Image([0x00, 0xE0, 0x10, 0x05])
  {
    RebindRetry();
    RebindPassTwo();
    RebindImage();
    var w := SliceAssign(SliceAssign(Blank().image, 0x200, 0x202, [0x00, 0xE0]), 0x202, 0x204, [0x10, 0x05]);
    ImageOfRun(RebindProgram(2), false, RebindState(4, 2).(symbols := map["X" := 5, "Y" := 5]), PassTwo(w, 0x204, 0x204, []));
  }

  /** Corrected, with no bytes counted for an EQU, the second definition
      of X is flagged. */
  lemma DeferredEquDefinedTwice()
    ensures Assemble(RebindProgram(0)) == Errors(0, 1, [Flagged(0, DefinedTwice("X"))])
  {
    RebindRetryCorrected();
    ErrorsOfRun(RebindProgram(0), true, Flag(RebindState(4, 0), 0, DefinedTwice("X")));
  }

  /** An instruction without a byte count. */
  function UncountedProgram(): seq<Statement> { [Line("CLS", "", None, 0, [])] }

  /** As written, pass 1 stops with the NameError of `s.expr_error`;
      corrected, the statement is flagged with the message the branch
      was meant to set. */
  lemma UncountedStatement()
    ensures AssembleAsWritten(UncountedProgram()) == Crashed
    ensures Assemble(UncountedProgram()) == Errors(0, 1, [Flagged(0, Unexpected("CLS"))])
  {
    var stmts := UncountedProgram();
    var start := Start(stmts);
    assert start.nextPcs == [None];
    assert StepOne(stmts[0], 0, start, false) == None;
    var flagged := Flag(start, 0, Unexpected("CLS"));
    assert StepOne(stmts[0], 0, start, true) == Some(flagged);
    PassOneUnfold(stmts, 0, start, true, flagged);
    assert PassOneAndRetry(stmts, true) == Some(flagged);
    ErrorsOfRun(stmts, true, flagged);
  }

  /** `CALL SUB`, `SUB: RET`: a label used before its definition. */
  function CallProgram(): seq<Statement>
  {
    [ Line("CALL", "", Some(2), 0, [Name("SUB")]),
      Line("RET", "SUB", Some(2), 0, []) ]
  }

  lemma CallPassOne()
    ensures PassOneAndRetry(CallProgram(), true)
      == Some(PassOne(map["SUB" := 0x202], 0x204, 0, [], [Some(2), Some(2)], []))
  {
    var stmts := CallProgram();
    var s0 := Start(stmts);
    assert s0.nextPcs == [Some(2), Some(2)];
    var s1 := s0.(pc := 0x202);
    assert StepOne(stmts[0], 0, s0, true) == Some(s1);
    PassOneUnfold(stmts, 0, s0, true, s1);
    var s2 := s1.(symbols := map["SUB" := 0x202], pc := 0x204);
    assert StepOne(stmts[1], 1, s1, true) == Some(s2);
    PassOneUnfold(stmts, 1, s1, true, s2);
    assert Retry(stmts, [], s2, true) == s2;
  }

  lemma CallAddress()
    ensures OpAddr(0x20, 0x202) == [0x22, 0x02]
  {
    PackNybbles(2, 2);
    LowByte(0x202);
  }

  lemma CallWrites(symbols: map<string, int>)
    requires symbols == map["SUB" := 0x202]
    ensures Encode(Call, CallProgram()[0], Symbols(symbols)) == Bytes([0x22, 0x02])
  {
    assert FirstOperand(CallProgram()[0], Symbols(symbols), 0, 4095) == Got(0x202);
    CallAddress();
  }

  lemma CallPassTwo()
    ensures PassTwoFrom(CallProgram(), [Some(2), Some(2)], map["SUB" := 0x202], 0, Blank())
      == Some(PassTwo(SliceAssign(SliceAssign(Blank().image, 0x200, 0x202, [0x22, 0x02]), 0x202, 0x204, [0x00, 0xEE]),
                      0x204, 0x204, []))
  {
    var stmts := CallProgram();
    var symbols := map["SUB" := 0x202];
    var counts := [Some(2), Some(2)];
    var b := Blank();
    var w1 := SliceAssign(b.image, 0x200, 0x202, [0x22, 0x02]);
    var w2 := SliceAssign(w1, 0x202, 0x204, [0x00, 0xEE]);
    assert stmts[0].form == "CALL" && stmts[1].form == "RET";
    assert FormNamed("CALL") == Some(Call) && FormNamed("RET") == Some(Ret);
    CallWrites(symbols);
    assert Encode(Ret, stmts[1], Symbols(symbols)) == Bytes([0x00, 0xEE]);
    var t1 := PassTwo(w1, 0x202, 0, []);
    PassTwoUnfold(stmts, counts, symbols, 0, b, t1);
    var t2 := PassTwo(w2, 0x204, 0x202, []);
    PassTwoUnfold(stmts, counts, symbols, 1, t1.(top := 0x202), t2);
  }

  /** A call to a subroutine defined further down assembles to
      22 02 00 EE. */
  lemma CallForward()
    ensures Assemble(CallProgram()) == Image([0x22, 0x02, 0x00, 0xEE])
  {
    CallPassOne();
    CallPassTwo();
    var b := Blank().image;
    var w1 := SliceAssign(b, 0x200, 0x202, [0x22, 0x02]);
    var w2 := SliceAssign(w1, 0x202, 0x204, [0x00, 0xEE]);
    SliceAssignInside(b, 0x200, [0x22, 0x02]);
    SliceAssignInside(w1, 0x202, [0x00, 0xEE]);
    SliceInside(w2, 0x200, 0x204);
    assert w2[0x200..0x204] == [0x22, 0x02, 0x00, 0xEE];
    ImageOfRun(CallProgram(), true, PassOne(map["SUB" := 0x202], 0x204, 0, [], [Some(2), Some(2)], []),
          PassTwo(w2, 0x204, 0x204, []));
  }

  /** `A EQU B`, `B EQU C`, `C: CLS`: both equates wait, and the retry,
      last first, resolves B before A.  `equ` is the count phase_one gives
      an EQU. */
  function ChainProgram(equ: nat): seq<Statement>
  {
    [ Line("EQU", "A", Some(equ), 0, [Name("B")]),
      Line("EQU", "B", Some(equ), 0, [Name("C")]),
      Line("CLS", "C", Some(2), 0, []) ]
  }

  /** The states of pass 1 and the retry over ChainProgram: after pass 1,
      after B, after A.  C is the label of the statement after two EQU
      lines. */
  function ChainState(k: nat, equ: nat): PassOne
  {
    var c := 0x200 + 2 * equ;
    var p1 := PassOne(map["C" := c], c + 2, 0, [0, 1], [Some(equ), Some(equ), Some(2)], []);
    if k == 0 then p1
    else if k == 1 then p1.(symbols := map["C" := c, "B" := c])
    else p1.(symbols := map["C" := c, "B" := c, "A" := c])
  }

  lemma ChainPassOne(equ: nat)
    requires equ <= 2
    ensures PassOneFrom(ChainProgram(equ), 0, Start(ChainProgram(equ)), true) == Some(ChainState(0, equ))
  {
    var stmts := ChainProgram(equ);
    var s0 := Start(stmts);
    assert s0.nextPcs == [Some(equ), Some(equ), Some(2)];
    assert FirstOperand(stmts[0], Symbols(map[]), 0, 65535) == Raised(NotDefined("B"));
    var s1 := s0.(deferred := [0], pc := 0x200 + equ);
    assert DefineName(stmts[0], 0, s0) == s0.(deferred := [0]);
    PassOneUnfold(stmts, 0, s0, true, s1);
    assert FirstOperand(stmts[1], Symbols(map[]), 0, 65535) == Raised(NotDefined("C"));
    var s2 := s0.(deferred := [0, 1], pc := 0x200 + 2 * equ);
    assert DefineName(stmts[1], 1, s1) == s1.(deferred := [0, 1]);
    PassOneUnfold(stmts, 1, s1, true, s2);
    var s3 := s2.(symbols := map["C" := 0x200 + 2 * equ], pc := 0x202 + 2 * equ);
    PassOneUnfold(stmts, 2, s2, true, s3);
  }

  /** `B EQU C` is retried first and finds C. */
  lemma ChainRetryB(equ: nat)
    requires equ <= 2
    ensures RetryOne(ChainProgram(equ)[1], 1, ChainState(0, equ), true) == ChainState(1, equ)
  {
    assert FirstOperand(ChainProgram(equ)[1], Symbols(ChainState(0, equ).symbols), 0, 65535) == Got(0x200 + 2 * equ);
  }

  /** `A EQU B` is retried next and finds B. */
  lemma ChainRetryA(equ: nat)
    requires equ <= 2
    ensures RetryOne(ChainProgram(equ)[0], 0, ChainState(1, equ), true) == ChainState(2, equ)
  {
    assert FirstOperand(ChainProgram(equ)[0], Symbols(ChainState(1, equ).symbols), 0, 65535) == Got(0x200 + 2 * equ);
  }

  lemma ChainRetry(equ: nat)
    requires equ <= 2
    ensures Retry(ChainProgram(equ), [0, 1], ChainState(0, equ), true) == ChainState(2, equ)
  {
    var stmts := ChainProgram(equ);
    ChainRetryB(equ);
    ChainRetryA(equ);
    assert [0, 1][..1] == [0];
    assert Retry(stmts, [0], ChainState(1, equ), true) == ChainState(2, equ);
  }

  /** Every name of ChainProgram ends up C's address: 0x200 when an EQU
      takes no bytes, as pass 2 lays it out, but 0x204 with the two bytes
      phase_one counts as written, while pass 2 writes `C: CLS` at 0x200. */
  lemma ChainedEquates(equ: nat)
    requires equ <= 2
    ensures PassOneAndRetry(ChainProgram(equ), true).Some?
    ensures var c := 0x200 + 2 * equ;
      PassOneAndRetry(ChainProgram(equ), true).value.symbols == map["C" := c, "B" := c, "A" := c]
  {
    ChainPassOne(equ);
    ChainRetry(equ);
  }

  // ---------------------------------------------------------------------
  // The room an EQU takes

  /** `N EQU 5`, `L: CLS`, `JP L`, with `equ` the count of the EQU. */
  function EquProgram(equ: nat): seq<Statement>
  {
    [ Line("EQU", "N", Some(equ), 0, [Num(5)]),
      Line("CLS", "L", Some(2), 0, []),
      Line("JPADR", "", Some(2), 0, [Name("L")]) ]
  }

  lemma EquPassOne(equ: nat, corrected: bool)
    requires equ <= 2
    ensures PassOneAndRetry(EquProgram(equ), corrected)
      == Some(PassOne(map["N" := 5, "L" := 0x200 + equ], 0x204 + equ, 0, [], [Some(equ), Some(2), Some(2)], []))
  {
    var stmts := EquProgram(equ);
    var s0 := Start(stmts);
    assert s0.nextPcs == [Some(equ), Some(2), Some(2)];
    assert FirstOperand(stmts[0], Symbols(map[]), 0, 65535) == Got(5);
    var s1 := s0.(symbols := map["N" := 5], pc := 0x200 + equ);
    PassOneUnfold(stmts, 0, s0, corrected, s1);
    var s2 := s1.(symbols := map["N" := 5, "L" := 0x200 + equ], pc := 0x202 + equ);
    PassOneUnfold(stmts, 1, s1, corrected, s2);
    var s3 := s2.(pc := 0x204 + equ);
    PassOneUnfold(stmts, 2, s2, corrected, s3);
    assert Retry(stmts, [], s3, corrected) == s3;
  }

  lemma EquJumpAddress(equ: nat)
    requires equ <= 2
    ensures OpAddr(0x10, 0x200 + equ) == [0x12, equ]
  {
    PackNybbles(1, 2);
    LowByte(0x200 + equ);
  }

  lemma EquWrites(equ: nat, symbols: map<string, int>)
    requires equ <= 2 && symbols == map["N" := 5, "L" := 0x200 + equ]
    ensures Encode(Cls, EquProgram(equ)[1], Symbols(symbols)) == Bytes([0x00, 0xE0])
    ensures Encode(JpAdr, EquProgram(equ)[2], Symbols(symbols)) == Bytes([0x12, equ])
  {
    assert FirstOperand(EquProgram(equ)[2], Symbols(symbols), 0, 4095) == Got(0x200 + equ);
    EquJumpAddress(equ);
  }

  lemma EquPassTwo(equ: nat)
    requires equ <= 2
    ensures PassTwoFrom(EquProgram(equ), [Some(equ), Some(2), Some(2)], map["N" := 5, "L" := 0x200 + equ], 0, Blank())
      == Some(PassTwo(SliceAssign(SliceAssign(Blank().image, 0x200, 0x202, [0x00, 0xE0]), 0x202, 0x204, [0x12, equ]),
                      0x204, 0x204, []))
  {
    var stmts := EquProgram(equ);
    var symbols := map["N" := 5, "L" := 0x200 + equ];
    var counts := [Some(equ), Some(2), Some(2)];
    var b := Blank();
    var w1 := SliceAssign(b.image, 0x200, 0x202, [0x00, 0xE0]);
    var w2 := SliceAssign(w1, 0x202, 0x204, [0x12, equ]);
    var t1 := b.(top := 0x200);
    var t2 := PassTwo(w1, 0x202, 0x200, []);
    var t3 := PassTwo(w2, 0x204, 0x202, []);
    assert PassTwoFrom(stmts, counts, symbols, 0, b) == PassTwoFrom(stmts, counts, symbols, 1, t1) by {
      assert stmts[0].form == "EQU" && FormNamed("EQU") == None;
      PassTwoUnfold(stmts, counts, symbols, 0, b, b);
    }
    assert PassTwoFrom(stmts, counts, symbols, 1, t1) == PassTwoFrom(stmts, counts, symbols, 2, t2.(top := 0x202)) by {
      assert stmts[1].form == "CLS" && FormNamed("CLS") == Some(Cls);
      EquWrites(equ, symbols);
      PassTwoUnfold(stmts, counts, symbols, 1, t1, t2);
    }
    assert PassTwoFrom(stmts, counts, symbols, 2, t2.(top := 0x202)) == PassTwoFrom(stmts, counts, symbols, 3, t3.(top := 0x204)) by {
      assert stmts[2].form == "JPADR" && FormNamed("JPADR") == Some(JpAdr);
      EquWrites(equ, symbols);
      PassTwoUnfold(stmts, counts, symbols, 2, t2.(top := 0x202), t3);
    }
  }

  /** `N EQU 5`, `L: CLS`, `JP L` assembles to CLS at 0x200 and a jump to
      0x200 plus the EQU's count: to CLS when the EQU takes no bytes, to
      the jump itself with the two bytes phase_one counts as written. */
  lemma EquShiftsLabels(equ: nat, corrected: bool)
    requires equ <= 2
    ensures AssembleWith(EquProgram(equ), corrected) == Image([0x00, 0xE0, 0x12, equ])
  {
    EquPassOne(equ, corrected);
    EquPassTwo(equ);
    var b := Blank().image;
    var w1 := SliceAssign(b, 0x200, 0x202, [0x00, 0xE0]);
    var w2 := SliceAssign(w1, 0x202, 0x204, [0x12, equ]);
    SliceAssignInside(b, 0x200, [0x00, 0xE0]);
    SliceAssignInside(w1, 0x202, [0x12, equ]);
    SliceInside(w2, 0x200, 0x204);
    assert w2[0x200..0x204] == [0x00, 0xE0, 0x12, equ];
    ImageOfRun(EquProgram(equ), corrected,
               PassOne(map["N" := 5, "L" := 0x200 + equ], 0x204 + equ, 0, [], [Some(equ), Some(2), Some(2)], []),
               PassTwo(w2, 0x204, 0x204, []));
  }
}

=== FILE: binasm.dfy ===
/** binasm.py: a hexadecimal string to a list of byte values, the helper
    chip8.py's own checks write their programs with. */
module BinAsm {
  import opened Bits

  /** The hex digits in the upper case of one character.  `str.upper`
      turns a to f into A to F, and a few characters into several: the
      ligatures U+FB00 to U+FB04 into FF, FI, FL, FFI and FFL, and U+1E9A
      into A and a modifier letter.  No other character's upper case holds
      a hex digit. */
  function UpperDigits(c: char): (d: string)
    ensures |d| <= 2 && forall k | 0 <= k < |d| :: IsHexChar(d[k])
  {
    if IsHexChar(Upper(c)) then [Upper(c)]
    else if c == '\U{FB00}' || c == '\U{FB03}' || c == '\U{FB04}' then "FF"
    else if c == '\U{FB01}' || c == '\U{FB02}' then "F"
    else if c == '\U{1E9A}' then "A"
    else []
  }

  /** `[c for c in code.upper() if c in hex]`. */
  function HexChars(code: string): (chars: string)
    ensures |chars| <= 2 * |code|
  {
    if |code| == 0 then []
    else UpperDigits(code[0]) + HexChars(code[1..])
  }

  /** Only hex digits survive the filter. */
  lemma {:induction false} HexCharsAreHex(code: string)
    ensures forall k | 0 <= k < |HexChars(code)| :: IsHexChar(HexChars(code)[k])
    decreases |code|
  {
    if |code| > 0 {
      HexCharsAreHex(code[1..]);
      var d := UpperDigits(code[0]);
      forall k | 0 <= k < |HexChars(code)| ensures IsHexChar(HexChars(code)[k]) {
        if k >= |d| {
          assert HexChars(code)[k] == HexChars(code[1..])[k - |d|];
        }
      }
    }
  }

  /** Each pair of digits, high digit first, as one byte. */
  function Pairs(chars: string): (out: seq<int>)
    requires |chars| % 2 == 0 && forall k | 0 <= k < |chars| :: IsHexChar(chars[k])
    ensures |out| == |chars| / 2 && AllBytes(out)
  {
    assert forall k | 0 <= k < |chars| / 2 :: IsHexChar(chars[2 * k]) && IsHexChar(chars[2 * k + 1]);
    seq(|chars| / 2, k requires 0 <= k < |chars| / 2 =>
      16 * HexValue(chars[2 * k]) + HexValue(chars[2 * k + 1]))
  }

  /** `binasm`: None when the assertions fail, that is when there is no
      digit or an odd number of them. */
  function BinAsm(code: string): (r: Option<seq<int>>)
    ensures r.Some? <==> |HexChars(code)| > 0 && |HexChars(code)| % 2 == 0
    ensures r.Some? ==> AllBytes(r.value) && 2 * |r.value| == |HexChars(code)|
  {
    var chars := HexChars(code);
    HexCharsAreHex(code);
    if |chars| == 0 || |chars| % 2 != 0 then None else Some(Pairs(chars))
  }

  /** The `while` loop of `binasm`, two digits at a time. */
  method BinAsmLoop(code: string) returns (r: Option<seq<int>>)
    ensures r == BinAsm(code)
  {
    var chars := HexChars(code);
    HexCharsAreHex(code);
    if |chars| == 0 || |chars| % 2 != 0 {
      return None;
    }
    var out: seq<int> := [];
    var i := 0;
    while i < |chars|
      invariant 0 <= i <= |chars| && i % 2 == 0 && |out| == i / 2
      invariant forall j | 0 <= j < |out| :: out[j] == 16 * HexValue(chars[2 * j]) + HexValue(chars[2 * j + 1])
    {
      var n := 16 * HexValue(chars[i]) + HexValue(chars[i + 1]);
      out := out + [n];
      i := i + 2;
    }
    assert out == Pairs(chars);
    return Some(out);
  }

  // ---------------------------------------------------------------------
  // The inverse: bytes written out in hex

  /** Bytes as two upper-case hex digits each, a space after each pair. */
  function HexText(bytes: seq<int>): string
    requires AllBytes(bytes)
  {
    if |bytes| == 0 then "" else Hex(bytes[0], 2, true) + " " + HexText(bytes[1..])
  }

  /** Two hex digits of a byte. */
  lemma ByteDigits(b: int)
    requires IsByte(b)
    ensures Hex(b, 2, true) == [HexDigit(b / 16), HexDigit(b % 16)]
  {
    if b >= 16 {
      assert HexDigits(b / 16, true) == [HexDigit(b / 16)];
    }
  }

  /** The filter works piece by piece. */
  lemma {:induction false} HexCharsConcat(a: string, b: string)
    ensures HexChars(a + b) == HexChars(a) + HexChars(b)
    decreases |a|
  {
    if |a| > 0 {
      var head := UpperDigits(a[0]);
      assert (a + b)[0] == a[0] && (a + b)[1..] == a[1..] + b;
      assert HexChars(a + b) == head + HexChars(a[1..] + b);
      HexCharsConcat(a[1..], b);
      assert HexChars(a) == head + HexChars(a[1..]);
    } else {
      assert a + b == b;
    }
  }

  /** The digits HexText writes, without the spaces. */
  function Digits(bytes: seq<int>): string
    requires AllBytes(bytes)
  {
    if |bytes| == 0 then [] else [HexDigit(bytes[0] / 16), HexDigit(bytes[0] % 16)] + Digits(bytes[1..])
  }

  /** Reading back what HexText wrote keeps only the digits, in order. */
  lemma {:induction false} HexCharsOfText(bytes: seq<int>)
    requires AllBytes(bytes)
    ensures HexChars(HexText(bytes)) == Digits(bytes)
    decreases |bytes|
  {
    if |bytes| > 0 {
      var b := bytes[0];
      var pair := Hex(b, 2, true);
      ByteDigits(b);
      HexDigitValue(b / 16);
      HexDigitValue(b % 16);
      HexCharsOfDigits(pair);
      HexCharsConcat(pair, " ");
      assert HexChars(" ") == [];
      HexCharsConcat(pair + " ", HexText(bytes[1..]));
      HexCharsOfText(bytes[1..]);
    }
  }

  /** Where each byte's two digits sit. */
  lemma {:induction false} DigitsAt(bytes: seq<int>)
    requires AllBytes(bytes)
    ensures |Digits(bytes)| == 2 * |bytes|
    ensures forall k | 0 <= k < |bytes| ::
      Digits(bytes)[2 * k] == HexDigit(bytes[k] / 16)
      && Digits(bytes)[2 * k + 1] == HexDigit(bytes[k] % 16)
    decreases |bytes|
  {
    if |bytes| > 0 {
      DigitsAt(bytes[1..]);
      var rest := Digits(bytes[1..]);
      forall k | 1 <= k < |bytes|
        ensures Digits(bytes)[2 * k] == HexDigit(bytes[k] / 16)
        ensures Digits(bytes)[2 * k + 1] == HexDigit(bytes[k] % 16)
      {
        assert bytes[1..][k - 1] == bytes[k];
        assert rest[2 * (k - 1)] == HexDigit(bytes[k] / 16);
        assert rest[2 * (k - 1) + 1] == HexDigit(bytes[k] % 16);
      }
    }
  }

  /** Digit pairs that spell out some bytes read back as those bytes. */
  lemma PairsOfDigits(chars: string, bytes: seq<int>)
    requires AllBytes(bytes) && |chars| == 2 * |bytes|
    requires forall k | 0 <= k < |bytes| ::
      chars[2 * k] == HexDigit(bytes[k] / 16) && chars[2 * k + 1] == HexDigit(bytes[k] % 16)
    ensures forall k | 0 <= k < |chars| :: IsHexChar(chars[k])
    ensures Pairs(chars) == bytes
  {
    forall k | 0 <= k < |chars| ensures IsHexChar(chars[k]) {
      var j := k / 2;
      assert k == 2 * j || k == 2 * j + 1;
      HexDigitValue(bytes[j] / 16);
      HexDigitValue(bytes[j] % 16);
    }
    var out := Pairs(chars);
    forall k | 0 <= k < |bytes| ensures out[k] == bytes[k] {
      var b := bytes[k];
      HexDigitValue(b / 16);
      HexDigitValue(b % 16);
      assert out[k] == 16 * (b / 16) + b % 16;
    }
    assert out == bytes;
  }

  /** binasm reads back any non-empty byte list written in hex. */
  lemma BinAsmHexText(bytes: seq<int>)
    requires AllBytes(bytes) && |bytes| > 0
    ensures BinAsm(HexText(bytes)) == Some(bytes)
  {
    HexCharsOfText(bytes);
    DigitsAt(bytes);
    PairsOfDigits(Digits(bytes), bytes);
  }

  /** Text made only of upper-case digits passes the filter unchanged. */
  lemma {:induction false} HexCharsOfDigits(s: string)
    requires forall k | 0 <= k < |s| :: IsHexChar(s[k]) && !('a' <= s[k] <= 'z')
    ensures HexChars(s) == s
    decreases |s|
  {
    if |s| > 0 {
      HexCharsOfDigits(s[1..]);
    }
  }

  /** Filtering text that is split into two parts, each already known. */
  lemma HexCharsJoin(a: string, b: string, a': string, b': string)
    requires HexChars(a) == a' && HexChars(b) == b'
    ensures HexChars(a + b) == a' + b'
  {
    HexCharsConcat(a, b);
  }

  // The digits of the first program of chip8.py's checks, piece by piece.

  lemma ExitDigits()
    ensures HexChars(" 00FD") == "00FD"
  {
    HexCharsOfDigits("00FD");
    assert HexChars(" ") == [];
    HexCharsJoin(" ", "00FD", [], "00FD");
  }

  lemma LoadDigits()
    ensures HexChars("6321") == "6321"
  {
    HexCharsOfDigits("6321");
  }

  lemma ProgramDigits()
    ensures HexChars("6321 00FD") == "632100FD"
  {
    ExitDigits();
    LoadDigits();
    HexCharsJoin("6321", " 00FD", "6321", "00FD");
  }

  /** The ligature U+FB00 upper-cases to two letters F: one byte. */
  lemma LigatureByte()
    ensures BinAsm("\U{FB00}") == Some([0xFF])
  {
    assert HexChars("\U{FB00}") == "FF" by {
      assert "\U{FB00}"[1..] == [];
    }
    BinAsmOfDigits("\U{FB00}", "FF");
    assert Pairs("FF") == [0xFF];
  }

  /** binasm of a text whose digits are known. */
  lemma BinAsmOfDigits(code: string, chars: string)
    requires HexChars(code) == chars && |chars| > 0 && |chars| % 2 == 0
    ensures forall k | 0 <= k < |chars| :: IsHexChar(chars[k])
    ensures BinAsm(code) == Some(Pairs(chars))
  {
    HexCharsAreHex(code);
  }

  lemma ProgramPairs()
    ensures Pairs("632100FD") == [0x63, 0x21, 0x00, 0xFD]
  {
  }

  /** The first program of chip8.py's checks. */
  lemma LoadExitProgram()
    ensures BinAsm("6321 00FD") == Some([0x63, 0x21, 0x00, 0xFD])
  {
    ProgramDigits();
    BinAsmOfDigits("6321 00FD", "632100FD");
    ProgramPairs();
  }
}

=== FILE: bits.dfy ===
/** Vocabulary shared by the whole model: optional values, integer bit
    operations with Python's semantics (two's complement over unbounded
    integers), powers of two and hexadecimal text. */
module Bits {

  datatype Option<+T> = None | Some(value: T)

  predicate IsByte(n: int) { 0 <= n < 256 }

  /** Byte-valued constants, checked where they are written. */
  type Byte = n: int | 0 <= n < 256

  predicate IsNybble(n: int) { 0 <= n < 16 }

  predicate AllBytes(s: seq<int>) { forall k | 0 <= k < |s| :: IsByte(s[k]) }

  function Abs(n: int): nat { if n < 0 then -n else n }

  function Pow2(n: nat): nat
    ensures Pow2(n) >= 1
  {
    if n == 0 then 1 else 2 * Pow2(n - 1)
  }

  /** Python's `a & b` on unbounded integers. */
  function BitAnd(a: int, b: int): int
    decreases Abs(a) + Abs(b)
  {
    if a == 0 || b == 0 then 0
    else if a == -1 then b
    else if b == -1 then a
    else 2 * BitAnd(a / 2, b / 2) + (if a % 2 == 1 && b % 2 == 1 then 1 else 0)
  }

  /** Python's `a | b` on unbounded integers. */
  function BitOr(a: int, b: int): int
    decreases Abs(a) + Abs(b)
  {
    if a == 0 then b
    else if b == 0 then a
    else if a == -1 || b == -1 then -1
    else 2 * BitOr(a / 2, b / 2) + (if a % 2 == 1 || b % 2 == 1 then 1 else 0)
  }

  /** Python's `a ^ b` on unbounded integers. */
  function BitXor(a: int, b: int): int
    decreases Abs(a) + Abs(b)
  {
    if a == 0 then b
    else if b == 0 then a
    else if a == -1 then -b - 1
    else if b == -1 then -a - 1
    else 2 * BitXor(a / 2, b / 2) + (if a % 2 != b % 2 then 1 else 0)
  }

  /** Whether bit `k` of `n` is one in two's complement: bit 0 is the
      remainder by two, bit k + 1 is bit k of the floor half. */
  predicate BitSet(n: int, k: nat)
    decreases k
  {
    if k == 0 then n % 2 == 1 else BitSet(n / 2, k - 1)
  }

  lemma {:induction false} BitAndBounded(a: int, b: int)
    requires 0 <= a
    ensures 0 <= BitAnd(a, b) <= a
    decreases Abs(a) + Abs(b)
  {
    if a == 0 || b == 0 || b == -1 {
    } else {
      BitAndBounded(a / 2, b / 2);
    }
  }

  lemma {:induction false} BitOrBounded(a: int, b: int, n: nat)
    requires 0 <= a < Pow2(n) && 0 <= b < Pow2(n)
    ensures 0 <= BitOr(a, b) < Pow2(n)
    decreases n
  {
    if a == 0 || b == 0 {
    } else {
      BitOrBounded(a / 2, b / 2, n - 1);
    }
  }

  lemma {:induction false} BitXorBounded(a: int, b: int, n: nat)
    requires 0 <= a < Pow2(n) && 0 <= b < Pow2(n)
    ensures 0 <= BitXor(a, b) < Pow2(n)
    decreases n
  {
    if a == 0 || b == 0 {
    } else {
      BitXorBounded(a / 2, b / 2, n - 1);
    }
  }

  /** On bytes the three operations stay bytes. */
  lemma ByteOps(a: int, b: int)
    requires IsByte(a) && IsByte(b)
    ensures IsByte(BitAnd(a, b)) && IsByte(BitOr(a, b)) && IsByte(BitXor(a, b))
  {
    assert Pow2(8) == 256;
    BitAndBounded(a, b);
    BitOrBounded(a, b, 8);
    BitXorBounded(a, b, 8);
  }

  /** OR-ing a value below 2^k into a multiple of 2^k is addition: the
      source packs `opcode | register` this way. */
  lemma {:induction false} BitOrDisjoint(q: nat, r: int, k: nat)
    requires 0 <= r < Pow2(k)
    ensures BitOr(Pow2(k) * q, r) == Pow2(k) * q + r
    decreases k
  {
    if q == 0 || r == 0 {
    } else {
      var a := Pow2(k) * q;
      var m := Pow2(k - 1) * q;
      assert a == 2 * m;
      BitOrDisjoint(q, r / 2, k - 1);
    }
  }

  /** A positive multiple is at least the multiplier. */
  lemma {:induction false} MulAtLeast(m: int, d: int)
    requires m > 0 && d >= 1
    ensures m * d >= m
    decreases d
  {
    if d > 1 {
      MulAtLeast(m, d - 1);
      assert m * d == m * (d - 1) + m;
    }
  }

  lemma DoubleProduct(a: int, b: int)
    ensures (2 * a) * b == 2 * (a * b)
  {
  }

  /** Euclidean division is unique: any decomposition with a remainder in
      range is the one `/` and `%` compute. */
  lemma DivModUnique(a: int, m: int, q: int, r: int)
    requires m > 0 && a == m * q + r && 0 <= r < m
    ensures a / m == q && a % m == r
  {
    var q0, r0 := a / m, a % m;
    assert a == m * q0 + r0 && 0 <= r0 < m;
    if q > q0 {
      MulAtLeast(m, q - q0);
    } else if q < q0 {
      MulAtLeast(m, q0 - q);
    }
  }

  /** Adding a multiple of the modulus does not change the remainder. */
  lemma ModShift(a: int, m: int, k: int)
    requires m > 0
    ensures (a + m * k) % m == a % m
  {
    assert a + m * k == m * (a / m + k) + a % m;
    DivModUnique(a + m * k, m, a / m + k, a % m);
  }

  /** Reducing the subtrahend first does not change a difference's remainder. */
  lemma ModOfMod(a: int, b: int, m: int)
    requires m > 0
    ensures (a - b % m) % m == (a - b) % m
  {
    var k := b / m;
    assert b == m * k + b % m;
    assert a - b % m == (a - b) + m * k;
    ModShift(a - b, m, k);
  }

  /** Distances on a circle of `m` positions: the distance from `b` to
      `a` is zero exactly when they meet, and stepping `b` forward by one
      shortens it by one, except that stepping past `a` makes it `m - 1`. */
  lemma WrapStep(a: int, b: int, m: int)
    requires 0 <= a < m && 0 <= b < m
    ensures (a - b) % m == 0 <==> a == b
    ensures a == b ==> (a - (b + 1) % m) % m == m - 1
    ensures a != b ==> (a - (b + 1) % m) % m == (a - b) % m - 1
  {
    var d := a - b;
    if d >= 0 {
      DivModUnique(d, m, 0, d);
    } else {
      DivModUnique(d, m, -1, d + m);
    }
    if b + 1 < m {
      DivModUnique(b + 1, m, 0, b + 1);
      var e := d - 1;
      if e >= 0 {
        DivModUnique(e, m, 0, e);
      } else {
        DivModUnique(e, m, -1, e + m);
      }
    } else {
      DivModUnique(b + 1, m, 1, 0);
      DivModUnique(a, m, 0, a);
    }
  }

  /** The remainder by `2 * m` from the remainder of the half by `m` and
      the low bit. */
  lemma ModDouble(a: int, m: int)
    requires m > 0
    ensures a % (2 * m) == 2 * ((a / 2) % m) + a % 2
  {
    var h := a / 2;
    var q, r := h / m, h % m;
    assert h == m * q + r;
    DoubleProduct(m, q);
    assert a == (2 * m) * q + (2 * r + a % 2);
    DivModUnique(a, 2 * m, q, 2 * r + a % 2);
  }

  /** One step of `&` with a positive odd mask keeps the low bit. */
  lemma BitAndOdd(a: int, b: int)
    requires a != 0 && a != -1 && b > 0 && b % 2 == 1
    ensures BitAnd(a, b) == 2 * BitAnd(a / 2, b / 2) + a % 2
  {
  }

  /** Masking with `2^k - 1`, as the source does with `& 0xFF`, `& 0xF`,
      `& 0x3F` and `& 0x7F`, is reduction modulo `2^k`. */
  lemma {:induction false} BitAndMask(a: int, k: nat)
    ensures BitAnd(a, Pow2(k) - 1) == a % Pow2(k)
    decreases k
  {
    var p := Pow2(k);
    if k == 0 {
      DivModUnique(a, 1, a, 0);
    } else if a == 0 {
      DivModUnique(0, p, 0, 0);
    } else if a == -1 {
      DivModUnique(-1, p, -1, p - 1);
    } else {
      var m := Pow2(k - 1);
      assert p == 2 * m;
      var b := 2 * m - 1;
      DivModUnique(b, 2, m - 1, 1);
      BitAndOdd(a, b);
      BitAndMask(a / 2, k - 1);
      assert BitAnd(a / 2, m - 1) == (a / 2) % m;
      ModDouble(a, m);
      assert BitAnd(a, p - 1) == 2 * ((a / 2) % m) + a % 2;
    }
  }

  /** `a & 0xFF` is `a % 256`. */
  lemma LowByte(a: int)
    ensures BitAnd(a, 0xFF) == a % 256
  {
    assert Pow2(8) == 256;
    BitAndMask(a, 8);
  }

  /** `a & 0x0F` is `a % 16`. */
  lemma LowNybble(a: int)
    ensures BitAnd(a, 0x0F) == a % 16
  {
    assert Pow2(4) == 16;
    BitAndMask(a, 4);
  }

  /** Testing one bit with `n & (1 << j)`, as the sprite scan does. */
  lemma {:induction false} BitAndPow2(n: int, j: nat)
    ensures BitAnd(n, Pow2(j)) != 0 <==> BitSet(n, j)
    decreases j
  {
    if j == 0 {
    } else {
      assert Pow2(j) / 2 == Pow2(j - 1) && Pow2(j) % 2 == 0;
      BitAndPow2(n / 2, j - 1);
    }
  }

  // ---------------------------------------------------------------------
  // Bit-by-bit meaning of the three operations

  lemma {:induction false} ZeroBits(k: nat)
    ensures !BitSet(0, k)
    decreases k
  {
    if k > 0 {
      ZeroBits(k - 1);
    }
  }

  lemma {:induction false} MinusOneBits(k: nat)
    ensures BitSet(-1, k)
    decreases k
  {
    if k > 0 {
      MinusOneBits(k - 1);
    }
  }

  /** `-b - 1` is `~b`: every bit flipped. */
  lemma {:induction false} ComplementBits(b: int, k: nat)
    ensures BitSet(-b - 1, k) <==> !BitSet(b, k)
    decreases k
  {
    if k > 0 {
      assert (-b - 1) / 2 == -(b / 2) - 1;
      ComplementBits(b / 2, k - 1);
    }
  }

  /** Bit `k` of `2 * q + bit` is `bit` for k = 0 and bit `k - 1` of `q` above. */
  lemma ShiftedBits(q: int, bit: int, k: nat)
    requires 0 <= bit <= 1
    ensures k == 0 ==> (BitSet(2 * q + bit, k) <==> bit == 1)
    ensures k > 0 ==> (BitSet(2 * q + bit, k) <==> BitSet(q, k - 1))
  {
    assert (2 * q + bit) / 2 == q && (2 * q + bit) % 2 == bit;
  }

  /** Below 2^(k+1), bit k is set exactly from 2^k upwards. */
  lemma {:induction false} BitSetBound(b: int, k: nat)
    requires 0 <= b < Pow2(k + 1)
    ensures BitSet(b, k) <==> b >= Pow2(k)
    decreases k
  {
    if k > 0 {
      BitSetBound(b / 2, k - 1);
    }
  }

  lemma {:induction false} BitAndBits(a: int, b: int, k: nat)
    ensures BitSet(BitAnd(a, b), k) <==> BitSet(a, k) && BitSet(b, k)
    decreases k
  {
    if a == 0 || b == 0 {
      ZeroBits(k);
    } else if a == -1 || b == -1 {
      MinusOneBits(k);
    } else {
      var bit := if a % 2 == 1 && b % 2 == 1 then 1 else 0;
      ShiftedBits(BitAnd(a / 2, b / 2), bit, k);
      if k > 0 {
        BitAndBits(a / 2, b / 2, k - 1);
      }
    }
  }

  lemma {:induction false} BitOrBits(a: int, b: int, k: nat)
    ensures BitSet(BitOr(a, b), k) <==> BitSet(a, k) || BitSet(b, k)
    decreases k
  {
    if a == 0 || b == 0 {
      ZeroBits(k);
    } else if a == -1 || b == -1 {
      MinusOneBits(k);
    } else {
      var bit := if a % 2 == 1 || b % 2 == 1 then 1 else 0;
      ShiftedBits(BitOr(a / 2, b / 2), bit, k);
      if k > 0 {
        BitOrBits(a / 2, b / 2, k - 1);
      }
    }
  }

  lemma {:induction false} BitXorBits(a: int, b: int, k: nat)
    ensures BitSet(BitXor(a, b), k) <==> BitSet(a, k) != BitSet(b, k)
    decreases k
  {
    if a == 0 || b == 0 {
      ZeroBits(k);
    } else if a == -1 {
      MinusOneBits(k);
      ComplementBits(b, k);
    } else if b == -1 {
      MinusOneBits(k);
      ComplementBits(a, k);
    } else {
      var bit := if a % 2 != b % 2 then 1 else 0;
      ShiftedBits(BitXor(a / 2, b / 2), bit, k);
      if k > 0 {
        BitXorBits(a / 2, b / 2, k - 1);
      }
    }
  }

  // ---------------------------------------------------------------------
  // Hexadecimal text, as Python's format specifications `X`, `x` and `0nX`
  // render it.

  function HexDigit(d: int): char
    requires IsNybble(d)
  {
    "0123456789ABCDEF"[d]
  }

  function LowerHexDigit(d: int): char
    requires IsNybble(d)
  {
    "0123456789abcdef"[d]
  }

  /** Digits of `n` in base 16, most significant first, no padding. */
  function HexDigits(n: nat, upper: bool): string
    decreases n
  {
    var last := if upper then HexDigit(n % 16) else LowerHexDigit(n % 16);
    if n < 16 then [last] else HexDigits(n / 16, upper) + [last]
  }

  /** Python's `'{:0<width>X}'.format(n)` (or `x` when not `upper`). */
  function Hex(n: nat, width: nat, upper: bool): string
  {
    var d := HexDigits(n, upper);
    if |d| >= width then d else seq(width - |d|, _ => '0') + d
  }

  /** Value of an upper-case hex digit; the inverse of HexDigit. */
  function HexValue(c: char): (v: int)
    ensures -1 <= v < 16
    ensures v >= 0 <==> '0' <= c <= '9' || 'A' <= c <= 'F'
  {
    if '0' <= c <= '9' then c as int - '0' as int
    else if 'A' <= c <= 'F' then c as int - 'A' as int + 10
    else -1
  }

  predicate IsHexChar(c: char) { HexValue(c) >= 0 }

  /** `str.upper` on ASCII letters. */
  function Upper(c: char): char
  {
    if 'a' <= c <= 'z' then (c as int - 32) as char else c
  }

  function UpperText(s: string): (u: string)
    ensures |u| == |s| && forall k | 0 <= k < |s| :: u[k] == Upper(s[k])
  {
    seq(|s|, k requires 0 <= k < |s| => Upper(s[k]))
  }

  lemma HexDigitValue(d: int)
    requires IsNybble(d)
    ensures HexValue(HexDigit(d)) == d
  {
  }

  lemma {:induction false} HexDigitsLength(n: nat, k: nat, upper: bool)
    requires n < Pow2(4 * k) && k >= 1
    ensures |HexDigits(n, upper)| <= k
    decreases k
  {
    if k == 1 {
      assert Pow2(4) == 16;
    } else if n >= 16 {
      assert Pow2(4 * k) == 16 * Pow2(4 * (k - 1)) by {
        assert Pow2(4 * k) == 2 * Pow2(4 * k - 1) == 4 * Pow2(4 * k - 2)
          == 8 * Pow2(4 * k - 3) == 16 * Pow2(4 * k - 4);
      }
      HexDigitsLength(n / 16, k - 1, upper);
    }
  }

  /** A value below 16^width renders in exactly `width` characters. */
  lemma HexWidth(n: nat, width: nat, upper: bool)
    requires 1 <= width && n < Pow2(4 * width)
    ensures |Hex(n, width, upper)| == width
  {
    HexDigitsLength(n, width, upper);
  }

  /** Reading upper-case hex digits back, most significant first. */
  function HexNumber(s: string): int
    decreases |s|
  {
    if |s| == 0 then 0 else 16 * HexNumber(s[..|s| - 1]) + HexValue(s[|s| - 1])
  }

  lemma {:induction false} HexNumberOfDigits(n: nat)
    ensures HexNumber(HexDigits(n, true)) == n
    decreases n
  {
    var d := HexDigits(n, true);
    HexDigitValue(n % 16);
    if n >= 16 {
      assert d[..|d| - 1] == HexDigits(n / 16, true);
      HexNumberOfDigits(n / 16);
    }
  }

  lemma {:induction false} HexNumberOfZeros(z: string)
    requires forall k | 0 <= k < |z| :: z[k] == '0'
    ensures HexNumber(z) == 0
    decreases |z|
  {
    if |z| > 0 {
      HexNumberOfZeros(z[..|z| - 1]);
    }
  }

  /** Leading zeros do not change the value read. */
  lemma {:induction false} HexNumberPadded(z: string, s: string)
    requires forall k | 0 <= k < |z| :: z[k] == '0'
    ensures HexNumber(z + s) == HexNumber(s)
    decreases |s|
  {
    if |s| == 0 {
      assert z + s == z;
      HexNumberOfZeros(z);
    } else {
      assert (z + s)[..|z + s| - 1] == z + s[..|s| - 1];
      HexNumberPadded(z, s[..|s| - 1]);
    }
  }

  /** Python's `'{:0nX}'` text reads back as the number it shows. */
  lemma HexRoundTrip(n: nat, width: nat)
    ensures HexNumber(Hex(n, width, true)) == n
  {
    var d := HexDigits(n, true);
    HexNumberOfDigits(n);
    if |d| < width {
      HexNumberPadded(seq(width - |d|, _ => '0'), d);
    }
  }
}

=== FILE: chip8.dfy ===
/** The CHIP-8 / SCHIP virtual machine of chip8.py: registers, memory, call
    stack and breakpoints; instruction decoding and execution; `step`,
    `tick` and `reset_vm`.

    The machine is a value. Every display call that chip8.py makes into a
    stub of display.py (clear, the three scrolls, sound) is returned as an
    `Effect`; `set_mode` and `draw_sprite`, which do act on the screen, are
    applied to the modelled screen. The keypad test and the random number
    are inputs of a step. */
module Chip8 {
  import opened Bits
  import Display

  const MaxCallDepth := 12
  const MemorySize := 4096
  const ProgramBase := 0x200
  const VF := 15

  /** The 4x5 hexadecimal font, loaded at 0x000. */
  const FontSmall: seq<Byte> := [
    0xF0, 0x90, 0x90, 0x90, 0xF0, 0x20, 0x60, 0x20, 0x20, 0x70,
    0xF0, 0x10, 0xF0, 0x80, 0xF0, 0xF0, 0x10, 0xF0, 0x10, 0xF0,
    0x90, 0x90, 0xF0, 0x10, 0x10, 0xF0, 0x80, 0xF0, 0x10, 0xF0,
    0xF0, 0x80, 0xF0, 0x90, 0xF0, 0xF0, 0x10, 0x20, 0x40, 0x40,
    0xF0, 0x90, 0xF0, 0x90, 0xF0, 0xF0, 0x90, 0xF0, 0x10, 0xF0,
    0xF0, 0x90, 0xF0, 0x90, 0x90, 0xE0, 0x90, 0xE0, 0x90, 0xE0,
    0xF0, 0x80, 0x80, 0x80, 0xF0, 0xE0, 0x90, 0x90, 0x90, 0xE0,
    0xF0, 0x80, 0xF0, 0x80, 0xF0, 0xF0, 0x80, 0xF0, 0x80, 0x80]

  /** The 8x10 SCHIP font, loaded at 0x050. */
  const FontLarge: seq<Byte> := [
    0x00, 0x3C, 0x42, 0x42, 0x42, 0x42, 0x42, 0x42, 0x3C, 0x00,
    0x00, 0x08, 0x38, 0x08, 0x08, 0x08, 0x08, 0x08, 0x3E, 0x00,
    0x00, 0x38, 0x44, 0x04, 0x08, 0x10, 0x20, 0x44, 0x7C, 0x00,
    0x00, 0x38, 0x44, 0x04, 0x18, 0x04, 0x04, 0x44, 0x38, 0x00,
    0x00, 0x0C, 0x14, 0x24, 0x24, 0x7E, 0x04, 0x04, 0x0E, 0x00,
    0x00, 0x3E, 0x20, 0x20, 0x3C, 0x02, 0x02, 0x42, 0x3C, 0x00,
    0x00, 0x0E, 0x10, 0x20, 0x3C, 0x22, 0x22, 0x22, 0x1C, 0x00,
    0x00, 0x7E, 0x42, 0x02, 0x04, 0x04, 0x08, 0x08, 0x08, 0x00,
    0x00, 0x3C, 0x42, 0x42, 0x3C, 0x42, 0x42, 0x42, 0x3C, 0x00,
    0x00, 0x3C, 0x42, 0x42, 0x42, 0x3E, 0x02, 0x04, 0x78, 0x00,
    0x00, 0x18, 0x08, 0x14, 0x14, 0x14, 0x1C, 0x22, 0x77, 0x00,
    0x00, 0x7C, 0x22, 0x22, 0x3C, 0x22, 0x22, 0x22, 0x7C, 0x00,
    0x00, 0x1E, 0x22, 0x40, 0x40, 0x40, 0x40, 0x22, 0x1C, 0x00,
    0x00, 0x78, 0x24, 0x22, 0x22, 0x22, 0x22, 0x24, 0x78, 0x00,
    0x00, 0x7E, 0x22, 0x28, 0x38, 0x28, 0x20, 0x22, 0x7E, 0x00,
    0x00, 0x7E, 0x22, 0x28, 0x38, 0x28, 0x20, 0x20, 0x70, 0x00]

  /** The machine state: `REGS` (v0..vF, I, the delay timer T, the sound
      timer S and the PC), `MEMORY`, `CALL_STACK` (top at the end),
      `BREAKPOINTS` and the screen. */
  datatype Machine = Machine(
    v: seq<int>, i: int, dt: int, st: int, pc: int,
    mem: seq<int>, stack: seq<int>, breakpoints: seq<int>,
    screen: Display.Screen)

  predicate Valid(m: Machine)
  {
    && |m.v| == 16 && AllBytes(m.v)
    && m.i >= 0 && IsByte(m.dt) && IsByte(m.st) && m.pc >= 0
    && |m.mem| == MemorySize && AllBytes(m.mem)
    && |m.stack| <= MaxCallDepth && (forall k | 0 <= k < |m.stack| :: m.stack[k] >= 0)
    && Display.Valid(m.screen)
  }

  /** What one step may observe from outside: `display.key_test()` (a key
      0..15, or -1 for none) and `random.randint(0, 255)`. */
  datatype Input = Input(key: int, random: int)

  predicate ValidInput(input: Input)
  {
    -1 <= input.key < 16 && IsByte(input.random)
  }

  /** Calls into the display stubs, in the order made. */
  datatype Effect = ClearScreen | ScrollDown(lines: int) | ScrollRight | ScrollLeft | Sound(on: bool)

  // ---------------------------------------------------------------------
  // Instructions

  datatype AluKind = Assign | Or | And | Xor | Add | Sub | Shr | SubN | Shl

  /** One instruction as the dispatch tables select its handler. */
  datatype Op =
    | ScrollDownOp(n: int)      // 00Cn
    | ClearOp                   // 00E0
    | ReturnOp                  // 00EE
    | ScrollRightOp             // 00FB
    | ScrollLeftOp              // 00FC
    | ExitOp                    // 00FD
    | LowResOp                  // 00FE
    | HighResOp                 // 00FF
    | JumpOp(addr: int)         // 1nnn
    | CallOp(addr: int)         // 2nnn
    | SkipEqByteOp(x: int, kk: int)   // 3xkk
    | SkipNeByteOp(x: int, kk: int)   // 4xkk
    | SkipEqRegOp(x: int, y: int)     // 5xy_
    | LoadByteOp(x: int, kk: int)     // 6xkk
    | AddByteOp(x: int, kk: int)      // 7xkk
    | AluOp(kind: AluKind, x: int, y: int)  // 8xy0..8xy7, 8xyE
    | SkipNeRegOp(x: int, y: int)     // 9xy_
    | LoadIOp(addr: int)              // Annn
    | JumpV0Op(addr: int)             // Bnnn
    | RandomOp(x: int, kk: int)       // Cxkk
    | DrawOp(x: int, y: int, n: int)  // Dxyn
    | SkipKeyOp(x: int)               // Ex9E
    | SkipNoKeyOp(x: int)             // ExA1
    | ReadDelayOp(x: int)             // Fx07
    | WaitKeyOp(x: int)               // Fx0A
    | SetDelayOp(x: int)              // Fx15
    | SetSoundOp(x: int)              // Fx18
    | AddIOp(x: int)                  // Fx1E
    | FontSmallOp(x: int)             // Fx29
    | FontLargeOp(x: int)             // Fx30
    | BcdOp(x: int)                   // Fx33
    | StoreOp(x: int)                 // Fx55
    | LoadOp(x: int)                  // Fx65

  predicate IsInstruction(inst: int) { 0 <= inst < 0x10000 }

  /** The four nybbles of an instruction word, most significant first:
      `INST & 0xF000`, `(INST & 0x0F00) >> 8`, `(INST & 0x00F0) >> 4` and
      `INST & 0x000F`. */
  datatype Nybbles = Nybbles(a: int, x: int, y: int, n: int)

  predicate NybblesValid(w: Nybbles)
  {
    IsNybble(w.a) && IsNybble(w.x) && IsNybble(w.y) && IsNybble(w.n)
  }

  function Split(inst: int): (w: Nybbles)
    requires IsInstruction(inst)
    ensures NybblesValid(w)
  {
    var t := inst / 16;
    var u := t / 16;
    Nybbles(u / 16, u % 16, t % 16, inst % 16)
  }

  function Join(w: Nybbles): int
  {
    16 * (16 * (16 * w.a + w.x) + w.y) + w.n
  }

  /** One hexadecimal digit appended on the right is recovered by `/ 16`
      and `% 16`. */
  lemma Digit(q: int, r: int)
    requires IsNybble(r)
    ensures (16 * q + r) / 16 == q && (16 * q + r) % 16 == r
  {
    DivModUnique(16 * q + r, 16, q, r);
  }

  /** Splitting and joining are inverse. */
  lemma SplitJoin(w: Nybbles)
    requires NybblesValid(w)
    ensures IsInstruction(Join(w)) && Split(Join(w)) == w
  {
    var u := 16 * w.a + w.x;
    var t := 16 * u + w.y;
    Digit(t, w.n);
    Digit(u, w.y);
    Digit(w.a, w.x);
  }

  lemma JoinSplit(inst: int)
    requires IsInstruction(inst)
    ensures Join(Split(inst)) == inst
  {
  }

  /** `INST & 0x00FF` and `INST & 0x0FFF`. */
  function Byte(w: Nybbles): int { 0x10 * w.y + w.n }

  function Address(w: Nybbles): int { 16 * (16 * w.x + w.y) + w.n }

  /** `decode_0xxx`: the low byte selects (the x nybble is never looked at),
      and every low byte 0xCn is 00Cn. */
  function DecodeSystem(w: Nybbles): Option<Op>
  {
    if w.y == 0xC then Some(ScrollDownOp(w.n))
    else if w.y == 0xE && w.n == 0x0 then Some(ClearOp)
    else if w.y == 0xE && w.n == 0xE then Some(ReturnOp)
    else if w.y == 0xF && w.n == 0xB then Some(ScrollRightOp)
    else if w.y == 0xF && w.n == 0xC then Some(ScrollLeftOp)
    else if w.y == 0xF && w.n == 0xD then Some(ExitOp)
    else if w.y == 0xF && w.n == 0xE then Some(LowResOp)
    else if w.y == 0xF && w.n == 0xF then Some(HighResOp)
    else None
  }

  function AluCode(kind: AluKind): int
  {
    match kind
    case Assign => 0x0 case Or => 0x1 case And => 0x2 case Xor => 0x3
    case Add => 0x4 case Sub => 0x5 case Shr => 0x6 case SubN => 0x7 case Shl => 0xE
  }

  /** `decode_8xxx`: the low nybble selects (`INST & 0xF00F`). */
  function DecodeAlu(w: Nybbles): Option<Op>
  {
    match w.n
    case 0x0 => Some(AluOp(Assign, w.x, w.y))
    case 0x1 => Some(AluOp(Or, w.x, w.y))
    case 0x2 => Some(AluOp(And, w.x, w.y))
    case 0x3 => Some(AluOp(Xor, w.x, w.y))
    case 0x4 => Some(AluOp(Add, w.x, w.y))
    case 0x5 => Some(AluOp(Sub, w.x, w.y))
    case 0x6 => Some(AluOp(Shr, w.x, w.y))
    case 0x7 => Some(AluOp(SubN, w.x, w.y))
    case 0xE => Some(AluOp(Shl, w.x, w.y))
    case _ => None
  }

  /** `decode_Exxx`: the low byte selects (`INST & 0xF0FF`). */
  function DecodeKeys(w: Nybbles): Option<Op>
  {
    match Byte(w)
    case 0x9E => Some(SkipKeyOp(w.x))
    case 0xA1 => Some(SkipNoKeyOp(w.x))
    case _ => None
  }

  /** `decode_Fxxx`: the low byte selects (`INST & 0xF0FF`). */
  function DecodeMisc(w: Nybbles): Option<Op>
  {
    match Byte(w)
    case 0x07 => Some(ReadDelayOp(w.x))
    case 0x0A => Some(WaitKeyOp(w.x))
    case 0x15 => Some(SetDelayOp(w.x))
    case 0x18 => Some(SetSoundOp(w.x))
    case 0x1E => Some(AddIOp(w.x))
    case 0x29 => Some(FontSmallOp(w.x))
    case 0x30 => Some(FontLargeOp(w.x))
    case 0x33 => Some(BcdOp(w.x))
    case 0x55 => Some(StoreOp(w.x))
    case 0x65 => Some(LoadOp(w.x))
    case _ => None
  }

  /** `dispatch_first_nybble` and the tables under it. */
  function DecodeWord(w: Nybbles): Option<Op>
  {
    match w.a
    case 0x0 => DecodeSystem(w)
    case 0x1 => Some(JumpOp(Address(w)))
    case 0x2 => Some(CallOp(Address(w)))
    case 0x3 => Some(SkipEqByteOp(w.x, Byte(w)))
    case 0x4 => Some(SkipNeByteOp(w.x, Byte(w)))
    case 0x5 => Some(SkipEqRegOp(w.x, w.y))
    case 0x6 => Some(LoadByteOp(w.x, Byte(w)))
    case 0x7 => Some(AddByteOp(w.x, Byte(w)))
    case 0x8 => DecodeAlu(w)
    case 0x9 => Some(SkipNeRegOp(w.x, w.y))
    case 0xA => Some(LoadIOp(Address(w)))
    case 0xB => Some(JumpV0Op(Address(w)))
    case 0xC => Some(RandomOp(w.x, Byte(w)))
    case 0xD => Some(DrawOp(w.x, w.y, w.n))
    case 0xE => DecodeKeys(w)
    case _ => DecodeMisc(w)
  }

  /** The instruction an instruction word stands for; None is the
      'Undefined instruction' error. */
  function Decode(inst: int): Option<Op>
    requires IsInstruction(inst)
  {
    DecodeWord(Split(inst))
  }

  /** An instruction's fields are in range. */
  predicate WellFormed(op: Op)
  {
    match op
    case ScrollDownOp(n) => IsNybble(n)
    case JumpOp(a) => 0 <= a < 0x1000
    case CallOp(a) => 0 <= a < 0x1000
    case LoadIOp(a) => 0 <= a < 0x1000
    case JumpV0Op(a) => 0 <= a < 0x1000
    case SkipEqByteOp(x, kk) => IsNybble(x) && IsByte(kk)
    case SkipNeByteOp(x, kk) => IsNybble(x) && IsByte(kk)
    case LoadByteOp(x, kk) => IsNybble(x) && IsByte(kk)
    case AddByteOp(x, kk) => IsNybble(x) && IsByte(kk)
    case RandomOp(x, kk) => IsNybble(x) && IsByte(kk)
    case SkipEqRegOp(x, y) => IsNybble(x) && IsNybble(y)
    case SkipNeRegOp(x, y) => IsNybble(x) && IsNybble(y)
    case AluOp(_, x, y) => IsNybble(x) && IsNybble(y)
    case DrawOp(x, y, n) => IsNybble(x) && IsNybble(y) && IsNybble(n)
    case SkipKeyOp(x) => IsNybble(x)
    case SkipNoKeyOp(x) => IsNybble(x)
    case ReadDelayOp(x) => IsNybble(x)
    case WaitKeyOp(x) => IsNybble(x)
    case SetDelayOp(x) => IsNybble(x)
    case SetSoundOp(x) => IsNybble(x)
    case AddIOp(x) => IsNybble(x)
    case FontSmallOp(x) => IsNybble(x)
    case FontLargeOp(x) => IsNybble(x)
    case BcdOp(x) => IsNybble(x)
    case StoreOp(x) => IsNybble(x)
    case LoadOp(x) => IsNybble(x)
    case _ => true
  }

  function WithByte(a: int, x: int, kk: int): Nybbles { Nybbles(a, x, kk / 16, kk % 16) }

  function WithAddress(a: int, addr: int): Nybbles
  {
    Nybbles(a, addr / 16 / 16, addr / 16 % 16, addr % 16)
  }

  /** The canonical nybbles of an instruction: bits the decoder ignores
      are zero. */
  function EncodeWord(op: Op): Nybbles
  {
    match op
    case ScrollDownOp(n) => Nybbles(0, 0, 0xC, n)
    case ClearOp => Nybbles(0, 0, 0xE, 0x0)
    case ReturnOp => Nybbles(0, 0, 0xE, 0xE)
    case ScrollRightOp => Nybbles(0, 0, 0xF, 0xB)
    case ScrollLeftOp => Nybbles(0, 0, 0xF, 0xC)
    case ExitOp => Nybbles(0, 0, 0xF, 0xD)
    case LowResOp => Nybbles(0, 0, 0xF, 0xE)
    case HighResOp => Nybbles(0, 0, 0xF, 0xF)
    case JumpOp(a) => WithAddress(1, a)
    case CallOp(a) => WithAddress(2, a)
    case SkipEqByteOp(x, kk) => WithByte(3, x, kk)
    case SkipNeByteOp(x, kk) => WithByte(4, x, kk)
    case SkipEqRegOp(x, y) => Nybbles(5, x, y, 0)
    case LoadByteOp(x, kk) => WithByte(6, x, kk)
    case AddByteOp(x, kk) => WithByte(7, x, kk)
    case AluOp(kind, x, y) => Nybbles(8, x, y, AluCode(kind))
    case SkipNeRegOp(x, y) => Nybbles(9, x, y, 0)
    case LoadIOp(a) => WithAddress(0xA, a)
    case JumpV0Op(a) => WithAddress(0xB, a)
    case RandomOp(x, kk) => WithByte(0xC, x, kk)
    case DrawOp(x, y, n) => Nybbles(0xD, x, y, n)
    case SkipKeyOp(x) => Nybbles(0xE, x, 0x9, 0xE)
    case SkipNoKeyOp(x) => Nybbles(0xE, x, 0xA, 0x1)
    case ReadDelayOp(x) => Nybbles(0xF, x, 0x0, 0x7)
    case WaitKeyOp(x) => Nybbles(0xF, x, 0x0, 0xA)
    case SetDelayOp(x) => Nybbles(0xF, x, 0x1, 0x5)
    case SetSoundOp(x) => Nybbles(0xF, x, 0x1, 0x8)
    case AddIOp(x) => Nybbles(0xF, x, 0x1, 0xE)
    case FontSmallOp(x) => Nybbles(0xF, x, 0x2, 0x9)
    case FontLargeOp(x) => Nybbles(0xF, x, 0x3, 0x0)
    case BcdOp(x) => Nybbles(0xF, x, 0x3, 0x3)
    case StoreOp(x) => Nybbles(0xF, x, 0x5, 0x5)
    case LoadOp(x) => Nybbles(0xF, x, 0x6, 0x5)
  }

  function Encode(op: Op): int { Join(EncodeWord(op)) }

  /** Decoding the canonical encoding gives the instruction back. */
  lemma DecodeEncode(op: Op)
    requires WellFormed(op)
    ensures IsInstruction(Encode(op)) && Decode(Encode(op)) == Some(op)
  {
    var w := EncodeWord(op);
    if op.JumpOp? || op.CallOp? || op.LoadIOp? || op.JumpV0Op? {
      DecodeEncodeAddress(op);
    } else if op.SkipEqByteOp? || op.SkipNeByteOp? || op.LoadByteOp? || op.AddByteOp? || op.RandomOp? {
      DecodeEncodeByte(op);
    } else if op.AluOp? {
      DecodeEncodeAlu(op);
    } else if w.a == 0xF {
      DecodeEncodeMisc(op);
    } else {
      DecodeEncodeOther(op);
    }
    SplitJoin(w);
  }

  lemma DecodeEncodeAddress(op: Op)
    requires op.JumpOp? || op.CallOp? || op.LoadIOp? || op.JumpV0Op?
    requires WellFormed(op)
    ensures NybblesValid(EncodeWord(op)) && DecodeWord(EncodeWord(op)) == Some(op)
  {
    var t := op.addr / 16;
    assert op.addr == 16 * t + op.addr % 16;
    assert t == 16 * (t / 16) + t % 16;
  }

  lemma DecodeEncodeByte(op: Op)
    requires op.SkipEqByteOp? || op.SkipNeByteOp? || op.LoadByteOp? || op.AddByteOp? || op.RandomOp?
    requires WellFormed(op)
    ensures NybblesValid(EncodeWord(op)) && DecodeWord(EncodeWord(op)) == Some(op)
  {
    assert op.kk == 16 * (op.kk / 16) + op.kk % 16;
  }

  lemma DecodeEncodeAlu(op: Op)
    requires op.AluOp? && WellFormed(op)
    ensures NybblesValid(EncodeWord(op)) && DecodeWord(EncodeWord(op)) == Some(op)
  {
    assert DecodeAlu(EncodeWord(op)) == Some(op);
  }

  lemma DecodeEncodeMisc(op: Op)
    requires EncodeWord(op).a == 0xF && WellFormed(op)
    ensures NybblesValid(EncodeWord(op)) && DecodeWord(EncodeWord(op)) == Some(op)
  {
    assert DecodeMisc(EncodeWord(op)) == Some(op);
  }

  lemma DecodeEncodeOther(op: Op)
    requires !(op.JumpOp? || op.CallOp? || op.LoadIOp? || op.JumpV0Op?)
    requires !(op.SkipEqByteOp? || op.SkipNeByteOp? || op.LoadByteOp? || op.AddByteOp? || op.RandomOp?)
    requires !op.AluOp? && EncodeWord(op).a != 0xF && WellFormed(op)
    ensures NybblesValid(EncodeWord(op)) && DecodeWord(EncodeWord(op)) == Some(op)
  {
  }

  /** Bits the dispatch ignores: the x nybble of a 0nnn instruction and
      the low nybble of 5xyn and 9xyn. */
  predicate IgnoresBits(op: Op)
  {
    || op.ScrollDownOp? || op.ClearOp? || op.ReturnOp? || op.ScrollRightOp?
    || op.ScrollLeftOp? || op.ExitOp? || op.LowResOp? || op.HighResOp?
    || op.SkipEqRegOp? || op.SkipNeRegOp?
  }

  /** Whatever decodes is well formed, and is its own canonical encoding
      unless it is one of the instructions with ignored bits. */
  lemma EncodeDecode(inst: int)
    requires IsInstruction(inst) && Decode(inst).Some?
    ensures WellFormed(Decode(inst).value)
    ensures !IgnoresBits(Decode(inst).value) ==> Encode(Decode(inst).value) == inst
  {
    var w := Split(inst);
    EncodeDecodeWord(w);
    JoinSplit(inst);
  }

  lemma EncodeDecodeWord(w: Nybbles)
    requires NybblesValid(w) && DecodeWord(w).Some?
    ensures WellFormed(DecodeWord(w).value)
    ensures !IgnoresBits(DecodeWord(w).value) ==> EncodeWord(DecodeWord(w).value) == w
  {
    if w.a == 0 {
      EncodeDecodeSystem(w);
    } else if w.a in {1, 2, 0xA, 0xB} {
      EncodeDecodeAddress(w);
    } else if w.a in {3, 4, 6, 7, 0xC} {
      EncodeDecodeByte(w);
    } else if w.a == 8 {
      EncodeDecodeAlu(w);
    } else if w.a == 0xE {
      EncodeDecodeKeys(w);
    } else if w.a == 0xF {
      EncodeDecodeMisc(w);
    }
  }

  lemma EncodeDecodeSystem(w: Nybbles)
    requires NybblesValid(w) && w.a == 0 && DecodeSystem(w).Some?
    ensures WellFormed(DecodeSystem(w).value) && IgnoresBits(DecodeSystem(w).value)
  {
  }

  lemma EncodeDecodeAddress(w: Nybbles)
    requires NybblesValid(w) && w.a in {1, 2, 0xA, 0xB}
    ensures WellFormed(DecodeWord(w).value) && EncodeWord(DecodeWord(w).value) == w
  {
    Digit(16 * w.x + w.y, w.n);
    Digit(w.x, w.y);
  }

  lemma EncodeDecodeByte(w: Nybbles)
    requires NybblesValid(w) && w.a in {3, 4, 6, 7, 0xC}
    ensures WellFormed(DecodeWord(w).value) && EncodeWord(DecodeWord(w).value) == w
  {
    Digit(w.y, w.n);
  }

  lemma EncodeDecodeAlu(w: Nybbles)
    requires NybblesValid(w) && w.a == 8 && DecodeAlu(w).Some?
    ensures WellFormed(DecodeAlu(w).value) && EncodeWord(DecodeAlu(w).value) == w
  {
  }

  lemma EncodeDecodeKeys(w: Nybbles)
    requires NybblesValid(w) && w.a == 0xE && DecodeKeys(w).Some?
    ensures WellFormed(DecodeKeys(w).value) && EncodeWord(DecodeKeys(w).value) == w
  {
  }

  lemma EncodeDecodeMisc(w: Nybbles)
    requires NybblesValid(w) && w.a == 0xF && DecodeMisc(w).Some?
    ensures WellFormed(DecodeMisc(w).value) && EncodeWord(DecodeMisc(w).value) == w
  {
  }

  /** `decode_0xxx` looks only at the low byte. */
  lemma SystemIgnoresMiddle(inst: int)
    requires IsInstruction(inst) && inst / 0x1000 == 0
    ensures Decode(inst) == Decode(inst % 0x100)
  {
    var w := Split(inst);
    var low := Nybbles(0, 0, w.y, w.n);
    JoinSplit(inst);
    DivModUnique(inst, 0x100, w.x, Join(low));
    SplitJoin(low);
    assert DecodeWord(w) == DecodeSystem(w) == DecodeSystem(low) == DecodeWord(low);
  }

  /** 5xy0 and 9xy0 are dispatched on the first nybble alone. */
  lemma SkipRegIgnoresLow(inst: int)
    requires IsInstruction(inst) && (inst / 0x1000 == 5 || inst / 0x1000 == 9)
    ensures Decode(inst) == Decode(inst - inst % 16)
  {
    var w := Split(inst);
    JoinSplit(inst);
    SplitJoin(w.(n := 0));
  }

  // ---------------------------------------------------------------------
  // The arithmetic unit (the 8xyn handlers)

  /** What an 8xyn handler writes: the new Vx and, for the instructions
      that set it, the new VF. VF is written first, so when x is F the
      flag is overwritten by the result. */
  datatype AluResult = AluResult(value: int, flag: Option<int>)

  function Alu(kind: AluKind, vx: int, vy: int): AluResult
  {
    match kind
    case Assign => AluResult(vy, None)
    case Or => AluResult(BitOr(vx, vy), None)
    case And => AluResult(BitAnd(vx, vy), None)
    case Xor => AluResult(BitXor(vx, vy), None)
    case Add =>
      var sum := vx + vy;
      AluResult(BitAnd(sum, 0xFF), Some(if sum < 256 then 0 else 1))
    case Sub => Subtract(vx - vy)
    case SubN => Subtract(vy - vx)
    // `>> 1` of a non-negative value is the floor half
    case Shr => AluResult(vy / 2, Some(BitAnd(vy, 1)))
    case Shl => AluResult(BitAnd(vy * 2, 0xFF), Some(if BitAnd(vy, 0x80) != 0 then 1 else 0))
  }

  /** `do_sub` and `do_subr` after the difference is formed. */
  function Subtract(diff: int): AluResult
  {
    if diff < 0 then AluResult(diff + 256, Some(0)) else AluResult(diff, Some(1))
  }

  /** Every 8xyn result is a byte, and so is every flag. */
  lemma AluBytes(kind: AluKind, vx: int, vy: int)
    requires IsByte(vx) && IsByte(vy)
    ensures IsByte(Alu(kind, vx, vy).value)
    ensures Alu(kind, vx, vy).flag.Some? ==> 0 <= Alu(kind, vx, vy).flag.value <= 1
  {
    match kind
    case Add => AluAdd(vx, vy);
    case Sub => AluSub(vx, vy);
    case SubN => AluSub(vy, vx);
    case Shr => AluShr(vx, vy);
    case Shl => AluShl(vx, vy);
    case Or => ByteOps(vx, vy);
    case And => ByteOps(vx, vy);
    case Xor => ByteOps(vx, vy);
    case Assign =>
  }

  /** 8xy4: the result and the carry together make the sum. */
  lemma AluAdd(vx: int, vy: int)
    requires IsByte(vx) && IsByte(vy)
    ensures var r := Alu(Add, vx, vy);
      && r.flag.Some? && 0 <= r.flag.value <= 1 && IsByte(r.value)
      && r.value + 256 * r.flag.value == vx + vy
  {
    var carry := if vx + vy < 256 then 0 else 1;
    LowByte(vx + vy);
    DivModUnique(vx + vy, 256, carry, vx + vy - 256 * carry);
  }

  /** 8xy5 (and 8xy7 with the operands exchanged): the difference modulo
      256, with VF = 1 exactly when nothing is borrowed. */
  lemma AluSub(a: int, b: int)
    requires IsByte(a) && IsByte(b)
    ensures Alu(Sub, a, b) == Alu(SubN, b, a)
    ensures var r := Alu(Sub, a, b);
      && IsByte(r.value) && r.value == (a - b) % 256
      && r.flag == Some(if b <= a then 1 else 0)
  {
    DivModUnique(a - b, 256, if a < b then -1 else 0, Subtract(a - b).value);
  }

  /** 8xy6: Vy is split into the new Vx and the bit shifted out; the old
      Vx plays no part. */
  lemma AluShr(vx: int, vy: int)
    requires IsByte(vx) && IsByte(vy)
    ensures var r := Alu(Shr, vx, vy);
      && r.flag.Some? && 0 <= r.flag.value <= 1 && IsByte(r.value)
      && 2 * r.value + r.flag.value == vy
  {
    assert Pow2(1) == 2;
    BitAndMask(vy, 1);
  }

  /** 8xyE: twice Vy is split into the bit shifted out and the new Vx;
      the old Vx plays no part. */
  lemma AluShl(vx: int, vy: int)
    requires IsByte(vx) && IsByte(vy)
    ensures var r := Alu(Shl, vx, vy);
      && r.flag.Some? && 0 <= r.flag.value <= 1 && IsByte(r.value)
      && r.value + 256 * r.flag.value == 2 * vy
  {
    var carry := if vy >= 128 then 1 else 0;
    LowByte(vy * 2);
    HighBit(vy);
    DivModUnique(2 * vy, 256, carry, 2 * vy - 256 * carry);
  }

  /** `b & 0x80` tests whether a byte is at least 0x80. */
  lemma HighBit(b: int)
    requires IsByte(b)
    ensures BitAnd(b, 0x80) != 0 <==> b >= 128
  {
    assert Pow2(7) == 128 && Pow2(8) == 256;
    BitAndPow2(b, 7);
    BitSetBound(b, 7);
  }

  /** OR, AND and XOR act bit by bit. */
  lemma AluLogic(kind: AluKind, vx: int, vy: int, k: nat)
    requires kind in {Or, And, Xor}
    ensures var r := Alu(kind, vx, vy).value;
      && (kind == Or ==> (BitSet(r, k) <==> BitSet(vx, k) || BitSet(vy, k)))
      && (kind == And ==> (BitSet(r, k) <==> BitSet(vx, k) && BitSet(vy, k)))
      && (kind == Xor ==> (BitSet(r, k) <==> BitSet(vx, k) != BitSet(vy, k)))
  {
    if kind == Or {
      BitOrBits(vx, vy, k);
    } else if kind == And {
      BitAndBits(vx, vy, k);
    } else {
      BitXorBits(vx, vy, k);
    }
  }

  // ---------------------------------------------------------------------
  // The handlers

  /** Why `step` stops: a handler's `ValueError` or a breakpoint. */
  datatype MsgKind = Undefined | Breakpoint | StackFull | StackEmpty | Termination | BadAddress

  /** A handler's outcome: the machine after its register, memory, stack
      and screen updates, the PC it returns and the display stubs it
      called; or the error it raises, which is always raised before any
      update, so the machine is left as it was. */
  datatype Exec = Next(m: Machine, pc: int, effects: seq<Effect>) | Raise(kind: MsgKind)

  function SetV(m: Machine, x: int, value: int): (r: Machine)
    requires |m.v| == 16 && IsNybble(x)
    ensures |r.v| == 16 && r.v[x] == value
    ensures forall k | 0 <= k < 16 && k != x :: r.v[k] == m.v[k]
  {
    m.(v := m.v[x := value])
  }

  /** PC advance of a skip instruction. */
  function Skip(taken: bool): int { if taken then 4 else 2 }

  /** The 8xyn handlers write VF before Vx. */
  function WriteAlu(m: Machine, x: int, r: AluResult): Machine
    requires |m.v| == 16 && IsNybble(x)
  {
    var flagged := if r.flag.Some? then SetV(m, VF, r.flag.value) else m;
    SetV(flagged, x, r.value)
  }

  /** `do_sub_return`. */
  function Return(m: Machine): Exec
  {
    if |m.stack| == 0 then Raise(StackEmpty)
    else Next(m.(stack := m.stack[..|m.stack| - 1]), m.stack[|m.stack| - 1], [])
  }

  /** `do_gosub`: the target is not range checked. */
  function Call(m: Machine, addr: int): Exec
  {
    if |m.stack| < MaxCallDepth then Next(m.(stack := m.stack + [m.pc + 2]), addr, [])
    else Raise(StackFull)
  }

  /** `do_jump`: there must be room for an instruction at the target and
      it must not lie in the interpreter's area below 0x200. */
  function Jump(m: Machine, addr: int): Exec
  {
    if addr < 0x200 || addr == 0xFFF then Raise(BadAddress) else Next(m, addr, [])
  }

  /** `do_jump_indexed`. */
  function JumpIndexed(m: Machine, addr: int): Exec
    requires |m.v| == 16
  {
    var target := m.v[0] + addr;
    if target < 0xFFE && target > 0x1FF then Next(m, target, []) else Raise(BadAddress)
  }

  /** Dxyn with n = 0 draws the SCHIP 16x16 sprite of 32 bytes. */
  function SpriteLength(n: int): int { if n == 0 then 32 else n }

  /** The sprite must lie inside memory. */
  predicate SpriteOutOfRange(address: int, count: int) { address + count > MemorySize }

  /** `do_draw_sprite`'s test `address + count > 4095`, which also refuses
      a sprite ending on the last byte of memory. */
  predicate SpriteOutOfRangeAsWritten(address: int, count: int) { address + count > 4095 }

  /** The test Dxyn makes: as written, or corrected to the memory bound. */
  predicate SpriteRefused(address: int, count: int, corrected: bool)
  {
    if corrected then SpriteOutOfRange(address, count) else SpriteOutOfRangeAsWritten(address, count)
  }

  /** `do_draw_sprite`: VF reports whether a lit pixel was turned off. */
  function Draw(m: Machine, x: int, y: int, n: int, corrected: bool): Exec
    requires Valid(m) && IsNybble(x) && IsNybble(y) && IsNybble(n)
  {
    var count := SpriteLength(n);
    if SpriteRefused(m.i, count, corrected) then Raise(BadAddress)
    else
      var drawn := Display.DrawSprite(m.screen, m.v[x], m.v[y], m.mem[m.i .. m.i + count]);
      Next(SetV(m.(screen := drawn.0), VF, if drawn.1 then 1 else 0), m.pc + 2, [])
  }

  /** `do_store_decimal`: `int(vx / 100)`, `int(vx % 100 / 10)` and
      `int(vx % 10)` truncate non-negative quotients, which is floor
      division. I is unchanged. */
  function StoreDecimal(m: Machine, x: int): Exec
    requires Valid(m) && IsNybble(x)
  {
    if m.i > 4093 then Raise(BadAddress)
    else
      var vx := m.v[x];
      Next(m.(mem := m.mem[m.i := vx / 100][m.i + 1 := vx % 100 / 10][m.i + 2 := vx % 10]), m.pc + 2, [])
  }

  /** `do_store_regs`: V0..Vx to memory at I, then I = I + x + 1. */
  function StoreRegs(m: Machine, x: int): Exec
    requires Valid(m) && IsNybble(x)
  {
    if m.i > 4095 - x then Raise(BadAddress)
    else
      Next(m.(mem := m.mem[..m.i] + m.v[..x + 1] + m.mem[m.i + x + 1..], i := m.i + x + 1), m.pc + 2, [])
  }

  /** `do_load_regs`: V0..Vx from memory at I, then I = I + x + 1. */
  function LoadRegs(m: Machine, x: int): Exec
    requires Valid(m) && IsNybble(x)
  {
    if m.i > 4095 - x then Raise(BadAddress)
    else
      Next(m.(v := m.mem[m.i .. m.i + x + 1] + m.v[x + 1..], i := m.i + x + 1), m.pc + 2, [])
  }

  /** The handler of each instruction, run at the machine's PC. `inst` is
      the whole instruction word, which Cxkk masks the random byte with. */
  function Perform(m: Machine, op: Op, inst: int, input: Input, corrected: bool): Exec
    requires Valid(m) && WellFormed(op)
  {
    match op
    case ScrollDownOp(n) => Next(m, m.pc + 2, [ScrollDown(n)])
    case ClearOp => Next(m, m.pc + 2, [ClearScreen])
    case ReturnOp => Return(m)
    case ScrollRightOp => Next(m, m.pc + 2, [ScrollRight])
    case ScrollLeftOp => Next(m, m.pc + 2, [ScrollLeft])
    case ExitOp => Raise(Termination)
    case LowResOp => Next(m.(screen := Display.SetMode(m.screen, false)), m.pc + 2, [])
    case HighResOp => Next(m.(screen := Display.SetMode(m.screen, true)), m.pc + 2, [])
    case JumpOp(a) => Jump(m, a)
    case CallOp(a) => Call(m, a)
    case SkipEqByteOp(x, kk) => Next(m, m.pc + Skip(m.v[x] == kk), [])
    case SkipNeByteOp(x, kk) => Next(m, m.pc + Skip(m.v[x] != kk), [])
    case SkipEqRegOp(x, y) => Next(m, m.pc + Skip(m.v[x] == m.v[y]), [])
    case LoadByteOp(x, kk) => Next(SetV(m, x, kk), m.pc + 2, [])
    case AddByteOp(x, kk) => Next(SetV(m, x, BitAnd(kk + m.v[x], 0xFF)), m.pc + 2, [])
    case AluOp(kind, x, y) => Next(WriteAlu(m, x, Alu(kind, m.v[x], m.v[y])), m.pc + 2, [])
    case SkipNeRegOp(x, y) => Next(m, m.pc + (if m.v[x] == m.v[y] then 2 else 4), [])
    case LoadIOp(a) => Next(m.(i := a), m.pc + 2, [])
    case JumpV0Op(a) => JumpIndexed(m, a)
    case RandomOp(x, _) => Next(SetV(m, x, BitAnd(input.random, inst)), m.pc + 2, [])
    case DrawOp(x, y, n) => Draw(m, x, y, n, corrected)
    case SkipKeyOp(x) => Next(m, m.pc + Skip(input.key == BitAnd(m.v[x], 0x0F)), [])
    case SkipNoKeyOp(x) => Next(m, m.pc + Skip(input.key != BitAnd(m.v[x], 0x0F)), [])
    case ReadDelayOp(x) => Next(SetV(m, x, m.dt), m.pc + 2, [])
    case WaitKeyOp(x) =>
      if input.key < 0 then Next(m, m.pc, []) else Next(SetV(m, x, input.key), m.pc + 2, [])
    case SetDelayOp(x) => Next(m.(dt := m.v[x]), m.pc + 2, [])
    case SetSoundOp(x) => Next(m.(st := m.v[x]), m.pc + 2, [Sound(m.v[x] != 0)])
    case AddIOp(x) => Next(m.(i := m.i + m.v[x]), m.pc + 2, [])
    case FontSmallOp(x) => Next(m.(i := 5 * BitAnd(m.v[x], 0x0F)), m.pc + 2, [])
    case FontLargeOp(x) => Next(m.(i := 0x50 + 10 * BitAnd(m.v[x], 0x0F)), m.pc + 2, [])
    case BcdOp(x) => StoreDecimal(m, x)
    case StoreOp(x) => StoreRegs(m, x)
    case LoadOp(x) => LoadRegs(m, x)
  }

  /** `dispatch_first_nybble` and the group decoders: an undefined word
      raises 'Undefined instruction'. */
  function Execute(m: Machine, inst: int, input: Input, corrected: bool): Exec
    requires Valid(m) && IsInstruction(inst)
  {
    match Decode(inst)
    case None => Raise(Undefined)
    case Some(op) => EncodeDecode(inst); Perform(m, op, inst, input, corrected)
  }

  // ---------------------------------------------------------------------
  // step

  /** A message `step` returns, before formatting. */
  datatype Message = Message(kind: MsgKind, inst: int, pc: int)

  /** What `step` does: the machine afterwards, the display calls made and
      the message returned (None when execution may go on); or `Crashed`
      when fetching reads past the end of memory, an `IndexError` that
      escapes `step`. */
  datatype Outcome = Outcome(m: Machine, effects: seq<Effect>, msg: Option<Message>) | Crashed

  /** `(MEMORY[PC] << 8) | MEMORY[PC+1]`: the big-endian word at PC. */
  function Fetch(m: Machine): (inst: int)
    requires Valid(m) && m.pc + 1 < |m.mem|
    ensures inst == 256 * m.mem[m.pc] + m.mem[m.pc + 1] && IsInstruction(inst)
  {
    assert Pow2(8) == 256;
    BitOrDisjoint(m.mem[m.pc], m.mem[m.pc + 1], 8);
    BitOr(m.mem[m.pc] * 256, m.mem[m.pc + 1])
  }

  /** `step`: execute the instruction at PC; on success store the PC the
      handler returned and stop if it is a breakpoint. */
  function Step(m: Machine, input: Input, corrected: bool): Outcome
    requires Valid(m)
  {
    if m.pc + 1 >= |m.mem| then Crashed
    else
      var inst := Fetch(m);
      match Execute(m, inst, input, corrected)
      case Raise(kind) => Outcome(m, [], Some(Message(kind, inst, m.pc)))
      case Next(after, pc, effects) =>
        var moved := after.(pc := pc);
        Outcome(moved, effects, if pc in moved.breakpoints then Some(Message(Breakpoint, 0, pc)) else None)
  }

  // ---------------------------------------------------------------------
  // The machine invariant

  lemma SetVValid(m: Machine, x: int, value: int)
    requires Valid(m) && IsNybble(x) && IsByte(value)
    ensures Valid(SetV(m, x, value))
  {
  }

  lemma WriteAluValid(m: Machine, kind: AluKind, x: int, y: int)
    requires Valid(m) && IsNybble(x) && IsNybble(y)
    ensures Valid(WriteAlu(m, x, Alu(kind, m.v[x], m.v[y])))
  {
    var r := Alu(kind, m.v[x], m.v[y]);
    AluBytes(kind, m.v[x], m.v[y]);
    var flagged := if r.flag.Some? then SetV(m, VF, r.flag.value) else m;
    assert Valid(flagged);
  }

  lemma DrawValid(m: Machine, x: int, y: int, n: int, corrected: bool)
    requires Valid(m) && IsNybble(x) && IsNybble(y) && IsNybble(n)
    ensures Draw(m, x, y, n, corrected).Next? ==> Valid(Draw(m, x, y, n, corrected).m)
  {
    var count := SpriteLength(n);
    if !SpriteRefused(m.i, count, corrected) {
      Display.DrawSpriteXor(m.screen, m.v[x], m.v[y], m.mem[m.i .. m.i + count]);
    }
  }

  lemma StoreDecimalValid(m: Machine, x: int)
    requires Valid(m) && IsNybble(x)
    ensures StoreDecimal(m, x).Next? ==> Valid(StoreDecimal(m, x).m)
  {
  }

  lemma StoreRegsValid(m: Machine, x: int)
    requires Valid(m) && IsNybble(x)
    ensures StoreRegs(m, x).Next? ==> Valid(StoreRegs(m, x).m)
  {
    if m.i <= 4095 - x {
      var mem := m.mem[..m.i] + m.v[..x + 1] + m.mem[m.i + x + 1..];
      assert forall k | 0 <= k < |mem| :: IsByte(mem[k]) by {
        forall k | 0 <= k < |mem| ensures IsByte(mem[k]) {
          if k < m.i {
            assert mem[k] == m.mem[k];
          } else if k < m.i + x + 1 {
            assert mem[k] == m.v[k - m.i];
          } else {
            assert mem[k] == m.mem[k];
          }
        }
      }
    }
  }

  lemma LoadRegsValid(m: Machine, x: int)
    requires Valid(m) && IsNybble(x)
    ensures LoadRegs(m, x).Next? ==> Valid(LoadRegs(m, x).m)
  {
    if m.i <= 4095 - x {
      var v := m.mem[m.i .. m.i + x + 1] + m.v[x + 1..];
      assert forall k | 0 <= k < |v| :: IsByte(v[k]) by {
        forall k | 0 <= k < |v| ensures IsByte(v[k]) {
          if k <= x {
            assert v[k] == m.mem[m.i + k];
          } else {
            assert v[k] == m.v[k];
          }
        }
      }
    }
  }

  /** Instructions that change only the PC, the stack or the screen. */
  predicate IsControl(op: Op)
  {
    || op.ScrollDownOp? || op.ClearOp? || op.ReturnOp? || op.ScrollRightOp?
    || op.ScrollLeftOp? || op.ExitOp? || op.LowResOp? || op.HighResOp?
    || op.JumpOp? || op.CallOp? || op.JumpV0Op?
    || op.SkipEqByteOp? || op.SkipNeByteOp? || op.SkipEqRegOp? || op.SkipNeRegOp?
    || op.SkipKeyOp? || op.SkipNoKeyOp?
  }

  /** Every handler keeps the machine invariant, returns a non-negative PC
      and leaves the PC register and the breakpoints to `step`. */
  lemma PerformValid(m: Machine, op: Op, inst: int, input: Input, corrected: bool)
    requires Valid(m) && WellFormed(op) && ValidInput(input)
    ensures var r := Perform(m, op, inst, input, corrected);
      r.Next? ==> Valid(r.m) && r.pc >= 0 && r.m.pc == m.pc && r.m.breakpoints == m.breakpoints
  {
    if IsControl(op) {
      ControlValid(m, op, inst, input, corrected);
    } else {
      RegistersValid(m, op, inst, input, corrected);
    }
  }

  lemma ControlValid(m: Machine, op: Op, inst: int, input: Input, corrected: bool)
    requires Valid(m) && WellFormed(op) && IsControl(op)
    ensures var r := Perform(m, op, inst, input, corrected);
      r.Next? ==> Valid(r.m) && r.pc >= 0 && r.m.pc == m.pc && r.m.breakpoints == m.breakpoints
  {
  }

  lemma RegistersValid(m: Machine, op: Op, inst: int, input: Input, corrected: bool)
    requires Valid(m) && WellFormed(op) && ValidInput(input) && !IsControl(op)
    ensures var r := Perform(m, op, inst, input, corrected);
      r.Next? ==> Valid(r.m) && r.pc >= 0 && r.m.pc == m.pc && r.m.breakpoints == m.breakpoints
  {
    match op
    case AddByteOp(x, kk) => LowByte(kk + m.v[x]);
    case AluOp(kind, x, y) => WriteAluValid(m, kind, x, y);
    case RandomOp(x, _) => BitAndBounded(input.random, inst);
    case DrawOp(x, y, n) => DrawValid(m, x, y, n, corrected);
    case FontSmallOp(x) => BitAndBounded(m.v[x], 0x0F);
    case FontLargeOp(x) => BitAndBounded(m.v[x], 0x0F);
    case BcdOp(x) => StoreDecimalValid(m, x);
    case StoreOp(x) => StoreRegsValid(m, x);
    case LoadOp(x) => LoadRegsValid(m, x);
    case LoadByteOp(x, kk) =>
    case LoadIOp(_) =>
    case ReadDelayOp(x) =>
    case WaitKeyOp(x) =>
    case SetDelayOp(x) =>
    case SetSoundOp(x) =>
    case AddIOp(x) =>
  }

  /** `step` keeps the machine invariant. */
  lemma StepValid(m: Machine, input: Input, corrected: bool)
    requires Valid(m) && ValidInput(input)
    ensures Step(m, input, corrected).Outcome? ==> Valid(Step(m, input, corrected).m)
  {
    if m.pc + 1 < |m.mem| {
      var inst := Fetch(m);
      if Decode(inst).Some? {
        EncodeDecode(inst);
        PerformValid(m, Decode(inst).value, inst, input, corrected);
      }
    }
  }

  // ---------------------------------------------------------------------
  // What the handlers do

  /** The nybbles of the word at PC are those of its two bytes. */
  lemma FetchNybbles(m: Machine)
    requires Valid(m) && m.pc + 1 < |m.mem|
    ensures var hi, lo := m.mem[m.pc], m.mem[m.pc + 1];
      Split(Fetch(m)) == Nybbles(hi / 16, hi % 16, lo / 16, lo % 16)
  {
    var hi, lo := m.mem[m.pc], m.mem[m.pc + 1];
    var w := Nybbles(hi / 16, hi % 16, lo / 16, lo % 16);
    assert Join(w) == 256 * hi + lo;
    SplitJoin(w);
  }

  /** A skip fetched from memory (3xkk, 4xkk, 5xy_ or 9xy_, x and y the
      word's second and third nybbles, kk its low byte) changes nothing but
      the PC and draws nothing. The PC moves past the next instruction
      exactly when the condition holds, and on to it exactly when it does
      not; the step stops there exactly when that address is a
      breakpoint. */
  lemma SkipConditions(m: Machine, input: Input, corrected: bool)
    requires Valid(m) && m.pc + 1 < |m.mem| && m.mem[m.pc] / 16 in {3, 4, 5, 9}
    ensures var hi, lo := m.mem[m.pc], m.mem[m.pc + 1];
      var vx := m.v[hi % 16];
      var cond :=
        if hi / 16 == 3 then vx == lo
        else if hi / 16 == 4 then vx != lo
        else if hi / 16 == 5 then vx == m.v[lo / 16]
        else vx != m.v[lo / 16];
      var r := Step(m, input, corrected);
      && r.Outcome? && r.effects == [] && r.m == m.(pc := r.m.pc)
      && (r.m.pc == m.pc + 4 <==> cond) && (r.m.pc == m.pc + 2 <==> !cond)
      && (r.msg.Some? <==> r.m.pc in m.breakpoints)
  {
    FetchNybbles(m);
    var hi, lo := m.mem[m.pc], m.mem[m.pc + 1];
    SkipBranches(m, hi % 16, lo / 16, lo, Fetch(m), input, corrected);
  }

  /** The four skip handlers, instruction by instruction. */
  lemma SkipBranches(m: Machine, x: int, y: int, kk: int, inst: int, input: Input, corrected: bool)
    requires Valid(m) && IsNybble(x) && IsNybble(y) && IsByte(kk)
    ensures Perform(m, SkipEqByteOp(x, kk), inst, input, corrected) == Next(m, m.pc + Skip(m.v[x] == kk), [])
    ensures Perform(m, SkipNeByteOp(x, kk), inst, input, corrected) == Next(m, m.pc + Skip(m.v[x] != kk), [])
    ensures Perform(m, SkipEqRegOp(x, y), inst, input, corrected) == Next(m, m.pc + Skip(m.v[x] == m.v[y]), [])
    ensures Perform(m, SkipNeRegOp(x, y), inst, input, corrected) == Next(m, m.pc + Skip(m.v[x] != m.v[y]), [])
  {
  }

  /** 9xy0 skips exactly when 5xy0 does not. */
  lemma SkipNeRegNegates(m: Machine, x: int, y: int, inst: int, input: Input, corrected: bool)
    requires Valid(m) && IsNybble(x) && IsNybble(y)
    ensures var eq := Perform(m, SkipEqRegOp(x, y), inst, input, corrected);
      var ne := Perform(m, SkipNeRegOp(x, y), inst, input, corrected);
      && eq.Next? && ne.Next? && {eq.pc, ne.pc} == {m.pc + 2, m.pc + 4}
  {
  }

  /** Ex9E and ExA1 test the key numbered by the low nybble of Vx. */
  lemma KeySkips(m: Machine, x: int, inst: int, input: Input, corrected: bool)
    requires Valid(m) && IsNybble(x)
    ensures Perform(m, SkipKeyOp(x), inst, input, corrected) == Next(m, m.pc + Skip(input.key == m.v[x] % 16), [])
    ensures Perform(m, SkipNoKeyOp(x), inst, input, corrected) == Next(m, m.pc + Skip(input.key != m.v[x] % 16), [])
  {
    LowNybble(m.v[x]);
  }

  /** Fx0A with no key down returns its own address, so it runs again;
      otherwise the key goes to Vx. */
  lemma WaitKey(m: Machine, x: int, inst: int, input: Input, corrected: bool)
    requires Valid(m) && IsNybble(x)
    ensures var r := Perform(m, WaitKeyOp(x), inst, input, corrected);
      && r.Next? && r.effects == []
      && (input.key < 0 ==> r.m == m && r.pc == m.pc)
      && (input.key >= 0 ==> r.pc == m.pc + 2 && r.m.v == m.v[x := input.key])
  {
  }

  /** 2nnn pushes the return address and jumps while the stack has room,
      and fails when it is full. */
  lemma CallPushes(m: Machine, a: int, inst: int, input: Input, corrected: bool)
    requires Valid(m) && 0 <= a < 0x1000
    ensures var r := Perform(m, CallOp(a), inst, input, corrected);
      && (r.Raise? <==> |m.stack| >= MaxCallDepth)
      && (r.Raise? ==> r.kind == StackFull)
      && (r.Next? ==> r.pc == a && r.m == m.(stack := m.stack + [m.pc + 2]))
  {
  }

  /** 00EE pops the most recent return address, and fails on an empty
      stack. */
  lemma ReturnPops(m: Machine, inst: int, input: Input, corrected: bool)
    requires Valid(m)
    ensures var r := Perform(m, ReturnOp, inst, input, corrected);
      && (r.Raise? <==> |m.stack| == 0)
      && (r.Raise? ==> r.kind == StackEmpty)
      && (r.Next? ==> r.m.stack + [r.pc] == m.stack && r.m == m.(stack := r.m.stack))
  {
  }

  /** A call followed by a return comes back after the call with the
      stack as it was. */
  lemma CallThenReturn(m: Machine, a: int, inst: int, inst2: int, input: Input, corrected: bool)
    requires Valid(m) && 0 <= a < 0x1000 && |m.stack| < MaxCallDepth
    ensures var called := Perform(m, CallOp(a), inst, input, corrected);
      && called.Next?
      && var there := called.m.(pc := called.pc);
      && Valid(there)
      && Perform(there, ReturnOp, inst2, input, corrected) == Next(there.(stack := m.stack), m.pc + 2, [])
  {
    var there := m.(stack := m.stack + [m.pc + 2], pc := a);
    assert there.stack[..|there.stack| - 1] == m.stack;
  }

  /** 1nnn fails exactly for targets below 0x200 and for 0xFFF. */
  lemma JumpTargets(m: Machine, a: int, inst: int, input: Input, corrected: bool)
    requires Valid(m) && 0 <= a < 0x1000
    ensures var r := Perform(m, JumpOp(a), inst, input, corrected);
      && (r.Raise? <==> a < 0x200 || a == 0xFFF)
      && (r.Raise? ==> r.kind == BadAddress)
      && (r.Next? ==> r == Next(m, a, []))
  {
  }

  /** Bnnn jumps to V0 + nnn only inside 0x200..0xFFD. */
  lemma JumpIndexedTargets(m: Machine, a: int, inst: int, input: Input, corrected: bool)
    requires Valid(m) && 0 <= a < 0x1000
    ensures var r := Perform(m, JumpV0Op(a), inst, input, corrected);
      && (r.Next? <==> 0x200 <= m.v[0] + a <= 0xFFD)
      && (r.Raise? ==> r.kind == BadAddress)
      && (r.Next? ==> r == Next(m, m.v[0] + a, []))
  {
  }

  /** 7xkk adds modulo 256 and leaves VF alone (unless x is F). */
  lemma AddByteWraps(m: Machine, x: int, kk: int, inst: int, input: Input, corrected: bool)
    requires Valid(m) && IsNybble(x) && IsByte(kk)
    ensures var r := Perform(m, AddByteOp(x, kk), inst, input, corrected);
      && r.Next? && r.pc == m.pc + 2
      && r.m == m.(v := m.v[x := (m.v[x] + kk) % 256])
  {
    LowByte(kk + m.v[x]);
  }

  /** 8xyn writes the ALU result to Vx and, for the instructions that set
      it, the flag to VF; no other register changes. */
  lemma AluWrites(m: Machine, kind: AluKind, x: int, y: int, inst: int, input: Input, corrected: bool)
    requires Valid(m) && IsNybble(x) && IsNybble(y)
    ensures var r := Perform(m, AluOp(kind, x, y), inst, input, corrected);
      var a := Alu(kind, m.v[x], m.v[y]);
      && r.Next? && r.pc == m.pc + 2 && r.m == m.(v := r.m.v)
      && |r.m.v| == 16 && r.m.v[x] == a.value
      && (x != VF && a.flag.Some? ==> r.m.v[VF] == a.flag.value)
      && (forall k | 0 <= k < 16 && k != x && (k != VF || a.flag.None?) :: r.m.v[k] == m.v[k])
  {
  }

  /** Masking a byte with a wider word only looks at the word's low bits:
      `random & INST` in Cxkk is `random & kk`. */
  lemma {:induction false} BitAndLow(r: int, h: int, low: int, k: nat)
    requires 0 <= r < Pow2(k) && 0 <= low < Pow2(k) && h >= 0
    ensures BitAnd(r, Pow2(k) * h + low) == BitAnd(r, low)
    decreases k
  {
    if r != 0 && h != 0 {
      var b := Pow2(k) * h + low;
      DoubleProduct(Pow2(k - 1), h);
      assert b / 2 == Pow2(k - 1) * h + low / 2 && b % 2 == low % 2;
      BitAndLow(r / 2, h, low / 2, k - 1);
    }
  }

  /** Cxkk stores the random byte masked by kk: a bit of the result is set
      exactly when it is set in both. */
  lemma RandomMasked(m: Machine, x: int, kk: int, inst: int, input: Input, corrected: bool)
    requires Valid(m) && ValidInput(input) && IsNybble(x) && IsByte(kk)
    requires IsInstruction(inst) && Decode(inst) == Some(RandomOp(x, kk))
    ensures var r := Perform(m, RandomOp(x, kk), inst, input, corrected);
      && r.Next? && r.pc == m.pc + 2
      && r.m == m.(v := m.v[x := BitAnd(input.random, kk)])
      && (forall b: nat :: BitSet(r.m.v[x], b) <==> BitSet(input.random, b) && BitSet(kk, b))
  {
    var w := Split(inst);
    JoinSplit(inst);
    assert inst == 256 * (16 * w.a + w.x) + kk;
    assert Pow2(8) == 256;
    BitAndLow(input.random, 16 * w.a + w.x, kk, 8);
    forall b: nat ensures BitSet(BitAnd(input.random, kk), b) <==> BitSet(input.random, b) && BitSet(kk, b) {
      BitAndBits(input.random, kk, b);
    }
  }

  /** Fx33 stores the decimal digits of Vx at I, I + 1 and I + 2 and fails
      when they would not all fit below 4096. */
  lemma DecimalDigits(m: Machine, x: int, inst: int, input: Input, corrected: bool)
    requires Valid(m) && IsNybble(x)
    ensures var r := Perform(m, BcdOp(x), inst, input, corrected);
      && (r.Raise? <==> m.i + 2 >= MemorySize)
      && (r.Raise? ==> r.kind == BadAddress)
      && (r.Next? ==>
            && r.pc == m.pc + 2 && r.m == m.(mem := r.m.mem) && |r.m.mem| == MemorySize
            && 100 * r.m.mem[m.i] + 10 * r.m.mem[m.i + 1] + r.m.mem[m.i + 2] == m.v[x]
            && r.m.mem[m.i] < 10 && r.m.mem[m.i + 1] < 10 && r.m.mem[m.i + 2] < 10
            && (forall k | 0 <= k < MemorySize && !(m.i <= k < m.i + 3) :: r.m.mem[k] == m.mem[k]))
  {
  }

  /** Fx55 copies V0..Vx to I.., leaves the rest of memory alone and
      advances I past them; it fails when they would not fit. */
  lemma StoreCopies(m: Machine, x: int, inst: int, input: Input, corrected: bool)
    requires Valid(m) && IsNybble(x)
    ensures var r := Perform(m, StoreOp(x), inst, input, corrected);
      && (r.Raise? <==> m.i + x >= MemorySize)
      && (r.Raise? ==> r.kind == BadAddress)
      && (r.Next? ==>
            && r.pc == m.pc + 2 && r.m == m.(mem := r.m.mem, i := m.i + x + 1)
            && |r.m.mem| == MemorySize
            && (forall k | 0 <= k <= x :: r.m.mem[m.i + k] == m.v[k])
            && (forall k | 0 <= k < MemorySize && !(m.i <= k <= m.i + x) :: r.m.mem[k] == m.mem[k]))
  {
    if m.i + x < MemorySize {
      var mem := m.mem[..m.i] + m.v[..x + 1] + m.mem[m.i + x + 1..];
      assert forall k | 0 <= k <= x :: mem[m.i + k] == m.v[k];
      assert forall k | 0 <= k < MemorySize && !(m.i <= k <= m.i + x) :: mem[k] == m.mem[k];
    }
  }

  /** Fx65 loads V0..Vx from I.., leaves the other registers alone and
      advances I past them; it fails when they would not fit. */
  lemma LoadCopies(m: Machine, x: int, inst: int, input: Input, corrected: bool)
    requires Valid(m) && IsNybble(x)
    ensures var r := Perform(m, LoadOp(x), inst, input, corrected);
      && (r.Raise? <==> m.i + x >= MemorySize)
      && (r.Raise? ==> r.kind == BadAddress)
      && (r.Next? ==>
            && r.pc == m.pc + 2 && r.m == m.(v := r.m.v, i := m.i + x + 1) && |r.m.v| == 16
            && (forall k | 0 <= k <= x :: r.m.v[k] == m.mem[m.i + k])
            && (forall k | x < k < 16 :: r.m.v[k] == m.v[k]))
  {
  }

  /** Fx55 then Fx65 from the same I gives the registers back, leaving I
      where Fx55 left it. */
  lemma StoreThenLoad(m: Machine, x: int, inst: int, inst2: int, input: Input, corrected: bool)
    requires Valid(m) && IsNybble(x) && m.i + x < MemorySize
    ensures var stored := Perform(m, StoreOp(x), inst, input, corrected);
      && stored.Next? && Valid(stored.m)
      && var back := Perform(stored.m.(i := m.i), LoadOp(x), inst2, input, corrected);
      && back.Next? && back.m.v == m.v && back.m.i == m.i + x + 1
  {
    StoreCopies(m, x, inst, input, corrected);
    StoreRegsValid(m, x);
    var stored := Perform(m, StoreOp(x), inst, input, corrected).m;
    LoadCopies(stored.(i := m.i), x, inst2, input, corrected);
  }

  /** Fx29 and Fx30 point I at the glyph of the low nybble of Vx, inside
      the small and the large font. */
  lemma FontGlyphs(m: Machine, x: int, inst: int, input: Input, corrected: bool)
    requires Valid(m) && IsNybble(x)
    ensures var small := Perform(m, FontSmallOp(x), inst, input, corrected);
      var large := Perform(m, FontLargeOp(x), inst, input, corrected);
      && small == Next(m.(i := 5 * (m.v[x] % 16)), m.pc + 2, [])
      && large == Next(m.(i := 0x50 + 10 * (m.v[x] % 16)), m.pc + 2, [])
      && small.m.i + 5 <= 0x50 && 0x50 <= large.m.i && large.m.i + 10 <= 0xF0
  {
    LowNybble(m.v[x]);
  }

  /** The tone after a run of display calls that began with it `on`: the
      last `Sound` call decides. */
  function ToneAfter(on: bool, effects: seq<Effect>): bool
  {
    if |effects| == 0 then on
    else if effects[|effects| - 1].Sound? then effects[|effects| - 1].on
    else ToneAfter(on, effects[.. |effects| - 1])
  }

  lemma ToneAfterSound(on: bool, b: bool)
    ensures ToneAfter(on, [Sound(b)]) == b && ToneAfter(on, [Sound(b)] + [Sound(false)]) == false
  {
  }

  /** Fx18 fetched from memory (x the word's second nybble) sets the sound
      timer to Vx and changes nothing else but the PC. However the tone
      stood before, after it and k ticks the tone is on exactly while the
      sound timer has not yet run down. */
  lemma SoundTimer(m: Machine, input: Input, corrected: bool, on: bool)
    requires Valid(m) && m.pc + 1 < |m.mem| && m.mem[m.pc] / 16 == 0xF && m.mem[m.pc + 1] == 0x18
    ensures var x := m.mem[m.pc] % 16;
      var r := Step(m, input, corrected);
      && r.Outcome? && r.m == m.(pc := m.pc + 2, st := m.v[x])
      && (r.msg.Some? <==> m.pc + 2 in m.breakpoints)
      && forall k: nat :: ToneAfter(on, r.effects + Ticks(r.m, k).1) <==> Ticks(r.m, k).0.st > 0
  {
    FetchNybbles(m);
    var x := m.mem[m.pc] % 16;
    var r := Step(m, input, corrected);
    assert r.effects == [Sound(m.v[x] != 0)];
    forall k: nat
      ensures ToneAfter(on, r.effects + Ticks(r.m, k).1) <==> Ticks(r.m, k).0.st > 0
    {
      TicksCountDown(r.m, k);
      ToneAfterSound(on, m.v[x] != 0);
    }
  }

  /** Dxyn flips the pixels the sprite at I inks, at (Vx, Vy) with
      wrap-around, and sets VF exactly when one of them was lit.  As
      written it fails when the sprite would reach address 4095, corrected
      only when it would run past the end of memory. */
  lemma DrawFlips(m: Machine, x: int, y: int, n: int, inst: int, input: Input, corrected: bool)
    requires Valid(m) && IsNybble(x) && IsNybble(y) && IsNybble(n)
    ensures var r := Perform(m, DrawOp(x, y, n), inst, input, corrected);
      var count := SpriteLength(n);
      && (r.Raise? <==> m.i + count > (if corrected then MemorySize else MemorySize - 1))
      && (r.Raise? ==> r.kind == BadAddress)
      && (r.Next? ==>
            var sprite := m.mem[m.i .. m.i + count];
            var rows, bits := Display.SpriteRows(sprite), Display.SpriteBits(sprite);
            && r.pc == m.pc + 2 && r.m == m.(screen := r.m.screen, v := m.v[VF := r.m.v[VF]])
            && r.m.screen.hires == m.screen.hires
            && (forall p :: p in r.m.screen.lit <==>
                  (p in m.screen.lit <==> !Display.Inked(rows, bits, m.v[x], m.v[y], m.screen.hires, p)))
            && (r.m.v[VF] == 1 <==>
                  exists p :: p in m.screen.lit && Display.Inked(rows, bits, m.v[x], m.v[y], m.screen.hires, p))
            && (r.m.v[VF] == 0 || r.m.v[VF] == 1))
  {
    var count := SpriteLength(n);
    if !SpriteRefused(m.i, count, corrected) {
      Display.DrawSpriteXor(m.screen, m.v[x], m.v[y], m.mem[m.i .. m.i + count]);
    }
  }

  // ---------------------------------------------------------------------
  // What step does

  /** `step` reads the big-endian word at PC (failing past the end of
      memory); an error leaves the machine untouched and reports the word
      and its address, an undefined word among them; otherwise the PC
      becomes what the handler returned, and `step` stops exactly when
      that is a breakpoint. */
  lemma StepMeaning(m: Machine, input: Input, corrected: bool)
    requires Valid(m) && ValidInput(input)
    ensures Step(m, input, corrected).Crashed? <==> m.pc + 1 >= |m.mem|
    ensures m.pc + 1 < |m.mem| ==>
      var inst := 256 * m.mem[m.pc] + m.mem[m.pc + 1];
      var e := Execute(m, inst, input, corrected);
      var r := Step(m, input, corrected);
      && (Decode(inst).None? ==> r == Outcome(m, [], Some(Message(Undefined, inst, m.pc))))
      && (e.Raise? ==> r == Outcome(m, [], Some(Message(e.kind, inst, m.pc))))
      && (e.Next? ==>
            && r.Outcome? && r.m == e.m.(pc := e.pc) && r.m.breakpoints == m.breakpoints
            && r.effects == e.effects
            && (r.msg.Some? <==> e.pc in m.breakpoints)
            && (r.msg.Some? ==> r.msg.value == Message(Breakpoint, 0, e.pc)))
  {
    if m.pc + 1 < |m.mem| {
      var inst := Fetch(m);
      if Decode(inst).Some? {
        EncodeDecode(inst);
        PerformValid(m, Decode(inst).value, inst, input, corrected);
      }
    }
  }

  // ---------------------------------------------------------------------
  // Messages

  function Template(kind: MsgKind): string
  {
    match kind
    case Undefined => "Undefined instruction "
    case Breakpoint => "Breakpoint on "
    case StackFull => "Subroutine call but stack is full "
    case StackEmpty => "Return but empty call stack "
    case Termination => "Emulator termination "
    case BadAddress => "Reference to memory beyond 4095 in "
  }

  /** `emsg_format`: the template followed by INST and PC in four
      upper-case hex digits. The breakpoint template as written repeats
      INST where PC belongs (see `TextAsWritten`); this is the intended
      text. */
  function Text(msg: Message): string
    requires msg.inst >= 0 && msg.pc >= 0
  {
    Template(msg.kind) + Hex(msg.inst, 4, true) + " at " + Hex(msg.pc, 4, true)
  }

  /** `emsg_format` with `EMSG_BP = 'Breakpoint on {0:04X} at {0:04X}'`. */
  function TextAsWritten(msg: Message): string
    requires msg.inst >= 0 && msg.pc >= 0
  {
    var second := if msg.kind == Breakpoint then msg.inst else msg.pc;
    Template(msg.kind) + Hex(msg.inst, 4, true) + " at " + Hex(second, 4, true)
  }

  /** Every message can be read back: its template, then the instruction
      and the address in four hex digits each. */
  lemma TextReadsBack(msg: Message)
    requires 0 <= msg.inst < 0x10000 && 0 <= msg.pc < 0x10000
    ensures var t := Text(msg);
      var n := |Template(msg.kind)|;
      && |t| == n + 12 && t[..n] == Template(msg.kind) && t[n + 4 .. n + 8] == " at "
      && HexNumber(t[n .. n + 4]) == msg.inst && HexNumber(t[n + 8 ..]) == msg.pc
  {
    assert Pow2(16) == 0x10000 by {
      assert Pow2(4) == 16;
      assert Pow2(8) == 256 by { assert Pow2(8) == 2 * 2 * 2 * 2 * Pow2(4); }
      assert Pow2(16) == 256 * 256 by {
        assert Pow2(16) == 2 * 2 * 2 * 2 * 2 * 2 * 2 * 2 * Pow2(8);
      }
    }
    HexWidth(msg.inst, 4, true);
    HexWidth(msg.pc, 4, true);
    HexRoundTrip(msg.inst, 4);
    HexRoundTrip(msg.pc, 4);
    var t := Text(msg);
    var n := |Template(msg.kind)|;
    assert t[n .. n + 4] == Hex(msg.inst, 4, true);
    assert t[n + 8 ..] == Hex(msg.pc, 4, true);
  }

  lemma HexZero()
    ensures Hex(0, 4, true) == "0000"
  {
    assert HexDigits(0, true) == "0";
  }

  /** As written, every breakpoint message reads the same whatever the
      address: 0x202 and 0x204 cannot be told apart. */
  lemma BreakpointTextAsWritten(pc: nat)
    ensures TextAsWritten(Message(Breakpoint, 0, pc)) == "Breakpoint on 0000 at 0000"
    ensures TextAsWritten(Message(Breakpoint, 0, 0x202)) == TextAsWritten(Message(Breakpoint, 0, 0x204))
    ensures Text(Message(Breakpoint, 0, 0x202)) != Text(Message(Breakpoint, 0, 0x204))
  {
    HexZero();
    TextReadsBack(Message(Breakpoint, 0, 0x202));
    TextReadsBack(Message(Breakpoint, 0, 0x204));
  }

  /** The other templates format INST and PC in order. */
  lemma TextAsWrittenElsewhere(msg: Message)
    requires msg.inst >= 0 && msg.pc >= 0 && msg.kind != Breakpoint
    ensures TextAsWritten(msg) == Text(msg)
  {
  }

  // ---------------------------------------------------------------------
  // tick

  /** `tick`: one sixtieth of a second. Each timer counts down to zero;
      the tone is turned off when the sound timer reaches zero. */
  function Tick(m: Machine): (r: (Machine, seq<Effect>))
  {
    var dt := if m.dt != 0 then m.dt - 1 else m.dt;
    var st := if m.st != 0 then m.st - 1 else m.st;
    (m.(dt := dt, st := st), if m.st != 0 && st == 0 then [Sound(false)] else [])
  }

  /** `n` ticks in a row, with the display calls they make. */
  function Ticks(m: Machine, n: nat): (Machine, seq<Effect>)
    decreases n
  {
    if n == 0 then (m, [])
    else
      var first := Tick(m);
      var rest := Ticks(first.0, n - 1);
      (rest.0, first.1 + rest.1)
  }

  function Max(a: int, b: int): int { if a < b then b else a }

  /** After n ticks each timer has dropped by n, stopping at zero, and the
      tone has been turned off once if the sound timer ran out on the way. */
  lemma {:induction false} TicksCountDown(m: Machine, n: nat)
    requires m.dt >= 0 && m.st >= 0
    ensures Ticks(m, n).0 == m.(dt := Max(m.dt - n, 0), st := Max(m.st - n, 0))
    ensures Ticks(m, n).1 == if 0 < m.st <= n then [Sound(false)] else []
    decreases n
  {
    if n > 0 {
      TicksCountDown(Tick(m).0, n - 1);
    }
  }

  /** A tick keeps the machine invariant. */
  lemma TickValid(m: Machine)
    requires Valid(m)
    ensures Valid(Tick(m).0) && Tick(m).0 == m.(dt := Tick(m).0.dt, st := Tick(m).0.st)
    ensures Tick(m).0.dt == Max(m.dt - 1, 0) && Tick(m).0.st == Max(m.st - 1, 0)
  {
  }

  // ---------------------------------------------------------------------
  // reset_vm

  /** Memory after clearing and loading the two fonts. */
  function InitialMemory(): (mem: seq<int>)
    ensures |mem| == MemorySize
  {
    seq(MemorySize, k requires 0 <= k < MemorySize =>
      if k < 80 then FontSmall[k] else if k < 240 then FontLarge[k - 80] else 0)
  }

  /** Loading a program at 0x200 over memory, as intended: the program
      replaces exactly as many bytes as it has. */
  function LoadProgram(mem: seq<int>, load: seq<int>): (r: seq<int>)
    requires |mem| == MemorySize && |load| <= MemorySize - ProgramBase
    ensures |r| == MemorySize
    ensures forall k | 0 <= k < |load| :: r[ProgramBase + k] == load[k]
    ensures forall k | 0 <= k < MemorySize && !(ProgramBase <= k < ProgramBase + |load|) :: r[k] == mem[k]
  {
    mem[..ProgramBase] + load + mem[ProgramBase + |load|..]
  }

  /** `MEMORY[0x0200 : 0x01FF + len(memload)] = memload` with Python's
      slice assignment: the slice replaced is one byte shorter than the
      program (and empty, so an insertion at 0x200, when the bound is
      below the start). */
  function LoadProgramAsWritten(mem: seq<int>, load: seq<int>): seq<int>
    requires |mem| == MemorySize && |load| <= MemorySize - ProgramBase
  {
    mem[..ProgramBase] + load + mem[Max(ProgramBase, 0x1FF + |load|)..]
  }

  /** As written, any non-empty program grows memory to 4097 bytes and
      the byte that the program's last byte should replace survives,
      moved up by one. */
  lemma LoadProgramAsWrittenGrows(mem: seq<int>, load: seq<int>)
    requires |mem| == MemorySize && 1 <= |load| <= MemorySize - ProgramBase
    ensures var r := LoadProgramAsWritten(mem, load);
      && |r| == MemorySize + 1
      && r[ProgramBase + |load|] == mem[ProgramBase + |load| - 1]
  {
  }

  /** For instance, loading the single byte 0xFF into zeroed memory. */
  lemma LoadProgramAsWrittenExample()
    ensures |LoadProgramAsWritten(seq(MemorySize, _ => 0), [0xFF])| == 4097
    ensures |LoadProgram(seq(MemorySize, _ => 0), [0xFF])| == 4096
  {
    LoadProgramAsWrittenGrows(seq(MemorySize, _ => 0), [0xFF]);
  }

  /** `reset_vm`: everything cleared, PC at 0x200, the display in CHIP-8
      mode with the tone off, the fonts at 0x000 and 0x050 and the program
      (if any) at 0x200. A program longer than 3584 bytes fails the
      assertion. An absent `memload` is the empty program. */
  function Reset(load: seq<int>): Option<(Machine, seq<Effect>)>
  {
    if |load| > MemorySize - ProgramBase then None
    else
      Some((Machine(
        seq(16, _ => 0), 0, 0, 0, ProgramBase,
        LoadProgram(InitialMemory(), load), [], [],
        Display.SetMode(Display.Blank, false)), [Sound(false)]))
  }

  /** The fonts at 0x000 and 0x050, zeros above. */
  lemma InitialMemoryLayout()
    ensures var init := InitialMemory();
      && AllBytes(init)
      && (forall k | 0 <= k < 80 :: init[k] == FontSmall[k])
      && (forall k | 0 <= k < 160 :: init[80 + k] == FontLarge[k])
      && (forall k | 240 <= k < MemorySize :: init[k] == 0)
  {
  }

  /** The machine `reset_vm` leaves. */
  lemma ResetState(load: seq<int>)
    ensures Reset(load).Some? <==> |load| <= MemorySize - ProgramBase
    ensures Reset(load).Some? ==>
      var m := Reset(load).value.0;
      && (AllBytes(load) ==> Valid(m))
      && m.pc == ProgramBase && m.i == 0 && m.dt == 0 && m.st == 0
      && (forall k | 0 <= k < 16 :: m.v[k] == 0)
      && m.stack == [] && m.breakpoints == [] && !m.screen.hires && m.screen.lit == {}
      && (forall k | 0 <= k < 80 :: m.mem[k] == FontSmall[k])
      && (forall k | 0 <= k < 160 :: m.mem[80 + k] == FontLarge[k])
      && (forall k | 0 <= k < |load| :: m.mem[ProgramBase + k] == load[k])
      && (forall k | 240 <= k < MemorySize && !(ProgramBase <= k < ProgramBase + |load|) :: m.mem[k] == 0)
  {
    if |load| <= MemorySize - ProgramBase {
      InitialMemoryLayout();
      var m := Reset(load).value.0;
      if AllBytes(load) {
        assert AllBytes(m.mem) by {
          forall k | 0 <= k < MemorySize ensures IsByte(m.mem[k]) {
            if ProgramBase <= k < ProgramBase + |load| {
              assert m.mem[k] == load[k - ProgramBase];
            }
          }
        }
      }
    }
  }

  // ---------------------------------------------------------------------
  // Breakpoints

  /** `bp_add`: append unless already present. */
  function BpAdd(bps: seq<int>, a: int): (r: seq<int>)
    ensures a in r && forall b :: b in r <==> b in bps || b == a
    ensures Display.NoDup(bps) ==> Display.NoDup(r)
  {
    if a in bps then bps else bps + [a]
  }

  /** `bp_clear`: forget every breakpoint. */
  function BpClear(bps: seq<int>): (r: seq<int>)
    ensures forall b :: b !in r
  {
    []
  }

  /** After a clear, an added address is the only breakpoint, and removing
      one finds nothing. */
  lemma BpClearThenAdd(bps: seq<int>, a: int)
    ensures BpAdd(BpClear(bps), a) == [a]
    ensures BpRem(BpClear(bps), a) == ([], false)
  {
  }

  /** `list.remove`: drop the first occurrence. */
  function RemoveFirst(s: seq<int>, a: int): (r: seq<int>)
    requires a in s
    ensures |r| == |s| - 1
    ensures forall b :: b in r ==> b in s
    decreases |s|
  {
    if s[0] == a then s[1..] else [s[0]] + RemoveFirst(s[1..], a)
  }

  /** `bp_rem`: remove the address and say whether it was there. */
  function BpRem(bps: seq<int>, a: int): (r: (seq<int>, bool))
  {
    if a in bps then (RemoveFirst(bps, a), true) else (bps, false)
  }

  /** On a list without repetitions, `bp_rem` takes out exactly the
      address given, and reports whether it was there. */
  lemma {:induction false} RemoveFirstMeaning(s: seq<int>, a: int)
    requires a in s && Display.NoDup(s)
    ensures Display.NoDup(RemoveFirst(s, a))
    ensures forall b :: b in RemoveFirst(s, a) <==> b in s && b != a
    decreases |s|
  {
    if s[0] != a {
      assert forall j | 0 <= j < |s| - 1 :: s[1..][j] == s[j + 1];
      RemoveFirstMeaning(s[1..], a);
      var rest := RemoveFirst(s[1..], a);
      assert s[0] !in rest;
      assert Display.NoDup([s[0]] + rest) by {
        var t := [s[0]] + rest;
        forall i, j | 0 <= i < j < |t| ensures t[i] != t[j] {
          if i == 0 {
            assert t[j] == rest[j - 1];
          } else {
            assert t[i] == rest[i - 1] && t[j] == rest[j - 1];
          }
        }
      }
    } else {
      assert forall b :: b in s[1..] ==> b != a by {
        forall b | b in s[1..] ensures b != a {
          var j :| 0 <= j < |s[1..]| && s[1..][j] == b;
          assert s[j + 1] == b;
        }
      }
      assert forall i, j | 0 <= i < j < |s| - 1 :: s[1..][i] == s[i + 1] && s[1..][j] == s[j + 1];
    }
  }

  lemma BpRemMeaning(bps: seq<int>, a: int)
    requires Display.NoDup(bps)
    ensures BpRem(bps, a).1 <==> a in bps
    ensures |BpRem(bps, a).0| == |bps| - (if a in bps then 1 else 0)
    ensures Display.NoDup(BpRem(bps, a).0)
    ensures forall b :: b in BpRem(bps, a).0 <==> b in bps && b != a
  {
    if a in bps {
      RemoveFirstMeaning(bps, a);
    }
  }

  /** Adding twice is adding once, and removing a freshly added address
      gives the list back. */
  lemma BpAddThenRem(bps: seq<int>, a: int)
    ensures BpAdd(BpAdd(bps, a), a) == BpAdd(bps, a)
    ensures a !in bps ==> BpRem(BpAdd(bps, a), a) == (bps, true)
  {
    if a !in bps {
      RemoveLast(bps, a);
    }
  }

  lemma {:induction false} RemoveLast(s: seq<int>, a: int)
    requires a !in s
    ensures RemoveFirst(s + [a], a) == s
    decreases |s|
  {
    if |s| > 0 {
      assert (s + [a])[1..] == s[1..] + [a];
      RemoveLast(s[1..], a);
    }
  }

  // ---------------------------------------------------------------------
  // The sprite bound

  /** As written, a sprite whose last byte is the last byte of memory is
      refused although it lies wholly inside memory; Fx33 and Fx55/Fx65
      test exactly. */
  lemma SpriteGuardAsWritten(count: int)
    requires 1 <= count <= 32
    ensures var address := MemorySize - count;
      && SpriteOutOfRangeAsWritten(address, count)
      && 0 <= address && address + count <= MemorySize
      && !SpriteOutOfRange(address, count)
  {
  }

  /** With I = 4095, D001 draws the last byte of memory: as written it
      fails with a bad address, corrected it draws. */
  lemma LastByteSprite(m: Machine, inst: int, input: Input)
    requires Valid(m) && m.i == MemorySize - 1
    ensures Perform(m, DrawOp(0, 0, 1), inst, input, false).Raise?
    ensures Perform(m, DrawOp(0, 0, 1), inst, input, true).Next?
  {
  }

  // ---------------------------------------------------------------------
  // Runs from chip8.py's own checks

  /** The machine `reset_vm` leaves for a program of bytes. */
  lemma ResetProgram(load: seq<int>)
    requires |load| <= MemorySize - ProgramBase && AllBytes(load)
    ensures Reset(load).Some?
    ensures var m := Reset(load).value.0;
      && Valid(m) && m.pc == ProgramBase && m.breakpoints == [] && m.stack == []
      && (forall k | 0 <= k < |load| :: m.mem[ProgramBase + k] == load[k])
  {
    ResetState(load);
  }

  /** A zeroed program stops at once: 0000 is not an instruction. */
  lemma ZeroedProgramFaults(input: Input, corrected: bool)
    ensures Reset([]).Some? && Valid(Reset([]).value.0)
    ensures var m := Reset([]).value.0;
      Step(m, input, corrected) == Outcome(m, [], Some(Message(Undefined, 0, 0x200)))
  {
    ResetProgram([]);
    var m := Reset([]).value.0;
    assert m.mem[0x200] == 0 && m.mem[0x201] == 0 by {
      InitialMemoryLayout();
    }
    assert Fetch(m) == 0;
    assert Split(0) == Nybbles(0, 0, 0, 0);
    assert Decode(0) == None;
  }

  /** The message a zeroed program stops with. */
  lemma ZeroedProgramText()
    ensures Text(Message(Undefined, 0, 0x200)) == "Undefined instruction 0000 at 0200"
  {
    HexZero();
    assert HexDigits(0x200, true) == "200" by {
      assert HexDigits(0x20, true) == "20";
    }
  }

  /** '6321 00FD': v3 gets 0x21, then the machine stops at 0x202. */
  lemma LoadThenExit(input: Input, corrected: bool)
    ensures Reset([0x63, 0x21, 0x00, 0xFD]).Some?
    ensures var m := Reset([0x63, 0x21, 0x00, 0xFD]).value.0;
      && Valid(m)
      && var r := Step(m, input, corrected);
      && r.Outcome? && Valid(r.m) && r.msg == None && r.m.v[3] == 0x21 && r.m.pc == 0x202
      && Step(r.m, input, corrected) == Outcome(r.m, [], Some(Message(Termination, 0x00FD, 0x202)))
  {
    var load := [0x63, 0x21, 0x00, 0xFD];
    ResetProgram(load);
    var m := Reset(load).value.0;
    assert Fetch(m) == 0x6321 by {
      assert m.mem[0x200] == 0x63 && m.mem[0x201] == 0x21;
    }
    assert Decode(0x6321) == Some(LoadByteOp(3, 0x21)) by {
      assert Split(0x6321) == Nybbles(6, 3, 2, 1);
    }
    var after := SetV(m, 3, 0x21).(pc := 0x202);
    SetVValid(m, 3, 0x21);
    assert Step(m, input, corrected) == Outcome(after, [], None);
    assert Fetch(after) == 0x00FD by {
      assert after.mem[0x202] == 0x00 && after.mem[0x203] == 0xFD;
    }
    assert Decode(0x00FD) == Some(ExitOp) by {
      assert Split(0x00FD) == Nybbles(0, 0, 0xF, 0xD);
    }
  }
}

=== FILE: disasm.dfy ===
/** disassemble.py: a byte string read as an S/CHIP-8 program.

    The disassembler walks the bytes from the start.  Two bytes that
    decode to an instruction become that instruction's statement and the
    walk moves on by two; otherwise the first byte becomes a DB and the
    walk moves on by one.  Every jump, call and LD I target is then placed:
    as a label on the statement at that address when there is one, or as an
    EQU line ahead of the program.  Statements sit at 0x200 plus their
    offset, where the machine loads a program. */
module Disassembler {
  import opened Bits
  import opened Expr
  import Chip8
  import Assembler

  // ---------------------------------------------------------------------
  // Fields of a pair of bytes

  /** For a byte, `& 0x0f` keeps its low hex digit and `>> 4` its high
      one. */
  lemma FieldMasks(b: int)
    requires IsByte(b)
    ensures BitAnd(b, 0x0F) == b % 16 && ShiftRightBy(b, 4) == b / 16
  {
    LowNybble(b);
    assert Pow2(4) == 16;
  }

  /** `add_label`: the 12-bit address of a 1nnn, 2nnn, Annn or Bnnn pair,
      `((b1 & 0x0F) << 8) | b2`. */
  function AddLabel(b1: int, b2: int): int
  {
    BitOr(BitAnd(b1, 0x0F) * 256, b2)
  }

  lemma AddLabelValue(b1: int, b2: int)
    requires IsByte(b1) && IsByte(b2)
    ensures AddLabel(b1, b2) == 256 * (b1 % 16) + b2 < 0x1000
  {
    LowNybble(b1);
    assert Pow2(8) == 256;
    BitOrDisjoint(b1 % 16, b2, 8);
  }

  // ---------------------------------------------------------------------
  // Decoding one pair

  /** A decoded instruction: the entry of assembler2's opcode table its
      text stands for, the V registers the text names in the slots that
      entry reads them from (`S.reg_1` and `S.reg_2`; a slot the text fills
      with I, DT or ST, or not at all, holds 0), and the number it prints,
      if any. */
  datatype Printed = Printed(form: Assembler.Form, x: nat, y: nat, v: nat)

  /** `disasm_00xx`: the table of `decode_00xx`, then 00Cn; only when the
      second nybble is zero too. */
  function Decode00(b1: int, b2: int): Option<Printed>
    requires IsByte(b1) && IsByte(b2)
  {
    if b1 != 0 then None
    else if b2 == 0xE0 then Some(Printed(Assembler.Cls, 0, 0, 0))
    else if b2 == 0xEE then Some(Printed(Assembler.Ret, 0, 0, 0))
    else if b2 == 0xFB then Some(Printed(Assembler.Scr, 0, 0, 0))
    else if b2 == 0xFC then Some(Printed(Assembler.Scl, 0, 0, 0))
    else if b2 == 0xFD then Some(Printed(Assembler.Exit, 0, 0, 0))
    else if b2 == 0xFE then Some(Printed(Assembler.Low, 0, 0, 0))
    else if b2 == 0xFF then Some(Printed(Assembler.High, 0, 0, 0))
    else if 0xC0 <= b2 < 0xD0 then Some(Printed(Assembler.Scd, 0, 0, b2 % 16))
    else None
  }

  /** `disasm_8xxx`: the low nybble selects from `decode_8xxx`. */
  function Decode8(b1: int, b2: int): Option<Printed>
    requires IsByte(b1) && IsByte(b2)
  {
    var form := match b2 % 16
      case 0x0 => Some(Assembler.LdRR)
      case 0x1 => Some(Assembler.OrR)
      case 0x2 => Some(Assembler.AndR)
      case 0x3 => Some(Assembler.XorR)
      case 0x4 => Some(Assembler.AddR)
      case 0x5 => Some(Assembler.Sub)
      case 0x6 => Some(Assembler.ShR)
      case 0x7 => Some(Assembler.SubN)
      case 0xE => Some(Assembler.ShL)
      case _ => None;
    if form.Some? then Some(Printed(form.value, b1 % 16, b2 / 16, 0)) else None
  }

  /** `disasm_Exxx`: the two key tests. */
  function DecodeE(b1: int, b2: int): Option<Printed>
    requires IsByte(b1) && IsByte(b2)
  {
    if b2 == 0x9E then Some(Printed(Assembler.Skp, b1 % 16, 0, 0))
    else if b2 == 0xA1 then Some(Printed(Assembler.Sknp, b1 % 16, 0, 0))
    else None
  }

  /** `disasm_Fxxx`: the second byte selects from `decode_Fxxx`.  The
      register goes to the first slot when the text names it first, and
      to the second when I, DT or ST comes before it. */
  function DecodeF(b1: int, b2: int): Option<Printed>
    requires IsByte(b1) && IsByte(b2)
  {
    var r := b1 % 16;
    if b2 == 0x07 then Some(Printed(Assembler.LdRT, r, 0, 0))
    else if b2 == 0x0A then Some(Printed(Assembler.LdK, r, 0, 0))
    else if b2 == 0x15 then Some(Printed(Assembler.LdTR, 0, r, 0))
    else if b2 == 0x18 then Some(Printed(Assembler.LdSR, 0, r, 0))
    else if b2 == 0x1E then Some(Printed(Assembler.AddI, 0, r, 0))
    else if b2 == 0x29 then Some(Printed(Assembler.LdC, 0, r, 0))
    else if b2 == 0x30 then Some(Printed(Assembler.LdH, 0, r, 0))
    else if b2 == 0x33 then Some(Printed(Assembler.Std, r, 0, 0))
    else if b2 == 0x55 then Some(Printed(Assembler.Stm, r, 0, 0))
    else if b2 == 0x65 then Some(Printed(Assembler.LdM, r, 0, 0))
    else None
  }

  /** `decode_first_byte[b1 & 0xf0](b1, b2)`; None is the empty string of
      a pair that is not an instruction.  5xy0 and 9xy0 need their last
      digit zero. */
  function DecodePair(b1: int, b2: int): Option<Printed>
    requires IsByte(b1) && IsByte(b2)
  {
    AddLabelValue(b1, b2);
    var x := b1 % 16;
    match b1 / 16
    case 0x0 => Decode00(b1, b2)
    case 0x1 => Some(Printed(Assembler.JpAdr, 0, 0, AddLabel(b1, b2)))
    case 0x2 => Some(Printed(Assembler.Call, 0, 0, AddLabel(b1, b2)))
    case 0x3 => Some(Printed(Assembler.SeB, x, 0, b2))
    case 0x4 => Some(Printed(Assembler.SneB, x, 0, b2))
    case 0x5 => if b2 % 16 == 0 then Some(Printed(Assembler.SeR, x, b2 / 16, 0)) else None
    case 0x6 => Some(Printed(Assembler.LdRB, x, 0, b2))
    case 0x7 => Some(Printed(Assembler.AddB, x, 0, b2))
    case 0x8 => Decode8(b1, b2)
    case 0x9 => if b2 % 16 == 0 then Some(Printed(Assembler.SneR, x, b2 / 16, 0)) else None
    case 0xA => Some(Printed(Assembler.LdI, 0, 0, AddLabel(b1, b2)))
    case 0xB => Some(Printed(Assembler.JpXAdr, 0, 0, AddLabel(b1, b2)))
    case 0xC => Some(Printed(Assembler.Rnd, x, 0, b2))
    case 0xD => Some(Printed(Assembler.Draw, x, b2 / 16, b2 % 16))
    case 0xE => DecodeE(b1, b2)
    case _ => DecodeF(b1, b2)
  }

  /** The forms whose decoder calls `add_label`. */
  predicate IsJump(f: Assembler.Form)
  {
    f.JpAdr? || f.Call? || f.LdI? || f.JpXAdr?
  }

  /** The forms whose text prints a number. */
  predicate HasOperand(f: Assembler.Form)
  {
    || IsJump(f) || f.SeB? || f.SneB? || f.LdRB? || f.AddB? || f.Rnd?
    || f.Draw? || f.Scd?
  }

  // ---------------------------------------------------------------------
  // What a decoded pair means to the machine and to the assembler

  /** The instruction word of a pair, high byte first. */
  function Word(b1: int, b2: int): int { 256 * b1 + b2 }

  function PairDigits(b1: int, b2: int): Chip8.Nybbles
  {
    Chip8.Nybbles(b1 / 16, b1 % 16, b2 / 16, b2 % 16)
  }

  lemma PairSplit(b1: int, b2: int)
    requires IsByte(b1) && IsByte(b2)
    ensures Chip8.IsInstruction(Word(b1, b2))
    ensures Chip8.Split(Word(b1, b2)) == PairDigits(b1, b2)
    ensures Chip8.Decode(Word(b1, b2)) == Chip8.DecodeWord(PairDigits(b1, b2))
  {
    var w := PairDigits(b1, b2);
    Chip8.SplitJoin(w);
    assert Chip8.Join(w) == Word(b1, b2);
  }

  /** The fields of the word, in terms of the two bytes. */
  lemma PairFields(b1: int, b2: int)
    requires IsByte(b1) && IsByte(b2)
    ensures Chip8.Join(PairDigits(b1, b2)) == Word(b1, b2)
    ensures Chip8.Address(PairDigits(b1, b2)) == 256 * (b1 % 16) + b2
    ensures Chip8.Byte(PairDigits(b1, b2)) == b2
  {
    assert b1 == 16 * (b1 / 16) + b1 % 16;
    assert b2 == 16 * (b2 / 16) + b2 % 16;
  }

  /** The words the machine runs although the disassembler does not read
      them as instructions: a 0nnn whose second digit is not zero, and a
      5xyn or 9xyn whose last digit is not zero. */
  predicate Stray(b1: int, b2: int)
  {
    || (b1 / 16 == 0 && b1 != 0)
    || ((b1 / 16 == 5 || b1 / 16 == 9) && b2 % 16 != 0)
  }

  /** A pair decodes exactly when the machine would run its word and it
      is not one of the stray words: the partial rules of the decoders. */
  lemma DecodeMeaning(b1: int, b2: int)
    requires IsByte(b1) && IsByte(b2)
    ensures DecodePair(b1, b2).Some? <==> Chip8.Decode(Word(b1, b2)).Some? && !Stray(b1, b2)
  {
    PairSplit(b1, b2);
  }

  /** A decoded pair stands for the very instruction the machine decodes
      from its word, under the entry of the opcode table its text names,
      and that instruction's canonical encoding is the word itself. */
  ghost predicate Agrees(b1: int, b2: int)
    requires IsByte(b1) && IsByte(b2) && DecodePair(b1, b2).Some?
  {
    var p := DecodePair(b1, b2).value;
    && Chip8.Decode(Word(b1, b2)).Some?
    && Assembler.Instruction(p.form, p.x, p.y, p.v) == Chip8.Decode(Word(b1, b2))
    && Chip8.Encode(Chip8.Decode(Word(b1, b2)).value) == Word(b1, b2)
  }

  lemma DecodeAgrees(b1: int, b2: int)
    requires IsByte(b1) && IsByte(b2) && DecodePair(b1, b2).Some?
    ensures Agrees(b1, b2)
  {
    var a := b1 / 16;
    if a == 0 {
      AgreesSystem(b1, b2);
    } else if a == 1 {
      AgreesJump(b1, b2);
    } else if a == 2 {
      AgreesCall(b1, b2);
    } else if a == 0xA {
      AgreesLoadI(b1, b2);
    } else if a == 0xB {
      AgreesJumpIndexed(b1, b2);
    } else if a == 3 {
      AgreesSkipEqByte(b1, b2);
    } else if a == 4 {
      AgreesSkipNeByte(b1, b2);
    } else if a == 6 {
      AgreesLoadByte(b1, b2);
    } else if a == 7 {
      AgreesAddByte(b1, b2);
    } else if a == 0xC {
      AgreesRandom(b1, b2);
    } else if a in {5, 9} {
      AgreesSkipRegisters(b1, b2);
    } else if a == 0xD {
      AgreesDraw(b1, b2);
    } else if a == 8 {
      AgreesAlu(b1, b2);
    } else if a == 0xE {
      AgreesKeys(b1, b2);
    } else {
      AgreesMisc(b1, b2);
    }
  }

  lemma AgreesSystem(b1: int, b2: int)
    requires IsByte(b1) && IsByte(b2) && b1 / 16 == 0 && DecodePair(b1, b2).Some?
    ensures Agrees(b1, b2)
  {
    PairSplit(b1, b2);
    PairFields(b1, b2);
    assert b1 == 0;
    if b2 / 16 == 0xC {
      AgreesScroll(b2);
    } else {
      AgreesControl(b2);
    }
  }

  /** 00Cn: scroll down n lines. */
  lemma AgreesScroll(b2: int)
    requires IsByte(b2) && b2 / 16 == 0xC
    requires Chip8.Decode(Word(0, b2)) == Chip8.DecodeWord(PairDigits(0, b2))
    requires Chip8.Join(PairDigits(0, b2)) == Word(0, b2)
    ensures DecodePair(0, b2).Some? && Agrees(0, b2)
  {
    assert DecodePair(0, b2) == Some(Printed(Assembler.Scd, 0, 0, b2 % 16));
    assert Chip8.Decode(Word(0, b2)) == Some(Chip8.ScrollDownOp(b2 % 16));
  }

  /** The seven fixed system words, each taken on its own. */
  lemma AgreesControl(b2: int)
    requires IsByte(b2) && b2 / 16 != 0xC && DecodePair(0, b2).Some?
    ensures Agrees(0, b2)
  {
    if b2 == 0xE0 {
      AgreesClear();
    } else if b2 == 0xEE {
      AgreesReturn();
    } else if b2 == 0xFB {
      AgreesScrollRight();
    } else if b2 == 0xFC {
      AgreesScrollLeft();
    } else if b2 == 0xFD {
      AgreesExit();
    } else if b2 == 0xFE {
      AgreesLow();
    } else {
      AgreesHigh();
    }
  }

  lemma AgreesClear()
    ensures DecodePair(0, 0xE0).Some? && Agrees(0, 0xE0)
  {
    PairSplit(0, 0xE0);
  }

  lemma AgreesReturn()
    ensures DecodePair(0, 0xEE).Some? && Agrees(0, 0xEE)
  {
    PairSplit(0, 0xEE);
  }

  lemma AgreesScrollRight()
    ensures DecodePair(0, 0xFB).Some? && Agrees(0, 0xFB)
  {
    PairSplit(0, 0xFB);
  }

  lemma AgreesScrollLeft()
    ensures DecodePair(0, 0xFC).Some? && Agrees(0, 0xFC)
  {
    PairSplit(0, 0xFC);
  }

  lemma AgreesExit()
    ensures DecodePair(0, 0xFD).Some? && Agrees(0, 0xFD)
  {
    PairSplit(0, 0xFD);
  }

  lemma AgreesLow()
    ensures DecodePair(0, 0xFE).Some? && Agrees(0, 0xFE)
  {
    PairSplit(0, 0xFE);
  }

  lemma AgreesHigh()
    ensures DecodePair(0, 0xFF).Some? && Agrees(0, 0xFF)
  {
    PairSplit(0, 0xFF);
  }

  /** The four address forms, one opcode at a time. */
  lemma AddressFacts(b1: int, b2: int)
    requires IsByte(b1) && IsByte(b2) && b1 / 16 in {1, 2, 0xA, 0xB}
    ensures Chip8.Decode(Word(b1, b2)) == Chip8.DecodeWord(PairDigits(b1, b2))
    ensures Chip8.Join(PairDigits(b1, b2)) == Word(b1, b2)
    ensures Chip8.Address(PairDigits(b1, b2)) == AddLabel(b1, b2)
    ensures Chip8.EncodeWord(Chip8.DecodeWord(PairDigits(b1, b2)).value) == PairDigits(b1, b2)
  {
    PairSplit(b1, b2);
    PairFields(b1, b2);
    AddLabelValue(b1, b2);
    Chip8.EncodeDecodeAddress(PairDigits(b1, b2));
  }

  lemma AgreesJump(b1: int, b2: int)
    requires IsByte(b1) && IsByte(b2) && b1 / 16 == 0x1
    ensures DecodePair(b1, b2).Some? && Agrees(b1, b2)
  {
    AddressFacts(b1, b2);
  }

  lemma AgreesCall(b1: int, b2: int)
    requires IsByte(b1) && IsByte(b2) && b1 / 16 == 0x2
    ensures DecodePair(b1, b2).Some? && Agrees(b1, b2)
  {
    AddressFacts(b1, b2);
  }

  lemma AgreesLoadI(b1: int, b2: int)
    requires IsByte(b1) && IsByte(b2) && b1 / 16 == 0xA
    ensures DecodePair(b1, b2).Some? && Agrees(b1, b2)
  {
    AddressFacts(b1, b2);
  }

  lemma AgreesJumpIndexed(b1: int, b2: int)
    requires IsByte(b1) && IsByte(b2) && b1 / 16 == 0xB
    ensures DecodePair(b1, b2).Some? && Agrees(b1, b2)
  {
    AddressFacts(b1, b2);
  }

  /** The five forms with a register and a byte, one opcode at a time. */
  lemma ByteFacts(b1: int, b2: int)
    requires IsByte(b1) && IsByte(b2) && b1 / 16 in {3, 4, 6, 7, 0xC}
    ensures Chip8.Decode(Word(b1, b2)) == Chip8.DecodeWord(PairDigits(b1, b2))
    ensures Chip8.Join(PairDigits(b1, b2)) == Word(b1, b2)
    ensures Chip8.Byte(PairDigits(b1, b2)) == b2
    ensures Chip8.EncodeWord(Chip8.DecodeWord(PairDigits(b1, b2)).value) == PairDigits(b1, b2)
  {
    PairSplit(b1, b2);
    PairFields(b1, b2);
    Chip8.EncodeDecodeByte(PairDigits(b1, b2));
  }

  lemma AgreesSkipEqByte(b1: int, b2: int)
    requires IsByte(b1) && IsByte(b2) && b1 / 16 == 0x3
    ensures DecodePair(b1, b2).Some? && Agrees(b1, b2)
  {
    ByteFacts(b1, b2);
  }

  lemma AgreesSkipNeByte(b1: int, b2: int)
    requires IsByte(b1) && IsByte(b2) && b1 / 16 == 0x4
    ensures DecodePair(b1, b2).Some? && Agrees(b1, b2)
  {
    ByteFacts(b1, b2);
  }

  lemma AgreesLoadByte(b1: int, b2: int)
    requires IsByte(b1) && IsByte(b2) && b1 / 16 == 0x6
    ensures DecodePair(b1, b2).Some? && Agrees(b1, b2)
  {
    ByteFacts(b1, b2);
  }

  lemma AgreesAddByte(b1: int, b2: int)
    requires IsByte(b1) && IsByte(b2) && b1 / 16 == 0x7
    ensures DecodePair(b1, b2).Some? && Agrees(b1, b2)
  {
    ByteFacts(b1, b2);
  }

  lemma AgreesRandom(b1: int, b2: int)
    requires IsByte(b1) && IsByte(b2) && b1 / 16 == 0xC
    ensures DecodePair(b1, b2).Some? && Agrees(b1, b2)
  {
    ByteFacts(b1, b2);
  }

  lemma AgreesSkipRegisters(b1: int, b2: int)
    requires IsByte(b1) && IsByte(b2) && b1 / 16 in {5, 9} && DecodePair(b1, b2).Some?
    ensures Agrees(b1, b2)
  {
    PairSplit(b1, b2);
    PairFields(b1, b2);
  }

  lemma AgreesDraw(b1: int, b2: int)
    requires IsByte(b1) && IsByte(b2) && b1 / 16 == 0xD
    ensures DecodePair(b1, b2).Some? && Agrees(b1, b2)
  {
    PairSplit(b1, b2);
    PairFields(b1, b2);
  }

  lemma AgreesAlu(b1: int, b2: int)
    requires IsByte(b1) && IsByte(b2) && b1 / 16 == 8 && DecodePair(b1, b2).Some?
    ensures Agrees(b1, b2)
  {
    PairSplit(b1, b2);
    PairFields(b1, b2);
    Chip8.EncodeDecodeAlu(PairDigits(b1, b2));
  }

  lemma AgreesKeys(b1: int, b2: int)
    requires IsByte(b1) && IsByte(b2) && b1 / 16 == 0xE && DecodePair(b1, b2).Some?
    ensures Agrees(b1, b2)
  {
    PairSplit(b1, b2);
    PairFields(b1, b2);
    Chip8.EncodeDecodeKeys(PairDigits(b1, b2));
  }

  lemma AgreesMisc(b1: int, b2: int)
    requires IsByte(b1) && IsByte(b2) && b1 / 16 == 0xF && DecodePair(b1, b2).Some?
    ensures Agrees(b1, b2)
  {
    PairSplit(b1, b2);
    PairFields(b1, b2);
    Chip8.EncodeDecodeMisc(PairDigits(b1, b2));
  }

  /** The jumps, calls and LD I are the pairs of first digit 1, 2, A and
      B, and their target is the low twelve bits of the word. */
  lemma JumpTargets(b1: int, b2: int)
    requires IsByte(b1) && IsByte(b2) && DecodePair(b1, b2).Some?
    ensures var p := DecodePair(b1, b2).value;
      && (IsJump(p.form) <==> b1 / 16 in {0x1, 0x2, 0xA, 0xB})
      && (IsJump(p.form) ==> p.v == Word(b1, b2) % 0x1000)
  {
    AddLabelValue(b1, b2);
  }

  /** The statement assembler2 reads for a decoded pair: the registers in
      their slots and the printed number as the expression. */
  function AsStatement(p: Printed): Assembler.Statement
  {
    Assembler.Statement(false, Assembler.FormName(p.form), "", Some(2), p.x, p.y,
      if HasOperand(p.form) then [Num(p.v)] else [])
  }

  /** The fields of a decoded pair fit the entry it names: registers are
      digits, and the number is in the range `check_value` holds that
      entry's expression to. */
  ghost predicate Fits(p: Printed)
  {
    var high := Assembler.OperandHigh(Assembler.PatternOf(p.form));
    && !Assembler.IsDirective(p.form) && IsNybble(p.x) && IsNybble(p.y)
    && (high.Some? <==> HasOperand(p.form))
    && (high.Some? ==> p.v <= high.value)
    && (high.None? ==> p.v == 0)
  }

  lemma OperandFits(b1: int, b2: int)
    requires IsByte(b1) && IsByte(b2) && DecodePair(b1, b2).Some?
    ensures Fits(DecodePair(b1, b2).value)
  {
    AddLabelValue(b1, b2);
    var a := b1 / 16;
    if a in {0, 8, 0xE, 0xF} {
      FitsTables(b1, b2);
    } else if a in {1, 2, 0xA, 0xB} {
      FitsAddress(b1, b2);
    } else if a in {3, 4, 6, 7, 0xC} {
      FitsByte(b1, b2);
    } else {
      FitsRegisters(b1, b2);
    }
  }

  lemma FitsTables(b1: int, b2: int)
    requires IsByte(b1) && IsByte(b2) && b1 / 16 in {0, 8, 0xE, 0xF} && DecodePair(b1, b2).Some?
    ensures Fits(DecodePair(b1, b2).value)
  {
    var a := b1 / 16;
    if a == 0 {
      FitsSystem(b1, b2);
    } else if a == 8 {
      FitsAlu(b1, b2);
    } else {
      FitsKeysMisc(b1, b2);
    }
  }

  lemma FitsSystem(b1: int, b2: int)
    requires IsByte(b1) && IsByte(b2) && Decode00(b1, b2).Some?
    ensures Fits(Decode00(b1, b2).value)
  {
  }

  lemma FitsAlu(b1: int, b2: int)
    requires IsByte(b1) && IsByte(b2) && Decode8(b1, b2).Some?
    ensures Fits(Decode8(b1, b2).value)
  {
  }

  lemma FitsKeysMisc(b1: int, b2: int)
    requires IsByte(b1) && IsByte(b2) && b1 / 16 in {0xE, 0xF} && DecodePair(b1, b2).Some?
    ensures Fits(DecodePair(b1, b2).value)
  {
    if b1 / 16 == 0xE {
      assert Fits(DecodeE(b1, b2).value);
    } else {
      assert Fits(DecodeF(b1, b2).value);
    }
  }

  lemma FitsAddress(b1: int, b2: int)
    requires IsByte(b1) && IsByte(b2) && b1 / 16 in {1, 2, 0xA, 0xB}
    ensures DecodePair(b1, b2).Some? && Fits(DecodePair(b1, b2).value)
  {
    AddLabelValue(b1, b2);
  }

  lemma FitsByte(b1: int, b2: int)
    requires IsByte(b1) && IsByte(b2) && b1 / 16 in {3, 4, 6, 7, 0xC}
    ensures DecodePair(b1, b2).Some? && Fits(DecodePair(b1, b2).value)
  {
  }

  lemma FitsRegisters(b1: int, b2: int)
    requires IsByte(b1) && IsByte(b2) && b1 / 16 in {5, 9, 0xD} && DecodePair(b1, b2).Some?
    ensures Fits(DecodePair(b1, b2).value)
  {
  }

  /** Assembling the statement of a decoded pair gives the pair back,
      whatever the symbols. */
  lemma EncodesBack(b1: int, b2: int, scope: Scope)
    requires IsByte(b1) && IsByte(b2) && DecodePair(b1, b2).Some?
    ensures var p := DecodePair(b1, b2).value;
      Assembler.Encode(p.form, AsStatement(p), scope) == Assembler.Bytes([b1, b2])
  {
    var p := DecodePair(b1, b2).value;
    DecodeAgrees(b1, b2);
    OperandFits(b1, b2);
    PrintedEncodes(p, Chip8.Decode(Word(b1, b2)).value, scope);
    SameWord(Assembler.Encode(p.form, AsStatement(p), scope).bytes, b1, b2);
  }

  /** Two bytes are the only pair spelling their word. */
  lemma SameWord(e: seq<int>, b1: int, b2: int)
    requires |e| == 2 && IsByte(e[0]) && IsByte(e[1]) && IsByte(b1) && IsByte(b2)
    requires 256 * e[0] + e[1] == Word(b1, b2)
    ensures e == [b1, b2]
  {
    DivModUnique(Word(b1, b2), 256, b1, b2);
    DivModUnique(Word(b1, b2), 256, e[0], e[1]);
  }

  /** The statement of fields that fit their entry encodes the instruction
      those fields name. */
  lemma PrintedEncodes(p: Printed, op: Chip8.Op, scope: Scope)
    requires Fits(p) && Assembler.Instruction(p.form, p.x, p.y, p.v) == Some(op)
    ensures Assembler.Encode(p.form, AsStatement(p), scope).Bytes?
    ensures Assembler.Assembles(Assembler.Encode(p.form, AsStatement(p), scope).bytes, op)
  {
    var s := AsStatement(p);
    Assembler.EncodeInstruction(p.form, s, scope);
    if HasOperand(p.form) {
      assert Assembler.FirstOperand(s, scope, 0, Assembler.OperandHigh(Assembler.PatternOf(p.form)).value)
        == Assembler.Got(p.v);
    }
  }

  /** Every well-formed instruction the machine runs is read back by the
      disassembler from its canonical encoding. */
  lemma MachineWordsDecode(op: Chip8.Op)
    requires Chip8.WellFormed(op)
    ensures var w := Chip8.Encode(op);
      && 0 <= w < 0x10000 && DecodePair(w / 256, w % 256).Some?
      && var p := DecodePair(w / 256, w % 256).value;
         Assembler.Instruction(p.form, p.x, p.y, p.v) == Some(op)
  {
    var w := Chip8.Encode(op);
    Chip8.DecodeEncode(op);
    CanonicalDigits(op);
    DigitsPair(Chip8.EncodeWord(op));
    var b1, b2 := w / 256, w % 256;
    DecodeMeaning(b1, b2);
    DecodeAgrees(b1, b2);
  }

  /** The two bytes of a word written with canonical digits. */
  lemma DigitsPair(e: Chip8.Nybbles)
    requires Chip8.NybblesValid(e)
    requires (e.a == 0 ==> e.x == 0) && (e.a == 5 || e.a == 9 ==> e.n == 0)
    ensures var w := Chip8.Join(e);
      && 0 <= w < 0x10000 && IsByte(w / 256) && IsByte(w % 256)
      && Word(w / 256, w % 256) == w
      && PairDigits(w / 256, w % 256) == e && !Stray(w / 256, w % 256)
  {
    var b1, b2 := 16 * e.a + e.x, 16 * e.y + e.n;
    assert Word(b1, b2) == Chip8.Join(e);
    DivModUnique(Chip8.Join(e), 256, b1, b2);
    DivModUnique(b1, 16, e.a, e.x);
    DivModUnique(b2, 16, e.y, e.n);
  }

  /** The canonical digits of an instruction are digits, and they leave
      the bits the machine ignores at zero. */
  lemma CanonicalDigits(op: Chip8.Op)
    requires Chip8.WellFormed(op)
    ensures Chip8.NybblesValid(Chip8.EncodeWord(op))
    ensures var w := Chip8.EncodeWord(op);
      (w.a == 0 ==> w.x == 0) && (w.a == 5 || w.a == 9 ==> w.n == 0)
  {
    if op.JumpOp? || op.CallOp? || op.LoadIOp? || op.JumpV0Op? {
      var t := op.addr / 16;
      assert t / 16 < 16;
    }
  }

  // ---------------------------------------------------------------------
  // The text of a statement

  function DecimalDigit(d: nat): char
    requires d < 10
  {
    "0123456789"[d]
  }

  /** `'{}'.format(n)` of a natural number. */
  function Decimal(n: nat): string
    decreases n
  {
    if n < 10 then [DecimalDigit(n)] else Decimal(n / 10) + [DecimalDigit(n % 10)]
  }

  /** `V{:X}`: a register, never broken across lines. */
  function RegText(n: nat): (s: string)
    ensures NoBreak(s)
  {
    HexNoBreak(n, 1, true);
    "V" + Hex(n, 1, true)
  }

  /** `#{:02X}`: an immediate byte. */
  function ByteText(n: nat): (s: string)
    ensures NoBreak(s)
  {
    HexNoBreak(n, 2, true);
    "#" + Hex(n, 2, true)
  }

  /** `LBL{:04X}`: the label of an address. */
  function LabelText(n: nat): (s: string)
    ensures NoBreak(s)
  {
    HexNoBreak(n, 4, true);
    "LBL" + Hex(n, 4, true)
  }

  /** The format string of each decoder, filled in. */
  function Text(p: Printed): string
  {
    Render(p.form, RegText(p.x), RegText(p.y), ByteText(p.v), LabelText(p.v), Decimal(p.v))
  }

  /** The format strings of the decoders, by form, given the text of the
      first and second register, of the byte, of the label and of the
      decimal digit count. */
  function Render(f: Assembler.Form, vx: string, vy: string, imm: string, lbl: string, count: string): string
  {
    match f
    case Cls => "CLS"
    case Ret => "RET"
    case Scr => "SCR"
    case Scl => "SCL"
    case Exit => "EXIT"
    case Low => "LOW"
    case High => "HIGH"
    case Scd => "SCD " + imm
    case JpAdr => "JP " + lbl
    case Call => "CALL " + lbl
    case SeB => "SE " + vx + ", " + imm
    case SneB => "SNE " + vx + ", " + imm
    case SeR => "SE " + vx + ", " + vy
    case LdRB => "LD " + vx + ", " + imm
    case AddB => "ADD " + vx + ", " + imm
    case LdRR => "LD " + vx + ", " + vy
    case OrR => "OR " + vx + ", " + vy
    case AndR => "AND " + vx + ", " + vy
    case XorR => "XOR " + vx + ", " + vy
    case AddR => "ADD " + vx + ", " + vy
    case Sub => "SUB " + vx + ", " + vy
    case ShR => "SHR " + vx + ", " + vy
    case SubN => "SUBN " + vx + ", " + vy
    case ShL => "SHL " + vx + ", " + vy
    case SneR => "SNE " + vx + ", " + vy
    case LdI => "LD I, " + lbl
    case JpXAdr => "JP V0, " + lbl
    case Rnd => "RND " + vx + ", " + imm
    case Draw => "DRAW " + vx + ", " + vy + ", " + count
    case Skp => "SKP " + vx
    case Sknp => "SKNP " + vx
    case LdRT => "LD " + vx + ", DT"
    case LdK => "LD " + vx + ", K"
    case LdTR => "LD DT, " + vy
    case LdSR => "LD ST, " + vy
    case AddI => "ADD I, " + vy
    case LdC => "LDC I, " + vy
    case LdH => "LDH I, " + vy
    case Std => "STD " + vx
    case Stm => "STM " + vx
    case LdM => "LDM " + vx
    case Da | Db | Dw => ""
  }

  // ---------------------------------------------------------------------
  // The walk

  /** A decoded pair, with the bytes its comment shows, or a DB byte. */
  datatype Body = Code(p: Printed, b1: nat, b2: nat) | Data(b: nat)

  /** A statement at its address, the key of `output_text`. */
  datatype Stmt = Stmt(address: nat, body: Body)

  function Width(b: Body): nat { if b.Code? then 2 else 1 }

  /** The `while` loop from offset pc on, and the leftover last byte. */
  function Walk(bytes: seq<int>, pc: nat): seq<Stmt>
    requires AllBytes(bytes) && pc <= |bytes|
    decreases |bytes| - pc
  {
    if pc + 1 < |bytes| then
      var b1, b2 := bytes[pc], bytes[pc + 1];
      match DecodePair(b1, b2)
      case Some(p) => [Stmt(0x200 + pc, Code(p, b1, b2))] + Walk(bytes, pc + 2)
      case None => [Stmt(0x200 + pc, Data(b1))] + Walk(bytes, pc + 1)
    else if pc < |bytes| then [Stmt(0x200 + pc, Data(bytes[|bytes| - 1]))]
    else []
  }

  predicate Increasing(s: seq<int>)
  {
    forall a, b | 0 <= a < b < |s| :: s[a] < s[b]
  }

  function Addresses(stmts: seq<Stmt>): seq<int>
  {
    seq(|stmts|, k requires 0 <= k < |stmts| => stmts[k].address as int)
  }

  /** What the walk promises of the statements from offset pc on: they
      start at 0x200 + pc, each follows the one before by its width, the
      last ends at the end of the input, and each holds the bytes at its
      offset. */
  ghost predicate Covers(bytes: seq<int>, pc: nat, stmts: seq<Stmt>)
    requires AllBytes(bytes) && pc <= |bytes|
  {
    && Chained(|bytes|, pc, stmts)
    && (forall k | 0 <= k < |stmts| :: Holds(bytes, stmts[k]))
  }

  /** Statements laid end to end from offset pc to offset size. */
  predicate Chained(size: nat, pc: nat, stmts: seq<Stmt>)
  {
    && (|stmts| > 0 <==> pc < size)
    && (|stmts| > 0 ==> stmts[0].address == 0x200 + pc)
    && (forall k | 0 <= k < |stmts| - 1 :: stmts[k + 1].address == stmts[k].address + Width(stmts[k].body))
    && (|stmts| > 0 ==> stmts[|stmts| - 1].address + Width(stmts[|stmts| - 1].body) == 0x200 + size)
  }

  /** A statement holds the bytes at its offset: a decoded pair, or a
      byte that does not start one. */
  ghost predicate Holds(bytes: seq<int>, st: Stmt)
    requires AllBytes(bytes)
  {
    var off := st.address - 0x200;
    && 0 <= off < |bytes|
    && match st.body
       case Code(p, b1, b2) =>
         && off + 1 < |bytes| && bytes[off] == b1 && bytes[off + 1] == b2
         && IsByte(b1) && IsByte(b2) && DecodePair(b1, b2) == Some(p)
       case Data(b) =>
         && bytes[off] == b
         && (off + 1 < |bytes| ==> DecodePair(bytes[off], bytes[off + 1]).None?)
  }

  /** One step of the walk: the first statement holds the bytes at pc,
      and the rest of the walk starts past it. */
  lemma WalkStep(bytes: seq<int>, pc: nat)
    requires AllBytes(bytes) && pc < |bytes|
    ensures var all := Walk(bytes, pc);
      && |all| > 0 && all[0].address == 0x200 + pc && Holds(bytes, all[0])
      && pc + Width(all[0].body) <= |bytes|
      && all[1..] == Walk(bytes, pc + Width(all[0].body))
  {
  }

  /** Statements whose first sits at pc and whose rest is chained from
      just past it are chained from pc. */
  lemma ChainedCons(size: nat, pc: nat, all: seq<Stmt>)
    requires |all| > 0 && pc < size && all[0].address == 0x200 + pc && pc + Width(all[0].body) <= size
    requires Chained(size, pc + Width(all[0].body), all[1..])
    ensures Chained(size, pc, all)
  {
    var rest := all[1..];
    forall k | 0 <= k < |all| - 1
      ensures all[k + 1].address == all[k].address + Width(all[k].body)
    {
      if k > 0 {
        assert all[k] == rest[k - 1] && all[k + 1] == rest[k];
      }
    }
    if |rest| > 0 {
      assert all[|all| - 1] == rest[|rest| - 1];
    }
  }

  /** The addresses of the walk: where it starts, how it steps, where
      it ends. */
  lemma {:induction false} WalkAddresses(bytes: seq<int>, pc: nat)
    requires AllBytes(bytes) && pc <= |bytes|
    ensures Chained(|bytes|, pc, Walk(bytes, pc))
    decreases |bytes| - pc
  {
    if pc < |bytes| {
      WalkStep(bytes, pc);
      WalkAddresses(bytes, pc + Width(Walk(bytes, pc)[0].body));
      ChainedCons(|bytes|, pc, Walk(bytes, pc));
    }
  }

  /** Every statement of the walk holds the bytes at its offset. */
  lemma {:induction false} WalkHolds(bytes: seq<int>, pc: nat)
    requires AllBytes(bytes) && pc <= |bytes|
    ensures forall k | 0 <= k < |Walk(bytes, pc)| :: Holds(bytes, Walk(bytes, pc)[k])
    decreases |bytes| - pc
  {
    if pc < |bytes| {
      WalkStep(bytes, pc);
      var all := Walk(bytes, pc);
      var next := pc + Width(all[0].body);
      WalkHolds(bytes, next);
      var rest := Walk(bytes, next);
      forall k | 1 <= k < |all| ensures Holds(bytes, all[k]) {
        assert all[k] == rest[k - 1];
      }
    }
  }

  lemma WalkCovers(bytes: seq<int>, pc: nat)
    requires AllBytes(bytes) && pc <= |bytes|
    ensures Covers(bytes, pc, Walk(bytes, pc))
  {
    WalkAddresses(bytes, pc);
    WalkHolds(bytes, pc);
  }

  /** Statement addresses rise strictly, each one or two past the one
      before, and together the statements take every byte once. */
  lemma WalkShape(bytes: seq<int>)
    requires AllBytes(bytes)
    ensures var stmts := Walk(bytes, 0);
      && Increasing(Addresses(stmts))
      && (forall k | 0 <= k < |stmts| - 1 :: 1 <= stmts[k + 1].address - stmts[k].address <= 2)
      && (|stmts| > 0 ==> stmts[0].address == 0x200)
      && (|stmts| > 0 ==> stmts[|stmts| - 1].address + Width(stmts[|stmts| - 1].body) == 0x200 + |bytes|)
      && (forall k | 0 <= k < |stmts| :: Holds(bytes, stmts[k]))
  {
    var stmts := Walk(bytes, 0);
    WalkCovers(bytes, 0);
    StepsIncrease(stmts);
  }

  /** Addresses that rise step by step rise throughout. */
  lemma {:induction false} StepsIncrease(stmts: seq<Stmt>)
    requires forall k | 0 <= k < |stmts| - 1 :: stmts[k + 1].address == stmts[k].address + Width(stmts[k].body)
    ensures Increasing(Addresses(stmts))
    decreases |stmts|
  {
    if |stmts| > 1 {
      var rest := stmts[1..];
      forall k | 0 <= k < |rest| - 1
        ensures rest[k + 1].address == rest[k].address + Width(rest[k].body)
      {
        assert rest[k] == stmts[k + 1] && rest[k + 1] == stmts[k + 2];
      }
      StepsIncrease(rest);
      var a := Addresses(stmts);
      var r := Addresses(rest);
      forall i, j | 0 <= i < j < |a| ensures a[i] < a[j] {
        if i == 0 {
          if j > 1 {
            assert r[0] < r[j - 1];
          }
        } else {
          assert r[i - 1] < r[j - 1];
        }
      }
    }
  }

  // ---------------------------------------------------------------------
  // Assembling the walk again

  /** The statement a `DB #xx` line stands for. */
  function DataStatement(b: int): Assembler.Statement
  {
    Assembler.Statement(false, "DB", "", Some(1), 0, 0, [Num(b)])
  }

  /** A DB line assembles to its byte. */
  lemma DataBack(b: int, scope: Scope)
    requires IsByte(b)
    ensures Assembler.Encode(Assembler.Db, DataStatement(b), scope) == Assembler.Bytes([b])
  {
    var s := DataStatement(b);
    assert Assembler.Operand(s.exprs[0], scope, 0, 255) == Assembler.Got(b);
    assert Assembler.DirectiveDb(s.exprs[1..], scope) == Assembler.Bytes([]);
    assert Assembler.Encode(Assembler.Db, s, scope) == Assembler.DirectiveDb(s.exprs, scope);
  }

  /** What pass 2 writes for one statement of the listing. */
  function Reassembled(st: Stmt, scope: Scope): Assembler.Encoded
  {
    match st.body
    case Code(p, _, _) => Assembler.Encode(p.form, AsStatement(p), scope)
    case Data(b) => Assembler.Encode(Assembler.Db, DataStatement(b), scope)
  }

  /** Encodings one after another, or the first problem. */
  function Concat(encs: seq<Assembler.Encoded>): Assembler.Encoded
  {
    if |encs| == 0 then Assembler.Bytes([])
    else if encs[0].Bad? then encs[0]
    else
      var rest := Concat(encs[1..]);
      if rest.Bad? then rest else Assembler.Bytes(encs[0].bytes + rest.bytes)
  }

  /** What pass 2 writes for the statements of a listing, in order. */
  function ReassembleAll(stmts: seq<Stmt>, scope: Scope): Assembler.Encoded
  {
    Concat(seq(|stmts|, k requires 0 <= k < |stmts| => Reassembled(stmts[k], scope)))
  }

  /** The bytes at a statement's offset, as many as its width. */
  function Piece(bytes: seq<int>, st: Stmt): Assembler.Encoded
  {
    var off := st.address - 0x200;
    var end := off + Width(st.body);
    if 0 <= off && end <= |bytes| then Assembler.Bytes(bytes[off..end]) else Assembler.Bytes([])
  }

  /** Statements laid end to end cut the input into their pieces. */
  lemma {:induction false} ChainedPieces(bytes: seq<int>, pc: nat, stmts: seq<Stmt>)
    requires pc <= |bytes| && Chained(|bytes|, pc, stmts)
    ensures Concat(seq(|stmts|, k requires 0 <= k < |stmts| => Piece(bytes, stmts[k])))
      == Assembler.Bytes(bytes[pc..])
    decreases |stmts|
  {
    var pieces := seq(|stmts|, k requires 0 <= k < |stmts| => Piece(bytes, stmts[k]));
    if |stmts| > 0 {
      var rest := stmts[1..];
      var next := pc + Width(stmts[0].body);
      if |rest| > 0 {
        StepsIncrease(stmts);
        assert Addresses(stmts)[1] <= Addresses(stmts)[|stmts| - 1];
      }
      assert Chained(|bytes|, next, rest) by {
        forall k | 0 <= k < |rest| - 1
          ensures rest[k + 1].address == rest[k].address + Width(rest[k].body)
        {
          assert rest[k] == stmts[k + 1] && rest[k + 1] == stmts[k + 2];
        }
      }
      ChainedPieces(bytes, next, rest);
      assert pieces[1..] == seq(|rest|, k requires 0 <= k < |rest| => Piece(bytes, rest[k]));
      assert pieces[0] == Assembler.Bytes(bytes[pc..next]);
      assert bytes[pc..] == bytes[pc..next] + bytes[next..];
    }
  }

  /** A statement that holds the bytes at its offset assembles to them. */
  lemma HeldBack(bytes: seq<int>, st: Stmt, scope: Scope)
    requires AllBytes(bytes) && Holds(bytes, st)
    ensures Reassembled(st, scope) == Piece(bytes, st)
  {
    var off := st.address - 0x200;
    match st.body
    case Code(p, b1, b2) =>
      EncodesBack(b1, b2, scope);
      assert bytes[off..off + 2] == [b1, b2];
    case Data(b) =>
      DataBack(b, scope);
      assert bytes[off..off + 1] == [b];
  }

  /** Assembling the statements of the walk gives back the input, whatever
      the symbols: the disassembly loses nothing. */
  lemma Reassembles(bytes: seq<int>, scope: Scope)
    requires AllBytes(bytes)
    ensures ReassembleAll(Walk(bytes, 0), scope) == Assembler.Bytes(bytes)
  {
    var stmts := Walk(bytes, 0);
    WalkCovers(bytes, 0);
    var encs := seq(|stmts|, k requires 0 <= k < |stmts| => Reassembled(stmts[k], scope));
    var pieces := seq(|stmts|, k requires 0 <= k < |stmts| => Piece(bytes, stmts[k]));
    forall k | 0 <= k < |stmts| ensures encs[k] == pieces[k] {
      HeldBack(bytes, stmts[k], scope);
    }
    assert encs == pieces;
    ChainedPieces(bytes, 0, stmts);
    assert bytes[0..] == bytes;
  }

  // ---------------------------------------------------------------------
  // Placing the targets

  /** TARGET_SET after the walk: the address of every decoded jump, call
      and LD I. */
  function Targets(stmts: seq<Stmt>): set<nat>
  {
    set k | 0 <= k < |stmts| && stmts[k].body.Code? && IsJump(stmts[k].body.p.form) :: stmts[k].body.p.v
  }

  /** `sorted` of a set of numbers below hi, from lo up. */
  function Ascending(s: set<nat>, lo: nat, hi: nat): seq<nat>
    decreases hi - lo
  {
    if lo >= hi then [] else (if lo in s then [lo] else []) + Ascending(s, lo + 1, hi)
  }

  lemma {:induction false} AscendingMeaning(s: set<nat>, lo: nat, hi: nat)
    ensures Increasing(Ascending(s, lo, hi))
    ensures forall x :: x in Ascending(s, lo, hi) <==> x in s && lo <= x < hi
    decreases hi - lo
  {
    if lo < hi {
      AscendingMeaning(s, lo + 1, hi);
      var rest := Ascending(s, lo + 1, hi);
      var all := Ascending(s, lo, hi);
      if lo in s {
        assert all == [lo] + rest;
        forall i, j | 0 <= i < j < |all| ensures all[i] < all[j] {
          if i == 0 {
            assert all[j] == rest[j - 1] && all[j] in rest;
          } else {
            assert all[i] == rest[i - 1] && all[j] == rest[j - 1];
          }
        }
      } else {
        assert all == rest;
      }
    }
  }

  lemma {:induction false} AscendingEmpty(lo: nat, hi: nat)
    ensures Ascending({}, lo, hi) == []
    decreases hi - lo
  {
    if lo < hi {
      AscendingEmpty(lo + 1, hi);
    }
  }

  /** The targets no statement starts at, in their order: the EQU lines. */
  function Unmatched(targets: seq<nat>, addrs: seq<int>): seq<nat>
  {
    if |targets| == 0 then []
    else
      var last := targets[|targets| - 1];
      Unmatched(targets[..|targets| - 1], addrs) + (if last in addrs then [] else [last])
  }

  /** The unmatched targets are the targets no address equals, kept in
      their order. */
  lemma {:induction false} UnmatchedMeaning(targets: seq<nat>, addrs: seq<int>)
    requires Increasing(targets)
    ensures Increasing(Unmatched(targets, addrs))
    ensures forall t :: t in Unmatched(targets, addrs) <==> t in targets && t !in addrs
    decreases |targets|
  {
    if |targets| > 0 {
      var init := targets[..|targets| - 1];
      var last := targets[|targets| - 1];
      assert Increasing(init) by {
        forall a, b | 0 <= a < b < |init| ensures init[a] < init[b] {
          assert init[a] == targets[a] && init[b] == targets[b];
        }
      }
      UnmatchedMeaning(init, addrs);
      var u := Unmatched(init, addrs);
      forall t | t in u ensures t < last {
        var i :| 0 <= i < |init| && init[i] == t;
        assert targets[i] < targets[|targets| - 1];
      }
      assert targets == init + [last];
      if last !in addrs {
        var all := u + [last];
        forall a, b | 0 <= a < b < |all| ensures all[a] < all[b] {
          if b == |u| {
            assert all[a] in u;
          } else {
            assert all[a] == u[a] && all[b] == u[b];
          }
        }
      }
    }
  }

  /** The `for` loop over `sorted(TARGET_SET)`: a second index walks the
      statement addresses, ended by the sentinel 10000, to find for each
      target the first address not below it.  The target labels that
      statement when the two are equal and becomes an EQU otherwise. */
  method PlaceLabels(targets: seq<nat>, addrs: seq<int>) returns (labelled: set<nat>, unmatched: seq<nat>)
    requires Increasing(targets) && Increasing(addrs)
    requires forall k | 0 <= k < |targets| :: targets[k] < 10000
    ensures labelled == set k | 0 <= k < |targets| && targets[k] in addrs :: targets[k]
    ensures unmatched == Unmatched(targets, addrs)
  {
    var sentinel := addrs + [10000];
    var i := 0;
    labelled := {};
    unmatched := [];
    for j := 0 to |targets|
      invariant 0 <= i < |sentinel|
      invariant j < |targets| ==> forall k | 0 <= k < i :: sentinel[k] < targets[j]
      invariant labelled == set k | 0 <= k < j && targets[k] in addrs :: targets[k]
      invariant unmatched == Unmatched(targets[..j], addrs)
    {
      var target := targets[j];
      while target > sentinel[i]
        invariant 0 <= i < |sentinel|
        invariant forall k | 0 <= k < i :: sentinel[k] < target
      {
        i := i + 1;
      }
      assert targets[..j + 1][..j] == targets[..j];
      if target == sentinel[i] {
        assert i < |addrs| && addrs[i] == target;
        labelled := labelled + {target};
      } else {
        assert target !in addrs by {
          forall k | 0 <= k < |addrs| ensures addrs[k] != target {
            assert sentinel[k] == addrs[k];
            if k > i {
              assert sentinel[i] < sentinel[k];
            }
          }
        }
        unmatched := unmatched + [target];
      }
      if j + 1 < |targets| {
        assert targets[j] < targets[j + 1];
      }
    }
    assert targets[..|targets|] == targets;
  }

  // ---------------------------------------------------------------------
  // The listing

  /** A line of the output: an EQU for a target no statement starts at,
      or a statement, with its label when it is a target. */
  datatype Line = Equ(target: nat) | Placed(stmt: Stmt, labelled: bool)

  /** The keys of `output_text` in the order of the final join: the EQUs
      in ascending target order, then the statements in address order. */
  function Listing(stmts: seq<Stmt>): seq<Line>
  {
    Lines(EquTargets(stmts), stmts, Targets(stmts))
  }

  /** The EQU lines, then the statements, those at a label marked. */
  function Lines(equs: seq<nat>, stmts: seq<Stmt>, labels: set<nat>): seq<Line>
  {
    seq(|equs|, k requires 0 <= k < |equs| => Equ(equs[k]))
      + seq(|stmts|, k requires 0 <= k < |stmts| => Placed(stmts[k], stmts[k].address in labels))
  }

  /** `unmatched_addresses`, as the targets themselves (the source keys
      them by `-target`), with every target below 0x1000 in sorted
      order. */
  function EquTargets(stmts: seq<Stmt>): seq<nat>
  {
    Unmatched(Ascending(Targets(stmts), 0, 0x1000), Addresses(stmts))
  }

  /** The target a held statement names is a 12-bit address. */
  lemma HeldTarget(bytes: seq<int>, st: Stmt)
    requires AllBytes(bytes) && Holds(bytes, st)
    requires st.body.Code? && IsJump(st.body.p.form)
    ensures st.body.p.v < 0x1000
  {
    AddLabelValue(st.body.b1, st.body.b2);
  }

  /** Every target of a decoded jump is a 12-bit address. */
  lemma TargetsBelow(bytes: seq<int>)
    requires AllBytes(bytes)
    ensures forall t | t in Targets(Walk(bytes, 0)) :: t < 0x1000
  {
    var stmts := Walk(bytes, 0);
    WalkHolds(bytes, 0);
    forall k | 0 <= k < |stmts| && stmts[k].body.Code? && IsJump(stmts[k].body.p.form)
      ensures stmts[k].body.p.v < 0x1000
    {
      HeldTarget(bytes, stmts[k]);
    }
  }

  /** The EQU lines of a walk name, in ascending order, exactly the
      targets no statement starts at. */
  lemma EquTargetsMeaning(bytes: seq<int>)
    requires AllBytes(bytes)
    ensures var stmts := Walk(bytes, 0);
      && Increasing(EquTargets(stmts))
      && forall t :: t in EquTargets(stmts) <==> t in Targets(stmts) && t !in Addresses(stmts)
  {
    var stmts := Walk(bytes, 0);
    var targets := Targets(stmts);
    TargetsBelow(bytes);
    AscendingMeaning(targets, 0, 0x1000);
    UnmatchedMeaning(Ascending(targets, 0, 0x1000), Addresses(stmts));
  }

  function BodyText(b: Body): string
  {
    match b
    case Code(p, b1, b2) => Text(p) + " ; " + Hex(b1, 2, true) + Hex(b2, 2, true)
    case Data(d) => "DB #" + Hex(d, 2, true)
  }

  /** A labelled statement has `LBLxxxx: ` in place of its tab; an EQU
      writes its value in lower-case hex. */
  function LineText(l: Line): string
  {
    match l
    case Equ(t) => "LBL" + Hex(t, 4, true) + " EQU #" + Hex(t, 4, false) + " ; unmatched label"
    case Placed(st, labelled) =>
      (if labelled then "LBL" + Hex(st.address, 4, true) + ": " else "\t") + BodyText(st.body)
  }

  /** `'\n'.join(...)`. */
  function JoinLines(lines: seq<string>): string
  {
    if |lines| == 0 then ""
    else if |lines| == 1 then lines[0]
    else lines[0] + "\n" + JoinLines(lines[1..])
  }

  const TooLong := "Input too long - not an S/CHIP-8 program."

  /** `disassemble`: more than the 3584 bytes of memory above 0x200 is
      refused with a message, anything else is listed. */
  function Disassemble(bytes: seq<int>): string
    requires AllBytes(bytes)
  {
    if |bytes| > 3584 then TooLong
    else
      var lines := Listing(Walk(bytes, 0));
      JoinLines(seq(|lines|, k requires 0 <= k < |lines| => LineText(lines[k])))
  }

  /** A statement address is among the placed labels exactly when it is a
      target. */
  lemma LabelledTargets(stmts: seq<Stmt>, sorted: seq<nat>, labelled: set<nat>)
    requires forall t :: t in sorted <==> t in Targets(stmts) && t < 0x1000
    requires forall t | t in Targets(stmts) :: t < 0x1000
    requires labelled == set k | 0 <= k < |sorted| && sorted[k] in Addresses(stmts) :: sorted[k]
    ensures forall k | 0 <= k < |stmts| :: stmts[k].address in labelled <==> stmts[k].address in Targets(stmts)
  {
    var addrs := Addresses(stmts);
    forall k | 0 <= k < |stmts| ensures stmts[k].address in labelled <==> stmts[k].address in Targets(stmts) {
      var a := stmts[k].address;
      assert addrs[k] == a;
      if a in Targets(stmts) {
        var j :| 0 <= j < |sorted| && sorted[j] == a;
      }
    }
  }

  lemma SameLabels(equs: seq<nat>, stmts: seq<Stmt>, l1: set<nat>, l2: set<nat>)
    requires forall k | 0 <= k < |stmts| :: stmts[k].address in l1 <==> stmts[k].address in l2
    ensures Lines(equs, stmts, l1) == Lines(equs, stmts, l2)
  {
    var a := Lines(equs, stmts, l1);
    var b := Lines(equs, stmts, l2);
    assert forall k | 0 <= k < |a| :: a[k] == b[k];
  }

  /** What the label loop is given: the sorted targets, all below the
      sentinel, and the rising statement addresses. */
  lemma LoopInputs(bytes: seq<int>)
    requires AllBytes(bytes)
    ensures var stmts := Walk(bytes, 0);
      var sorted := Ascending(Targets(stmts), 0, 0x1000);
      && Increasing(sorted) && Increasing(Addresses(stmts))
      && (forall k | 0 <= k < |sorted| :: sorted[k] < 10000)
      && (forall t :: t in sorted <==> t in Targets(stmts) && t < 0x1000)
      && (forall t | t in Targets(stmts) :: t < 0x1000)
  {
    var stmts := Walk(bytes, 0);
    var sorted := Ascending(Targets(stmts), 0, 0x1000);
    WalkShape(bytes);
    TargetsBelow(bytes);
    AscendingMeaning(Targets(stmts), 0, 0x1000);
    forall k | 0 <= k < |sorted| ensures sorted[k] < 10000 {
      assert sorted[k] in sorted;
    }
  }

  /** The lines the label loop yields are the listing. */
  lemma LoopListing(stmts: seq<Stmt>, sorted: seq<nat>, labelled: set<nat>, unmatched: seq<nat>)
    requires sorted == Ascending(Targets(stmts), 0, 0x1000)
    requires forall t :: t in sorted <==> t in Targets(stmts) && t < 0x1000
    requires forall t | t in Targets(stmts) :: t < 0x1000
    requires labelled == set k | 0 <= k < |sorted| && sorted[k] in Addresses(stmts) :: sorted[k]
    requires unmatched == Unmatched(sorted, Addresses(stmts))
    ensures Lines(unmatched, stmts, labelled) == Listing(stmts)
  {
    LabelledTargets(stmts, sorted, labelled);
    SameLabels(unmatched, stmts, labelled, Targets(stmts));
  }

  /** `disassemble` in the source's steps: the walk, then the loop that
      places the sorted targets against the statement addresses, then
      the join. */
  method DisassembleSteps(bytes: seq<int>) returns (text: string)
    requires AllBytes(bytes)
    ensures text == Disassemble(bytes)
  {
    if |bytes| > 3584 {
      return TooLong;
    }
    var stmts := Walk(bytes, 0);
    var sorted := Ascending(Targets(stmts), 0, 0x1000);
    LoopInputs(bytes);
    var labelled, unmatched := PlaceLabels(sorted, Addresses(stmts));
    LoopListing(stmts, sorted, labelled, unmatched);
    var lines := Lines(unmatched, stmts, labelled);
    text := JoinLines(seq(|lines|, k requires 0 <= k < |lines| => LineText(lines[k])));
  }

  // ---------------------------------------------------------------------
  // Reading the output back as lines

  /** `str.split('\n')`: the pieces between line breaks, at least one. */
  function SplitLines(s: string): (lines: seq<string>)
    ensures |lines| > 0
  {
    if |s| == 0 then [""]
    else
      var rest := SplitLines(s[1..]);
      if s[0] == '\n' then [""] + rest else [[s[0]] + rest[0]] + rest[1..]
  }

  predicate NoBreak(s: string) { '\n' !in s }

  /** A character other than a break joins the first piece. */
  lemma SplitCons(c: char, rest: string)
    requires c != '\n'
    ensures SplitLines([c] + rest) == [[c] + SplitLines(rest)[0]] + SplitLines(rest)[1..]
  {
    assert ([c] + rest)[0] == c && ([c] + rest)[1..] == rest;
  }

  lemma NoBreakTail(a: string)
    requires NoBreak(a) && |a| > 0
    ensures a[0] != '\n' && NoBreak(a[1..])
  {
    assert a[0] in a;
    forall c | c in a[1..] ensures c in a {
      var i :| 0 <= i < |a[1..]| && a[1..][i] == c;
      assert a[i + 1] == c;
    }
  }

  /** Text without a break joins the first piece of what follows it. */
  lemma {:induction false} SplitPrefix(a: string, b: string)
    requires NoBreak(a)
    ensures SplitLines(a + b) == [a + SplitLines(b)[0]] + SplitLines(b)[1..]
    decreases |a|
  {
    var r := SplitLines(b);
    if |a| > 0 {
      NoBreakTail(a);
      SplitPrefix(a[1..], b);
      assert a + b == [a[0]] + (a[1..] + b);
      SplitCons(a[0], a[1..] + b);
      assert [a[0]] + (a[1..] + r[0]) == a + r[0];
    } else {
      assert a + b == b && a + r[0] == r[0];
      assert r == [r[0]] + r[1..];
    }
  }

  /** Splitting the joined lines gives the lines back, when none of them
      holds a break. */
  lemma {:induction false} SplitJoined(lines: seq<string>)
    requires |lines| > 0 && forall k | 0 <= k < |lines| :: NoBreak(lines[k])
    ensures SplitLines(JoinLines(lines)) == lines
    decreases |lines|
  {
    if |lines| == 1 {
      SplitPrefix(lines[0], "");
      assert lines[0] + "" == lines[0];
    } else {
      var rest := JoinLines(lines[1..]);
      SplitJoined(lines[1..]);
      SplitPrefix(lines[0], "\n" + rest);
      assert lines[0] + "\n" + rest == lines[0] + ("\n" + rest);
      assert ("\n" + rest)[0] == '\n' && ("\n" + rest)[1..] == rest;
      assert lines[0] + "" == lines[0];
    }
  }

  lemma {:induction false} HexDigitsNoBreak(n: nat, upper: bool)
    ensures NoBreak(HexDigits(n, upper))
    decreases n
  {
    var d := n % 16;
    if upper {
      HexDigitValue(d);
      assert HexValue('\n') == -1;
    } else {
      assert '0' <= LowerHexDigit(d) <= 'f';
    }
    if n >= 16 {
      HexDigitsNoBreak(n / 16, upper);
    }
  }

  lemma HexNoBreak(n: nat, width: nat, upper: bool)
    ensures NoBreak(Hex(n, width, upper))
  {
    HexDigitsNoBreak(n, upper);
  }

  lemma {:induction false} DecimalNoBreak(n: nat)
    ensures NoBreak(Decimal(n))
    decreases n
  {
    assert '0' <= DecimalDigit(n % 10) <= '9';
    if n >= 10 {
      DecimalNoBreak(n / 10);
    }
  }

  /** The text of a statement holds no line break. */
  lemma TextNoBreak(p: Printed)
    ensures NoBreak(Text(p))
  {
    DecimalNoBreak(p.v);
    RenderNoBreak(p.form, RegText(p.x), RegText(p.y), ByteText(p.v), LabelText(p.v), Decimal(p.v));
  }

  /** No format string holds a break, so none is added to the operands. */
  lemma RenderNoBreak(f: Assembler.Form, vx: string, vy: string, imm: string, lbl: string, count: string)
    requires NoBreak(vx) && NoBreak(vy) && NoBreak(imm) && NoBreak(lbl) && NoBreak(count)
    ensures NoBreak(Render(f, vx, vy, imm, lbl, count))
  {
    if f.Cls? || f.Ret? || f.Scr? || f.Scl? || f.Exit? || f.Low? || f.High? || f.Da? || f.Db? || f.Dw? {
      RenderFixedNoBreak(f, vx, vy, imm, lbl, count);
    } else if f.Scd? || f.SeB? || f.SneB? || f.LdRB? || f.AddB? || f.Rnd? {
      RenderByteNoBreak(f, vx, vy, imm, lbl, count);
    } else if f.JpAdr? || f.Call? || f.LdI? || f.JpXAdr? || f.Draw? {
      RenderLabelNoBreak(f, vx, vy, imm, lbl, count);
    } else if f.SeR? || f.LdRR? || f.OrR? || f.AndR? || f.XorR? || f.SneR? {
      RenderPairNoBreak(f, vx, vy, imm, lbl, count);
    } else if f.AddR? || f.Sub? || f.SubN? || f.ShR? || f.ShL? {
      RenderAluNoBreak(f, vx, vy, imm, lbl, count);
    } else if f.Skp? || f.Sknp? || f.LdRT? || f.LdK? || f.Std? || f.Stm? || f.LdM? {
      RenderFirstNoBreak(f, vx, vy, imm, lbl, count);
    } else {
      RenderSecondNoBreak(f, vx, vy, imm, lbl, count);
    }
  }

  lemma RenderFixedNoBreak(f: Assembler.Form, vx: string, vy: string, imm: string, lbl: string, count: string)
    requires NoBreak(vx) && NoBreak(vy) && NoBreak(imm) && NoBreak(lbl) && NoBreak(count)
    requires f.Cls? || f.Ret? || f.Scr? || f.Scl? || f.Exit? || f.Low? || f.High? || f.Da? || f.Db? || f.Dw?
    ensures NoBreak(Render(f, vx, vy, imm, lbl, count))
  {
  }

  lemma RenderByteNoBreak(f: Assembler.Form, vx: string, vy: string, imm: string, lbl: string, count: string)
    requires NoBreak(vx) && NoBreak(vy) && NoBreak(imm) && NoBreak(lbl) && NoBreak(count)
    requires f.Scd? || f.SeB? || f.SneB? || f.LdRB? || f.AddB? || f.Rnd?
    ensures NoBreak(Render(f, vx, vy, imm, lbl, count))
  {
  }

  lemma RenderLabelNoBreak(f: Assembler.Form, vx: string, vy: string, imm: string, lbl: string, count: string)
    requires NoBreak(vx) && NoBreak(vy) && NoBreak(imm) && NoBreak(lbl) && NoBreak(count)
    requires f.JpAdr? || f.Call? || f.LdI? || f.JpXAdr? || f.Draw?
    ensures NoBreak(Render(f, vx, vy, imm, lbl, count))
  {
  }

  lemma RenderPairNoBreak(f: Assembler.Form, vx: string, vy: string, imm: string, lbl: string, count: string)
    requires NoBreak(vx) && NoBreak(vy) && NoBreak(imm) && NoBreak(lbl) && NoBreak(count)
    requires f.SeR? || f.LdRR? || f.OrR? || f.AndR? || f.XorR? || f.SneR?
    ensures NoBreak(Render(f, vx, vy, imm, lbl, count))
  {
  }

  lemma RenderAluNoBreak(f: Assembler.Form, vx: string, vy: string, imm: string, lbl: string, count: string)
    requires NoBreak(vx) && NoBreak(vy) && NoBreak(imm) && NoBreak(lbl) && NoBreak(count)
    requires f.AddR? || f.Sub? || f.SubN? || f.ShR? || f.ShL?
    ensures NoBreak(Render(f, vx, vy, imm, lbl, count))
  {
  }

  lemma RenderFirstNoBreak(f: Assembler.Form, vx: string, vy: string, imm: string, lbl: string, count: string)
    requires NoBreak(vx) && NoBreak(vy) && NoBreak(imm) && NoBreak(lbl) && NoBreak(count)
    requires f.Skp? || f.Sknp? || f.LdRT? || f.LdK? || f.Std? || f.Stm? || f.LdM?
    ensures NoBreak(Render(f, vx, vy, imm, lbl, count))
  {
  }

  lemma RenderSecondNoBreak(f: Assembler.Form, vx: string, vy: string, imm: string, lbl: string, count: string)
    requires NoBreak(vx) && NoBreak(vy) && NoBreak(imm) && NoBreak(lbl) && NoBreak(count)
    requires f.LdTR? || f.LdSR? || f.AddI? || f.LdC? || f.LdH?
    ensures NoBreak(Render(f, vx, vy, imm, lbl, count))
  {
  }

  /** No line of the listing breaks, and each starts with its label or
      its tab. */
  lemma LineTextShape(l: Line)
    ensures NoBreak(LineText(l))
    ensures |LineText(l)| > 0 && LineText(l)[0] in "L\t"
  {
    match l
    case Equ(t) =>
      HexNoBreak(t, 4, true);
      HexNoBreak(t, 4, false);
    case Placed(st, _) =>
      HexNoBreak(st.address, 4, true);
      match st.body
      case Code(p, b1, b2) =>
        TextNoBreak(p);
        HexNoBreak(b1, 2, true);
        HexNoBreak(b2, 2, true);
      case Data(d) =>
        HexNoBreak(d, 2, true);
  }

  /** The text of a walk is its listing, one line per break. */
  lemma DisassembleLines(bytes: seq<int>)
    requires AllBytes(bytes) && 0 < |bytes| <= 3584
    ensures var lines := Listing(Walk(bytes, 0));
      SplitLines(Disassemble(bytes)) == seq(|lines|, k requires 0 <= k < |lines| => LineText(lines[k]))
  {
    var lines := Listing(Walk(bytes, 0));
    var texts := seq(|lines|, k requires 0 <= k < |lines| => LineText(lines[k]));
    WalkAddresses(bytes, 0);
    forall k | 0 <= k < |texts| ensures NoBreak(texts[k]) {
      LineTextShape(lines[k]);
    }
    SplitJoined(texts);
  }

  /** The joined text starts as its first line does. */
  lemma JoinedStart(lines: seq<string>)
    requires |lines| > 0 && |lines[0]| > 0
    ensures |JoinLines(lines)| > 0 && JoinLines(lines)[0] == lines[0][0]
  {
  }

  /** The empty input lists nothing. */
  lemma EmptyListing()
    ensures Disassemble([]) == ""
  {
    var stmts := Walk([], 0);
    assert stmts == [];
    assert Targets(stmts) == {};
    AscendingEmpty(0, 0x1000);
    assert Listing(stmts) == [];
  }

  /** A listing starts with a label or a tab. */
  lemma ListingStart(bytes: seq<int>)
    requires AllBytes(bytes) && 0 < |bytes| <= 3584
    ensures |Disassemble(bytes)| > 0 && Disassemble(bytes)[0] in "L\t"
  {
    var lines := Listing(Walk(bytes, 0));
    var texts := seq(|lines|, k requires 0 <= k < |lines| => LineText(lines[k]));
    WalkAddresses(bytes, 0);
    LineTextShape(lines[0]);
    JoinedStart(texts);
  }

  /** The message is given exactly for inputs longer than the 3584 bytes
      above 0x200: a listing never reads as the message. */
  lemma DisassembleTooLong(bytes: seq<int>)
    requires AllBytes(bytes)
    ensures Disassemble(bytes) == TooLong <==> |bytes| > 3584
  {
    if |bytes| == 0 {
      assert bytes == [];
      EmptyListing();
    } else if |bytes| <= 3584 {
      ListingStart(bytes);
      assert TooLong[0] == 'I';
    }
  }
}

=== FILE: display.dfy ===
/** The emulated screen of display.py: its mode, clearing, and the sprite
    drawing path `draw_sprite` -> `Screen.paint_pixel_list`. The Qt image is
    abstracted to the set of white pixels; painting a pixel white or black
    becomes adding it to or removing it from that set. */
module Display {
  import opened Bits

  /** A CHIP-8 pixel coordinate `(cx, cy)`. */
  type Pixel = (int, int)

  /** The screen: which pixels are white, and whether the SCHIP (128x64)
      mode is on (`extended_mode`). */
  datatype Screen = Screen(lit: set<Pixel>, hires: bool)

  function Width(hires: bool): nat { if hires then 128 else 64 }

  function Height(hires: bool): nat { if hires then 64 else 32 }

  /** The x and y masks of `draw_sprite`. */
  function XMask(hires: bool): int { if hires then 0x7F else 0x3F }

  function YMask(hires: bool): int { if hires then 0x3F else 0x1F }

  predicate OnScreen(p: Pixel, hires: bool)
  {
    0 <= p.0 < Width(hires) && 0 <= p.1 < Height(hires)
  }

  predicate Valid(s: Screen)
  {
    forall p | p in s.lit :: OnScreen(p, s.hires)
  }

  predicate NoDup<T(==)>(s: seq<T>)
  {
    forall i, j | 0 <= i < j < |s| :: s[i] != s[j]
  }

  /** The screen as the emulator starts it: black, standard mode. */
  const Blank: Screen := Screen({}, false)

  /** `Screen.clear`: every pixel black, mode kept. */
  function Clear(s: Screen): (r: Screen)
    ensures Valid(r) && r.hires == s.hires
    ensures forall p :: p !in r.lit
  {
    Screen({}, s.hires)
  }

  /** `Screen.set_mode`: select the mode and, changed or not, clear. */
  function SetMode(s: Screen, schip: bool): (r: Screen)
    ensures Valid(r) && r.hires == schip
    ensures r == Clear(Screen(s.lit, schip))
  {
    Screen({}, schip)
  }

  /** The masks are reductions modulo the screen size. */
  lemma MasksWrap(a: int, hires: bool)
    ensures BitAnd(a, XMask(hires)) == a % Width(hires)
    ensures BitAnd(a, YMask(hires)) == a % Height(hires)
  {
    assert Pow2(5) == 32 && Pow2(6) == 64 && Pow2(7) == 128;
    if hires {
      BitAndMask(a, 7);
      BitAndMask(a, 6);
    } else {
      BitAndMask(a, 6);
      BitAndMask(a, 5);
    }
  }

  // ---------------------------------------------------------------------
  // Sprite rasterisation (draw_sprite)

  /** The 16-bit rows of an SCHIP sprite: `(b[i] << 8) | b[i+1]` for each
      pair of bytes. */
  function Words(b: seq<int>): (w: seq<int>)
    requires |b| % 2 == 0
    ensures |w| == |b| / 2
    ensures AllBytes(b) ==>
      forall k | 0 <= k < |w| :: w[k] == 256 * b[2 * k] + b[2 * k + 1] && 0 <= w[k] < 0x10000
    decreases |b|
  {
    if |b| == 0 then []
    else
      var head := BitOr(b[0] * 256, b[1]);
      assert AllBytes(b) ==> head == 256 * b[0] + b[1] by {
        if AllBytes(b) {
          assert Pow2(8) == 256;
          BitOrDisjoint(b[0], b[1], 8);
        }
      }
      [head] + Words(b[2..])
  }

  /** The rows a sprite is drawn from: a 32-byte sprite is sixteen 16-bit
      rows, any other is one 8-bit row per byte. */
  function SpriteRows(bytes: seq<int>): seq<int>
  {
    if |bytes| == 32 then Words(bytes) else bytes
  }

  /** Width in bits of one sprite row. */
  function SpriteBits(bytes: seq<int>): nat
  {
    if |bytes| == 32 then 16 else 8
  }

  /** One row of the inner `while bit_cursor` loop: the cursor walks down
      from the top bit, a set bit appends `(x_coord, y_coord)`, and
      `x_coord` advances with wrap-around. */
  function RowScan(word: int, cursor: nat, xc: int, y: int, xmask: int): seq<Pixel>
    decreases cursor
  {
    if cursor == 0 then []
    else
      (if BitAnd(word, cursor) != 0 then [(xc, y)] else [])
      + RowScan(word, cursor / 2, BitAnd(xc + 1, xmask), y, xmask)
  }

  /** The outer `for word in sprite` loop, from row coordinate `yc`. */
  function SpriteScan(rows: seq<int>, cursor: nat, x: int, yc: int, hires: bool): seq<Pixel>
    decreases |rows|
  {
    if |rows| == 0 then []
    else
      RowScan(rows[0], cursor, BitAnd(x, XMask(hires)), yc, XMask(hires))
      + SpriteScan(rows[1..], cursor, x, BitAnd(yc + 1, YMask(hires)), hires)
  }

  /** `pixel_list` as `draw_sprite` builds it. */
  function SpritePixels(x: int, y: int, bytes: seq<int>, hires: bool): seq<Pixel>
  {
    var cursor := if |bytes| == 32 then 0x8000 else 0x80;
    SpriteScan(SpriteRows(bytes), cursor, x, BitAnd(y, YMask(hires)), hires)
  }

  /** What a sprite means, stated without the scan: pixel `p` is inked when
      it is on the screen, its row distance from `y` (wrapping) names a
      sprite row, and its column distance from `x` (wrapping) names a set
      bit of that row, counting from the row's most significant bit. */
  predicate Inked(rows: seq<int>, bits: nat, x: int, y: int, hires: bool, p: Pixel)
  {
    OnScreen(p, hires) && InkedAt(rows, bits, (p.1 - y) % Height(hires), (p.0 - x) % Width(hires))
  }

  /** Row `r`, column `c` (from the left) of the sprite is a one bit. */
  predicate InkedAt(rows: seq<int>, bits: nat, r: int, c: int)
  {
    0 <= r < |rows| && 0 <= c < bits && BitSet(rows[r], bits - 1 - c)
  }

  /** Only the row coordinate modulo the height matters. */
  lemma InkedWrapY(rows: seq<int>, bits: nat, x: int, y: int, hires: bool, p: Pixel)
    ensures Inked(rows, bits, x, y % Height(hires), hires, p) == Inked(rows, bits, x, y, hires, p)
  {
    ModOfMod(p.1, y, Height(hires));
  }

  /** Column `px` at distance `d` from the cursor column `xc` is a set bit
      of the `c` remaining ones. */
  predicate ColumnInked(word: int, c: nat, xc: int, px: int, w: int)
    requires w > 0
  {
    var d := (px - xc) % w;
    d < c && BitSet(word, c - 1 - d)
  }

  /** One step of the bit cursor: the column under the cursor is either the
      one tested now or one of those still to come. */
  lemma ColumnStep(word: int, c: nat, xc: int, px: int, w: int)
    requires 1 <= c <= w && 0 <= xc < w && 0 <= px < w
    ensures ColumnInked(word, c, xc, px, w) <==>
      (px == xc && BitSet(word, c - 1)) || (c > 1 && ColumnInked(word, c - 1, (xc + 1) % w, px, w))
  {
    WrapStep(px, xc, w);
  }

  /** One step of the row loop: the sprite rows from `yc` are the first row
      there and the remaining rows from the next line. */
  lemma RowStep(rows: seq<int>, bits: nat, x: int, yc: int, hires: bool, p: Pixel)
    requires 1 <= |rows| <= Height(hires) && 0 <= yc < Height(hires)
    ensures Inked(rows, bits, x, yc, hires, p) <==>
      (p.1 == yc && 0 <= p.0 < Width(hires) && ColumnInked(rows[0], bits, x % Width(hires), p.0, Width(hires)))
      || Inked(rows[1..], bits, x, (yc + 1) % Height(hires), hires, p)
  {
    var w, h := Width(hires), Height(hires);
    ModOfMod(p.0, x, w);
    if 0 <= p.1 < h {
      WrapStep(p.1, yc, h);
      var r := (p.1 - yc) % h;
      if 0 < r < |rows| {
        assert rows[1..][r - 1] == rows[r];
      }
    }
  }

  /** The pixel the bit cursor contributes, if its bit is set. */
  function CursorPixel(word: int, c: nat, xc: int, y: int): seq<Pixel>
    requires c >= 1
  {
    if BitSet(word, c - 1) then [(xc, y)] else []
  }

  /** One turn of the inner loop, with the masks read as wrap-around. */
  lemma RowUnfold(word: int, c: nat, xc: int, y: int, hires: bool)
    requires c >= 1
    ensures c == 1 ==> RowScan(word, Pow2(c - 1), xc, y, XMask(hires)) == CursorPixel(word, c, xc, y)
    ensures c > 1 ==> (RowScan(word, Pow2(c - 1), xc, y, XMask(hires)) ==
      CursorPixel(word, c, xc, y) + RowScan(word, Pow2(c - 2), (xc + 1) % Width(hires), y, XMask(hires)))
  {
    BitAndPow2(word, c - 1);
    MasksWrap(xc + 1, hires);
    if c > 1 {
      assert Pow2(c - 1) / 2 == Pow2(c - 2);
    }
  }

  /** One turn of the outer loop, with the masks read as wrap-around. */
  lemma SpriteUnfold(rows: seq<int>, cursor: nat, x: int, yc: int, hires: bool)
    requires |rows| >= 1
    ensures SpriteScan(rows, cursor, x, yc, hires) ==
      RowScan(rows[0], cursor, x % Width(hires), yc, XMask(hires))
      + SpriteScan(rows[1..], cursor, x, (yc + 1) % Height(hires), hires)
  {
    MasksWrap(x, hires);
    MasksWrap(yc + 1, hires);
  }

  lemma {:induction false} RowScanMember(word: int, c: nat, xc: int, y: int, hires: bool, p: Pixel)
    requires 1 <= c <= Width(hires) && 0 <= xc < Width(hires)
    ensures p in RowScan(word, Pow2(c - 1), xc, y, XMask(hires)) <==>
      p.1 == y && 0 <= p.0 < Width(hires) && ColumnInked(word, c, xc, p.0, Width(hires))
    decreases c
  {
    RowUnfold(word, c, xc, y, hires);
    if c > 1 {
      RowScanMember(word, c - 1, (xc + 1) % Width(hires), y, hires, p);
    }
    if 0 <= p.0 < Width(hires) {
      ColumnStep(word, c, xc, p.0, Width(hires));
    }
  }

  lemma {:induction false} SpriteScanMember(rows: seq<int>, bits: nat, x: int, yc: int, hires: bool, p: Pixel)
    requires 1 <= bits <= Width(hires) && |rows| <= Height(hires) && 0 <= yc < Height(hires)
    ensures p in SpriteScan(rows, Pow2(bits - 1), x, yc, hires) <==> Inked(rows, bits, x, yc, hires, p)
    decreases |rows|
  {
    if |rows| > 0 {
      SpriteUnfold(rows, Pow2(bits - 1), x, yc, hires);
      RowScanMember(rows[0], bits, x % Width(hires), yc, hires, p);
      SpriteScanMember(rows[1..], bits, x, (yc + 1) % Height(hires), hires, p);
      RowStep(rows, bits, x, yc, hires, p);
    }
  }

  lemma NoDupConcat<T>(a: seq<T>, b: seq<T>)
    requires NoDup(a) && NoDup(b)
    requires forall q | q in a :: q !in b
    ensures NoDup(a + b)
  {
    forall i, j | 0 <= i < j < |a + b|
      ensures (a + b)[i] != (a + b)[j]
    {
      if j >= |a| && i < |a| {
        assert (a + b)[i] in a && (a + b)[j] in b;
      }
    }
  }

  /** The column under the cursor does not come round again in the rest
      of the row. */
  lemma CursorColumnOnce(word: int, c: nat, xc: int, y: int, hires: bool)
    requires 2 <= c <= Width(hires) && 0 <= xc < Width(hires)
    ensures (xc, y) !in RowScan(word, Pow2(c - 2), (xc + 1) % Width(hires), y, XMask(hires))
  {
    RowScanMember(word, c - 1, (xc + 1) % Width(hires), y, hires, (xc, y));
    WrapStep(xc, xc, Width(hires));
  }

  lemma {:induction false} RowScanNoDup(word: int, c: nat, xc: int, y: int, hires: bool)
    requires 1 <= c <= Width(hires) && 0 <= xc < Width(hires)
    ensures NoDup(RowScan(word, Pow2(c - 1), xc, y, XMask(hires)))
    decreases c
  {
    RowUnfold(word, c, xc, y, hires);
    if c > 1 {
      var tail := RowScan(word, Pow2(c - 2), (xc + 1) % Width(hires), y, XMask(hires));
      RowScanNoDup(word, c - 1, (xc + 1) % Width(hires), y, hires);
      CursorColumnOnce(word, c, xc, y, hires);
      NoDupConcat(CursorPixel(word, c, xc, y), tail);
    }
  }

  /** A pixel of the first row is not among the later rows. */
  lemma FirstRowApart(rows: seq<int>, bits: nat, x: int, yc: int, hires: bool, q: Pixel)
    requires 1 <= |rows| <= Height(hires) && 0 <= yc < Height(hires) && q.1 == yc
    ensures !Inked(rows[1..], bits, x, (yc + 1) % Height(hires), hires, q)
  {
    WrapStep(yc, yc, Height(hires));
  }

  lemma {:induction false} SpriteScanNoDup(rows: seq<int>, bits: nat, x: int, yc: int, hires: bool)
    requires 1 <= bits <= Width(hires) && |rows| <= Height(hires) && 0 <= yc < Height(hires)
    ensures NoDup(SpriteScan(rows, Pow2(bits - 1), x, yc, hires))
    decreases |rows|
  {
    if |rows| > 0 {
      var x0, next := x % Width(hires), (yc + 1) % Height(hires);
      var row := RowScan(rows[0], Pow2(bits - 1), x0, yc, XMask(hires));
      var rest := SpriteScan(rows[1..], Pow2(bits - 1), x, next, hires);
      SpriteUnfold(rows, Pow2(bits - 1), x, yc, hires);
      RowScanNoDup(rows[0], bits, x0, yc, hires);
      SpriteScanNoDup(rows[1..], bits, x, next, hires);
      forall q | q in row
        ensures q !in rest
      {
        RowScanMember(rows[0], bits, x0, yc, hires, q);
        FirstRowApart(rows, bits, x, yc, hires, q);
        SpriteScanMember(rows[1..], bits, x, next, hires, q);
      }
      NoDupConcat(row, rest);
    }
  }

  /** The sprite of at most 32 bytes as `draw_sprite` scans it: its pixels
      are exactly the inked ones, each listed once. */
  lemma SpritePixelsMeaning(x: int, y: int, bytes: seq<int>, hires: bool)
    requires |bytes| <= 32
    ensures NoDup(SpritePixels(x, y, bytes, hires))
    ensures forall p :: p in SpritePixels(x, y, bytes, hires) <==>
      Inked(SpriteRows(bytes), SpriteBits(bytes), x, y, hires, p)
  {
    var rows, bits := SpriteRows(bytes), SpriteBits(bytes);
    assert Pow2(7) == 0x80 && Pow2(15) == 0x8000;
    assert |rows| <= 32;
    MasksWrap(y, hires);
    var y0 := y % Height(hires);
    var pixels := SpritePixels(x, y, bytes, hires);
    assert pixels == SpriteScan(rows, Pow2(bits - 1), x, y0, hires);
    SpriteScanNoDup(rows, bits, x, y0, hires);
    forall p
      ensures p in pixels <==> Inked(rows, bits, x, y, hires, p)
    {
      SpriteScanMember(rows, bits, x, y0, hires, p);
      InkedWrapY(rows, bits, x, y, hires, p);
    }
  }

  // ---------------------------------------------------------------------
  // Painting (Screen.paint_pixel_list) and the whole draw

  function Elements<T>(s: seq<T>): set<T>
  {
    set q | q in s
  }

  /** `Screen.paint_pixel_list`: each pixel in turn is tested against the
      image as it stands, flipped, and `hit` records whether any of them
      was white. */
  function PaintPixels(lit: set<Pixel>, pixels: seq<Pixel>, hit: bool): (r: (set<Pixel>, bool))
    decreases |pixels|
  {
    if |pixels| == 0 then (lit, hit)
    else
      var p := pixels[0];
      var wasWhite := p in lit;
      PaintPixels(if wasWhite then lit - {p} else lit + {p}, pixels[1..], hit || wasWhite)
  }

  /** Painting a list without repeats flips exactly the listed pixels, and
      reports a hit exactly when one of them was white beforehand. */
  lemma {:induction false} PaintXor(lit: set<Pixel>, pixels: seq<Pixel>, hit: bool)
    requires NoDup(pixels)
    ensures PaintPixels(lit, pixels, hit).0 == (lit - Elements(pixels)) + (Elements(pixels) - lit)
    ensures PaintPixels(lit, pixels, hit).1 <==> hit || lit * Elements(pixels) != {}
    decreases |pixels|
  {
    if |pixels| > 0 {
      var p := pixels[0];
      var rest := pixels[1..];
      var lit1 := if p in lit then lit - {p} else lit + {p};
      assert NoDup(rest);
      assert forall j | 0 <= j < |rest| :: rest[j] == pixels[j + 1];
      assert p !in rest;
      assert Elements(pixels) == {p} + Elements(rest);
      PaintXor(lit1, rest, hit || p in lit);
      assert lit1 * Elements(rest) == lit * Elements(rest);
      if p in lit {
        assert p in lit * Elements(pixels);
      }
    }
  }

  /** `draw_sprite`: rasterise the sprite and paint its pixels; the result
      is the new screen and whether any painted pixel was white. */
  function DrawSprite(s: Screen, x: int, y: int, bytes: seq<int>): (r: (Screen, bool))
    ensures r.0.hires == s.hires
  {
    var painted := PaintPixels(s.lit, SpritePixels(x, y, bytes, s.hires), false);
    (Screen(painted.0, s.hires), painted.1)
  }

  /** Drawing a sprite of at most 32 bytes flips exactly the pixels it
      inks, reports a collision exactly when an inked pixel was white, and
      keeps every white pixel on the screen. */
  lemma DrawSpriteXor(s: Screen, x: int, y: int, bytes: seq<int>)
    requires |bytes| <= 32
    ensures forall p :: p in DrawSprite(s, x, y, bytes).0.lit <==>
      (p in s.lit <==> !Inked(SpriteRows(bytes), SpriteBits(bytes), x, y, s.hires, p))
    ensures DrawSprite(s, x, y, bytes).1 <==>
      exists p :: p in s.lit && Inked(SpriteRows(bytes), SpriteBits(bytes), x, y, s.hires, p)
    ensures Valid(s) ==> Valid(DrawSprite(s, x, y, bytes).0)
  {
    var rows, bits := SpriteRows(bytes), SpriteBits(bytes);
    var pixels := SpritePixels(x, y, bytes, s.hires);
    SpritePixelsMeaning(x, y, bytes, s.hires);
    assert forall p :: p in Elements(pixels) <==> p in pixels;
    PaintXor(s.lit, pixels, false);
    if DrawSprite(s, x, y, bytes).1 {
      var q :| q in s.lit * Elements(pixels);
      assert q in s.lit && Inked(rows, bits, x, y, s.hires, q);
    }
    if exists p :: p in s.lit && Inked(rows, bits, x, y, s.hires, p) {
      var q :| q in s.lit && Inked(rows, bits, x, y, s.hires, q);
      assert q in s.lit * Elements(pixels);
    }
  }
}

=== FILE: expr.dfy ===
/** Operand expressions of the assembler.

    The recognizer turns the tokens of an operand into a Python expression
    text and compiles it; the assembler later evaluates it with every name
    replaced by a symbol-table lookup.  Here an operand is a small syntax
    tree and evaluation is a function of the tree and a scope.  Integer
    operators follow Python's rules: floor division and a remainder with
    the sign of the divisor, two's-complement bit operations on unbounded
    integers, an error for a zero divisor or a negative shift count. */
module Expr {
  import opened Bits

  /** The operators the tokenizer lets through, after the recognizer's
      translation (`!` is `**`, `<` is `<<` and `>` is `>>`). */
  datatype BinOp = Plus | Minus | Times | Divide | Remainder | Power
                 | ShiftLeft | ShiftRight | And | Or | Xor

  datatype UnOp = Negate | Identity | Invert

  datatype Expr =
    | Num(n: int)                     // a decimal, hex, octal or binary literal
    | Text(s: string)                 // a quoted string
    | Name(name: string)              // LOOKUP("name")
    | Unary(uop: UnOp, e: Expr)
    | Binary(bop: BinOp, l: Expr, r: Expr)

  /** Where names get their values: the assembler's symbol table, or the
      recognizer's stand-in LOOKUP that answers 0 for every name. */
  datatype Scope = Symbols(table: map<string, int>) | AllZero

  function Lookup(scope: Scope, name: string): (r: Option<int>)
    ensures r.None? <==> scope.Symbols? && name !in scope.table
  {
    match scope
    case AllZero => Some(0)
    case Symbols(table) => if name in table then Some(table[name]) else None
  }

  datatype Value = Int(i: int) | Str(s: string)

  /** The outcome of `eval`: a value, the IndexError LOOKUP raises for an
      undefined name, or any other exception. */
  datatype Outcome = Ok(value: Value) | Undefined(name: string) | Fails

  // ---------------------------------------------------------------------
  // Python integer arithmetic

  /** `a // b` for b != 0: rounds toward minus infinity. */
  function FloorDiv(a: int, b: int): int
    requires b != 0
  {
    if b > 0 then a / b
    else if a % b == 0 then a / b
    else a / b - 1
  }

  /** `a % b` for b != 0: takes the sign of the divisor. */
  function FloorMod(a: int, b: int): int
    requires b != 0
  {
    a - b * FloorDiv(a, b)
  }

  /** Python's quotient and remainder: `a == b * (a // b) + a % b`, with
      the remainder between zero and the divisor. */
  lemma FloorDivMod(a: int, b: int)
    requires b != 0
    ensures a == b * FloorDiv(a, b) + FloorMod(a, b)
    ensures b > 0 ==> 0 <= FloorMod(a, b) < b
    ensures b < 0 ==> b < FloorMod(a, b) <= 0
  {
    var q, r := a / b, a % b;
    assert a == b * q + r && 0 <= r < Abs(b);
    if b < 0 && r != 0 {
      assert FloorDiv(a, b) == q - 1;
      assert FloorMod(a, b) == r + b;
    }
  }

  function Power(a: int, n: nat): int
  {
    if n == 0 then 1 else a * Power(a, n - 1)
  }

  /** `a >> n`: floor division by a power of two. */
  function ShiftRightBy(a: int, n: nat): int
  {
    FloorDiv(a, Pow2(n))
  }

  function Apply(op: BinOp, a: int, b: int): Outcome
  {
    match op
    case Plus => Ok(Int(a + b))
    case Minus => Ok(Int(a - b))
    case Times => Ok(Int(a * b))
    case Divide => if b == 0 then Fails else Ok(Int(FloorDiv(a, b)))
    case Remainder => if b == 0 then Fails else Ok(Int(FloorMod(a, b)))
    case Power => if b < 0 then Fails else Ok(Int(Power(a, b)))
    case ShiftLeft => if b < 0 then Fails else Ok(Int(a * Pow2(b)))
    case ShiftRight => if b < 0 then Fails else Ok(Int(ShiftRightBy(a, b)))
    case And => Ok(Int(BitAnd(a, b)))
    case Or => Ok(Int(BitOr(a, b)))
    case Xor => Ok(Int(BitXor(a, b)))
  }

  function ApplyUnary(op: UnOp, a: int): int
  {
    match op
    case Negate => -a
    case Identity => a
    case Invert => -a - 1
  }

  /** `eval` of an operand: operands are evaluated left to right and the
      first exception ends the evaluation; an operator applied to a string
      is a TypeError. */
  function Eval(e: Expr, scope: Scope): (r: Outcome)
    ensures r.Undefined? ==> r.name in Names(e) && Lookup(scope, r.name).None?
  {
    match e
    case Num(n) => Ok(Int(n))
    case Text(s) => Ok(Str(s))
    case Name(name) =>
      var v := Lookup(scope, name);
      if v.Some? then Ok(Int(v.value)) else Undefined(name)
    case Unary(op, a) =>
      var x := Eval(a, scope);
      if !x.Ok? then x
      else if x.value.Str? then Fails
      else Ok(Int(ApplyUnary(op, x.value.i)))
    case Binary(op, a, b) =>
      var x := Eval(a, scope);
      if !x.Ok? then x
      else
        var y := Eval(b, scope);
        if !y.Ok? then y
        else if x.value.Str? || y.value.Str? then Fails
        else Apply(op, x.value.i, y.value.i)
  }

  /** The names an expression looks up. */
  function Names(e: Expr): set<string>
  {
    match e
    case Num(_) => {}
    case Text(_) => {}
    case Name(name) => {name}
    case Unary(_, a) => Names(a)
    case Binary(_, a, b) => Names(a) + Names(b)
  }

  /** One scope answers every name another answers, and answers it alike. */
  ghost predicate Extends(big: Scope, small: Scope)
  {
    forall name | Lookup(small, name).Some? :: Lookup(big, name) == Lookup(small, name)
  }

  /** A value, once an expression has one, survives the definition of more
      names: what pass 1 relies on when it keeps an EQU's value. */
  lemma {:induction false} EvalExtends(e: Expr, small: Scope, big: Scope)
    requires Extends(big, small)
    requires Eval(e, small).Ok?
    ensures Eval(e, big) == Eval(e, small)
  {
    match e
    case Num(_) =>
    case Text(_) =>
    case Name(name) =>
      assert Lookup(small, name).Some?;
    case Unary(op, a) =>
      EvalExtends(a, small, big);
    case Binary(op, a, b) =>
      EvalExtends(a, small, big);
      EvalExtends(b, small, big);
  }

  /** An expression whose names are all defined never reports an undefined
      name, and the recognizer's all-zero scope defines every name. */
  lemma {:induction false} EvalDefined(e: Expr, scope: Scope)
    requires forall name | name in Names(e) :: Lookup(scope, name).Some?
    ensures !Eval(e, scope).Undefined?
  {
    match e
    case Num(_) =>
    case Text(_) =>
    case Name(name) =>
    case Unary(op, a) =>
      EvalDefined(a, scope);
    case Binary(op, a, b) =>
      EvalDefined(a, scope);
      EvalDefined(b, scope);
  }

  /** `check_value`: evaluate, convert with `int()`, and insist on
      `low <= value <= high`; anything else is the exception the source
      raises. */
  datatype Checked = Value(v: int) | Unknown(name: string) | OutOfRange(bad: int) | Broken

  function CheckValue(e: Expr, scope: Scope, low: int, high: int): Checked
  {
    match Eval(e, scope)
    case Undefined(name) => Unknown(name)
    case Fails => Broken
    case Ok(v) =>
      if v.Str? then Broken
      else if v.i < low || v.i > high then OutOfRange(v.i)
      else Value(v.i)
  }

  /** The value is accepted exactly when it is a number in range; an
      undefined name stays an undefined name. */
  lemma CheckValueMeaning(e: Expr, scope: Scope, low: int, high: int)
    ensures var r := CheckValue(e, scope, low, high);
      && (r.Value? <==> Eval(e, scope).Ok? && Eval(e, scope).value.Int?
                        && low <= Eval(e, scope).value.i <= high)
      && (r.Value? ==> r.v == Eval(e, scope).value.i)
      && (r.Unknown? <==> Eval(e, scope).Undefined?)
      && (r.OutOfRange? ==> !(low <= r.bad <= high))
  {
  }

  /** A shift right is a floor division, so it rounds negative numbers
      down: `-1 >> n` stays -1. */
  lemma ShiftRightMinusOne(n: nat)
    ensures ShiftRightBy(-1, n) == -1
  {
    var p := Pow2(n);
    DivModUnique(-1, p, -1, p - 1);
  }
}

=== FILE: pylist.dfy ===
/** Python list slicing on sequences: the slice `a[i:j]` and the slice
    assignment `a[i:j] = b`, with Python's clipping of bounds that fall
    outside the list and its counting from the end for negative ones. */
module PyList {
  function Min(a: int, b: int): int { if a < b then a else b }

  function Max(a: int, b: int): int { if a < b then b else a }

  /** Where a slice bound lands in a list of length n. */
  function Bound(i: int, n: nat): (k: nat)
    ensures k <= n
    ensures 0 <= i <= n ==> k == i
    ensures i > n ==> k == n
  {
    if i < 0 then Max(0, i + n) else Min(i, n)
  }

  /** `a[i:j]`: empty when the bounds cross. */
  function Slice<T>(a: seq<T>, i: int, j: int): (r: seq<T>)
    ensures |r| <= |a|
  {
    var lo := Bound(i, |a|);
    a[lo..Max(lo, Bound(j, |a|))]
  }

  /** `a[i:j] = b`: the part between the bounds is replaced by b, which
      may be longer or shorter than what it replaces. */
  function SliceAssign<T>(a: seq<T>, i: int, j: int, b: seq<T>): (r: seq<T>)
    ensures |r| >= |b|
  {
    var lo := Bound(i, |a|);
    a[..lo] + b + a[Max(lo, Bound(j, |a|))..]
  }

  /** Bounds inside the list select what Dafny's own slice selects. */
  lemma SliceInside<T>(a: seq<T>, i: int, j: int)
    requires 0 <= i <= |a|
    ensures 0 <= j <= |a| ==> Slice(a, i, j) == if i <= j then a[i..j] else []
    ensures j > |a| ==> Slice(a, i, j) == a[i..]
  {
  }

  /** Assigning to a slice inside the list overwrites exactly that part
      and keeps the length. */
  lemma SliceAssignInside<T>(a: seq<T>, i: int, b: seq<T>)
    requires 0 <= i && i + |b| <= |a|
    ensures var r := SliceAssign(a, i, i + |b|, b);
      && |r| == |a|
      && r[i..i + |b|] == b
      && (forall k | 0 <= k < |a| && !(i <= k < i + |b|) :: r[k] == a[k])
  {
    var r := SliceAssign(a, i, i + |b|, b);
    assert r == a[..i] + b + a[i + |b|..];
    forall k | 0 <= k < |a| && !(i <= k < i + |b|) ensures r[k] == a[k] {
      if k >= i + |b| {
        assert r[k] == a[i + |b|..][k - i - |b|];
      }
    }
  }

  /** Assigning b to the slice of its own length from i: the list holds b
      from i on and keeps every other element, growing when b runs past
      its end. */
  lemma SliceAssignAt<T>(a: seq<T>, i: int, b: seq<T>)
    requires 0 <= i <= |a|
    ensures var r := SliceAssign(a, i, i + |b|, b);
      && |r| == Max(|a|, i + |b|)
      && forall k | 0 <= k < |r| :: r[k] == if i <= k < i + |b| then b[k - i] else a[k]
  {
    var r := SliceAssign(a, i, i + |b|, b);
    if i + |b| <= |a| {
      SliceAssignInside(a, i, b);
      forall k | i <= k < i + |b| ensures r[k] == b[k - i] {
        assert r[i..i + |b|][k - i] == r[k];
      }
    } else {
      SliceAssignGrows(a, i, b);
      forall k | 0 <= k < |r| ensures r[k] == if i <= k < i + |b| then b[k - i] else a[k] {
        if k < i {
          assert r[..i][k] == r[k];
        } else {
          assert r[i..][k - i] == r[k];
        }
      }
    }
  }

  /** Past the end the list grows: it ends with the new part. */
  lemma SliceAssignGrows<T>(a: seq<T>, i: int, b: seq<T>)
    requires 0 <= i <= |a| < i + |b|
    ensures var r := SliceAssign(a, i, i + |b|, b);
      |r| == i + |b| && r[i..] == b && r[..i] == a[..i]
  {
  }
}

=== FILE: recognizer.dfy ===
/** assembler1.py's `phase_one` from the tokenizer's matches on: the
    tokens kept (whitespace and comments dropped, a doubled quote put back
    together), the label taken off the front, the signature built from the
    remaining tokens while registers and operand groups are collected, the
    signature classified into an instruction form, each operand group
    translated to Python text and compiled, and the number of bytes the
    statement will take.

    The regex tokenizer itself is not modelled: the input is the sequence
    of its matches.  Python's `compile` of an operand text is a parameter
    of the model, a function from the text to an operand tree or None for
    a syntax error.

    `corrected` selects between the code as written and the code with four
    slips put right (see README): the signature `RNDR,[V+]`, the missing
    `JP V0,addr` form, the length of DA, and the test `if S.error_pos :`
    that takes an error at column 0 for no error. */
module Recognizer {
  import opened Bits
  import opened Expr
  import opened PyList

  // ---------------------------------------------------------------------
  // Tokens

  /** The token classes of the tokenizer, in the order it tries them. */
  datatype Kind =
    | White | Directive | Opcode | VReg | IReg | KReg | DtReg | DsReg | Colon | Comma
    | DecimalLit | HexLit | OctalLit | BinaryLit | StringLit | ExpOp | Word
    | Comment | Garbage

  /** One match of the tokenizer: its class, its text and its column. */
  datatype Token = Token(kind: Kind, text: string, start: nat)

  /** What the tokenizer's patterns guarantee about a match and the
      recognizer relies on: a V register is `v` and a hex digit, an
      operator is one character of its class, a word is not empty. */
  predicate Shaped(t: Token)
  {
    && (t.kind == VReg ==> |t.text| == 2 && IsHexChar(Upper(t.text[1])))
    && (t.kind == ExpOp ==> |t.text| == 1 && t.text[0] in "()+-~!<>*/&|^%")
    && (t.kind == Word ==> |t.text| > 0)
  }

  predicate AllShaped(ts: seq<Token>) { forall k | 0 <= k < |ts| :: Shaped(ts[k]) }

  /** The messages of an invalid statement. */
  datatype Message =
    | CannotParse        // 'Cannot parse statement'
    | InvalidToken       // 'Invalid token'
    | InvalidRegister    // 'Invalid register operand'
    | Confused           // 'Confused statement'
    | InvalidExpression  // 'Invalid expression'
    | NegativeSize       // 'DS value must be >= zero'

  // ---------------------------------------------------------------------
  // Keeping tokens

  datatype Scanned = Tokens(tokens: seq<Token>) | Unparsable(pos: nat)

  /** `'MA''AM'` comes out of the tokenizer as two strings; the second is
      joined onto the first with one quote between their texts. */
  function Splice(prev: Token, next: Token): Token
  {
    prev.(text := Slice(prev.text, 0, -1) + "'" + Slice(next.text, 1, |next.text|))
  }

  /** The tokenizing loop over the matches still to come, with the tokens
      kept so far. */
  function ScanFrom(matches: seq<Token>, kept: seq<Token>): (r: Scanned)
    ensures r.Tokens? && AllShaped(kept) && AllShaped(matches) ==> AllShaped(r.tokens)
    decreases |matches|
  {
    if |matches| == 0 then Tokens(kept)
    else
      var m := matches[0];
      if m.kind == White || m.kind == Comment then ScanFrom(matches[1..], kept)
      else if m.kind == Garbage then Unparsable(m.start)
      else if m.kind == StringLit && |kept| > 0 && kept[|kept| - 1].kind == StringLit then
        ScanFrom(matches[1..], kept[..|kept| - 1] + [Splice(kept[|kept| - 1], m)])
      else ScanFrom(matches[1..], kept + [m])
  }

  function Scan(matches: seq<Token>): Scanned
  {
    ScanFrom(matches, [])
  }

  /** Where the first unrecognizable match is, or the length when there
      is none. */
  function FirstGarbage(matches: seq<Token>): (k: nat)
    ensures k <= |matches|
    ensures k < |matches| ==> matches[k].kind == Garbage
    ensures forall j | 0 <= j < k :: matches[j].kind != Garbage
  {
    if |matches| == 0 then 0
    else if matches[0].kind == Garbage then 0
    else 1 + FirstGarbage(matches[1..])
  }

  /** The matches that are neither whitespace nor a comment. */
  function Kept(matches: seq<Token>): seq<Token>
  {
    if |matches| == 0 then []
    else (if matches[0].kind in {White, Comment} then [] else [matches[0]]) + Kept(matches[1..])
  }

  /** What the tokenizing loop leaves: no whitespace, no comment, no
      garbage, and never a string right after a string. */
  predicate Clean(ts: seq<Token>)
  {
    && (forall k | 0 <= k < |ts| :: ts[k].kind !in {White, Comment, Garbage})
    && (forall k | 0 < k < |ts| :: !(ts[k - 1].kind == StringLit && ts[k].kind == StringLit))
  }

  /** A statement is unparsable exactly when some match is garbage, and
      the position reported is that of the first garbage. */
  lemma {:induction false} ScanFromGarbage(matches: seq<Token>, kept: seq<Token>)
    ensures ScanFrom(matches, kept).Unparsable? <==> FirstGarbage(matches) < |matches|
    ensures ScanFrom(matches, kept).Unparsable? ==>
      ScanFrom(matches, kept).pos == matches[FirstGarbage(matches)].start
    decreases |matches|
  {
    if |matches| > 0 && matches[0].kind != Garbage {
      var m := matches[0];
      if m.kind == White || m.kind == Comment {
        ScanFromGarbage(matches[1..], kept);
      } else if m.kind == StringLit && |kept| > 0 && kept[|kept| - 1].kind == StringLit {
        ScanFromGarbage(matches[1..], kept[..|kept| - 1] + [Splice(kept[|kept| - 1], m)]);
      } else {
        ScanFromGarbage(matches[1..], kept + [m]);
      }
    }
  }

  lemma ScanGarbage(matches: seq<Token>)
    ensures Scan(matches).Unparsable? <==> exists k | 0 <= k < |matches| :: matches[k].kind == Garbage
    ensures Scan(matches).Unparsable? ==> Scan(matches).pos == matches[FirstGarbage(matches)].start
  {
    ScanFromGarbage(matches, []);
  }

  /** The tokens kept are clean. */
  lemma {:induction false} ScanFromClean(matches: seq<Token>, kept: seq<Token>)
    requires Clean(kept)
    ensures ScanFrom(matches, kept).Tokens? ==> Clean(ScanFrom(matches, kept).tokens)
    decreases |matches|
  {
    if |matches| > 0 {
      var m := matches[0];
      if m.kind == White || m.kind == Comment {
        ScanFromClean(matches[1..], kept);
      } else if m.kind == Garbage {
      } else if m.kind == StringLit && |kept| > 0 && kept[|kept| - 1].kind == StringLit {
        var next := kept[..|kept| - 1] + [Splice(kept[|kept| - 1], m)];
        assert forall k | 0 <= k < |next| - 1 :: next[k] == kept[k];
        ScanFromClean(matches[1..], next);
      } else {
        var next := kept + [m];
        assert forall k | 0 <= k < |kept| :: next[k] == kept[k];
        ScanFromClean(matches[1..], next);
      }
    }
  }

  /** Without garbage and without two strings in a row, the tokens kept
      are exactly the matches that are not whitespace or comments. */
  lemma {:induction false} ScanFromKeeps(matches: seq<Token>, kept: seq<Token>)
    requires FirstGarbage(matches) == |matches|
    requires Clean(kept + Kept(matches))
    ensures ScanFrom(matches, kept) == Tokens(kept + Kept(matches))
    decreases |matches|
  {
    if |matches| > 0 {
      var m := matches[0];
      assert FirstGarbage(matches[1..]) == |matches[1..]|;
      if m.kind == White || m.kind == Comment {
        assert Kept(matches) == Kept(matches[1..]);
        ScanFromKeeps(matches[1..], kept);
      } else {
        assert Kept(matches) == [m] + Kept(matches[1..]);
        assert (kept + [m]) + Kept(matches[1..]) == kept + Kept(matches);
        if |kept| > 0 && m.kind == StringLit {
          assert (kept + Kept(matches))[|kept| - 1] == kept[|kept| - 1];
          assert (kept + Kept(matches))[|kept|] == m;
        }
        ScanFromKeeps(matches[1..], kept + [m]);
      }
    } else {
      assert kept + Kept(matches) == kept;
    }
  }

  lemma ScanKeeps(matches: seq<Token>)
    requires FirstGarbage(matches) == |matches| && Clean(Kept(matches))
    ensures Scan(matches) == Tokens(Kept(matches))
  {
    var ts := Kept(matches);
    assert [] + ts == ts;
    ScanFromKeeps(matches, []);
    assert ScanFrom(matches, []) == Tokens(ts);
  }

  function Quoted(s: string): string { "'" + s + "'" }

  /** Splicing undoes the doubled quote: the text between the outer quotes
      is the two parts with one quote between them. */
  lemma SpliceJoins(a: string, b: string, p: nat, q: nat)
    ensures Splice(Token(StringLit, Quoted(a), p), Token(StringLit, Quoted(b), q))
      == Token(StringLit, Quoted(a + "'" + b), p)
  {
    var x, y := Quoted(a), Quoted(b);
    assert Slice(x, 0, -1) == "'" + a;
    assert Slice(y, 1, |y|) == b + "'";
  }

  /** A directive, a blank and two strings in a row scan to the directive
      and one spliced string. */
  lemma ScanTwoStrings(d: Token, w: Token, a: Token, b: Token)
    requires d.kind == Directive && w.kind == White && a.kind == StringLit && b.kind == StringLit
    ensures Scan([d, w, a, b]) == Tokens([d, Splice(a, b)])
  {
    var ms := [d, w, a, b];
    assert ms[1..] == [w, a, b] && ms[2..] == [a, b] && ms[3..] == [b] && ms[4..] == [];
    assert [] + [d] == [d] && [d] + [a] == [d, a];
    assert ScanFrom(ms, []) == ScanFrom(ms[1..], [d]);
    assert ScanFrom(ms[1..], [d]) == ScanFrom(ms[2..], [d]);
    assert ScanFrom(ms[2..], [d]) == ScanFrom(ms[3..], [d, a]);
    assert [d, a][..1] + [Splice(a, b)] == [d, Splice(a, b)];
    assert ScanFrom(ms[3..], [d, a]) == ScanFrom(ms[4..], [d, Splice(a, b)]);
  }

  /** `da 'MA''AM'`: four matches, two tokens. */
  lemma SpliceExample()
    ensures Scan([Token(Directive, "da", 0), Token(White, " ", 2),
                  Token(StringLit, "'MA'", 3), Token(StringLit, "'AM'", 7)])
      == Tokens([Token(Directive, "da", 0), Token(StringLit, "'MA'AM'", 3)])
  {
    var a, b := Token(StringLit, "'MA'", 3), Token(StringLit, "'AM'", 7);
    ScanTwoStrings(Token(Directive, "da", 0), Token(White, " ", 2), a, b);
    SpliceJoins("MA", "AM", 3, 7);
    assert Quoted("MA" + "'" + "AM") == "'MA'AM'";
    assert Quoted("MA") == "'MA'" && Quoted("AM") == "'AM'";
  }

  // ---------------------------------------------------------------------
  // The label

  datatype Labelled = Labelled(name: string, rest: seq<Token>)

  predicate IsEquate(t: Token) { t.kind == Directive && (UpperText(t.text) == "EQU" || t.text == "=") }

  /** `WORD :` defines a label and both tokens go; `WORD EQU expr` (or
      `WORD = expr`) defines a name, only the word goes and the directive
      is written `EQU`. */
  function StripLabel(ts: seq<Token>): (l: Labelled)
    ensures AllShaped(ts) ==> AllShaped(l.rest)
  {
    if |ts| >= 2 && ts[0].kind == Word && ts[1].kind == Colon then Labelled(ts[0].text, ts[2..])
    else if |ts| >= 3 && ts[0].kind == Word && IsEquate(ts[1]) then
      Labelled(ts[0].text, [ts[1].(text := "EQU")] + ts[2..])
    else Labelled("", ts)
  }

  /** A name is defined exactly when the statement opens with a label or
      an equate, and then the tokens left are the ones after the name,
      with the directive spelled `EQU`; otherwise nothing is dropped. */
  lemma StripLabelMeaning(ts: seq<Token>)
    requires AllShaped(ts)
    ensures var l := StripLabel(ts);
      && (l.name != "" <==> |ts| >= 2 && ts[0].kind == Word
                            && (ts[1].kind == Colon || (|ts| >= 3 && IsEquate(ts[1]))))
      && (l.name == "" ==> l.rest == ts)
      && (l.name != "" ==> l.name == ts[0].text
                           && (if ts[1].kind == Colon then l.rest == ts[2..]
                               else |l.rest| >= 1 && l.rest[0] == ts[1].(text := "EQU") && l.rest[1..] == ts[2..]))
  {
    if |ts| >= 2 && ts[0].kind == Word {
      assert Shaped(ts[0]);
      if ts[1].kind != Colon && |ts| >= 3 {
        assert ([ts[1].(text := "EQU")] + ts[2..])[1..] == ts[2..];
      }
    }
  }

  // ---------------------------------------------------------------------
  // Signature, registers and operand groups

  /** `summary_chars`: None for the classes missing from the table. */
  function SummaryChar(k: Kind): Option<char>
  {
    match k
    case VReg => Some('R')
    case IReg => Some('I')
    case KReg => Some('K')
    case DtReg => Some('T')
    case DsReg => Some('S')
    case Comma => Some(',')
    case Word | DecimalLit | HexLit | OctalLit | BinaryLit | ExpOp => Some('V')
    case StringLit => Some('Z')
    case _ => None
  }

  /** chip8.py's register codes: V0-VF are 0-15, then I, DT and ST. */
  const RegI := 16
  const RegT := 17
  const RegS := 18

  /** The code a register token stands for; a V register's is its digit
      (a V-register match always ends in a hex digit, see Shaped). */
  function RegisterCode(t: Token): int
  {
    match t.kind
    case VReg => if |t.text| < 2 then -1 else HexValue(Upper(t.text[1]))
    case IReg => RegI
    case DtReg => RegT
    case DsReg => RegS
    case _ => 0
  }

  lemma RegisterCodes(t: Token)
    requires Shaped(t) && IsRegister(t)
    ensures 0 <= RegisterCode(t) <= 18
    ensures t.kind == VReg <==> IsNybble(RegisterCode(t))
  {
  }

  predicate IsRegister(t: Token) { t.kind in {VReg, IReg, DtReg, DsReg} }

  /** Tokens that belong to an operand: the ones summarized `V` or `Z`. */
  predicate IsOperand(t: Token) { SummaryChar(t.kind) == Some('V') || SummaryChar(t.kind) == Some('Z') }

  predicate HasCode(t: Token) { t.kind == Opcode || t.kind == Directive || SummaryChar(t.kind).Some? }

  /** What one token adds to the signature. */
  function Piece(t: Token): string
  {
    if t.kind == Opcode || t.kind == Directive then UpperText(t.text)
    else if SummaryChar(t.kind).Some? then [SummaryChar(t.kind).value]
    else []
  }

  function Signature(ts: seq<Token>): string
  {
    if |ts| == 0 then "" else Piece(ts[0]) + Signature(ts[1..])
  }

  function Registers(ts: seq<Token>): seq<int>
  {
    if |ts| == 0 then [] else (if IsRegister(ts[0]) then [RegisterCode(ts[0])] else []) + Registers(ts[1..])
  }

  function Operands(ts: seq<Token>): seq<Token>
  {
    if |ts| == 0 then [] else (if IsOperand(ts[0]) then [ts[0]] else []) + Operands(ts[1..])
  }

  function Flatten(groups: seq<seq<Token>>): seq<Token>
  {
    if |groups| == 0 then [] else groups[0] + Flatten(groups[1..])
  }

  /** Tokens the loop accepts: each has a summary, and together with `n`
      registers already taken there are at most two registers. */
  predicate Good(ts: seq<Token>, n: nat)
  {
    (forall k | 0 <= k < |ts| :: HasCode(ts[k])) && n + |Registers(ts)| <= 2
  }

  /** The state of the signature loop. */
  datatype Parts = Parts(
    signature: string,
    reg1: Option<int>,
    reg2: Option<int>,
    groups: seq<seq<Token>>,   // S.expressions
    group: seq<Token>)         // the expression being collected

  const NoParts := Parts("", None, None, [], [])

  function Regs(p: Parts): seq<int>
  {
    (if p.reg1.Some? then [p.reg1.value] else []) + (if p.reg2.Some? then [p.reg2.value] else [])
  }

  /** The second register is only taken after the first, and no group
      kept is empty. */
  predicate Orderly(p: Parts)
  {
    && (p.reg2.Some? ==> p.reg1.Some?)
    && (forall k | 0 <= k < |p.groups| :: |p.groups[k]| > 0)
  }

  datatype Collected = Built(parts: Parts) | Broke(parts: Parts, pos: nat, msg: Message)

  /** The signature loop: an opcode or directive adds its upper-case
      text, anything else its summary character; registers fill reg1 then
      reg2; a comma closes a non-empty group; operand tokens join the
      current group.  A token without a summary, or a third register,
      stops the loop at its column. */
  function Collect(ts: seq<Token>, p: Parts): Collected
    decreases |ts|
  {
    if |ts| == 0 then Built(p)
    else
      var t := ts[0];
      if t.kind == Opcode || t.kind == Directive then
        Collect(ts[1..], p.(signature := p.signature + UpperText(t.text)))
      else if SummaryChar(t.kind).None? then Broke(p, t.start, InvalidToken)
      else
        var c := SummaryChar(t.kind).value;
        var q := p.(signature := p.signature + [c]);
        if c == 'K' then Collect(ts[1..], q)
        else if c in "RITS" then
          if q.reg1.None? then Collect(ts[1..], q.(reg1 := Some(RegisterCode(t))))
          else if q.reg2.None? then Collect(ts[1..], q.(reg2 := Some(RegisterCode(t))))
          else Broke(q, t.start, InvalidRegister)
        else if c == ',' then
          Collect(ts[1..], if |q.group| > 0 then q.(groups := q.groups + [q.group], group := []) else q)
        else Collect(ts[1..], q.(group := q.group + [t]))
  }

  /** The trailing group joins the others if it is not empty. */
  function Close(p: Parts): seq<seq<Token>>
  {
    if |p.group| > 0 then p.groups + [p.group] else p.groups
  }

  lemma FlattenAppend(groups: seq<seq<Token>>, g: seq<Token>)
    ensures Flatten(groups + [g]) == Flatten(groups) + g
    decreases |groups|
  {
    if |groups| > 0 {
      assert (groups + [g])[1..] == groups[1..] + [g];
      FlattenAppend(groups[1..], g);
    } else {
      assert [g][1..] == [];
    }
  }

  lemma Associative<T>(a: seq<T>, b: seq<T>, c: seq<T>)
    ensures (a + b) + c == a + (b + c)
  {
  }

  /** One token of the loop, in terms of the reference definitions. */
  lemma CollectHead(ts: seq<Token>)
    requires |ts| > 0
    ensures Signature(ts) == Piece(ts[0]) + Signature(ts[1..])
    ensures Registers(ts) == (if IsRegister(ts[0]) then [RegisterCode(ts[0])] else []) + Registers(ts[1..])
    ensures Operands(ts) == (if IsOperand(ts[0]) then [ts[0]] else []) + Operands(ts[1..])
  {
  }

  /** The registers a token takes. */
  function RegPiece(t: Token): seq<int> { if IsRegister(t) then [RegisterCode(t)] else [] }

  lemma GoodHead(ts: seq<Token>, n: nat)
    requires |ts| > 0
    ensures Good(ts, n) <==> HasCode(ts[0]) && Good(ts[1..], n + |RegPiece(ts[0])|)
  {
    assert forall k | 1 <= k < |ts| :: ts[1..][k - 1] == ts[k];
  }

  /** Where the loop stops: the first token without a summary, or the
      third register. */
  predicate StopsAt(ts: seq<Token>, n: nat, k: nat, pos: nat, msg: Message)
    requires k < |ts|
  {
    && pos == ts[k].start && Good(ts[..k], n)
    && ((msg == InvalidToken && !HasCode(ts[k]))
        || (msg == InvalidRegister && IsRegister(ts[k]) && n + |Registers(ts[..k])| == 2))
  }

  lemma PrefixRegisters(ts: seq<Token>, k: nat)
    requires 0 < k <= |ts|
    ensures ts[..k][1..] == ts[1..][..k - 1]
    ensures Registers(ts[..k]) == RegPiece(ts[0]) + Registers(ts[1..][..k - 1])
  {
    assert ts[..k][1..] == ts[1..][..k - 1];
  }

  /** A stop after the first token is a stop one further along the whole. */
  lemma StopsLater(ts: seq<Token>, n: nat, k: nat, pos: nat, msg: Message)
    requires 0 < |ts| && k < |ts| - 1 && HasCode(ts[0])
    requires StopsAt(ts[1..], n + |RegPiece(ts[0])|, k, pos, msg)
    ensures StopsAt(ts, n, k + 1, pos, msg)
  {
    var pre := ts[..k + 1];
    assert pre[1..] == ts[1..][..k];
    GoodHead(pre, n);
    CollectHead(pre);
  }

  /** One accepted token of the loop. */
  lemma CollectStep(ts: seq<Token>, p: Parts) returns (next: Parts)
    requires Orderly(p) && |ts| > 0 && HasCode(ts[0])
    requires !(IsRegister(ts[0]) && |Regs(p)| == 2)
    ensures Collect(ts, p) == Collect(ts[1..], next) && Orderly(next)
    ensures next.signature == p.signature + Piece(ts[0])
    ensures Regs(next) == Regs(p) + RegPiece(ts[0])
    ensures Flatten(next.groups) + next.group
      == Flatten(p.groups) + p.group + (if IsOperand(ts[0]) then [ts[0]] else [])
  {
    var t := ts[0];
    if t.kind == Opcode || t.kind == Directive {
      next := p.(signature := p.signature + UpperText(t.text));
    } else {
      var c := SummaryChar(t.kind).value;
      var q := p.(signature := p.signature + [c]);
      if c == 'K' {
        next := q;
      } else if c in "RITS" {
        if q.reg1.None? {
          next := q.(reg1 := Some(RegisterCode(t)));
        } else {
          next := q.(reg2 := Some(RegisterCode(t)));
        }
      } else if c == ',' {
        if |q.group| > 0 {
          next := q.(groups := q.groups + [q.group], group := []);
          FlattenAppend(q.groups, q.group);
        } else {
          next := q;
        }
      } else {
        next := q.(group := q.group + [t]);
      }
    }
  }

  /** The loop finishes exactly when its tokens are good. */
  predicate Ends(ts: seq<Token>, p: Parts)
  {
    Collect(ts, p).Built? <==> Good(ts, |Regs(p)|)
  }

  /** A finished loop added the signature pieces, the registers and the
      operand tokens of its tokens, in order. */
  predicate Builds(ts: seq<Token>, p: Parts)
  {
    var c := Collect(ts, p);
    c.Built? ==>
      && c.parts.signature == p.signature + Signature(ts)
      && Regs(c.parts) == Regs(p) + Registers(ts)
      && Flatten(c.parts.groups) + c.parts.group == Flatten(p.groups) + p.group + Operands(ts)
      && Orderly(c.parts)
  }

  /** A stopped loop stopped at the first bad token. */
  predicate Breaks(ts: seq<Token>, p: Parts)
  {
    var c := Collect(ts, p);
    c.Broke? ==> exists k | 0 <= k < |ts| :: StopsAt(ts, |Regs(p)|, k, c.pos, c.msg)
  }

  /** The facts of the step lemma that the combining lemmas use. */
  predicate Stepped(ts: seq<Token>, p: Parts, next: Parts)
    requires |ts| > 0
  {
    && Collect(ts, p) == Collect(ts[1..], next)
    && next.signature == p.signature + Piece(ts[0])
    && Regs(next) == Regs(p) + RegPiece(ts[0])
    && Flatten(next.groups) + next.group
       == Flatten(p.groups) + p.group + (if IsOperand(ts[0]) then [ts[0]] else [])
  }

  lemma EndsStep(ts: seq<Token>, p: Parts, next: Parts)
    requires |ts| > 0 && HasCode(ts[0]) && Stepped(ts, p, next) && Ends(ts[1..], next)
    ensures Ends(ts, p)
  {
    GoodHead(ts, |Regs(p)|);
  }

  lemma BuildsStep(ts: seq<Token>, p: Parts, next: Parts)
    requires |ts| > 0 && Stepped(ts, p, next) && Builds(ts[1..], next)
    ensures Builds(ts, p)
  {
    var c := Collect(ts, p);
    if c.Built? {
      var t := ts[0];
      CollectHead(ts);
      var a, o, rest := Flatten(p.groups) + p.group, (if IsOperand(t) then [t] else []), Operands(ts[1..]);
      assert Flatten(c.parts.groups) + c.parts.group == (a + o) + rest;
      Associative(a, o, rest);
      Associative(Regs(p), RegPiece(t), Registers(ts[1..]));
      Associative(p.signature, Piece(t), Signature(ts[1..]));
    }
  }

  lemma BreaksStep(ts: seq<Token>, p: Parts, next: Parts)
    requires |ts| > 0 && HasCode(ts[0]) && Stepped(ts, p, next) && Breaks(ts[1..], next)
    ensures Breaks(ts, p)
  {
    var c := Collect(ts, p);
    if c.Broke? {
      var k :| 0 <= k < |ts[1..]| && StopsAt(ts[1..], |Regs(next)|, k, c.pos, c.msg);
      StopsLater(ts, |Regs(p)|, k, c.pos, c.msg);
    }
  }

  /** The first token is bad: the loop stops there. */
  lemma CollectStops(ts: seq<Token>, p: Parts)
    requires Orderly(p) && |ts| > 0
    requires !HasCode(ts[0]) || (IsRegister(ts[0]) && |Regs(p)| == 2)
    ensures Ends(ts, p) && Builds(ts, p) && Breaks(ts, p)
  {
    GoodHead(ts, |Regs(p)|);
    assert ts[..0] == [];
    assert StopsAt(ts, |Regs(p)|, 0, Collect(ts, p).pos, Collect(ts, p).msg);
  }

  /** The loop in terms of its reference definitions: it finishes exactly
      when every token has a summary and there are at most two registers;
      then the signature is the tokens' pieces in order, the registers are
      the register tokens' codes in order, and the groups hold the operand
      tokens in order, none empty.  When it stops, it stops at the first
      token without a summary or at the third register. */
  lemma {:induction false} CollectFrom(ts: seq<Token>, p: Parts)
    requires Orderly(p)
    ensures var c := Collect(ts, p);
      && (c.Built? <==> Good(ts, |Regs(p)|))
      && (c.Built? ==>
            && c.parts.signature == p.signature + Signature(ts)
            && Regs(c.parts) == Regs(p) + Registers(ts)
            && Flatten(c.parts.groups) + c.parts.group == Flatten(p.groups) + p.group + Operands(ts)
            && Orderly(c.parts))
      && (c.Broke? ==> exists k | 0 <= k < |ts| :: StopsAt(ts, |Regs(p)|, k, c.pos, c.msg))
    decreases |ts|
  {
    if |ts| == 0 {
      return;
    }
    if !HasCode(ts[0]) || (IsRegister(ts[0]) && |Regs(p)| == 2) {
      CollectStops(ts, p);
      return;
    }
    var next := CollectStep(ts, p);
    CollectFrom(ts[1..], next);
    EndsStep(ts, p, next);
    BuildsStep(ts, p, next);
    BreaksStep(ts, p, next);
  }

  // ---------------------------------------------------------------------
  // Classification

  /** `signature_dict`: signatures without an operand. */
  const Dictionary: map<string, string> := map[
    "ADDI,R" := "ADDI", "ADDR,R" := "ADDR", "ANDR,R" := "AND", "CLS" := "CLS",
    "EXIT" := "EXIT", "HIGH" := "HIGH", "JPR" := "JPX", "LDCI,R" := "LDC",
    "LDHI,R" := "LDH", "LDR,K" := "LDK", "LDMR" := "LDM", "LDR,R" := "LDRR",
    "LDR,T" := "LDRT", "LDS,R" := "LDSR", "LDT,R" := "LDTR", "LOW" := "LOW",
    "ORR,R" := "OR", "RET" := "RET", "SCL" := "SCL", "SCR" := "SCR",
    "SCD" := "SCD", "SER,R" := "SER", "SHRR,R" := "SHR", "SHLR,R" := "SHL",
    "SKPR" := "SKP", "SKNPR" := "SKNP", "SNER,R" := "SNER", "STDR" := "STD",
    "STMR" := "STM", "SUBR,R" := "SUB", "SUBNR,R" := "SUBN", "XORR,R" := "XOR"]

  /** The dictionary in use: corrected, `JP V0` alone is no statement. */
  function Table(corrected: bool): map<string, string>
  {
    if corrected then Dictionary - {"JPR"} else Dictionary
  }

  /** What follows the fixed text of a signature pattern: `V+`, `Z+`,
      `V+(,V+)*`, or the one-character class `[V+]`. */
  datatype Tail = Values | Strings | ValueList | OneOf(chars: string)

  datatype Pattern = Pattern(form: string, prefix: string, tail: Tail)

  // What the regular expressions say

  predicate AllAre(s: string, c: char) { |s| > 0 && forall k | 0 <= k < |s| :: s[k] == c }

  /** `V+(,V+)*`: a V first, and every comma followed by a V. */
  predicate IsValueList(s: string)
  {
    && |s| > 0 && s[0] == 'V'
    && forall k | 0 <= k < |s| :: s[k] == 'V' || (s[k] == ',' && k + 1 < |s| && s[k + 1] == 'V')
  }

  predicate TailMatches(s: string, t: Tail)
  {
    match t
    case Values => AllAre(s, 'V')
    case Strings => AllAre(s, 'Z')
    case ValueList => IsValueList(s)
    case OneOf(chars) => |s| == 1 && s[0] in chars
  }

  /** `fullmatch` of one alternative: the fixed text, then the tail. */
  predicate Matches(sig: string, p: Pattern)
  {
    && |p.prefix| <= |sig|
    && (forall k | 0 <= k < |p.prefix| :: sig[k] == p.prefix[k])
    && TailMatches(sig[|p.prefix|..], p.tail)
  }

  // The matcher, one character at a time

  /** The fixed text from position k on is found at the same place. */
  predicate PrefixFrom(sig: string, prefix: string, k: nat)
    decreases |prefix| - k
  {
    k >= |prefix| || (k < |sig| && sig[k] == prefix[k] && PrefixFrom(sig, prefix, k + 1))
  }

  /** From position k on, only c. */
  predicate RunFrom(sig: string, k: nat, c: char)
    decreases |sig| - k
  {
    k >= |sig| || (sig[k] == c && RunFrom(sig, k + 1, c))
  }

  /** After a V at position k - 1: more V's, or a comma and a V. */
  predicate ListFrom(sig: string, k: nat)
    decreases |sig| - k
  {
    || k >= |sig|
    || (sig[k] == 'V' && ListFrom(sig, k + 1))
    || (sig[k] == ',' && k + 1 < |sig| && sig[k + 1] == 'V' && ListFrom(sig, k + 2))
  }

  predicate TailFrom(sig: string, k: nat, t: Tail)
  {
    match t
    case Values => k < |sig| && RunFrom(sig, k, 'V')
    case Strings => k < |sig| && RunFrom(sig, k, 'Z')
    case ValueList => k < |sig| && sig[k] == 'V' && ListFrom(sig, k + 1)
    case OneOf(chars) => k + 1 == |sig| && sig[k] in chars
  }

  predicate Scans(sig: string, p: Pattern)
  {
    |p.prefix| <= |sig| && PrefixFrom(sig, p.prefix, 0) && TailFrom(sig, |p.prefix|, p.tail)
  }

  lemma {:induction false} PrefixFromMeaning(sig: string, prefix: string, k: nat)
    ensures PrefixFrom(sig, prefix, k) <==> forall j | k <= j < |prefix| :: j < |sig| && sig[j] == prefix[j]
    decreases |prefix| - k
  {
    if k < |prefix| {
      PrefixFromMeaning(sig, prefix, k + 1);
    }
  }

  lemma {:induction false} RunFromMeaning(sig: string, k: nat, c: char)
    ensures RunFrom(sig, k, c) <==> forall j | k <= j < |sig| :: sig[j] == c
    decreases |sig| - k
  {
    if k < |sig| {
      RunFromMeaning(sig, k + 1, c);
    }
  }

  /** ListFrom checks the list condition on what follows a V. */
  lemma {:induction false} ListFromMeaning(sig: string, k: nat)
    ensures ListFrom(sig, k) <==> forall j | k <= j < |sig| ::
      sig[j] == 'V' || (sig[j] == ',' && j + 1 < |sig| && sig[j + 1] == 'V')
    decreases |sig| - k
  {
    if k < |sig| {
      ListFromMeaning(sig, k + 1);
      if k + 1 < |sig| {
        ListFromMeaning(sig, k + 2);
      }
    }
  }

  /** The matcher accepts exactly what the regular expression does. */
  lemma ScansMeaning(sig: string, p: Pattern)
    ensures Scans(sig, p) <==> Matches(sig, p)
  {
    var n := |p.prefix|;
    PrefixFromMeaning(sig, p.prefix, 0);
    if n <= |sig| {
      var rest := sig[n..];
      assert forall j | 0 <= j < |rest| :: rest[j] == sig[n + j];
      match p.tail
      case Values =>
        RunFromMeaning(sig, n, 'V');
        assert (forall j | n <= j < |sig| :: sig[j] == 'V') <==> (forall j | 0 <= j < |rest| :: rest[j] == 'V') by {
          if forall j | 0 <= j < |rest| :: rest[j] == 'V' {
            forall j | n <= j < |sig| ensures sig[j] == 'V' {
              assert rest[j - n] == sig[j];
            }
          }
        }
      case Strings =>
        RunFromMeaning(sig, n, 'Z');
        assert (forall j | n <= j < |sig| :: sig[j] == 'Z') <==> (forall j | 0 <= j < |rest| :: rest[j] == 'Z') by {
          if forall j | 0 <= j < |rest| :: rest[j] == 'Z' {
            forall j | n <= j < |sig| ensures sig[j] == 'Z' {
              assert rest[j - n] == sig[j];
            }
          }
        }
      case ValueList =>
        ListFromMeaning(sig, n + 1);
        if n < |sig| && sig[n] == 'V' && ListFrom(sig, n + 1) {
          forall j | 0 <= j < |rest| ensures rest[j] == 'V' || (rest[j] == ',' && j + 1 < |rest| && rest[j + 1] == 'V') {
            if j > 0 {
              assert sig[n + j] == 'V' || (sig[n + j] == ',' && n + j + 1 < |sig| && sig[n + j + 1] == 'V');
            }
          }
        }
        if IsValueList(rest) {
          forall j | n + 1 <= j < |sig| ensures sig[j] == 'V' || (sig[j] == ',' && j + 1 < |sig| && sig[j + 1] == 'V') {
            assert rest[j - n] == sig[j];
            assert rest[j - n] == 'V' || (rest[j - n] == ',' && j - n + 1 < |rest| && rest[j - n + 1] == 'V');
          }
        }
      case OneOf(chars) =>
    }
  }

  /** How many alternatives `signatures` has. */
  function Count(corrected: bool): nat { if corrected then 17 else 16 }

  /** The alternative at position i of `signatures`; corrected, RND takes
      any operand and `JP V0,addr` is JPXADR, the seventeenth. */
  function PatternAt(i: nat, corrected: bool): Pattern
  {
    match i
    case 0 => Pattern("ADDB", "ADDR,", Values)
    case 1 => Pattern("CALL", "CALL", Values)
    case 2 => Pattern("DA", "DA", Strings)
    case 3 => Pattern("DB", "DB", ValueList)
    case 4 => Pattern("DRAW", "DRAWR,R,", Values)
    case 5 => Pattern("DS", "DS", Values)
    case 6 => Pattern("DW", "DW", ValueList)
    case 7 => Pattern("EQU", "EQU", Values)
    case 8 => Pattern("JPADR", "JP", Values)
    case 9 => Pattern("LDI", "LDI,", Values)
    case 10 => Pattern("LDRB", "LDR,", Values)
    case 11 => Pattern("ORG", "ORG", Values)
    case 12 => Pattern("RND", "RNDR,", if corrected then Values else OneOf("V+"))
    case 13 => Pattern("SCD", "SCD", Values)
    case 14 => Pattern("SEB", "SER,", Values)
    case 15 => Pattern("SNEB", "SNER,", Values)
    case _ => Pattern("JPXADR", "JPR,", Values)
  }

  /** The regex alternation from position i on, over a table of count
      alternatives: the first alternative that matches the whole signature
      names the form. */
  function FirstIn(sig: string, table: nat -> Pattern, count: nat, i: nat): Option<string>
    decreases count - i
  {
    if i >= count then None
    else if Scans(sig, table(i)) then Some(table(i).form)
    else FirstIn(sig, table, count, i + 1)
  }

  function Alternatives(corrected: bool): nat -> Pattern
  {
    (i: nat) => PatternAt(i, corrected)
  }

  /** The alternation of `signatures` from position i on. */
  function FirstFrom(sig: string, corrected: bool, i: nat): Option<string>
    decreases Count(corrected) - i
  {
    if i >= Count(corrected) then None
    else if Scans(sig, PatternAt(i, corrected)) then Some(PatternAt(i, corrected).form)
    else FirstFrom(sig, corrected, i + 1)
  }

  function FirstMatch(sig: string, corrected: bool): Option<string>
  {
    FirstFrom(sig, corrected, 0)
  }

  /** The alternation of `signatures` is the alternation over its table. */
  lemma {:induction false} FirstFromIn(sig: string, corrected: bool, i: nat)
    ensures FirstFrom(sig, corrected, i) == FirstIn(sig, Alternatives(corrected), Count(corrected), i)
    decreases Count(corrected) - i
  {
    if i < Count(corrected) {
      FirstFromIn(sig, corrected, i + 1);
    }
  }

  /** From position i on, a form is found exactly when an alternative
      there matches. */
  lemma {:induction false} FirstInFound(sig: string, table: nat -> Pattern, count: nat, i: nat)
    ensures FirstIn(sig, table, count, i).Some? <==> exists j | i <= j < count :: Matches(sig, table(j))
    decreases count - i
  {
    if i < count {
      ScansMeaning(sig, table(i));
      FirstInFound(sig, table, count, i + 1);
    }
  }

  /** The form found is that of the first alternative from i on that
      matches. */
  lemma {:induction false} FirstInWhich(sig: string, table: nat -> Pattern, count: nat, i: nat)
    requires FirstIn(sig, table, count, i).Some?
    ensures exists j | i <= j < count ::
      && Matches(sig, table(j)) && FirstIn(sig, table, count, i).value == table(j).form
      && forall m | i <= m < j :: !Matches(sig, table(m))
    decreases count - i
  {
    ScansMeaning(sig, table(i));
    if !Matches(sig, table(i)) {
      FirstInWhich(sig, table, count, i + 1);
      var j :| i + 1 <= j < count
        && Matches(sig, table(j)) && FirstIn(sig, table, count, i + 1).value == table(j).form
        && forall m | i + 1 <= m < j :: !Matches(sig, table(m));
      assert forall m | i <= m < j :: !Matches(sig, table(m));
    }
  }

  /** Alternative i of `signatures` is the first that matches. */
  ghost predicate FirstAt(sig: string, corrected: bool, i: nat)
  {
    var table := Alternatives(corrected);
    && i < Count(corrected) && Matches(sig, table(i))
    && forall j | 0 <= j < i :: !Matches(sig, table(j))
  }

  /** A form is found exactly when some alternative matches, and it is
      the form of the first one that does. */
  lemma FirstMatchMeaning(sig: string, corrected: bool)
    ensures FirstMatch(sig, corrected).Some?
      <==> exists i | 0 <= i < Count(corrected) :: Matches(sig, Alternatives(corrected)(i))
    ensures FirstMatch(sig, corrected).Some? ==> exists i ::
      FirstAt(sig, corrected, i) && FirstMatch(sig, corrected).value == Alternatives(corrected)(i).form
  {
    var table := Alternatives(corrected);
    FirstFromIn(sig, corrected, 0);
    FirstInFound(sig, table, Count(corrected), 0);
    if FirstMatch(sig, corrected).Some? {
      FirstInWhich(sig, table, Count(corrected), 0);
    }
  }

  /** The dictionary first, then the patterns. */
  function Classify(sig: string, corrected: bool): Option<string>
  {
    if sig in Table(corrected) then Some(Table(corrected)[sig])
    else FirstMatch(sig, corrected)
  }

  // ---------------------------------------------------------------------
  // Operand texts

  /** An operator in Python's spelling: `!` is `**`, `<` is `<<`, `>` is
      `>>`, the rest are Python's own. */
  function OperatorText(op: string): string
  {
    if op == "!" then "**" else if op == "<" then "<<" else if op == ">" then ">>" else op
  }

  /** One operand token in Python's syntax. */
  function PythonToken(t: Token): string
  {
    match t.kind
    case DecimalLit => t.text
    case HexLit => "0x0" + Slice(t.text, 1, |t.text|)
    case BinaryLit => "b'" + Slice(t.text, 1, |t.text|) + "'"
    case OctalLit => "0o0" + Slice(t.text, 1, |t.text|)
    case StringLit => "\"" + Slice(t.text, 1, -1) + "\""
    case Word => "LOOKUP(\"" + t.text + "\")"
    case _ => OperatorText(t.text)
  }

  /** An operand token as the tokenizer's patterns shape it: a literal, a
      string, an operator or a name (the translation admits no other
      kind), `Shaped`, a literal starting with its sigil and a string
      quoted. */
  predicate OperandShaped(t: Token)
  {
    && t.kind in {DecimalLit, HexLit, OctalLit, BinaryLit, StringLit, ExpOp, Word}
    && Shaped(t)
    && (t.kind == HexLit ==> |t.text| > 1 && t.text[0] == '#')
    && (t.kind == BinaryLit ==> |t.text| > 1 && t.text[0] == '$')
    && (t.kind == OctalLit ==> |t.text| > 1 && t.text[0] == '@')
    && (t.kind == StringLit ==> |t.text| >= 2 && t.text[0] == '\'' && t.text[|t.text| - 1] == '\'')
  }

  /** An operand token's text read back from its Python spelling: a
      literal gets its sigil back, a string its single quotes, a name
      loses its LOOKUP call and an operator its Python spelling. */
  function SourceToken(kind: Kind, py: string): string
  {
    match kind
    case HexLit => "#" + Slice(py, 3, |py|)
    case BinaryLit => "$" + Slice(py, 2, -1)
    case OctalLit => "@" + Slice(py, 3, |py|)
    case StringLit => "'" + Slice(py, 1, -1) + "'"
    case Word => Slice(py, 8, -2)
    case ExpOp => if py == "**" then "!" else if py == "<<" then "<" else if py == ">>" then ">" else py
    case _ => py
  }

  /** The translation loses nothing: every operand token the tokenizer
      can produce is read back from its Python spelling. Decimals and the
      operators Python shares are passed through unchanged. */
  lemma PythonTokenReadsBack(t: Token)
    requires OperandShaped(t)
    ensures SourceToken(t.kind, PythonToken(t)) == t.text
    ensures t.kind == DecimalLit || (t.kind == ExpOp && t.text !in {"!", "<", ">"}) ==> PythonToken(t) == t.text
  {
    match t.kind
    case HexLit => PrefixedBack(t, "#", "0x0");
    case OctalLit => PrefixedBack(t, "@", "0o0");
    case BinaryLit => BinaryBack(t);
    case StringLit => StringBack(t);
    case Word => WordBack(t);
    case ExpOp => assert t.text == [t.text[0]];
    case DecimalLit =>
  }

  /** `pre[i:]` of `pre + mid` is mid, and with a tail, `[i:-n]` too. */
  lemma SliceMiddle(pre: string, mid: string, post: string)
    ensures Slice(pre + mid, |pre|, |pre + mid|) == mid
    ensures |post| > 0 ==> Slice(pre + mid + post, |pre|, -|post|) == mid
  {
    assert (pre + mid)[|pre|..] == mid;
    assert (pre + mid + post)[|pre|..|pre + mid + post| - |post|] == mid;
  }

  lemma PrefixedBack(t: Token, sigil: string, prefix: string)
    requires (t.kind == HexLit && sigil == "#" && prefix == "0x0") || (t.kind == OctalLit && sigil == "@" && prefix == "0o0")
    requires OperandShaped(t)
    ensures SourceToken(t.kind, PythonToken(t)) == t.text
  {
    var rest := t.text[1..];
    SliceMiddle([t.text[0]], rest, "");
    assert [t.text[0]] + rest == t.text;
    assert PythonToken(t) == prefix + rest;
    SliceMiddle(prefix, rest, "");
  }

  lemma BinaryBack(t: Token)
    requires t.kind == BinaryLit && OperandShaped(t)
    ensures SourceToken(t.kind, PythonToken(t)) == t.text
  {
    var rest := t.text[1..];
    SliceMiddle("$", rest, "");
    assert "$" + rest == t.text;
    assert PythonToken(t) == "b'" + rest + "'";
    SliceMiddle("b'", rest, "'");
  }

  lemma StringBack(t: Token)
    requires t.kind == StringLit && OperandShaped(t)
    ensures SourceToken(t.kind, PythonToken(t)) == t.text
  {
    var body := t.text[1..|t.text| - 1];
    SliceMiddle("'", body, "'");
    assert "'" + body + "'" == t.text;
    assert PythonToken(t) == "\"" + body + "\"";
    SliceMiddle("\"", body, "\"");
  }

  lemma WordBack(t: Token)
    requires t.kind == Word && OperandShaped(t)
    ensures SourceToken(t.kind, PythonToken(t)) == t.text
  {
    SliceMiddle("LOOKUP(\"", t.text, "\")");
  }

  /** `' '.join(parts)`. */
  function JoinSpaced(parts: seq<string>): string
  {
    if |parts| == 0 then "" else if |parts| == 1 then parts[0] else parts[0] + " " + JoinSpaced(parts[1..])
  }

  function PythonText(group: seq<Token>): string
  {
    JoinSpaced(seq(|group|, k requires 0 <= k < |group| => PythonToken(group[k])))
  }

  /** `2!#F` becomes `2 ** 0x0F`, and a name becomes a call of LOOKUP. */
  lemma PythonTextExample()
    ensures PythonText([Token(DecimalLit, "2", 0), Token(ExpOp, "!", 1), Token(HexLit, "#F", 2)])
      == "2 ** 0x0F"
    ensures PythonToken(Token(Word, "N", 0)) == "LOOKUP(\"N\")"
  {
    var g := [Token(DecimalLit, "2", 0), Token(ExpOp, "!", 1), Token(HexLit, "#F", 2)];
    assert Slice("#F", 1, 2) == "F";
    var parts := seq(|g|, k requires 0 <= k < |g| => PythonToken(g[k]));
    assert parts[0] == "2" && parts[1] == "**" && parts[2] == "0x0F";
    assert parts[1..][1..] == ["0x0F"];
    assert JoinSpaced(parts[1..]) == "**" + " " + "0x0F";
    assert JoinSpaced(parts) == "2" + " " + ("**" + " " + "0x0F");
  }

  datatype Compiled = Compiled(exprs: seq<Expr>) | Uncompilable(pos: nat)

  /** The compile loop: each group's Python text in turn; the first that
      does not compile is reported at its first token. */
  function CompileAll(groups: seq<seq<Token>>, compile: string -> Option<Expr>): Compiled
  {
    if |groups| == 0 then Compiled([])
    else match compile(PythonText(groups[0]))
      case None => Uncompilable(if |groups[0]| > 0 then groups[0][0].start else 0)
      case Some(e) =>
        match CompileAll(groups[1..], compile)
        case Uncompilable(pos) => Uncompilable(pos)
        case Compiled(rest) => Compiled([e] + rest)
  }

  /** Compiling succeeds exactly when every group compiles, and then gives
      one operand per group, in order; otherwise the position is that of
      the first group that does not compile. */
  lemma {:induction false} CompileAllMeaning(groups: seq<seq<Token>>, compile: string -> Option<Expr>)
    requires forall k | 0 <= k < |groups| :: |groups[k]| > 0
    ensures var c := CompileAll(groups, compile);
      && (c.Compiled? <==> forall k | 0 <= k < |groups| :: compile(PythonText(groups[k])).Some?)
      && (c.Compiled? ==> && |c.exprs| == |groups|
                          && (forall k | 0 <= k < |groups| :: compile(PythonText(groups[k])) == Some(c.exprs[k])))
      && (c.Uncompilable? ==> exists k | 0 <= k < |groups| ::
            && compile(PythonText(groups[k])).None? && c.pos == groups[k][0].start
            && forall j | 0 <= j < k :: compile(PythonText(groups[j])).Some?)
    decreases |groups|
  {
    if |groups| > 0 {
      CompileAllMeaning(groups[1..], compile);
      assert forall k | 1 <= k < |groups| :: groups[1..][k - 1] == groups[k];
      var c := CompileAll(groups, compile);
      if c.Uncompilable? && compile(PythonText(groups[0])).Some? {
        var rest := CompileAll(groups[1..], compile);
        var k' :| 0 <= k' < |groups[1..]| && compile(PythonText(groups[1..][k'])).None?
          && rest.pos == groups[1..][k'][0].start
          && forall j | 0 <= j < k' :: compile(PythonText(groups[1..][j])).Some?;
        assert compile(PythonText(groups[k' + 1])).None?;
      }
    }
  }

  // ---------------------------------------------------------------------
  // Size

  /** `S.next_pc`: advance by `amount`, or (not relative) set the PC. */
  datatype NextPc = NextPc(relative: bool, amount: int)

  /** The bytes a statement takes: two for an instruction, none but a new
      PC for ORG, one per operand for DB, two per operand for DW, and for
      DS its operand with every name taken as 0, which must be a number
      not below zero.  As written DA counts two bytes whatever its string,
      and EQU, which has no branch of its own, gets the two bytes of an
      instruction; corrected DA counts the string's characters and EQU
      none. */
  function Size(form: string, exprs: seq<Expr>, corrected: bool): Option<NextPc>
  {
    if form == "ORG" then Some(NextPc(false, 0))
    else if corrected && form == "EQU" then Some(NextPc(true, 0))
    else if form == "DB" then Some(NextPc(true, |exprs|))
    else if form == "DW" then Some(NextPc(true, 2 * |exprs|))
    else if form == "DS" then
      if |exprs| == 0 then None
      else match Eval(exprs[0], AllZero)
        case Ok(Int(n)) => if n < 0 then None else Some(NextPc(true, n))
        case _ => None
    else if corrected && form == "DA" && |exprs| > 0 && Eval(exprs[0], AllZero).Ok?
            && Eval(exprs[0], AllZero).value.Str? then
      Some(NextPc(true, |Eval(exprs[0], AllZero).value.s|))
    else Some(NextPc(true, 2))
  }

  // ---------------------------------------------------------------------
  // The recognizer

  /** A valid statement: what assembler2 works from. */
  datatype Recognized = Recognized(
    form: string,
    definedName: string,
    nextPc: NextPc,
    reg1: Option<int>,
    reg2: Option<int>,
    exprs: seq<Expr>)

  datatype Verdict = Valid(stmt: Recognized) | Invalid(pos: nat, msg: Message)

  /** The part of phase_one after the label: signature, classification,
      compilation and size. */
  function Recognize(l: Labelled, compile: string -> Option<Expr>, corrected: bool): Verdict
  {
    match Collect(l.rest, NoParts)
    case Broke(p, pos, msg) =>
      if corrected || pos != 0 then Invalid(pos, msg)
      else if Classify(p.signature, corrected).None? then Invalid(0, Confused)
      else Invalid(0, msg)
    case Built(p) =>
      match Classify(p.signature, corrected)
      case None => Invalid(0, Confused)
      case Some(form) =>
        match CompileAll(Close(p), compile)
        case Uncompilable(pos) => Invalid(pos, InvalidExpression)
        case Compiled(exprs) =>
          match Size(form, exprs, corrected)
          case None => Invalid(0, NegativeSize)
          case Some(n) => Valid(Recognized(form, l.name, n, p.reg1, p.reg2, exprs))
  }

  /** `phase_one` on the tokenizer's matches of one line. */
  function PhaseOne(matches: seq<Token>, compile: string -> Option<Expr>, corrected: bool): Verdict
  {
    match Scan(matches)
    case Unparsable(pos) => Invalid(pos, CannotParse)
    case Tokens(ts) =>
      var l := StripLabel(ts);
      if |l.rest| == 0 then Valid(Recognized("", l.name, NextPc(true, 0), None, None, []))
      else Recognize(l, compile, corrected)
  }

  // ---------------------------------------------------------------------
  // What phase_one promises

  /** The registers of a recognized statement, in order. */
  function RegistersOf(r: Recognized): seq<int>
  {
    (if r.reg1.Some? then [r.reg1.value] else []) + (if r.reg2.Some? then [r.reg2.value] else [])
  }

  /** Operand groups as the loop leaves them: none empty, together the
      operand tokens in order, each compiled to the operand in its place. */
  predicate GroupsOf(groups: seq<seq<Token>>, ts: seq<Token>, exprs: seq<Expr>, compile: string -> Option<Expr>)
  {
    && (forall k | 0 <= k < |groups| :: |groups[k]| > 0)
    && Flatten(groups) == Operands(ts)
    && |exprs| == |groups|
    && (forall k | 0 <= k < |groups| :: compile(PythonText(groups[k])) == Some(exprs[k]))
  }

  /** The groups the loop closes hold the operand tokens, none empty. */
  lemma CloseGroups(ts: seq<Token>)
    requires Collect(ts, NoParts).Built?
    ensures var p := Collect(ts, NoParts).parts;
      && Good(ts, 0)
      && p.signature == Signature(ts)
      && Regs(p) == Registers(ts)
      && (p.reg2.Some? ==> p.reg1.Some?)
      && Flatten(Close(p)) == Operands(ts)
      && (forall k | 0 <= k < |Close(p)| :: |Close(p)[k]| > 0)
  {
    CollectFrom(ts, NoParts);
    var p := Collect(ts, NoParts).parts;
    assert Flatten(p.groups) + p.group == Operands(ts);
    if |p.group| > 0 {
      FlattenAppend(p.groups, p.group);
    } else {
      assert p.group == [];
    }
  }

  /** After the label, a valid statement is what its tokens say: each has
      a summary and there are at most two registers, their signature
      classifies as the form, the registers are the register tokens' codes
      in order, there is one compiled operand per comma-separated group of
      operand tokens, and the size is the form's rule applied to those
      operands. */
  lemma RecognizeValid(l: Labelled, compile: string -> Option<Expr>, corrected: bool)
    requires Recognize(l, compile, corrected).Valid?
    ensures var r := Recognize(l, compile, corrected).stmt;
      && r.definedName == l.name
      && Good(l.rest, 0)
      && Classify(Signature(l.rest), corrected) == Some(r.form)
      && RegistersOf(r) == Registers(l.rest)
      && (r.reg2.Some? ==> r.reg1.Some?)
      && (exists groups :: GroupsOf(groups, l.rest, r.exprs, compile))
      && Size(r.form, r.exprs, corrected) == Some(r.nextPc)
  {
    var c := Collect(l.rest, NoParts);
    assert c.Built?;
    CloseGroups(l.rest);
    var groups := Close(c.parts);
    CompileAllMeaning(groups, compile);
    assert GroupsOf(groups, l.rest, Recognize(l, compile, corrected).stmt.exprs, compile);
  }

  /** phase_one is the scan, the label, and the rest. */
  lemma PhaseOneParts(matches: seq<Token>, compile: string -> Option<Expr>, corrected: bool)
    requires Scan(matches).Tokens?
    ensures var l := StripLabel(Scan(matches).tokens);
      PhaseOne(matches, compile, corrected)
        == if |l.rest| == 0 then Valid(Recognized("", l.name, NextPc(true, 0), None, None, []))
           else Recognize(l, compile, corrected)
  {
  }

  /** A valid line: a label alone, or a statement as RecognizeValid says. */
  lemma ValidMeaning(matches: seq<Token>, compile: string -> Option<Expr>, corrected: bool)
    requires PhaseOne(matches, compile, corrected).Valid?
    ensures Scan(matches).Tokens?
    ensures var r, l := PhaseOne(matches, compile, corrected).stmt, StripLabel(Scan(matches).tokens);
      && r.definedName == l.name
      && (|l.rest| == 0 ==> r == Recognized("", l.name, NextPc(true, 0), None, None, []))
      && (|l.rest| > 0 ==>
            && Good(l.rest, 0)
            && Classify(Signature(l.rest), corrected) == Some(r.form)
            && RegistersOf(r) == Registers(l.rest)
            && (exists groups :: GroupsOf(groups, l.rest, r.exprs, compile))
            && Size(r.form, r.exprs, corrected) == Some(r.nextPc))
  {
    PhaseOneParts(matches, compile, corrected);
    var l := StripLabel(Scan(matches).tokens);
    if |l.rest| > 0 {
      RecognizeValid(l, compile, corrected);
    }
  }

  /** Tokens that all have a summary, with at most two registers, whose
      signature matches nothing, are a confused statement at column 0; and
      corrected, that is the only way to be confused. */
  lemma ConfusedMeaning(l: Labelled, compile: string -> Option<Expr>, corrected: bool)
    ensures Good(l.rest, 0) && Classify(Signature(l.rest), corrected).None? ==>
      Recognize(l, compile, corrected) == Invalid(0, Confused)
    ensures corrected && Recognize(l, compile, corrected) == Invalid(0, Confused) ==>
      Good(l.rest, 0) && Classify(Signature(l.rest), corrected).None?
  {
    CollectFrom(l.rest, NoParts);
    var c := Collect(l.rest, NoParts);
    if c.Built? {
      assert c.parts.signature == Signature(l.rest);
    } else {
      assert c.msg == InvalidToken || c.msg == InvalidRegister;
    }
  }

  /** Corrected, a token without a summary or a third register makes the
      statement invalid at that token's column, whatever the column. */
  lemma BadTokenMeaning(l: Labelled, compile: string -> Option<Expr>)
    ensures !Good(l.rest, 0) <==>
      && Recognize(l, compile, true).Invalid?
      && exists k | 0 <= k < |l.rest| ::
           StopsAt(l.rest, 0, k, Recognize(l, compile, true).pos, Recognize(l, compile, true).msg)
  {
    var rest := l.rest;
    CollectFrom(rest, NoParts);
    var v := Recognize(l, compile, true);
    if Good(rest, 0) && v.Invalid? && exists k | 0 <= k < |rest| :: StopsAt(rest, 0, k, v.pos, v.msg) {
      var k :| 0 <= k < |rest| && StopsAt(rest, 0, k, v.pos, v.msg);
      assert HasCode(rest[k]);
      GoodPrefixFrom(rest, k, 0);
    }
  }

  /** Before the first bad token of good tokens there is never a third
      register. */
  lemma {:induction false} GoodPrefixFrom(ts: seq<Token>, k: nat, n: nat)
    requires k < |ts| && Good(ts, n)
    ensures !(IsRegister(ts[k]) && n + |Registers(ts[..k])| == 2)
    decreases k
  {
    GoodHead(ts, n);
    if k > 0 {
      PrefixRegisters(ts, k);
      assert ts[1..][k - 1] == ts[k];
      GoodPrefixFrom(ts[1..], k - 1, n + |RegPiece(ts[0])|);
    } else {
      assert ts[..0] == [];
      CollectHead(ts);
    }
  }

  /** A line of whitespace and comments, or of a label alone, is valid,
      has no form and takes no bytes. */
  lemma LabelOnlyLine(matches: seq<Token>, compile: string -> Option<Expr>, corrected: bool)
    requires FirstGarbage(matches) == |matches|
    requires Kept(matches) == [] || (|Kept(matches)| == 2 && Kept(matches)[0].kind == Word
                                     && Kept(matches)[1].kind == Colon)
    ensures PhaseOne(matches, compile, corrected)
      == Valid(Recognized("", if Kept(matches) == [] then "" else Kept(matches)[0].text,
                          NextPc(true, 0), None, None, []))
  {
    ScanKeeps(matches);
  }

  // ---------------------------------------------------------------------
  // Classification examples and the slips

  /** Passing over an alternative that does not match. */
  lemma Skip(sig: string, corrected: bool, i: nat)
    requires i < Count(corrected) && !Scans(sig, PatternAt(i, corrected))
    ensures FirstFrom(sig, corrected, i) == FirstFrom(sig, corrected, i + 1)
  {
  }

  /** The text after a fixed prefix is made of operands only. */
  lemma RunAfter(prefix: string, ops: string, c: char)
    requires AllAre(ops, c)
    ensures |prefix + ops| > |prefix| && RunFrom(prefix + ops, |prefix|, c)
  {
    var sig := prefix + ops;
    RunFromMeaning(sig, |prefix|, c);
    assert forall j | |prefix| <= j < |sig| :: sig[j] == ops[j - |prefix|];
  }

  /** `LD Vx,value` is LDRB whatever the value: the alternatives before it
      differ in a letter. */
  lemma LoadByteClassify(ops: string, corrected: bool)
    requires AllAre(ops, 'V')
    ensures FirstMatch("LDR," + ops, corrected) == Some("LDRB")
  {
    var sig := "LDR," + ops;
    assert sig[0] == 'L' && sig[2] == 'R';
    Skip(sig, corrected, 0);
    Skip(sig, corrected, 1);
    Skip(sig, corrected, 2);
    Skip(sig, corrected, 3);
    Skip(sig, corrected, 4);
    Skip(sig, corrected, 5);
    Skip(sig, corrected, 6);
    Skip(sig, corrected, 7);
    Skip(sig, corrected, 8);
    PrefixFromMeaning(sig, "LDI,", 0);
    Skip(sig, corrected, 9);
    PrefixFromMeaning(sig, "LDR,", 0);
    RunAfter("LDR,", ops, 'V');
  }

  /** `DB` with a list of values is DB. */
  lemma ByteListClassify(ops: string, corrected: bool)
    requires IsValueList(ops)
    ensures FirstMatch("DB" + ops, corrected) == Some("DB")
  {
    var sig := "DB" + ops;
    assert sig[0] == 'D' && sig[1] == 'B' && sig[2..] == ops;
    Skip(sig, corrected, 0);
    Skip(sig, corrected, 1);
    PrefixFromMeaning(sig, "DA", 0);
    Skip(sig, corrected, 2);
    ScansMeaning(sig, PatternAt(3, corrected));
  }

  /** `RND Vx,value`: as written the class `[V+]` takes an operand of one
      token only, so `RND v1,#F0 & 7` matches nothing; corrected any
      operand is taken. */
  lemma RndClassify(ops: string, corrected: bool)
    requires AllAre(ops, 'V')
    ensures FirstMatch("RNDR," + ops, corrected)
      == if corrected || |ops| == 1 then Some("RND") else None
  {
    var sig := "RNDR," + ops;
    assert sig[0] == 'R';
    Skip(sig, corrected, 0);
    Skip(sig, corrected, 1);
    Skip(sig, corrected, 2);
    Skip(sig, corrected, 3);
    Skip(sig, corrected, 4);
    Skip(sig, corrected, 5);
    Skip(sig, corrected, 6);
    Skip(sig, corrected, 7);
    Skip(sig, corrected, 8);
    Skip(sig, corrected, 9);
    Skip(sig, corrected, 10);
    Skip(sig, corrected, 11);
    PrefixFromMeaning(sig, "RNDR,", 0);
    RunAfter("RNDR,", ops, 'V');
    if !corrected && |ops| != 1 {
      Skip(sig, corrected, 12);
      Skip(sig, corrected, 13);
      Skip(sig, corrected, 14);
      Skip(sig, corrected, 15);
    }
  }

  /** A signature starting `J?R` passes the first sixteen alternatives. */
  lemma JumpSkips(sig: string, corrected: bool)
    requires |sig| > 2 && sig[0] == 'J' && sig[2] == 'R'
    ensures FirstFrom(sig, corrected, 0) == FirstFrom(sig, corrected, 8)
    ensures FirstFrom(sig, corrected, 8) == FirstFrom(sig, corrected, 16)
  {
    Skip(sig, corrected, 0);
    Skip(sig, corrected, 1);
    Skip(sig, corrected, 2);
    Skip(sig, corrected, 3);
    Skip(sig, corrected, 4);
    Skip(sig, corrected, 5);
    Skip(sig, corrected, 6);
    Skip(sig, corrected, 7);
    Skip(sig, corrected, 8);
    Skip(sig, corrected, 9);
    Skip(sig, corrected, 10);
    Skip(sig, corrected, 11);
    Skip(sig, corrected, 12);
    Skip(sig, corrected, 13);
    Skip(sig, corrected, 14);
    Skip(sig, corrected, 15);
  }

  /** `JP V0,addr`: as written no alternative takes it; corrected it is
      JPXADR. */
  lemma JumpIndexedClassify(ops: string, corrected: bool)
    requires AllAre(ops, 'V')
    ensures FirstMatch("JPR," + ops, corrected) == if corrected then Some("JPXADR") else None
  {
    var sig := "JPR," + ops;
    assert sig[0] == 'J' && sig[2] == 'R';
    JumpSkips(sig, corrected);
    if corrected {
      PrefixFromMeaning(sig, "JPR,", 0);
      RunAfter("JPR,", ops, 'V');
    }
  }

  /** The dictionary comes first: `CLS` is found there. */
  lemma ClearClassify(corrected: bool)
    ensures Classify("CLS", corrected) == Some("CLS")
  {
  }

  /** A signature outside the dictionary goes to the alternatives. */
  lemma Unlisted(sig: string, corrected: bool)
    requires sig !in Dictionary
    ensures Classify(sig, corrected) == FirstMatch(sig, corrected)
  {
  }

  /** An invalid token at column 0: as written the statement is called
      confused, since the test `if S.error_pos :` takes column 0 for no
      error; corrected it is an invalid token. */
  lemma ColumnZeroToken(compile: string -> Option<Expr>)
    ensures PhaseOne([Token(Colon, ":", 0)], compile, false) == Invalid(0, Confused)
    ensures PhaseOne([Token(Colon, ":", 0)], compile, true) == Invalid(0, InvalidToken)
  {
    var ts := [Token(Colon, ":", 0)];
    assert Scan(ts) == Tokens(ts);
    assert StripLabel(ts) == Labelled("", ts);
    ColumnZeroRecognize(compile);
  }

  lemma ColumnZeroRecognize(compile: string -> Option<Expr>)
    ensures var l := Labelled("", [Token(Colon, ":", 0)]);
      Recognize(l, compile, false) == Invalid(0, Confused) && Recognize(l, compile, true) == Invalid(0, InvalidToken)
  {
    assert Collect([Token(Colon, ":", 0)], NoParts) == Broke(NoParts, 0, InvalidToken);
    NoOperandNoPattern("", false);
    Unlisted("", false);
  }

  /** Every tail starts with an operand character. */
  lemma TailStart(sig: string, p: Pattern)
    requires p.tail.OneOf? ==> p.tail.chars == "V+"
    ensures Matches(sig, p) ==> |sig| > |p.prefix| && sig[|p.prefix|] in "VZ+"
  {
    if Matches(sig, p) {
      assert sig[|p.prefix|..][0] == sig[|p.prefix|];
    }
  }

  /** A signature without an operand character matches no pattern. */
  lemma NoOperandNoPattern(sig: string, corrected: bool)
    requires forall k | 0 <= k < |sig| :: sig[k] !in "VZ+"
    ensures FirstMatch(sig, corrected).None?
  {
    FirstMatchMeaning(sig, corrected);
    forall i | 0 <= i < Count(corrected) ensures !Matches(sig, Alternatives(corrected)(i)) {
      TailStart(sig, PatternAt(i, corrected));
    }
  }

  /** So the dictionary never hides a pattern: its keys hold no operand. */
  lemma DictionaryKeysHaveNoOperand(sig: string, corrected: bool)
    requires sig in Dictionary
    ensures FirstMatch(sig, corrected).None?
  {
    assert forall key | key in Dictionary :: forall k | 0 <= k < |key| :: key[k] !in "VZ+";
    NoOperandNoPattern(sig, corrected);
  }
}
